=== FILE: README.md ===
# Plan-IB core, modelled in Dafny

Plan-IB is a web application for teachers of the IB Middle Years Programme.
It plans MYP units and prepares French-school exams. This project models its
core in Dafny and proves properties of the model.

**Unit plans**
- A teacher logs in with a subject and a grade.
- The plans for that pair are loaded from browser storage (`localStorage`), where each list is kept under its `subject_grade` key. A migration copies those keyed lists to the MongoDB-backed API.
- Plans are edited in a form and saved back automatically.
- Plans are exported to Word through a docxtemplater template only; the natively built document is for exams.

**AI replies**
- Plans and exams come back from an AI service as untyped JSON.
- Every such reply passes a sanitiser (`sanitizeUnitPlan`) before the app uses it. The sanitiser reads each field under its English or French key and fills in defaults; the assessment records inside a plan are also coerced with `String()` and `Number()`.

**Exams**
- A wizard collects a subject, a grade, a semester and the chapters, then asks the AI for an exam.
- The exam's question points are repaired so they add up to the expected total.
- Exams are kept in `localStorage` and synchronised with a MongoDB-backed HTTP API.
- Exams are exported to Word in two ways: a docxtemplater template, and a natively built document.

**Modules** (one per source file or component)

| module | models |
|---|---|
| `Records` | the records of `types.ts` |
| `Sanitize` | `sanitizeUnitPlan` and its helpers |
| `Json`, `JsonExtract` | the JSON values the AI returns, JavaScript's truthiness, `String()` and `Number()`, and the extraction of a JSON object from a reply |
| `PlanAi`, `ExamAi` | the AI services. The model client is a parameter (an oracle). |
| `PlanStorage`, `ExamStorage`, `KeyedStore` | browser storage. `KeyedStore` treats a JavaScript object as a map listed in insertion order (see "Left out" for integer-like keys). |
| `PlanApi`, `ExamApi`, `Http` | the serverless HTTP handlers and their MongoDB collections |
| `PlanWordExport`, `ExamTemplateExport`, `ExamNativeExport`, `ExamSections` | Word export |
| `AppState`, `Dashboard`, `PlanForm`, `ExamWizard` | the React components' state transitions |
| `Strings`, `Seqs`, `Wrappers` | shared helpers |

**What is a parameter rather than a behaviour**
- Clocks, random identifiers, the user's answer to a `confirm` dialog, AI replies and the database's contents are all parameters.
- Storage failures are modelled as `Result` values.

## Model

| member | source | states |
|---|---|---|
| AppState.Start | App.tsx:17-22 | the application opens on the login screen with no session and no listed plan, over whatever the browser store already holds |
| AppState.SaveForSession | App.tsx:62-69 | without a session the store is untouched; with one, the session's key holds exactly the given list and every other key keeps what it held; a store without duplicate keys keeps that property |
| AppState.Stamp | App.tsx:52-59 | the plan a complete stored plan reads back as keeps its identifier, title and objectives and takes the session's subject and class whenever those are non-empty |
| AppState.LoadForSession | App.tsx:52-59 | the listed plans are as many as those stored under the session's key, in stored order, each one the sanitiser's reading of the stored plan at the time of the load |
| AppState.Autosave | App.tsx:79-84 | as written, the save effect stores a non-empty list under the session's key and leaves the store alone when the list is empty |
| AppState.AutosaveCorrected | App.tsx:79-84 | with the length test dropped, the store always holds the listed plans under the session's key after the effect |
| AppState.LoginLists | App.tsx:71-89 | stepping the app with a login event sets the session and lists the store's plans for it, each read back |
| AppState.Login | App.tsx:71-89 | logging in opens the dashboard with that subject and class and lists, in order, the sanitiser's reading of each plan the store holds for them |
| AppState.Logout | App.tsx:91-95 | logging out clears the session and the list and returns to the login screen, keeping the store |
| AppState.CreateNew | App.tsx:97-105 | creating opens the editor on a blank plan whose identifier is the current time, with no teacher and the session's subject and class; the list and the store do not change |
| AppState.Edit | App.tsx:107-110 | editing opens the editor on exactly the chosen plan |
| AppState.Cancel | App.tsx:167-169 | cancelling returns to the dashboard and changes nothing else |
| AppState.Delete | App.tsx:112-116 | an unconfirmed deletion changes nothing; a confirmed one keeps exactly the plans with another identifier, in order |
| AppState.Fill | App.tsx:119-124 | a saved plan keeps its own non-empty subject and class and takes the session's in place of empty ones |
| AppState.ReplaceById | App.tsx:127 | the list keeps its length and every plan carrying the saved plan's identifier is replaced by it |
| AppState.ReplaceByIdLists | App.tsx:127 | after replacement the saved plan is listed if and only if some plan already carried its identifier, and plans with other identifiers are listed exactly when they were before |
| AppState.SavePlan | App.tsx:118-132 | as written, saving while editing a plan with an identifier replaces by identifier and keeps the length; otherwise the filled plan goes first |
| AppState.SavePlanCorrected | App.tsx:118-132 | corrected, the saved plan is always listed, either in place or in front of the old list |
| AppState.Sign | App.tsx:152-156 | every added plan is given the session's subject and class and nothing else changes |
| AppState.AddPlans | App.tsx:134-165 | without a session, or when the user refuses to replace a non-empty list, nothing changes; otherwise the list becomes the new plans, in order, signed with the session |
| AppState.Handle | App.tsx:86-169 | only login and logout change the session; login lists the stored plans for it, logout empties the list; no handler writes the store |
| AppState.Step | App.tsx:79-169 | as written, after any event a non-empty list is what the store holds for the session |
| AppState.StepCorrected | App.tsx:79-169 | corrected, after any event the store holds the session's list, empty or not |
| AppState.DeleteRemovesExactly | App.tsx:114 | a deletion shortens the list by exactly the number of plans carrying the identifier |
| AppState.AddPlansSurviveLogout | App.tsx:52-165 | plans added for a session come back after logging out and in: as many, each complete one exactly as signed, and each identifier kept unless it was empty |
| AppState.CreatedPlanIsLost | App.tsx:97-129 | as written, a plan created from the blank editor and saved never reaches the list, because its identifier sends the save down the replace branch |
| AppState.ReplaceByIdUnmatched | App.tsx:127 | replacing an identifier no plan carries leaves the list as it is |
| AppState.CreatedPlanIsListed | App.tsx:97-129 | corrected, the created plan is listed first and the old plans follow unchanged |
| AppState.DeletedLastPlanReturns | App.tsx:79-116 | as written, deleting the only plan is never stored, so one plan is listed again after logging out and back in, with the same identifier when it had one, and exactly the stamped plan when it was complete |
| AppState.RelistAfterLogin | App.tsx:52-95 | with the corrected effect, logging out and in again lists as many plans as were shown, each complete one as it was, stamped with the session |
| AppState.LoadKeepsIds | App.tsx:58 | reading the stored list back keeps every non-empty identifier in its place and gives an empty one the time of the read |
| AppState.DeletedIdAbsent | App.tsx:114 | after a confirmed deletion no listed plan carries the deleted identifier |
| AppState.DeletedPlanStaysDeleted | App.tsx:112-116 | with the corrected effect, after a deletion, logging out and in lists as many plans as were left, with the same identifiers when they all had one, and never the deleted identifier unless it is the time of the read |
| AppState.ListReadBack | App.tsx:58 | a stored list read back keeps each complete plan, stamped with the session, and each non-empty identifier |
| AppState.SignedStamped | App.tsx:152-156 | signed plans read back as themselves, and signing keeps a plan complete |
| AppState.IdsAfterRead | App.tsx:58 | an identifier absent from the stored list is absent from the list read back, unless it is the time of the read |
| Dashboard.Label | components/Dashboard.tsx:33 | a plan is charted under its own subject when it has one, and never under an empty label |
| Dashboard.Bump | components/Dashboard.tsx:34 | counting one more plan raises its label's count by one, counting a new label as one, and leaves every other label's count alone |
| Dashboard.BumpTotal | components/Dashboard.tsx:34 | counting one more plan raises the sum of all counts by exactly one |
| Dashboard.CountsBy | components/Dashboard.tsx:32-36 | after the reduce each label's count is the number of items carrying it, a label is present exactly when some item carries it, no label appears twice, and the counts add up to the number of items |
| Dashboard.CountBySnoc | components/Dashboard.tsx:32-36 | an item added at the end counts once more under its own label and nowhere else |
| Dashboard.SubjectCounts | components/Dashboard.tsx:32-38 | the chart counts every plan exactly once, under its subject or « Non assigné », and lists only labels that some plan carries |
| Dashboard.FilterPlans | components/Dashboard.tsx:43-45 | an empty filter shows every plan; otherwise exactly the plans of the chosen subject, as many as there are |
| Dashboard.FilterPlansAppend | components/Dashboard.tsx:43-45 | filtering keeps the plans in their order |
| Strings.LexTotal | components/Dashboard.tsx:41 | the default sort order compares any two texts one way or the other |
| Strings.Utf16RankInjective | components/Dashboard.tsx:41 | two characters take the same place in UTF-16 code-unit order exactly when they are the same character |
| Strings.Utf16BeforePrivateUse | components/Dashboard.tsx:41 | a character above U+FFFF sorts before U+E000, as its leading surrogate does, although its code point is larger |
| Dashboard.InsertSorted | components/Dashboard.tsx:41 | inserting a new text into a sorted duplicate-free list gives a sorted duplicate-free list with exactly one more element, the new one |
| Dashboard.SortTexts | components/Dashboard.tsx:41 | sorting a duplicate-free list gives a sorted list with the same elements and the same length |
| Dashboard.Subjects | components/Dashboard.tsx:41 | the listed subjects are exactly the non-empty subjects some plan carries |
| Dashboard.UniqueSubjects | components/Dashboard.tsx:41 | the subject filter offers every non-empty subject of the plans exactly once, sorted in UTF-16 code-unit order as `sort()` does, and nothing else |
| Dashboard.OfferedSubjectShowsPlans | components/Dashboard.tsx:41-45 | choosing any subject the filter offers shows at least one plan |
| Dashboard.BulkGenerate | components/Dashboard.tsx:47-70 | generation starts only when subject, class and chapters are all filled in; a non-empty course is handed on as generated and closes the dialog with the chapters cleared; an empty course or a failure leaves the form as it was |
| Dashboard.BulkCourseIsListed | components/Dashboard.tsx:47-70 | a course generated from the dialog and taken by the application becomes the list, one plan per unit, under distinct positional identifiers and signed with the session; when the dialog hands nothing on, the application is unchanged |
| Dashboard.CourseListed | App.tsx:134-158 | plans carrying positional identifiers, once added, are listed as many as given, each with its own identifier and the session's subject and class, no two sharing an identifier |
| ExamAi.GetAIProvider | services/examGeminiService.ts:6-21 | Groq is chosen exactly when its key is set; Gemini exactly when only a Gemini key or the generic key is set; with no key the choice fails |
| ExamAi.GetClient | services/examGeminiService.ts:23-31 | the Gemini client is built exactly when one of its two keys is set, from the first one that is set |
| ExamAi.GetGroqClient | services/examGeminiService.ts:33-41 | the Groq client is built exactly when its key is set, from that key |
| ExamAi.ProviderHasClient | services/examGeminiService.ts:6-41 | the chosen provider's client can always be built, and with no key neither client can |
| ExamAi.ExamStyleOf | services/examGeminiService.ts:78-82 | troisième sits the Brevet, première and terminale the Bac, every other class the standard style |
| ExamAi.EnglishExamNeedsText | services/examGeminiService.ts:84-111 | an exam to be written in English either asks for a comprehension text or is titled « english » or « language acquisition » |
| ExamAi.ExamTypeOf | services/examGeminiService.ts:385 | the exam type is the configured one when given and « Examen » otherwise, never empty |
| ExamAi.ExpectedTotal | services/examGeminiService.ts:545-553 | an evaluation in sixième is out of 20 and everything else out of 30 |
| ExamAi.SumPointsAppend | services/examGeminiService.ts:588 | the points of two runs of questions add up |
| ExamAi.ZeroFix | services/examGeminiService.ts:579-585 | every question worth nothing gets 2 points and every other question is kept as it is |
| ExamAi.ZeroFixNoZero | services/examGeminiService.ts:579-585 | after the first repair no question is worth nothing, and repairing again changes nothing |
| ExamAi.ZeroFixSum | services/examGeminiService.ts:579-588 | the first repair adds 2 points to the total for every question that was worth nothing |
| ExamAi.Spread | services/examGeminiService.ts:598-601 | every question moves by the even share, and those before the remainder by one point more |
| ExamAi.SpreadSum | services/examGeminiService.ts:594-604 | spreading changes the total by the share times the number of questions plus the number of questions below the remainder |
| ExamAi.JsRem | services/examGeminiService.ts:596 | JavaScript's remainder agrees with the mathematical one on non-negative numbers, lies in (-n, 0] on negative ones, and is zero exactly when the division is exact |
| ExamAi.RepairAsWritten | services/examGeminiService.ts:588-606 | as written, the point repair keeps the number of questions |
| ExamAi.RepairPoints | services/examGeminiService.ts:588-606 | the corrected repair keeps the number of questions and leaves a list that already adds up untouched |
| ExamAi.RepairReachesTotal | services/examGeminiService.ts:588-606 | the corrected repair always brings a non-empty list to the expected total |
| ExamAi.RepairIsEven | services/examGeminiService.ts:594-601 | the corrected repair moves each question by the floor of the even share or by one more |
| ExamAi.RepairAsWrittenTotal | services/examGeminiService.ts:594-604 | as written, the repair reaches the total when the difference is non-negative or divides evenly, and otherwise falls short of it by the Euclidean remainder of the difference by the number of questions (1 for questions worth 8, 8, 8 and 9 against 30) |
| ExamAi.RepairAsWrittenUndershoots | services/examGeminiService.ts:594-601 | four questions worth 8, 8, 8 and 9 against 30 come out at 29 points as written and at 30 corrected |
| ExamAi.RepairAgreesWhenShort | services/examGeminiService.ts:594-601 | when the questions fall short of the total, the repair as written and the corrected one agree |
| ExamAi.BuildExam | services/examGeminiService.ts:556-573 | the exam takes subject, class, semester, chapters and teacher from the configuration, the class name or the class value, the announced total, no resources, the class's style, and the reply's duration, title and difficulty or their defaults |
| ExamAi.EmptyErrorIsUnknown | services/examGeminiService.ts:610-613 | a provider that fails without a message makes the generation fail with « Échec de génération: Erreur inconnue » |
| ExamAi.GenerateExam | services/examGeminiService.ts:378-613 | with no key the failure is the missing-key message, every failure carries the « Échec de génération » prefix followed by a non-empty message, « Erreur inconnue » when the error had none, and a success is the as-written generation: the configured subject, the announced total, as many questions as the reply, and points that never exceed the total and fall short of it by less than one point per question |
| ExamAi.Generate | services/examGeminiService.ts:379-608 | as written, the repaired points never exceed the total and fall short by less than one point per question, and they reach the total exactly whenever the zero-fixed questions did not already exceed it |
| ExamAi.Draft | services/examGeminiService.ts:379-592 | before the point repair, the exam carries the configured subject, total, resources and style, and its questions are the reply's with every question worth no points given 2 |
| ExamAi.GenerateCorrected | services/examGeminiService.ts:379-608 | with the corrected repair, every successful exam with a question is worth exactly the announced total |
| ExamAi.GenerateAgreesUnlessOver | services/examGeminiService.ts:594-604 | the generation as written and the corrected one fail alike, with the same message, and give the same exam whenever the questions were not worth more than the total |
| ExamAi.SpreadByRemainder | services/examGeminiService.ts:594-601 | Spreading the difference by the JavaScript remainder reaches the expected total exactly when the difference is non-negative or divides evenly; otherwise it lands short by the Euclidean remainder. |
| ExamApi.Insert | api/exams.ts:56 | putting one exam into a newest-first list keeps it newest first, adds exactly that exam and keeps every other one |
| ExamApi.SortNewestFirst | api/exams.ts:56 | sorting on the creation date, descending, gives the same exams, each as often as stored, newest first |
| ExamApi.Take | api/exams.ts:57 | the limit keeps the first n exams, or all of them when there are fewer |
| ExamApi.ListExams | api/exams.ts:46-61 | a listing holds at most 100 exams, newest first, each stored and matching every non-empty query field |
| ExamApi.ListedAreTheNewest | api/exams.ts:49-58 | a matching exam left out of the listing is older than, or as old as, every one of the 100 listed |
| ExamApi.SmallListingIsComplete | api/exams.ts:49-58 | with at most 100 matches the listing holds every matching exam, each as often as it is stored |
| ExamApi.PostExam | api/exams.ts:64-84 | an exam without subject, class or semester is refused with status 400 and nothing stored; otherwise it is appended, stamped with the clock reading, and returned with status 201 |
| ExamApi.PostThenList | api/exams.ts:46-84 | after a valid post, the listing for the posted subject, class and semester shows the stamped exam unless it is full of exams at least as new; with fewer than 100 such exams before the post it always shows it |
| ExamApi.FirstWithId | api/exams.ts:96 | the position of the first exam carrying the identifier, or -1 when none does |
| ExamApi.DeleteById | api/exams.ts:87-102 | a deletion removes the first exam carrying the identifier and reports one, or removes nothing and reports zero |
| ExamApi.DeleteThenList | api/exams.ts:46-102 | when identifiers are distinct, after a deletion no stored exam, and so no listing, carries the deleted identifier |
| ExamApi.Handle | api/exams.ts:25-114 | a preflight succeeds at once; without a connection every other request fails with status 500; then GET lists, POST stores, DELETE without an identifier is refused, DELETE with one removes the first exam carrying it and replies with the number deleted, and any other method gets status 405 |
| ExamNativeExport.PointsLabel | services/examWordExportNative.ts:141-144 | the label is "points" exactly when the question is worth more than one point, and "point" otherwise, in either language |
| ExamNativeExport.OptionLetter | services/examWordExportNative.ts:187 | option i is labelled by the single letter whose code is 65 + i, a capital for the first 26 options |
| ExamNativeExport.OptionLetterInjective | services/examWordExportNative.ts:187 | two different options never share a letter |
| ExamNativeExport.StatementPoints | services/examWordExportNative.ts:201 | a statement's points default to 1 when the question gives none (or zero) and are the question's value otherwise |
| ExamNativeExport.QuestionBody | services/examWordExportNative.ts:179-240 | a true/false question gets two paragraphs per statement, and nothing under a question in the exam is empty or red |
| ExamNativeExport.QuestionParagraphs | services/examWordExportNative.ts:139-244 | a question is its title line, its statement, then one line per option, two per true/false statement, or a single answer line; none of it is red |
| ExamNativeExport.CorrectionBody | services/examWordExportNative.ts:286-395 | a true/false correction gets three paragraphs per statement: the statement, the boxes and the verdict |
| ExamNativeExport.CorrectionParagraphs | services/examWordExportNative.ts:247-402 | the correction opens with the same two lines as the exam, then the options plus an explanation when there is an answer, three lines per statement, or the red answer when there is one |
| ExamNativeExport.OptionMarkedIffCorrect | services/examWordExportNative.ts:289-317 | an option of a multiple-choice correction carries the red marker exactly when its letter is the correct answer |
| ExamNativeExport.AtMostOneOptionMarked | services/examWordExportNative.ts:291-310 | no two options of one multiple-choice correction are both marked correct |
| ExamNativeExport.VerdictMatchesStatement | services/examWordExportNative.ts:340-372 | the red verdict under a statement reads "Vrai" exactly when the statement is true |
| ExamNativeExport.EraseRedBody | services/examWordExportNative.ts:286-395 | erasing the red parts of a correction body gives back the exam body when the question has choices, and nothing otherwise |
| ExamNativeExport.EraseRedQuestion | services/examWordExportNative.ts:139-402 | erasing the red parts of a question's correction gives back the question as it appears in the exam (its first two lines when it has no choices) |
| ExamNativeExport.EraseRedRender | services/examWordExportNative.ts:463-496 | when every question has choices, the correction's questions with the red parts erased are the exam's questions, section headings included |
| ExamNativeExport.Underscored | services/examWordExportNative.ts:451 | replacing runs of white space by an underscore leaves no white space and never lengthens the text |
| ExamNativeExport.UnderscoredKeepsText | services/examWordExportNative.ts:451 | a text with no white space goes into the file name unchanged |
| ExamNativeExport.Render | services/examWordExportNative.ts:463-496 | the document has at least one paragraph per question and heading, and in the exam (not the correction) every paragraph is non-empty and carries no red text |
| ExamNativeExport.FileName | services/examWordExportNative.ts:451 | a file name starts with its prefix (Examen_ or CORRECTION_) and ends with .docx |
| ExamNativeExport.ExamAndCorrectionNamesDiffer | services/examWordExportNative.ts:536 | the exam file and the correction file of any two exams never share a name, so saving one never replaces the other |
| ExamNativeExport.UnderscoredIdempotent | services/examWordExportNative.ts:451 | replacing white space twice gives the same name as replacing it once |
| ExamNativeExport.DocumentBody | services/examWordExportNative.ts:422-442 | both documents open with the blank line and the school's name |
| ExamNativeExport.ExportExam | services/examWordExportNative.ts:407-460 | the export fails, with the prefixed "subject required" message, exactly when the subject is empty; otherwise the header shows the subject and the file is named Examen_ with subject and semester underscored |
| ExamNativeExport.ExportCorrection | services/examWordExportNative.ts:499-545 | the correction fails exactly when the subject is empty; otherwise its header reads the subject followed by " - CORRECTION" and the file is named CORRECTION_ with the exam's names |
| ExamNativeExport.CorrectionCoversExam | services/examWordExportNative.ts:407-579 | for an exam whose questions all have choices, both exports succeed and the correction with its red parts erased is exactly the exam |
| ExamSections.SectionOf | services/examWordExportNative.ts:128 | a question is filed under its own section, or under "Exercices" when it names none; the section name is never empty |
| ExamSections.SectionIndex | services/examWordExportNative.ts:129 | the section is found exactly when a section of that name is already open, and the one found carries that name |
| ExamSections.AddItem | services/examWordExportNative.ts:128-132 | filing one question opens a new section at the end exactly when its name is not yet open, and otherwise keeps the section names as they are |
| ExamSections.GroupBy | services/examWordExportNative.ts:124-136 | the sections appear in the order their names first occur among the questions, each name once |
| ExamSections.SectionsAreFilters | services/examWordExportNative.ts:124-136 | each section holds exactly the questions carrying its name, in their original order |
| ExamSections.GroupByPermutes | services/examWordExportNative.ts:124-136 | read section after section, the grouped questions are the input questions, each exactly as often |
| ExamSections.Organize | services/examWordExportNative.ts:124-136 | the exam's sections are named by first occurrence of the questions' sections, with no name twice |
| ExamSections.HeadingOf | services/examWordExportNative.ts:472-485 | a section gets a heading, its upper-cased name, exactly when it is not the default "Exercices" section |
| ExamSections.NumberFrom | services/examWordExportNative.ts:488-491 | the questions of a section are numbered consecutively from the running index |
| ExamSections.LayoutNumbering | services/examWordExportNative.ts:466-492 | with headings skipped, the laid-out document numbers the grouped questions consecutively from the starting index, across sections |
| ExamSections.ExamLayoutNumbersAll | services/examWordExportNative.ts:463-496 | every question of the exam appears exactly once in the document, and the questions are numbered 0, 1, 2, … in the order shown |
| ExamSections.ExamLayout | services/examWordExportNative.ts:463-496 | reading only the numbered questions of the document gives the grouped questions numbered 0, 1, 2, … with no gap or repeat across section headings |
| ExamStorage.ExamKey | services/examDatabaseService.ts:117-119 | the local key starts with the subject and an underscore, ends with an underscore and the semester, and holds the grade between them |
| ExamStorage.ExamKeyInjective | services/examDatabaseService.ts:117-119 | when subjects carry no underscore, two exams share a local key exactly when they share subject, grade and semester |
| ExamStorage.FirstKept | services/examDatabaseService.ts:148 | the cut keeps a prefix of the list, of five entries or of the whole list when it is shorter |
| ExamStorage.SaveExamLocal | services/examDatabaseService.ts:163-186 | the saved exam heads its key's list, followed by the newest earlier exams of that key, at most five in all; every other key is untouched |
| ExamStorage.SaveTwice | services/examDatabaseService.ts:163-186 | two exams saved in turn under one key are both kept, the later one first |
| ExamStorage.Truncated | services/examDatabaseService.ts:145-150 | the quota clean-up keeps every key and cuts each list to its first five exams |
| ExamStorage.TruncatedIdempotent | services/examDatabaseService.ts:145-150 | cleaning up twice leaves what cleaning up once does |
| ExamStorage.TruncatedKeepsSaved | services/examDatabaseService.ts:145-180 | the quota clean-up never removes anything from the key just saved to |
| ExamStorage.SaveExamsStorage | services/examDatabaseService.ts:133-161 | a write that succeeds stores the object, another error leaves storage as it was, a quota error stores the cut object, and a failed retry leaves storage empty |
| ExamStorage.SavedExamHeadsItsKey | services/examDatabaseService.ts:133-186 | after a write that goes through, directly or on the quota retry, the exam just saved heads its key's list |
| ExamStorage.LoadEntries | services/examDatabaseService.ts:188-211 | the local load returns exactly the stored exams that match every given criterion, under whichever key they are filed |
| ExamStorage.LoadEverything | services/examDatabaseService.ts:188-211 | with no criterion the local load returns every stored exam, key after key, in stored order |
| ExamStorage.SavedExamIsLoaded | services/examDatabaseService.ts:163-211 | an exam saved locally is returned by a later local load under any criteria it matches |
| ExamStorage.LoadExams | services/examDatabaseService.ts:53-80 | a successful request yields the server's list (none for a null body); a failed one yields exactly the local exams matching the criteria |
| ExamStorage.NewestIndex | services/examDatabaseService.ts:96-102 | the position chosen holds the largest creation date, and no earlier position holds one as large |
| ExamStorage.FirstNewestUnique | services/examDatabaseService.ts:96-102 | only one position can be the first newest, so the choice is determined |
| ExamStorage.LoadLastExam | services/examDatabaseService.ts:85-107 | there is no last exam exactly when the load finds none; otherwise it is the first of the found exams with the largest creation date |
| ExamStorage.LastExamIsNewest | services/examDatabaseService.ts:85-107 | the last exam is one the load finds, and no found exam was created after it |
| ExamStorage.SaveExamToDatabase | services/examDatabaseService.ts:12-48 | the answer is whether the request succeeded; either way the exam is backed up locally and, when that write goes through, heads its key |
| ExamTemplateExport.AnswerLines | services/examWordExportService.ts:16-18 | the answer lines are empty exactly when none are asked for |
| ExamTemplateExport.AnswerLinesRead | services/examWordExportService.ts:16-18 | n answer lines, read back line by line, are exactly n dotted lines |
| ExamTemplateExport.LineCount | services/examWordExportService.ts:63-88 | gap-fill questions get 2 lines, labelling and definitions 3, document analysis 5, long answers and problems their expected count or 8, any other open type 4 |
| ExamTemplateExport.ResourceBlock | services/examWordExportService.ts:31-41 | a resource block appears exactly when the question has a resource attached, framed by its opening and closing markers |
| ExamTemplateExport.FormatQuestion | services/examWordExportService.ts:21-91 | a question opens with its numbered heading, carries the differentiation star exactly when it is a differentiation question, and ends with its resource and its answer block |
| ExamTemplateExport.Header | services/examWordExportService.ts:22 | the heading of question i opens on a new line with the number i + 1, a dot and a space, and closes with its points in parentheses and a line break, with exactly the title between the two |
| ExamTemplateExport.LegendBlockRead | services/examWordExportService.ts:67-70 | the block under a labelling question reads back as the labelling line over three dotted lines |
| ExamTemplateExport.OpenBlockRead | services/examWordExportService.ts:63-88 | the block under any other open question reads back as exactly its count of dotted lines |
| ExamTemplateExport.OptionBlockRead | services/examWordExportService.ts:45-52 | the options of a multiple-choice question read back one per line, in order, lettered from A |
| ExamTemplateExport.StatementBlockRead | services/examWordExportService.ts:54-61 | true/false statements read back as each numbered statement followed by its line of boxes |
| ExamTemplateExport.StatementNumbering | services/examWordExportService.ts:57-59 | statement i is numbered i + 1 and is directly followed by the line of boxes |
| ExamTemplateExport.NumberedAt | services/examWordExportService.ts:115-119 | in the exercises text, question i is formatted under number i + 1, between the questions before and after it |
| ExamTemplateExport.Rule | services/examWordExportService.ts:118 | the rule closing each question is 60 characters long |
| ExamTemplateExport.GeneralBlock | services/examWordExportService.ts:98-112 | the general-resources block is empty exactly when the exam has no general resources, and otherwise opens with its banner |
| ExamTemplateExport.FormatExercises | services/examWordExportService.ts:94-123 | the exercises text is the numbered questions, preceded by the resources block exactly when there are general resources |
| ExamTemplateExport.Data | services/examWordExportService.ts:139-147 | each header field of the template takes the exam's value or its own default, so none is ever empty, and the exercises field holds the formatted questions |
| ExamTemplateExport.ExportExamToWord | services/examWordExportService.ts:126-168 | the export fails with the prefixed "template missing" message exactly when the template cannot be loaded; otherwise it fills the template with the exam's data under the Examen_ file name |
| ExamTemplateExport.MapUntilFailure | services/examWordExportService.ts:175-179 | the exports run in order and succeed together exactly when each succeeds; otherwise the error is that of the first failure |
| ExamTemplateExport.ExportMultiple | services/examWordExportService.ts:171-184 | exporting several exams fails, with the doubly prefixed message, exactly when the template is missing and there is at least one exam; otherwise every exam is exported in order |
| ExamWizard.SubjectsForGrade | components/ExamsWizard.tsx:28-60 | the lycée grades get the lycée subjects, sixième the collège subjects without physics-chemistry, the other collège grades all collège subjects |
| ExamWizard.SixiemeDropsPhysicsOnly | components/ExamsWizard.tsx:55-57 | the sixième filter removes physics-chemistry and nothing else from the collège list |
| ExamWizard.KindValue | components/ExamsWizard.tsx:119 | each paper kind has a non-empty name, and only the evaluation kind carries the evaluation name |
| ExamWizard.Next | components/ExamsWizard.tsx:77-91 | Next moves one step on exactly when the current step's choices are made, and changes nothing else |
| ExamWizard.Back | components/ExamsWizard.tsx:93-99 | Back leaves the wizard exactly from the first step, and otherwise moves one step back, changing nothing else |
| ExamWizard.ConfigOf | components/ExamsWizard.tsx:109-116 | the generator receives the chosen subject, grade and chapters, the semester prefixed with "Semestre " and the grade as class name; the paper kind only when it is passed on |
| ExamWizard.GenerateAsWritten | components/ExamsWizard.tsx:101-130 | as written, generation without every choice changes nothing; a failed generation changes nothing; a successful one opens the preview with an exam titled by the kind but totalled as if no kind had been chosen |
| ExamWizard.GenerateCorrected | components/ExamsWizard.tsx:101-130 | with the kind passed on, a successful generation opens the preview with an exam titled by the kind and totalled for that kind and grade |
| ExamWizard.Title | components/ExamsWizard.tsx:119 | the generated exam's title starts with the chosen paper kind |
| ExamWizard.Generated | components/ExamsWizard.tsx:117-128 | an error leaves the wizard as it was; success keeps the generator's exam except for the new title and semester, and moves to the preview |
| ExamWizard.SixiemeEvaluationAsWritten | components/ExamsWizard.tsx:109-119 | as written, an evaluation for sixième is titled an evaluation but generated out of 30 points |
| ExamWizard.SixiemeEvaluationCorrected | components/ExamsWizard.tsx:109-119 | with the kind passed on, an evaluation for sixième is generated out of 20 points |
| ExamWizard.Reset | components/ExamsWizard.tsx:162-171 | a reset returns to the first step with every choice and the generated exam cleared |
| ExamWizard.Act | components/ExamsWizard.tsx:62-171 | only Back on the first step leaves; Next acts on steps 1 to 3, Generate on step 4 runs the generation as written, Reset acts on the preview, and a button pressed where it is not offered changes nothing |
| ExamWizard.ActCorrected | components/ExamsWizard.tsx:62-171 | with the corrected generation, Generate on step 4 runs it, and every other button does exactly what it does as written |
| ExamWizard.StepInRange | components/ExamsWizard.tsx:77-171 | whatever the user does, a wizard that stays open stays between steps 1 and 5 |
| ExamWizard.PreviewOnlyAfterGenerate | components/ExamsWizard.tsx:101-130 | the preview step is reached only by pressing Generate on step 4 and getting an exam |
| Json.Or | services/geminiService.ts:106 | `a \|\| b` yields its first operand when that is truthy and its second otherwise |
| Json.Get | services/geminiService.ts:182 | reading a field of anything but an object yields undefined |
| Json.ArrayOr | services/geminiService.ts:157-158 | a value is taken as a list exactly when it is an array; otherwise the fallback list is used |
| Json.StringsOf | services/geminiService.ts:112 | converting the elements to text keeps their number and converts each in place |
| Json.NatStringRoundTrip | services/geminiService.ts:108 | a whole number written as text by `String` is read back as the same number by `Number` |
| Json.IntStringRoundTrip | services/geminiService.ts:108 | any integer, negative ones included, written by `String` is read back as the same number by `Number` |
| Json.Truthy | services/geminiService.ts:106-108 | arrays and objects are truthy, `null` and `undefined` are not, and for booleans and numbers `!!v` agrees with `!!Number(v)` |
| Json.ToStr | services/geminiService.ts:106 | `String` leaves text as it is, writes an empty array as empty text, and writes a number as a numeral `Number` reads back as that number |
| Json.ToNumber | services/geminiService.ts:108 | `Number` keeps numbers, reads text as a numeral, gives 0 for an empty array, n for the array [n], and NaN for `undefined` and objects |
| Json.StringToNumber | services/geminiService.ts:108 | blank text is 0; otherwise the trimmed text is read as a numeral: a leading minus negates the decimal value, and a plain decimal numeral is its value |
| Json.NumeralForms | services/geminiService.ts:108 | "1e1" is 10, "0x10" is 16, and "-0x10" is NaN, as JavaScript reads them |
| Json.ExponentRoundTrip | services/geminiService.ts:108 | the numeral m, e, k is read as m × 10^k |
| JsonExtract.Unfence | services/geminiService.ts:67 | removing the code fences and trimming never lengthens the reply and leaves no fence in it |
| JsonExtract.StripToBrackets | services/geminiService.ts:70 | dropping the text before the first opening bracket and after the last closing bracket leaves a part of the text that is empty or runs from an opening bracket to a closing one |
| JsonExtract.Span | services/geminiService.ts:72-86 | the span starts at the first bracket, whichever kind comes first, and ends at the last bracket closing that kind; for a text already bracketed it is the whole text |
| JsonExtract.Extract | services/geminiService.ts:88-98 | the extracted span is returned only when it parses, and it is then a bracketed prefix of the cleaned text; otherwise the empty document is returned |
| JsonExtract.CleanJsonText | services/geminiService.ts:62-99 | an empty reply gives the empty document; any other result is a bracketed text that parses |
| JsonExtract.CleanJsonTextSource | services/geminiService.ts:62-99 | a result other than the empty document is a fence-free prefix of the reply, unfenced and stripped to its brackets, ending at the last closing bracket of its kind |
| JsonExtract.CleanJsonTextKeepsDocument | services/geminiService.ts:62-99 | a reply that, unfenced and trimmed, is a bracketed document that parses comes back whole |
| JsonExtract.CleanJsonTextIdempotent | services/geminiService.ts:62-99 | cleaning a cleaned reply again changes nothing |
| JsonExtract.CleanOfEmptyDocument | services/geminiService.ts:63-98 | the empty document cleans to itself, whether or not the parser accepts it |
| JsonExtract.NoFenceAfterRemoval | services/geminiService.ts:67 | removing the fences from left to right leaves no fence behind |
| KeyedStore.Keys | services/databaseService.ts:351 | the keys of an object are listed in the order of its entries, one per entry |
| KeyedStore.Find | App.tsx:55 | a key is looked up at its first position, and not found exactly when no entry carries it |
| KeyedStore.Get | App.tsx:55 | reading a key yields undefined exactly when the object lacks it, and otherwise a value stored under it |
| KeyedStore.Set | App.tsx:67 | after writing a key it holds the new value, every other key reads as before, a new key is listed last and an existing key keeps its place |
| KeyedStore.SetEntries | App.tsx:67 | writing a new key appends one entry; writing an existing key replaces its entry in place |
| KeyedStore.Retain | services/databaseService.ts:354-377 | rebuilding an object from the kept keys keeps exactly those keys, each with its value, in their original order |
| KeyedStore.MapValues | services/examDatabaseService.ts:145-150 | transforming every list keeps the keys and their order and transforms each value |
| KeyedStore.SetEach | services/wordExportService.ts:211-216 | writing the files one after another into a folder gives a folder with no name twice |
| KeyedStore.SetEachHolds | services/wordExportService.ts:211-216 | a file name holds the content last written under it, and a name never written is absent |
| KeyedStore.SetEachDistinct | services/wordExportService.ts:211-216 | when the names are all different, every file is found under its own name |
| KeyedStore.SetEachKeys | services/wordExportService.ts:211-216 | when the names are all different, the folder lists every name once, in writing order |
| KeyedStore.Count | components/Dashboard.tsx:34 | the count under a subject is the number stored for it, and zero for a subject never counted |
| KeyedStore.SetTotal | components/Dashboard.tsx:34 | writing a count changes the sum of all counts by the difference with what the key held |
| PlanAi.GenerationLanguage | services/geminiService.ts:39-59 | a subject is generated in English exactly when it names language acquisition, in French and Arabic exactly when it is otherwise an arts or physical-education subject, and in French otherwise |
| PlanAi.ArtsTestSubsumed | services/geminiService.ts:45-52 | the "arts" test never changes the outcome, since any subject containing "arts" contains "art" |
| PlanAi.LanguageIgnoresCase | services/geminiService.ts:39-59 | the language chosen depends on the subject only up to letter case |
| PlanAi.SystemInstruction | services/geminiService.ts:600-605 | exactly one of the three prompts is used, the one of the subject's language |
| PlanAi.DropDash | services/geminiService.ts:234 | one leading "- " is removed when present, and the line is otherwise kept |
| PlanAi.CleanLine | services/geminiService.ts:234 | a cleaned suggestion line has no surrounding white space and gains no line break |
| PlanAi.BlankLineCleansBlank | services/geminiService.ts:234 | a blank line stays blank once cleaned |
| PlanAi.SoiLinesAsWritten | services/geminiService.ts:234 | as written, blank lines are dropped before cleaning, so at most one suggestion per line survives |
| PlanAi.SoiLines | services/geminiService.ts:234 | cleaned then filtered, every suggestion is non-empty and trimmed, at most one per line |
| PlanAi.SoiLinesFilterCleaned | services/geminiService.ts:234 | the suggestions are exactly the cleaned lines that are not empty, in order |
| PlanAi.CleanedLines | services/geminiService.ts:234 | `.map(l => ..)` cleans every line in place: as many lines as before, line i becoming the cleaned line i |
| PlanAi.SoiSuggestions | services/geminiService.ts:233-234 | every suggestion read from a reply is non-empty, trimmed and a single line |
| PlanAi.SoiAsWrittenAddsOnlyBlanks | services/geminiService.ts:234 | the order as written differs from cleaning first only by empty suggestions |
| PlanAi.SoiAgreeWithoutLoneDash | services/geminiService.ts:234 | when no line is a lone dash, both orders give the same suggestions |
| PlanAi.SoiAsWrittenLoneDash | services/geminiService.ts:234 | the reply "- " makes the statement suggestions as written a single empty one, where the corrected reading offers none |
| PlanAi.StatementSuggestions | services/geminiService.ts:193-242 | a failed request yields the single error message of the subject's language; a reply yields trimmed suggestions read as written, and dropping the empty ones gives exactly the corrected suggestions |
| PlanAi.SoiSuggestionsAsWritten | services/geminiService.ts:233-234 | every suggestion read as written is trimmed, and the non-empty ones are exactly the suggestions of the corrected reading |
| PlanAi.StatementSuggestionsCorrected | services/geminiService.ts:193-242 | with cleaning before filtering, a failure reads as written and a reply yields only non-empty, trimmed, single-line suggestions: the as-written ones without the empty ones |
| Strings.MessageOr | services/geminiService.ts:714 | the message used is the error's own or the fallback, and never empty as long as the fallback is not |
| PlanAi.ClassifyPlanError | services/geminiService.ts:712-726 | a message mentioning the key is a connection problem, then one about the format is an invalid plan, then one about quotas a quota problem, otherwise the message is passed on prefixed; every message starts with the cross mark |
| PlanAi.KeyNameTestSubsumed | services/geminiService.ts:717 | the GEMINI_API_KEY test never changes the outcome, since that name contains "API" |
| PlanAi.ConfigErrorIsConnection | services/geminiService.ts:8-36 | a missing key is always reported as a connection problem |
| PlanAi.GeneratePlanSteps | services/geminiService.ts:607-711 | a plan comes back only for a configured key and a non-blank reply whose cleaned text parses to an object, and it is that object sanitised, keeping the chosen subject and grade; every other outcome is one of the named errors or the request's own |
| PlanAi.GenerateFullUnitPlan | services/geminiService.ts:607-727 | the plan generation succeeds exactly when its steps do, with their plan; every failure message starts with the cross mark, and a missing key reads as a connection problem |
| PlanAi.ClassifyCourseError | services/geminiService.ts:846-858 | a message mentioning the key is a connection problem, then one about quotas a quota problem, otherwise the message is passed on prefixed; every message starts with the cross mark |
| PlanAi.SanitizeCourse | services/geminiService.ts:838-844 | sanitising the course fails exactly when some unit is null or undefined; otherwise there is one plan per unit, unit i identified by the time and i, keeping the chosen subject and grade |
| PlanAi.CourseUnit | services/geminiService.ts:839-843 | a unit of a course is identified by the time and its position, and keeps the chosen subject and grade |
| PlanAi.GenerateCourseSteps | services/geminiService.ts:734-844 | a course comes back only for a configured key and a non-blank reply whose cleaned text is a non-empty array, one plan per element, each with its positional identifier |
| PlanAi.GenerateCourseFromChapters | services/geminiService.ts:729-859 | the course generation succeeds exactly when its steps do, with their plans; every failure message starts with the cross mark, and a missing key reads as a connection problem |
| PlanAi.CourseIdsDistinct | services/geminiService.ts:842 | two units of one course never share an identifier |
| PlanApi.FirstWithKey | api/planifications.ts:62 | the search finds the first document with the key, and nothing exactly when no document carries it |
| PlanApi.Upsert | api/planifications.ts:92-104 | an upsert replaces the key's document when there is one and appends the new document otherwise, leaves documents of other keys in place, and never creates a duplicate key |
| PlanApi.DeleteOne | api/planifications.ts:126 | deleting removes one document of the key when there is one, reporting 1, and otherwise nothing, reporting 0; without duplicate keys the key is gone afterwards |
| PlanApi.GetReply | api/planifications.ts:46-77 | a grade alone lists that grade's documents; no grade is refused; subject and grade give that key's plans, an empty list with no date when none are stored |
| PlanApi.PostReply | api/planifications.ts:80-113 | a post without subject, grade or plan list is refused and changes nothing; otherwise the key's document is written with the current time, reported as one insertion exactly when the key was new |
| PlanApi.DeleteReply | api/planifications.ts:116-132 | a delete without subject or grade is refused and changes nothing; otherwise the key's document is removed and the number removed reported |
| PlanApi.Handle | api/planifications.ts:25-143 | a preflight succeeds without touching the database, a failed connection is a server error, an unknown method is refused with 405, each verb otherwise gets its own reply, and no write creates a duplicate key |
| PlanApi.PostThenGet | api/planifications.ts:46-113 | what a post stores is what a later get for the same subject and grade returns, with the post's time |
| PlanApi.DeleteThenGet | api/planifications.ts:46-132 | after a delete, a get for the same subject and grade finds no plans |
| PlanApi.GradeListing | api/planifications.ts:50-53 | a get by grade alone returns exactly the stored documents of that grade |
| PlanForm.ToggleConcept | components/UnitPlanForm.tsx:58-67 | a selected concept is removed entirely; another is added at the end while fewer than three are selected and ignored otherwise; no other concept changes |
| PlanForm.ToggleKeepsSelectionValid | components/UnitPlanForm.tsx:58-67 | a selection of at most three distinct concepts stays one whatever is toggled |
| PlanForm.ToggleTwice | components/UnitPlanForm.tsx:58-67 | toggling an unselected concept on and off again restores the selection when there was room for it |
| PlanForm.ToggleObjective | components/UnitPlanForm.tsx:543-547 | checking a criterion appends it; unchecking removes every occurrence of it and nothing else |
| PlanForm.CheckThenUncheck | components/UnitPlanForm.tsx:543-547 | unchecking a criterion just checked restores the criteria when it was not already among them |
| PlanForm.Save | components/UnitPlanForm.tsx:176-182 | the plan is handed on unchanged exactly when at least two criteria are selected |
| PlanForm.AppendIdeas | components/UnitPlanForm.tsx:131 | the ideas are appended to the learning experiences, after a blank line when there were some, keeping what was there |
| PlanForm.GenerateActivities | components/UnitPlanForm.tsx:124-133 | without a title or a statement of inquiry nothing changes; otherwise only the learning experiences change, gaining the ideas |
| PlanForm.RemoveQuestion | components/UnitPlanForm.tsx:501-511 | deleting a question changes only the list of its kind, removing the question at that position |
| PlanForm.RemoveQuestionKeepsOthers | components/UnitPlanForm.tsx:509 | deleting a question shortens its list by exactly that question, the others kept in order; a position past the end removes nothing |
| PlanForm.GenerateFullPlan | components/UnitPlanForm.tsx:69-100 | without topics, subject or grade, or on failure, the plan is unchanged; otherwise it becomes the generated plan, keeping the reflection and a teacher name already typed |
| PlanForm.GenerateFullPlanIdempotent | components/UnitPlanForm.tsx:69-100 | taking the same generated plan twice gives what taking it once gives |
| PlanForm.RegenerateKeepsTeacher | components/UnitPlanForm.tsx:77-89 | a teacher name already typed, and the reflection, survive any number of generations in a row |
| PlanStorage.PlanningKey | services/databaseService.ts:180-182 | the key is the subject, one underscore, then the grade, nothing added or lost |
| PlanStorage.SplitKey | services/databaseService.ts:357-373 | a key without an underscore is rejected; a key that splits gives a trimmed, valid subject and grade, the grade free of underscores |
| PlanStorage.SplitKeyOfPlanningKey | services/databaseService.ts:180-182 | a key built from a valid trimmed pair whose grade has no underscore splits back into that pair |
| PlanStorage.LoadLocal | services/databaseService.ts:204-208 | a pair with nothing stored under its key loads as an empty list |
| PlanStorage.SaveLocal | services/databaseService.ts:210-215 | saving replaces the list under the pair's key and leaves every other key as it was |
| PlanStorage.SaveLocalThenLoad | services/databaseService.ts:204-215 | what was saved locally loads back, and another pair still loads what it had |
| PlanStorage.ReplaceFirstSpace | services/databaseService.ts:223 | only the first space of the grade becomes an underscore; the length is kept |
| PlanStorage.LoadAllForGradeLocal | services/databaseService.ts:217-232 | every plan listed for a grade comes from a key matching that grade |
| PlanStorage.SavedPlansListedForGrade | services/databaseService.ts:210-232 | plans saved locally for a grade are among all the plans listed for that grade |
| PlanStorage.LoadFromDatabase | services/databaseService.ts:17-48 | an invalid pair or a failed request loads from local storage; otherwise the server's plans, none when it sends none |
| PlanStorage.LoadAllForGrade | services/databaseService.ts:53-85 | a failed request falls back on the local listing, an answer that is not a list gives nothing, and a list gives every document's plans |
| PlanStorage.PresentPlansExact | services/databaseService.ts:66-74 | the plans of all documents are kept, each as often as it occurs, and nothing else |
| PlanStorage.SaveToDatabase | services/databaseService.ts:90-137 | an invalid pair sends nothing and changes nothing; a valid pair sends the trimmed pair, answers whether the server accepted, and either way backs the plans up locally |
| PlanStorage.DeleteFromDatabase | services/databaseService.ts:142-170 | an invalid pair answers false without a request; a valid pair sends the trimmed pair and answers what the server did |
| PlanStorage.Cleanup | services/databaseService.ts:347-384 | the clean-up counts the invalid keys, rewrites storage exactly when there are some, and keeps every valid key with its plans |
| PlanStorage.CleanupIdempotent | services/databaseService.ts:347-384 | cleaning up a cleaned store removes nothing and changes nothing |
| PlanStorage.NoneToClean | services/databaseService.ts:347-384 | a store with only valid keys is left exactly as it is |
| PlanStorage.NeedsMigration | services/databaseService.ts:338-341 | a migration is needed exactly when local storage holds some key |
| PlanStorage.MigrateKey | services/databaseService.ts:261-320 | an invalid key or an empty list is skipped; a key whose pair already has plans on the server is skipped and writes nothing; otherwise it counts as migrated exactly when the server accepted its plans, as an error exactly when it refused them, and the local store then holds its plans under the key |
| PlanStorage.MigrateFrom | services/databaseService.ts:261-321 | the keys migrated plus the errors never exceed the keys still to visit |
| PlanStorage.MigrateLocalStorage | services/databaseService.ts:240-333 | migrated keys and errors never exceed the keys; the migration succeeds exactly when there was no error; an empty store succeeds at once |
| PlanStorage.MigrationOfInvalidKeys | services/databaseService.ts:267-287 | a store of invalid keys only migrates nothing, counts no error and writes nothing |
| PlanStorage.NothingMigratedWhenRefused | services/databaseService.ts:306-315 | when the server refuses every save, no key counts as migrated |
| PlanStorage.MigratedStep | services/databaseService.ts:261-321 | the migrated count grows by one exactly for each key the loop migrates |
| PlanWordExport.EscapeBraces | services/wordExportService.ts:50 | every opening brace becomes an opening bracket and every closing brace a closing bracket, every other character is kept, so no brace is left |
| PlanWordExport.EscapeBracesOfBraceFree | services/wordExportService.ts:50 | a text without braces is left as it is |
| PlanWordExport.EscapeBracesIdempotent | services/wordExportService.ts:50 | escaping twice is escaping once |
| PlanWordExport.Clean | services/wordExportService.ts:43-51 | null and undefined clean to the empty text; anything else to its text of the same length with no brace; a brace-free text is kept as it is |
| PlanWordExport.CleanIdempotent | services/wordExportService.ts:43-51 | cleaning a cleaned text changes nothing |
| PlanWordExport.CleanTexts | services/wordExportService.ts:134 | each strand is cleaned in place, and none holds a brace |
| PlanWordExport.Aspects | services/wordExportService.ts:100-102 | the strand rows are the strands cleaned, or the single placeholder row when there are none |
| PlanWordExport.Rubriques | services/wordExportService.ts:104-108 | the rubric rows are the rows cleaned, or the single placeholder row when there are none |
| PlanWordExport.Exercices | services/wordExportService.ts:110-114 | the exercise rows are the exercises cleaned and numbered from 1, or the single placeholder exercise when there are none |
| PlanWordExport.MapAssessmentToTemplate | services/wordExportService.ts:99-150 | the assessment sheet takes each header field from the plan or the assessment, or its default when empty; the maximum is the assessment's when truthy and 8 otherwise; the two statement fields agree |
| PlanWordExport.AssessmentSheetBraceFree | services/wordExportService.ts:99-150 | no text the assessment template receives holds a brace |
| PlanWordExport.AspectsReadBack | services/wordExportService.ts:100-134 | brace-free strands reach the template exactly as written |
| PlanWordExport.PlanData | services/wordExportService.ts:154-182 | the teacher cell is never empty, falling back on the blank line; the list fields are joined with commas or line breaks and then cleaned |
| PlanWordExport.PlanSheetIsBraceFree | services/wordExportService.ts:154-182 | no text the unit-plan template receives holds a brace |
| PlanWordExport.PlanHeadBraceFree | services/wordExportService.ts:155-163 | the header cells of the unit-plan sheet hold no brace |
| PlanWordExport.PlanInquiryBraceFree | services/wordExportService.ts:165-171 | the question and objective cells of the unit-plan sheet hold no brace |
| PlanWordExport.PlanBodyBraceFree | services/wordExportService.ts:173-181 | the body and reflection cells of the unit-plan sheet hold no brace |
| PlanWordExport.LinesReadBack | services/wordExportService.ts:165 | brace-free single-line texts joined with line breaks and cleaned read back line by line as the same texts |
| PlanWordExport.FactualQuestionsReadBack | services/wordExportService.ts:165 | the factual questions read back from their template cell when they are brace-free single lines |
| PlanWordExport.SafeName | services/wordExportService.ts:184 | every UTF-16 unit outside ASCII letters and digits becomes one underscore, so the name is safe and as long as the title in UTF-16 units |
| PlanWordExport.SafeNameOfSafe | services/wordExportService.ts:184 | a title of ASCII letters, digits and underscores is kept as it is |
| PlanWordExport.SafeNameIdempotent | services/wordExportService.ts:184 | making a safe name safe again changes nothing |
| PlanWordExport.PlanFileName | services/wordExportService.ts:184 | the file name is Plan_Unite_, a safe title, then .docx; Sans_Titre stands in for a missing title |
| PlanWordExport.UntitledIsSafe | services/wordExportService.ts:184 | the stand-in title is already safe |
| PlanWordExport.SpacesToUnderscores | services/wordExportService.ts:207 | every space becomes an underscore and every other character is kept |
| PlanWordExport.Utf16Take | services/wordExportService.ts:214 | the first 20 UTF-16 units are a prefix of the title, no longer than 20 units, and the whole title when it is that short |
| PlanWordExport.FolderName | services/wordExportService.ts:207 | the folder is named Evaluations_ followed by the title, character for character, except that spaces become underscores and braces become brackets; no space is left |
| PlanWordExport.FolderNameOfPlainTitle | services/wordExportService.ts:207 | a title with no space and no brace gives exactly Evaluations_ followed by the title |
| PlanWordExport.EvalFileName | services/wordExportService.ts:214 | an assessment's file is named Eval_Critere_, its criterion, an underscore, then a start of the cleaned title of at most 20 UTF-16 units (the whole cleaned title when it fits), then .docx |
| PlanWordExport.EvalFileNameOfShortTitle | services/wordExportService.ts:214 | a brace-free title of at most 20 UTF-16 units appears whole between the criterion and .docx |
| PlanWordExport.ExportUnitPlanToWord | services/wordExportService.ts:152-185 | the user is alerted exactly when the template cannot be loaded; otherwise the filled plan sheet is saved under the plan's file name |
| PlanWordExport.SelectAssessments | services/wordExportService.ts:190-200 | the assessment list when it is non-empty, else the single legacy assessment, else nothing, in which case the user is alerted |
| PlanWordExport.ExportAssessmentsToZip | services/wordExportService.ts:187-227 | the user is alerted exactly when there is no assessment or the template cannot be loaded; otherwise the archive is named after its folder and holds each assessment's sheet written under its file name in turn |
| PlanWordExport.ZipHoldsEveryAssessment | services/wordExportService.ts:211-216 | when the criteria are all different, the archive holds one file per assessment, each with that assessment's sheet |
| PlanWordExport.EvalNamesDiffer | services/wordExportService.ts:214 | assessments with different criteria get different file names |
| Records.GradeValue | components/ExamsWizard.tsx:17-25 | every exam grade prints as a non-empty text |
| Sanitize.Text | services/geminiService.ts:106-107 | a truthy value is taken as its text, anything falsy gives the fallback |
| Sanitize.ExerciseOf | services/geminiService.ts:124-129 | every sanitised exercise needs workspace, whatever the reply says |
| Sanitize.StrandsOf | services/geminiService.ts:110-112 | the strands come from the strands array, else the aspects array, else the three placeholders, each element turned into text |
| Sanitize.RowsOf | services/geminiService.ts:114-122 | the rubric rows are read one per element of the rubricRows array, else they are the four default bands with the placeholder descriptor |
| Sanitize.ExercisesOf | services/geminiService.ts:124-129 | the exercises are read one per element of the exercises array, else there are none, and each needs workspace |
| Sanitize.SanitizeAssessmentData | services/geminiService.ts:101-131 | no assessment comes from a falsy value or a non-object; otherwise criterion "A", name « Connaissances » and maximum 8 stand in for missing values, and the lists are read as above |
| Sanitize.DefaultRowsRead | services/geminiService.ts:114-119 | the default rows read back as the bands 1-2 to 7-8 with the placeholder descriptor |
| Sanitize.Present | services/geminiService.ts:141 | the kept assessments are present entries of the mapped list, never more of them than entries |
| Sanitize.PresentAll | services/geminiService.ts:141 | nothing is dropped exactly when every entry sanitises to an assessment, and then each is kept in place |
| Sanitize.SanitizeAll | services/geminiService.ts:141 | the assessment list is sanitised element by element, in place |
| Sanitize.AssessmentsOf | services/geminiService.ts:139-145 | the assessments are the array's elements that sanitise, in order; without an array, the legacy single assessment when it sanitises; otherwise none |
| Sanitize.SanitizeUnitPlan | services/geminiService.ts:134-191 | sanitising fails, as the source's property read throws, exactly when the plan is null or undefined |
| Sanitize.SubjectOverride | services/geminiService.ts:151 | a subject the caller supplies overrides whatever the plan says |
| Sanitize.GradeOverride | services/geminiService.ts:152 | a grade level the caller supplies overrides whatever the plan says |
| Sanitize.IdDefault | services/geminiService.ts:148 | a plan without an identifier takes the current time as one |
| Sanitize.TitleDefault | services/geminiService.ts:150 | a plan without a title under either key is called « Nouvelle Unité » |
| Sanitize.DurationDefault | services/geminiService.ts:153 | a plan without a duration under either key lasts « 10 heures » |
| Sanitize.AssessmentRoundTrip | services/geminiService.ts:101-131 | sanitising the JSON form of a complete assessment gives the assessment back |
| Sanitize.AssessmentListRead | services/geminiService.ts:139-141 | a list of complete assessments in JSON form is read back whole, none dropped |
| Sanitize.PlanRoundTrip | services/geminiService.ts:134-191 | sanitising the JSON form of a complete plan, with its own subject and grade, gives the plan back: the reader loses nothing it was given |
| Sanitize.PlanJson | services/geminiService.ts:134-191 | the JSON form of a plan carries every field under its English key and nothing under the French alternatives |
| Sanitize.ReadStored | services/geminiService.ts:134-191 | reading a stored plan back: the session's subject and class win when non-empty, an empty identifier, title or duration takes its default (the time, « Nouvelle Unité », « 10 heures »), and a complete plan comes back as stored but for the session |
| Sanitize.ReadStoredIsSanitize | services/geminiService.ts:134-191 | sanitising the JSON form of any stored plan for a session is exactly that reading |
| Sanitize.CarriedId | services/geminiService.ts:147 | a plan's empty identifier reads as the time of the read, a non-empty one as itself |
| Sanitize.CarriedTitle | services/geminiService.ts:149 | a plan's empty title reads as « Nouvelle Unité », a non-empty one as itself |
| Sanitize.CarriedDuration | services/geminiService.ts:152 | a plan's empty duration reads as « 10 heures », a non-empty one as itself |
| Sanitize.CarriedSubject | services/geminiService.ts:150 | a non-empty subject given by the caller wins over the plan's, an empty one lets the plan's through |
| Sanitize.CarriedGrade | services/geminiService.ts:151 | a non-empty class given by the caller wins over the plan's, an empty one lets the plan's through |
| Strings.Trim | services/databaseService.ts:23-24 | trimming gives a text that is empty exactly when the input was all white space, and otherwise neither starts nor ends with white space |
| Strings.TrimIdempotent | services/databaseService.ts:23-24 | trimming twice is trimming once |
| Strings.ToLower | services/geminiService.ts:40 | each character is lowered on its own, following JavaScript's mapping for the Latin letters of Latin-1 and Latin Extended-A |
| Strings.ToUpper | services/examWordExportNative.ts:477 | each character is raised on its own, following JavaScript's one-character mappings for the Latin letters of Latin-1 and Latin Extended-A |
| Strings.CaseRoundTrip | services/examWordExportNative.ts:477 | raising a letter that lowering changed gives the capital back |
| Strings.IndexOf | services/geminiService.ts:73-74 | the first position holding the character, and -1 exactly when it does not occur |
| Strings.LastIndexOf | services/databaseService.ts:357 | the last position holding the character, and -1 exactly when it does not occur |
| Strings.NatToString | services/examWordExportNative.ts:151 | a whole number is written as a non-empty run of decimal digits |
| Strings.Split | services/geminiService.ts:234 | splitting on a character gives at least one piece, none holding the character, and joining the pieces with it gives the text back |
| Strings.SplitOfJoin | services/geminiService.ts:234 | pieces free of the separator, joined and split again, come back unchanged |
| Strings.Join | services/geminiService.ts:202 | joining no parts gives empty text and joining one part gives that part, with no separator added; Split undoes it (Strings.SplitOfJoin) |
| Strings.Repeat | services/examWordExportService.ts:17 | filling an array of n gives n copies of the value |
| Strings.RemoveAllAbsent | services/geminiService.ts:67 | removing every occurrence of a pattern the text lacks leaves it unchanged |
| Strings.RemoveAll | services/geminiService.ts:67 | removing every occurrence of a pattern never lengthens the text |

## Left out

- Network, HTTP transport, MongoDB drivers and browser storage I/O: the stores are modelled as values, and every call's outcome as a parameter or a `Result`.
- Clocks (`Date.now`, `new Date().toISOString()`) and random identifiers: these become parameters.
- CORS headers and the preflight `OPTIONS` answer: they carry no state.
- Fonts, paragraph spacing, table widths and other layout details of the Word documents: the model keeps each document's text content and its order.
- docxtemplater's own tag parsing errors and the `loadFile` template fetch: these are outside the code shown and are modelled as a failure parameter.
- PlanWordExport.Utf16Take: the model counts UTF-16 code units but does not model the U+FFFD replacement or the broken surrogate pair left when a cut falls inside one.
- The 500 ms pause between the two semester requests, the `generating` and `exporting` flags, and the asynchronous ordering of React effects: the model sequences the state transitions.
- The count of modified documents that MongoDB returns: the model states the collection that results instead.
- The JSON body of the save request that the exam list sends: the model keeps the exam record it carries.
- `exportExamCorrectionToWord`, called by the wizard's correction button (components/ExamsWizard.tsx:152): the identifier is neither imported nor defined there, so the button throws a `ReferenceError`. The correction export that exists is `exportExamCorrectionToWordNative`, modelled by `ExamNativeExport.ExportCorrection`.
- `AuthenticationScreen` and `LoginScreen`: forms with no logic beyond passing the subject and grade on, which `AppState.Login` models.
- `create_exam_template.py`: a build-time script that writes the template file.
- `generateExamsForBothSemesters`: it runs `ExamAi.Generate` twice, once per semester.
- `generateInquiryQuestions`, `generateLearningExperiences`, and the `handleGenerateSOI` and `handleGenerateQuestions` handlers of the plan form: their result is the AI's reply passed on unchanged, which the oracle parameter already covers.
- The prompt texts sent to the AI: only the choice of prompt (subject, exam type, English or not) is modelled.
- Floating-point numbers: JSON numbers and points are integers in the model.
- A question stored without `points`: both exam exports print the raw value, `(undefined points)` in the source, where the model, which holds a missing number as 0, prints `(0 points)`; a generated exam always carries points, since the repair gives every worthless question 2.
- Json.StringToNumber: `Infinity` and numerals whose value is not a whole number (`2.5`, `1e-1`) give NaN in the model, where JavaScript gives a truthy number; numerals too large for a double are kept exact instead of rounding or becoming `Infinity`.
- Sanitize.SanitizeUnitPlan: the plan's own text and list fields are taken as they come (`plan.title || plan.titre || …`), with no `String()` conversion; the model reads them through `String()`, which is the same for the string fields of a stored or well-formed plan and differs only for a non-string value in a text field, which the typed record cannot hold.
- Strings.ToUpper: `ß` becomes `SS` and `ŉ` becomes `ʼN` in JavaScript; the model maps them to themselves, and it leaves alone letters outside Latin-1 and Latin Extended-A (Greek, Cyrillic and the rest).
- Strings.ToLower: only Latin-1 and Latin Extended-A capitals are lowered; Greek, Cyrillic, Armenian and other capitals outside those blocks are left as they are, where JavaScript lowers them, and `İ`, which JavaScript turns into two characters (`i` and a combining dot), is also left as it is.
- KeyedStore.Keys: `Object.keys` and `Object.entries` list integer-like keys such as `"3"` first, in ascending numeric order, before the other keys in insertion order; the model lists every key in insertion order.
- Records.GradeValue: the string values of the `ExamGrade` enumeration are not in the source shown, so the member names stand for them.

## Findings

| source | as written | input that shows it | evidently intended | confidence | as-written member | corrected member |
|---|---|---|---|---|---|---|
| services/examGeminiService.ts:594-601 | the points difference is spread with JavaScript's `%`, which is negative when the questions are worth too much | four questions worth 8, 8, 8 and 9 against a target of 30 come out worth 7, 7, 7 and 8, which is 29 points | the repaired exam is worth exactly the expected total | not executed | ExamAi.RepairAsWrittenUndershoots | ExamAi.RepairReachesTotal |
| App.tsx:97-129 | "new plan" opens a plan that already has an identifier, so saving it takes the replacing branch | log in with no plans, create a plan and save it: the list stays empty | a newly created plan is added at the head of the list | not executed | AppState.CreatedPlanIsLost | AppState.CreatedPlanIsListed |
| components/ExamsWizard.tsx:109-116 | the wizard does not pass the chosen exam type to the generator | a sixième evaluation is generated against a target of 30 points | an evaluation is worth 20 points | not executed | ExamWizard.SixiemeEvaluationAsWritten | ExamWizard.SixiemeEvaluationCorrected |
| services/geminiService.ts:234 | blank lines are dropped before the leading `- ` is removed | the reply `"- "` gives one empty statement of inquiry | no suggestion is empty | not executed | PlanAi.SoiAsWrittenLoneDash | PlanAi.StatementSuggestionsCorrected |
| App.tsx:79-116 | the autosave runs only while the list is non-empty | delete the only plan, log out and log in again: the plan is listed again | a deletion is stored like any other change | not executed | AppState.DeletedLastPlanReturns | AppState.DeletedPlanStaysDeleted |

=== FILE: app_state.dfy ===
/**
  The application shell (`App.tsx`): the session, the current plan list, the
  plan being edited and the view, and the shared local-storage object the
  list is kept in under its `subject_grade` key.  Each handler is a function
  from the state to the state; the effects React runs after a render are
  applied by `Step`.
*/
module AppState {
  import opened Wrappers
  import opened Records
  import Json
  import Seqs
  import KeyedStore
  import PlanStorage
  import Sanitize

  datatype View = LoginView | DashboardView | EditorView

  /** The subject and class the teacher logged in with. */
  datatype Session = Session(subject: string, grade: string)

  datatype App = App(
    view: View,
    plans: seq<UnitPlan>,
    editing: Option<UnitPlan>,
    session: Option<Session>,
    shared: PlanStorage.Shared)

  /** The state the application starts in: logged out, nothing listed, whatever the browser had stored. */
  function Start(shared: PlanStorage.Shared): (r: App)
    ensures r.view == LoginView && r.plans == [] && r.session == None && r.shared == shared
  {
    App(LoginView, [], None, None, shared)
  }

  /** The session's subject, or `""` without a session (`session?.subject || ""`). */
  function SessionSubject(s: Option<Session>): string {
    if s.Some? then s.value.subject else ""
  }

  function SessionGrade(s: Option<Session>): string {
    if s.Some? then s.value.grade else ""
  }

  // ------------------------------------------------------------ the shared store

  /** The store holds exactly the listed plans under the session's key. */
  predicate Synced(app: App) {
    app.session.Some? ==>
      PlanStorage.LoadLocal(app.shared, app.session.value.subject, app.session.value.grade) == app.plans
  }

  /** `savePlansForCurrentSession`: without a session nothing is written; with one, only its key. */
  function SaveForSession(app: App, plans: seq<UnitPlan>): (r: PlanStorage.Shared)
    ensures app.session.None? ==> r == app.shared
    ensures app.session.Some? ==>
      var k := PlanStorage.PlanningKey(app.session.value.subject, app.session.value.grade);
      KeyedStore.Get(r, k) == Some(plans)
      && forall k2 :: k2 != k ==> KeyedStore.Get(r, k2) == KeyedStore.Get(app.shared, k2)
    ensures KeyedStore.Valid(app.shared) ==> KeyedStore.Valid(r)
  {
    if app.session.None? then app.shared
    else PlanStorage.SaveLocal(app.shared, app.session.value.subject, app.session.value.grade, plans)
  }

  /**
    The plan a complete stored plan reads back as: a non-empty session
    subject or grade takes the place of the plan's own, and nothing else
    changes.
  */
  function Stamp(p: UnitPlan, subject: string, grade: string): (q: UnitPlan)
    ensures q.id == p.id && q.title == p.title && q.objectives == p.objectives
    ensures q.subject == (if subject != "" then subject else p.subject)
    ensures q.gradeLevel == (if grade != "" then grade else p.gradeLevel)
  {
    p.(subject := if subject != "" then subject else p.subject,
       gradeLevel := if grade != "" then grade else p.gradeLevel)
  }

  /**
    `loadPlansForSubjectGrade`: the list under the key, each plan read back
    through the sanitiser at time `now`.
  */
  function LoadForSession(shared: PlanStorage.Shared, subject: string, grade: string, now: string): (r: seq<UnitPlan>)
    ensures var stored := PlanStorage.LoadLocal(shared, subject, grade);
      |r| == |stored| && forall i :: 0 <= i < |r| ==> r[i] == Sanitize.ReadStored(stored[i], subject, grade, now)
  {
    var stored := PlanStorage.LoadLocal(shared, subject, grade);
    seq(|stored|, i requires 0 <= i < |stored| => Sanitize.ReadStored(stored[i], subject, grade, now))
  }

  // ------------------------------------------------------------ effects

  /**
    The save effect as written: the list is stored only when there is a
    session and the list is not empty.
  */
  function Autosave(app: App): (r: App)
    ensures r.view == app.view && r.plans == app.plans && r.editing == app.editing && r.session == app.session
    ensures app.plans != [] ==> Synced(r)
    ensures app.plans == [] ==> r.shared == app.shared
  {
    if app.session.Some? && |app.plans| > 0 then app.(shared := SaveForSession(app, app.plans))
    else app
  }

  /** The save effect corrected: an emptied list is stored too, so the store follows every change. */
  function AutosaveCorrected(app: App): (r: App)
    ensures r.view == app.view && r.plans == app.plans && r.editing == app.editing && r.session == app.session
    ensures Synced(r)
  {
    if app.session.Some? then app.(shared := SaveForSession(app, app.plans))
    else app
  }

  // ------------------------------------------------------------ handlers

  /**
    `handleLogin`: the session is opened and the dashboard shown; the load
    effect then lists the plans stored for the session.  Login is only
    offered logged out, when the list is empty, so the save effect that runs
    beside the load sees nothing to write.  `now` is the time of the load.
  */
  function Login(app: App, subject: string, grade: string, now: string): (r: App)
    ensures r.view == DashboardView && r.session == Some(Session(subject, grade))
    ensures var stored := PlanStorage.LoadLocal(app.shared, subject, grade);
      |r.plans| == |stored| && forall i :: 0 <= i < |stored| ==> r.plans[i] == Sanitize.ReadStored(stored[i], subject, grade, now)
    ensures r.shared == app.shared && r.editing == app.editing
  {
    app.(view := DashboardView, session := Some(Session(subject, grade)),
         plans := LoadForSession(app.shared, subject, grade, now))
  }

  /** `handleLogout`: session and list cleared, back to the login screen; the store is kept. */
  function Logout(app: App): (r: App)
    ensures r.view == LoginView && r.session == None && r.plans == []
    ensures r.shared == app.shared
  {
    app.(view := LoginView, session := None, plans := [])
  }

  /**
    `handleCreateNew`: the editor opens on a blank plan read through the
    sanitiser (which gives it the identifier `now`), with no teacher and the
    session's subject and class.
  */
  function CreateNew(app: App, now: string): (r: App)
    ensures r.view == EditorView && r.editing.Some?
    ensures r.editing.value.id == now && r.editing.value.teacherName == ""
    ensures r.editing.value.subject == SessionSubject(app.session)
    ensures r.editing.value.gradeLevel == SessionGrade(app.session)
    ensures r.plans == app.plans && r.session == app.session && r.shared == app.shared
  {
    var blank := Sanitize.SanitizeUnitPlan(Json.JObj(map[]), SessionSubject(app.session), SessionGrade(app.session), now);
    assert Json.Get(Json.JObj(map[]), "id") == Json.JUndefined;
    Sanitize.IdDefault(Json.JObj(map[]), SessionSubject(app.session), SessionGrade(app.session), now);
    app.(view := EditorView,
         editing := Some(blank.value.(teacherName := "", subject := SessionSubject(app.session),
                                      gradeLevel := SessionGrade(app.session))))
  }

  /** `handleEdit`: the editor opens on the chosen plan. */
  function Edit(app: App, plan: UnitPlan): (r: App)
    ensures r.view == EditorView && r.editing == Some(plan)
    ensures r.plans == app.plans && r.session == app.session && r.shared == app.shared
  {
    app.(view := EditorView, editing := Some(plan))
  }

  /** `handleCancel`: back to the dashboard, nothing saved. */
  function Cancel(app: App): (r: App)
    ensures r.view == DashboardView
    ensures r.plans == app.plans && r.editing == app.editing && r.session == app.session && r.shared == app.shared
  {
    app.(view := DashboardView)
  }

  /** `handleDelete`: once confirmed, every plan with the identifier goes, the others stay in order. */
  function Delete(app: App, id: string, confirmed: bool): (r: App)
    ensures !confirmed ==> r == app
    ensures confirmed ==> r.plans == Seqs.Filter(app.plans, (p: UnitPlan) => p.id != id)
    ensures confirmed ==> forall p :: p in r.plans <==> p in app.plans && p.id != id
    ensures confirmed ==> |r.plans| == Seqs.CountIf(app.plans, (p: UnitPlan) => p.id != id)
    ensures r.view == app.view && r.session == app.session && r.shared == app.shared
  {
    if confirmed then
      Seqs.FilterLength(app.plans, (p: UnitPlan) => p.id != id);
      app.(plans := Seqs.Filter(app.plans, (p: UnitPlan) => p.id != id))
    else app
  }

  /** `planToSave`: an empty subject or class is taken from the session. */
  function Fill(plan: UnitPlan, session: Option<Session>): (t: UnitPlan)
    ensures t.id == plan.id
    ensures plan.subject != "" ==> t.subject == plan.subject
    ensures plan.subject == "" ==> t.subject == SessionSubject(session)
    ensures plan.gradeLevel != "" ==> t.gradeLevel == plan.gradeLevel
    ensures plan.gradeLevel == "" ==> t.gradeLevel == SessionGrade(session)
  {
    plan.(subject := if plan.subject != "" then plan.subject else SessionSubject(session),
          gradeLevel := if plan.gradeLevel != "" then plan.gradeLevel else SessionGrade(session))
  }

  /** `prev.map(p => p.id === t.id ? t : p)`. */
  function ReplaceById(plans: seq<UnitPlan>, t: UnitPlan): (r: seq<UnitPlan>)
    ensures |r| == |plans|
    ensures forall i :: 0 <= i < |r| ==> r[i] == (if plans[i].id == t.id then t else plans[i])
  {
    seq(|plans|, i requires 0 <= i < |plans| => if plans[i].id == t.id then t else plans[i])
  }

  /**
    Replacing by identifier lists the plan exactly when some plan already
    had its identifier, and keeps every plan with another identifier.
  */
  lemma ReplaceByIdLists(plans: seq<UnitPlan>, t: UnitPlan)
    ensures t in ReplaceById(plans, t) <==> exists i :: 0 <= i < |plans| && plans[i].id == t.id
    ensures forall q: UnitPlan :: q.id != t.id ==> (q in ReplaceById(plans, t) <==> q in plans)
  {
    var r := ReplaceById(plans, t);
    forall q: UnitPlan | q.id != t.id && q in plans
      ensures q in r
    {
      var i :| 0 <= i < |plans| && plans[i] == q;
      assert r[i] == q;
    }
    if t in r {
      var i :| 0 <= i < |r| && r[i] == t;
      assert plans[i].id == t.id;
    }
  }

  /**
    `handleSavePlan` as written: with an identified plan in the editor the
    list keeps its length and the plans with the saved identifier are
    replaced; otherwise the saved plan goes first.
  */
  function SavePlan(app: App, plan: UnitPlan): (r: App)
    ensures r.view == DashboardView && r.session == app.session && r.shared == app.shared
    ensures app.editing.Some? && app.editing.value.id != "" ==>
      r.plans == ReplaceById(app.plans, Fill(plan, app.session)) && |r.plans| == |app.plans|
    ensures !(app.editing.Some? && app.editing.value.id != "") ==>
      r.plans == [Fill(plan, app.session)] + app.plans
  {
    var t := Fill(plan, app.session);
    if app.editing.Some? && app.editing.value.id != "" then
      app.(plans := ReplaceById(app.plans, t), view := DashboardView)
    else
      app.(plans := [t] + app.plans, view := DashboardView)
  }

  /**
    `handleSavePlan` corrected: a plan already listed under its identifier
    is replaced, any other plan goes first, whatever the editor was opened on.
  */
  function SavePlanCorrected(app: App, plan: UnitPlan): (r: App)
    ensures r.view == DashboardView && r.session == app.session && r.shared == app.shared
    ensures Fill(plan, app.session) in r.plans
    ensures |r.plans| == |app.plans| || r.plans == [Fill(plan, app.session)] + app.plans
  {
    var t := Fill(plan, app.session);
    if exists i :: 0 <= i < |app.plans| && app.plans[i].id == t.id then
      ReplaceByIdLists(app.plans, t);
      app.(plans := ReplaceById(app.plans, t), view := DashboardView)
    else
      app.(plans := [t] + app.plans, view := DashboardView)
  }

  /** Every plan on the list signed with the session's subject and class. */
  function Sign(plans: seq<UnitPlan>, s: Session): (r: seq<UnitPlan>)
    ensures |r| == |plans|
    ensures forall i :: 0 <= i < |r| ==>
      r[i] == plans[i].(subject := s.subject, gradeLevel := s.grade)
  {
    seq(|plans|, i requires 0 <= i < |plans| => plans[i].(subject := s.subject, gradeLevel := s.grade))
  }

  /**
    `handleAddPlans`: nothing without a session, nor when plans are listed
    and the replacement is not confirmed; otherwise the generated plans,
    signed with the session, replace the whole list.
  */
  function AddPlans(app: App, newPlans: seq<UnitPlan>, confirmed: bool): (r: App)
    ensures app.session.None? || (app.plans != [] && !confirmed) ==> r == app
    ensures app.session.Some? && (app.plans == [] || confirmed) ==>
      |r.plans| == |newPlans|
      && forall i :: 0 <= i < |r.plans| ==>
           r.plans[i].id == newPlans[i].id && r.plans[i].title == newPlans[i].title
           && r.plans[i].subject == app.session.value.subject
           && r.plans[i].gradeLevel == app.session.value.grade
    ensures app.session.Some? && (app.plans == [] || confirmed) ==> r.plans == Sign(newPlans, app.session.value)
    ensures r.view == app.view && r.session == app.session && r.shared == app.shared
  {
    if app.session.None? then app
    else if |app.plans| > 0 && !confirmed then app
    else app.(plans := Sign(newPlans, app.session.value))
  }

  // ------------------------------------------------------------ the event loop

  datatype Event =
    | LoginEvent(subject: string, grade: string, now: string)
    | LogoutEvent
    | CreateNewEvent(now: string)
    | EditEvent(plan: UnitPlan)
    | CancelEvent
    | DeleteEvent(id: string, confirmed: bool)
    | SaveEvent(plan: UnitPlan)
    | AddPlansEvent(newPlans: seq<UnitPlan>, confirmed: bool)

  /** The handler an event calls, before the effects. */
  function Handle(app: App, e: Event): (r: App)
    ensures r.shared == app.shared
    ensures e.LogoutEvent? ==> r.session == None && r.plans == []
    ensures !e.LoginEvent? && !e.LogoutEvent? ==> r.session == app.session
    ensures e.LoginEvent? ==>
      r.session == Some(Session(e.subject, e.grade)) && r.plans == LoadForSession(app.shared, e.subject, e.grade, e.now)
    ensures e.DeleteEvent? && e.confirmed ==> r.plans == Seqs.Filter(app.plans, (p: UnitPlan) => p.id != e.id)
  {
    match e
    case LoginEvent(subject, grade, now) => Login(app, subject, grade, now)
    case LogoutEvent => Logout(app)
    case CreateNewEvent(now) => CreateNew(app, now)
    case EditEvent(plan) => Edit(app, plan)
    case CancelEvent => Cancel(app)
    case DeleteEvent(id, confirmed) => Delete(app, id, confirmed)
    case SaveEvent(plan) => SavePlan(app, plan)
    case AddPlansEvent(newPlans, confirmed) => AddPlans(app, newPlans, confirmed)
  }

  /** One event as written: the handler, then the save effect. */
  function Step(app: App, e: Event): (r: App)
    ensures r.plans == Handle(app, e).plans && r.session == Handle(app, e).session
    ensures r.plans != [] ==> Synced(r)
  {
    Autosave(Handle(app, e))
  }

  /** One event with the corrected save effect: the store always holds the session's list. */
  function StepCorrected(app: App, e: Event): (r: App)
    ensures r.plans == Handle(app, e).plans && r.session == Handle(app, e).session
    ensures Synced(r)
  {
    AutosaveCorrected(Handle(app, e))
  }

  // ------------------------------------------------------------ properties

  /** A deletion removes exactly the plans carrying the identifier, in order. */
  lemma {:induction false} DeleteRemovesExactly(plans: seq<UnitPlan>, id: string)
    ensures var r := Seqs.Filter(plans, (p: UnitPlan) => p.id != id);
      |r| == |plans| - Seqs.CountIf(plans, (p: UnitPlan) => p.id == id)
    decreases |plans|
  {
    if |plans| > 0 {
      DeleteRemovesExactly(plans[1..], id);
      Seqs.FilterLength(plans, (p: UnitPlan) => p.id != id);
      Seqs.FilterLength(plans[1..], (p: UnitPlan) => p.id != id);
    }
  }

  /** A login lists what the store holds for the session, each plan read back. */
  lemma LoginLists(a: App, s: Session, now: string)
    ensures var back := Step(a, LoginEvent(s.subject, s.grade, now));
      back.session == Some(s) && back.plans == LoadForSession(a.shared, s.subject, s.grade, now)
  {
  }

  /** A stored list read back: as many plans, each complete one stamped with the session, each non-empty identifier kept. */
  lemma ListReadBack(stored: seq<UnitPlan>, loaded: seq<UnitPlan>, s: Session, now: string)
    requires |loaded| == |stored| && forall i :: 0 <= i < |stored| ==> loaded[i] == Sanitize.ReadStored(stored[i], s.subject, s.grade, now)
    ensures forall i :: 0 <= i < |stored| && Sanitize.CompletePlan(stored[i]) ==> loaded[i] == Stamp(stored[i], s.subject, s.grade)
    ensures forall i :: 0 <= i < |stored| ==> loaded[i].id == (if stored[i].id != "" then stored[i].id else now)
  {
  }

  /**
    Plans added for a session come back after logging out and in again:
    as many as were added, each complete one exactly as signed, and each
    identifier kept unless it was empty.
  */
  lemma AddPlansSurviveLogout(app: App, newPlans: seq<UnitPlan>, confirmed: bool, now: string)
    requires app.session.Some? && (app.plans == [] || confirmed) && newPlans != []
    ensures var s := app.session.value;
      var back := Step(Step(Step(app, AddPlansEvent(newPlans, confirmed)), LogoutEvent), LoginEvent(s.subject, s.grade, now));
      && back.session == app.session
      && |back.plans| == |newPlans|
      && (forall i :: 0 <= i < |newPlans| && Sanitize.CompletePlan(newPlans[i]) ==> back.plans[i] == Sign(newPlans, s)[i])
      && (forall i :: 0 <= i < |newPlans| ==> back.plans[i].id == (if newPlans[i].id != "" then newPlans[i].id else now))
  {
    var s := app.session.value;
    var a1 := Step(app, AddPlansEvent(newPlans, confirmed));
    var a2 := Step(a1, LogoutEvent);
    var signed := Sign(newPlans, s);
    assert a1.plans == signed;
    assert PlanStorage.LoadLocal(a2.shared, s.subject, s.grade) == signed;
    LoginLists(a2, s, now);
    var back := Step(a2, LoginEvent(s.subject, s.grade, now));
    ListReadBack(signed, back.plans, s, now);
    SignedStamped(newPlans, s);
  }

  /** Signed plans are what stamping them with the same session gives, and signing keeps a plan complete. */
  lemma SignedStamped(plans: seq<UnitPlan>, s: Session)
    ensures forall i :: 0 <= i < |plans| ==> Stamp(Sign(plans, s)[i], s.subject, s.grade) == Sign(plans, s)[i]
    ensures forall i :: 0 <= i < |plans| ==> (Sanitize.CompletePlan(Sign(plans, s)[i]) <==> Sanitize.CompletePlan(plans[i]))
  {
  }

  /**
    As written, a plan opened through "new plan" and saved is never listed
    when no listed plan already has its identifier: the editor holds an
    identified plan, so the save takes the replacing branch and the list is
    left as it was.
  */
  lemma CreatedPlanIsLost(app: App, now: string, plan: UnitPlan)
    requires now != ""
    requires plan.id == now
    requires forall i :: 0 <= i < |app.plans| ==> app.plans[i].id != now
    ensures var r := SavePlan(CreateNew(app, now), plan);
      r.plans == app.plans && Fill(plan, app.session) !in r.plans
  {
    var created := CreateNew(app, now);
    assert created.editing.value.id == now && created.plans == app.plans;
    var t := Fill(plan, app.session);
    ReplaceByIdLists(app.plans, t);
    ReplaceByIdUnmatched(app.plans, t);
  }

  /** Replacing an identifier no plan carries leaves the list as it is. */
  lemma ReplaceByIdUnmatched(plans: seq<UnitPlan>, t: UnitPlan)
    requires forall i :: 0 <= i < |plans| ==> plans[i].id != t.id
    ensures ReplaceById(plans, t) == plans
  {
  }

  /** Corrected, the same plan is listed first and the other plans follow unchanged. */
  lemma CreatedPlanIsListed(app: App, now: string, plan: UnitPlan)
    requires plan.id == now
    requires forall i :: 0 <= i < |app.plans| ==> app.plans[i].id != now
    ensures SavePlanCorrected(CreateNew(app, now), plan).plans == [Fill(plan, app.session)] + app.plans
  {
  }

  /**
    As written, deleting the last listed plan leaves it in the store, and it
    is listed again, read back, at the next login.
  */
  lemma DeletedLastPlanReturns(app: App, p: UnitPlan, now: string)
    requires app.session.Some? && app.plans == [p] && Synced(app)
    ensures var s := app.session.value;
      var back := Step(Step(Step(app, DeleteEvent(p.id, true)), LogoutEvent), LoginEvent(s.subject, s.grade, now));
      && |back.plans| == 1
      && back.plans[0].id == (if p.id != "" then p.id else now)
      && (Sanitize.CompletePlan(p) ==> back.plans == [Stamp(p, s.subject, s.grade)])
  {
    var s := app.session.value;
    var a2 := Step(Step(app, DeleteEvent(p.id, true)), LogoutEvent);
    DeleteOnlyThenLogout(app, p);
    LoginLists(a2, s, now);
    var back := Step(a2, LoginEvent(s.subject, s.grade, now));
    ListReadBack([p], back.plans, s, now);
  }

  /** As written, deleting the only plan and logging out writes nothing to the store. */
  lemma DeleteOnlyThenLogout(app: App, p: UnitPlan)
    requires app.plans == [p]
    ensures Step(Step(app, DeleteEvent(p.id, true)), LogoutEvent).shared == app.shared
  {
    var a1 := Step(app, DeleteEvent(p.id, true));
    EmptyWhenNoneKept(app.plans, (q: UnitPlan) => q.id != p.id);
    assert a1.shared == app.shared;
  }

  /** A filter that keeps nothing gives the empty list. */
  lemma {:induction false} EmptyWhenNoneKept<T(!new)>(s: seq<T>, keep: T -> bool)
    requires forall x :: x in s ==> !keep(x)
    ensures Seqs.Filter(s, keep) == []
    decreases |s|
  {
    if |s| > 0 {
      assert s[0] in s;
      EmptyWhenNoneKept(s[1..], keep);
    }
  }

  /**
    Logging out and in again lists, read back, what a synced state listed:
    as many plans, each complete one as it was, stamped with the session.
  */
  lemma RelistAfterLogin(a: App, now: string)
    requires a.session.Some? && Synced(a)
    ensures var s := a.session.value;
      var back := StepCorrected(StepCorrected(a, LogoutEvent), LoginEvent(s.subject, s.grade, now));
      && back.plans == LoadForSession(a.shared, s.subject, s.grade, now)
      && |back.plans| == |a.plans|
      && forall i :: 0 <= i < |a.plans| && Sanitize.CompletePlan(a.plans[i]) ==>
           back.plans[i] == Stamp(a.plans[i], s.subject, s.grade)
  {
  }

  /** The identifiers of a list, in order. */
  function Ids(plans: seq<UnitPlan>): (ids: seq<string>)
    ensures |ids| == |plans| && forall i :: 0 <= i < |plans| ==> ids[i] == plans[i].id
  {
    seq(|plans|, i requires 0 <= i < |plans| => plans[i].id)
  }

  /**
    Reading a list back keeps every non-empty identifier in its place and
    gives an empty one the time of the read; a list whose plans all have
    identifiers keeps them all.
  */
  lemma LoadKeepsIds(shared: PlanStorage.Shared, subject: string, grade: string, now: string)
    ensures var stored := PlanStorage.LoadLocal(shared, subject, grade);
      var ids := Ids(LoadForSession(shared, subject, grade, now));
      && |ids| == |stored|
      && (forall i :: 0 <= i < |stored| ==> ids[i] == (if stored[i].id != "" then stored[i].id else now))
      && ((forall i :: 0 <= i < |stored| ==> stored[i].id != "") ==> ids == Ids(stored))
  {
  }

  /** After a confirmed deletion no listed plan carries the identifier. */
  lemma DeletedIdAbsent(plans: seq<UnitPlan>, id: string)
    ensures id !in Ids(Seqs.Filter(plans, (p: UnitPlan) => p.id != id))
  {
    var r := Seqs.Filter(plans, (p: UnitPlan) => p.id != id);
    forall i | 0 <= i < |r|
      ensures Ids(r)[i] != id
    {
      assert r[i] in r;
    }
  }

  /**
    Corrected, a deletion is stored, and the next login lists what was
    left: the same number of plans, with the same identifiers when they all
    had one, and never the deleted identifier unless it is the time of the
    read itself.
  */
  lemma DeletedPlanStaysDeleted(app: App, id: string, now: string)
    requires app.session.Some?
    ensures var s := app.session.value;
      var a1 := StepCorrected(app, DeleteEvent(id, true));
      var back := StepCorrected(StepCorrected(a1, LogoutEvent), LoginEvent(s.subject, s.grade, now));
      && |back.plans| == |a1.plans|
      && ((forall i :: 0 <= i < |a1.plans| ==> a1.plans[i].id != "") ==> Ids(back.plans) == Ids(a1.plans))
      && (id != now ==> id !in Ids(back.plans))
  {
    var s := app.session.value;
    var a1 := StepCorrected(app, DeleteEvent(id, true));
    var back := StepCorrected(StepCorrected(a1, LogoutEvent), LoginEvent(s.subject, s.grade, now));
    DeletedIdAbsent(app.plans, id);
    RelistAfterLogin(a1, now);
    LoadKeepsIds(a1.shared, s.subject, s.grade, now);
    IdsAfterRead(a1.plans, Ids(back.plans), id, now);
  }

  /** Identifiers read back are the stored ones, or the time of the read: any other absent identifier stays absent. */
  lemma IdsAfterRead(stored: seq<UnitPlan>, ids: seq<string>, id: string, now: string)
    requires |ids| == |stored|
    requires forall i :: 0 <= i < |stored| ==> ids[i] == (if stored[i].id != "" then stored[i].id else now)
    requires id !in Ids(stored)
    ensures id != now ==> id !in ids
  {
    if id != now {
      forall i | 0 <= i < |ids|
        ensures ids[i] != id
      {
        assert Ids(stored)[i] == stored[i].id;
      }
    }
  }
}

=== FILE: dashboard.dfy ===
/**
  The dashboard's list logic: the per-subject counts behind its chart, the
  subject filter and its choices, and the guard of bulk course generation.
  The course generator's answer is a parameter.
*/
module Dashboard {
  import opened Wrappers
  import opened Records
  import KeyedStore
  import Seqs
  import opened Strings
  import Json
  import PlanAi
  import AppState

  // --------------------------------------------------------------- counts

  const Unassigned: string := "Non assigné"

  /** The chart label of a plan: its subject, or "Non assigné" when it has none. */
  function Label(p: UnitPlan): (s: string)
    ensures s != ""
    ensures p.subject != "" ==> s == p.subject
  {
    if p.subject == "" then Unassigned else p.subject
  }

  /** Counts per label. */
  type Counts = KeyedStore.Store<nat>

  /** One more plan under a label. */
  function Bump(acc: Counts, name: string): (r: Counts)
    ensures KeyedStore.Get(r, name) == Some(KeyedStore.Count(acc, name) + 1)
    ensures forall k :: k != name ==> KeyedStore.Get(r, k) == KeyedStore.Get(acc, k)
    ensures KeyedStore.Valid(acc) ==> KeyedStore.Valid(r)
  {
    KeyedStore.Set(acc, name, KeyedStore.Count(acc, name) + 1)
  }

  /** Bumping a label raises the sum by one. */
  lemma BumpTotal(acc: Counts, name: string)
    ensures KeyedStore.Total(Bump(acc, name).entries) == KeyedStore.Total(acc.entries) + 1
  {
    KeyedStore.IncrementTotal(acc, name);
  }

  /** The number of items under a label. */
  function CountBy<T>(xs: seq<T>, lab: T -> string, name: string): nat {
    Seqs.CountIf(xs, x => lab(x) == name)
  }

  /** The number of plans under a label. */
  function CountLabel(plans: seq<UnitPlan>, name: string): nat {
    CountBy(plans, Label, name)
  }

  /** Items counted per label, first seen first: the reduce behind the chart. */
  function CountsBy<T>(xs: seq<T>, lab: T -> string): (r: Counts)
    ensures KeyedStore.Valid(r)
    ensures forall name :: KeyedStore.Count(r, name) == CountBy(xs, lab, name)
    ensures forall name :: KeyedStore.HasKey(r, name) <==> CountBy(xs, lab, name) > 0
    ensures KeyedStore.Total(r.entries) == |xs|
    decreases |xs|
  {
    if xs == [] then KeyedStore.Empty()
    else
      var front := xs[..|xs| - 1];
      var last := xs[|xs| - 1];
      var acc := CountsBy(front, lab);
      CountBySnoc(xs, front, last, lab);
      BumpTotal(acc, lab(last));
      Bump(acc, lab(last))
  }

  /** One more item at the end counts once more under its own label and nowhere else. */
  lemma CountBySnoc<T>(xs: seq<T>, front: seq<T>, last: T, lab: T -> string)
    requires xs == front + [last]
    ensures forall name :: CountBy(xs, lab, name) == CountBy(front, lab, name) + (if lab(last) == name then 1 else 0)
  {
    forall name ensures CountBy(xs, lab, name) == CountBy(front, lab, name) + (if lab(last) == name then 1 else 0) {
      Seqs.CountIfAppend(front, [last], x => lab(x) == name);
    }
  }

  /** `subjectData`: the plans counted per label, first seen first. */
  function SubjectCounts(plans: seq<UnitPlan>): (r: Counts)
    ensures KeyedStore.Valid(r)
    ensures forall name :: KeyedStore.Count(r, name) == CountLabel(plans, name)
    ensures forall name :: KeyedStore.HasKey(r, name) <==> CountLabel(plans, name) > 0
    ensures KeyedStore.Total(r.entries) == |plans|
  {
    CountsBy(plans, Label)
  }

  // ---------------------------------------------------------------- filter

  /** `filteredPlans`: all plans for an empty filter, otherwise those of the chosen subject. */
  function FilterPlans(plans: seq<UnitPlan>, subject: string): (r: seq<UnitPlan>)
    ensures subject == "" ==> r == plans
    ensures subject != "" ==> forall p :: p in r <==> p in plans && p.subject == subject
    ensures subject != "" ==> |r| == Seqs.CountIf(plans, (p: UnitPlan) => p.subject == subject)
  {
    if subject == "" then plans
    else
      Seqs.FilterLength(plans, (p: UnitPlan) => p.subject == subject);
      Seqs.Filter(plans, (p: UnitPlan) => p.subject == subject)
  }

  /** Filtering keeps the plans in their order: the plans of a subject are those of each part, part after part. */
  lemma FilterPlansAppend(a: seq<UnitPlan>, b: seq<UnitPlan>, subject: string)
    ensures FilterPlans(a + b, subject) == FilterPlans(a, subject) + FilterPlans(b, subject)
  {
    if subject != "" {
      Seqs.FilterAppend(a, b, (p: UnitPlan) => p.subject == subject);
    }
  }

  // ------------------------------------------------------- subject choices

  /** One new text put into a sorted list of distinct texts, before the first one later than it. */
  function InsertSorted(x: string, s: seq<string>): (r: seq<string>)
    requires Sorted(s) && Seqs.Distinct(s) && x !in s
    ensures Sorted(r) && Seqs.Distinct(r)
    ensures forall y :: y in r <==> y in s || y == x
    ensures |r| == |s| + 1 && (r[0] == x || (s != [] && r[0] == s[0]))
    decreases |s|
  {
    if s == [] || LexLe(x, s[0]) then
      [x] + s
    else
      LexTotal(x, s[0]);
      var rest := InsertSorted(x, s[1..]);
      assert s == [s[0]] + s[1..];
      assert s[0] !in rest;
      [s[0]] + rest
  }

  /** The texts of a duplicate-free list, sorted. */
  function SortTexts(s: seq<string>): (r: seq<string>)
    requires Seqs.Distinct(s)
    ensures Sorted(r) && Seqs.Distinct(r)
    ensures forall y :: y in r <==> y in s
    ensures |r| == |s|
    decreases |s|
  {
    if s == [] then []
    else
      assert s == [s[0]] + s[1..];
      InsertSorted(s[0], SortTexts(s[1..]))
  }

  /** The subjects of the plans, empty ones left out. */
  function Subjects(plans: seq<UnitPlan>): (r: seq<string>)
    ensures forall s :: s in r <==> s != "" && exists i :: 0 <= i < |plans| && plans[i].subject == s
  {
    var all := seq(|plans|, i requires 0 <= i < |plans| => plans[i].subject);
    SubjectListHas(plans, all);
    Seqs.Filter(all, s => s != "")
  }

  /** A text is among the listed subjects exactly when some plan has it as subject. */
  lemma SubjectListHas(plans: seq<UnitPlan>, all: seq<string>)
    requires |all| == |plans| && forall i :: 0 <= i < |plans| ==> all[i] == plans[i].subject
    ensures forall s :: s in all <==> exists i :: 0 <= i < |plans| && plans[i].subject == s
  {
    forall s | exists i :: 0 <= i < |plans| && plans[i].subject == s ensures s in all {
      var i :| 0 <= i < |plans| && plans[i].subject == s;
      assert all[i] == s;
    }
  }

  /** `uniqueSubjects`: every non-empty subject of the plans once, sorted. */
  function UniqueSubjects(plans: seq<UnitPlan>): (r: seq<string>)
    ensures Sorted(r) && Seqs.Distinct(r)
    ensures "" !in r
    ensures forall s :: s in r <==> s != "" && exists i :: 0 <= i < |plans| && plans[i].subject == s
  {
    SortTexts(Seqs.Dedup(Subjects(plans)))
  }

  /** Picking one of the offered subjects shows at least one plan. */
  lemma OfferedSubjectShowsPlans(plans: seq<UnitPlan>, subject: string)
    requires subject in UniqueSubjects(plans)
    ensures FilterPlans(plans, subject) != []
  {
    var i :| 0 <= i < |plans| && plans[i].subject == subject;
    assert plans[i] in FilterPlans(plans, subject);
  }

  // ------------------------------------------------------- bulk generation

  /** The bulk-generation dialog. */
  datatype BulkForm = BulkForm(open: bool, subject: string, grade: string, chapters: string)

  /**
    `handleBulkGenerate`: without subject, grade and chapters nothing
    happens and the generator is not asked (`None` as the second part).
    Otherwise the generator's plans are handed on when there are any
    (the third part), closing the dialog and clearing the chapters.
  */
  function BulkGenerate(form: BulkForm, generated: Result<seq<UnitPlan>>): (r: (BulkForm, bool, Option<seq<UnitPlan>>))
    ensures r.1 <==> form.subject != "" && form.grade != "" && form.chapters != ""
    ensures !r.1 ==> r.0 == form && r.2.None?
    ensures r.2.Some? <==> r.1 && generated.Success? && generated.value != []
    ensures r.2.Some? ==> r.2.value == generated.value && r.0 == form.(open := false, chapters := "")
    ensures r.2.None? ==> r.0 == form
  {
    if form.subject == "" || form.grade == "" || form.chapters == "" then (form, false, None)
    else if generated.Success? && generated.value != [] then (form.(open := false, chapters := ""), true, Some(generated.value))
    else (form, true, None)
  }

  /**
    The dialog fed by the course generator and handing its plans to
    `handleAddPlans`: when the application takes them, the list becomes the
    course, one plan per unit, under distinct positional identifiers and
    signed with the session; when the dialog hands nothing on, the
    application is as it was.
  */
  lemma CourseListed(plans: seq<UnitPlan>, now: string, app: AppState.App, confirmed: bool)
    requires forall i :: 0 <= i < |plans| ==> plans[i].id == PlanAi.CourseId(now, i)
    requires app.session.Some? && (app.plans == [] || confirmed)
    ensures var after := AppState.AddPlans(app, plans, confirmed);
      && |after.plans| == |plans|
      && (forall i :: 0 <= i < |after.plans| ==>
            && after.plans[i].id == PlanAi.CourseId(now, i)
            && after.plans[i].subject == app.session.value.subject
            && after.plans[i].gradeLevel == app.session.value.grade)
      && (forall i, j :: 0 <= i < j < |after.plans| ==> after.plans[i].id != after.plans[j].id)
  {
    var after := AppState.AddPlans(app, plans, confirmed);
    forall i, j | 0 <= i < j < |after.plans| ensures after.plans[i].id != after.plans[j].id {
      PlanAi.CourseIdsDistinct(now, i, j);
    }
  }

  lemma BulkCourseIsListed(form: BulkForm, apiKey: string, reply: Result<string>,
                           parses: string -> bool, decode: string -> Json.JsonValue, now: string,
                           app: AppState.App, confirmed: bool)
    ensures var generated := PlanAi.GenerateCourseFromChapters(form.subject, form.grade, apiKey, reply, parses, decode, now);
      var handed := BulkGenerate(form, generated).2;
      var after := if handed.Some? then AppState.AddPlans(app, handed.value, confirmed) else app;
      && (handed.None? ==> after == app)
      && (handed.Some? && app.session.Some? && (app.plans == [] || confirmed) ==>
            && |after.plans| == |generated.value| > 0
            && (forall i :: 0 <= i < |after.plans| ==>
                  && after.plans[i].id == PlanAi.CourseId(now, i)
                  && after.plans[i].subject == app.session.value.subject
                  && after.plans[i].gradeLevel == app.session.value.grade)
            && (forall i, j :: 0 <= i < j < |after.plans| ==> after.plans[i].id != after.plans[j].id))
  {
    var generated := PlanAi.GenerateCourseFromChapters(form.subject, form.grade, apiKey, reply, parses, decode, now);
    var handed := BulkGenerate(form, generated).2;
    if handed.Some? && app.session.Some? && (app.plans == [] || confirmed) {
      assert handed.value == generated.value;
      CourseListed(handed.value, now, app, confirmed);
    }
  }
}

=== FILE: exam_ai.dfy ===
/**
  The exam generator of `services/examGeminiService.ts`: which AI provider
  answers, how the grade and subject steer the request, and how the reply is
  turned into an `Exam` whose question points add up to the announced total.
  The AI call itself is the parameter `ask`; `JSON.parse` is `parses` and
  the reading of the parsed document is `decode`.
*/
module ExamAi {
  import opened Wrappers
  import opened Strings
  import opened Records
  import JsonExtract

  // ---------------------------------------------------------------- provider

  /** The three environment variables; an unset variable is `""`. */
  datatype ApiKeys = ApiKeys(groq: string, gemini: string, apiKey: string)

  datatype Provider = Groq | Gemini

  /** `GEMINI_API_KEY || API_KEY`. */
  function GeminiKey(keys: ApiKeys): string {
    if keys.gemini != "" then keys.gemini else keys.apiKey
  }

  const NoKeyError: string := "⚠️ Aucune clé API disponible. Configurez GROQ_API_KEY ou GEMINI_API_KEY."
  const NoGeminiKeyError: string := "⚠️ GEMINI_API_KEY non définie. Veuillez configurer la clé API dans les variables d'environnement."
  const NoGroqKeyError: string := "⚠️ GROQ_API_KEY non définie."

  /** `getAIProvider`: Groq first, Gemini as the fallback, an error with neither. */
  function GetAIProvider(keys: ApiKeys): (r: Result<Provider>)
    ensures r == Success(Groq) <==> keys.groq != ""
    ensures r == Success(Gemini) <==> keys.groq == "" && (keys.gemini != "" || keys.apiKey != "")
    ensures r.Failure? <==> keys.groq == "" && keys.gemini == "" && keys.apiKey == ""
  {
    if keys.groq != "" then Success(Groq)
    else if GeminiKey(keys) != "" then Success(Gemini)
    else Failure(NoKeyError)
  }

  /** `getClient`: the Gemini client is built from the key it found. */
  function GetClient(keys: ApiKeys): (r: Result<string>)
    ensures r.Success? <==> keys.gemini != "" || keys.apiKey != ""
    ensures r.Success? ==> r.value != "" && (r.value == keys.gemini || r.value == keys.apiKey)
  {
    var k := GeminiKey(keys);
    if k == "" then Failure(NoGeminiKeyError) else Success(k)
  }

  /** `getGroqClient`. */
  function GetGroqClient(keys: ApiKeys): (r: Result<string>)
    ensures r.Success? <==> keys.groq != ""
    ensures r.Success? ==> r.value == keys.groq
  {
    if keys.groq == "" then Failure(NoGroqKeyError) else Success(keys.groq)
  }

  /** The client of the chosen provider can always be built: the choice never picks a provider without a key. */
  lemma ProviderHasClient(keys: ApiKeys)
    ensures GetAIProvider(keys) == Success(Groq) ==> GetGroqClient(keys).Success?
    ensures GetAIProvider(keys) == Success(Gemini) ==> GetClient(keys).Success?
    ensures GetAIProvider(keys).Failure? ==> GetClient(keys).Failure? && GetGroqClient(keys).Failure?
  {
  }

  // ---------------------------------------------------------------- grade and subject

  /** `getExamStyle`. */
  function ExamStyleOf(g: ExamGrade): (s: ExamStyle)
    ensures s == Brevet <==> g == Troisieme
    ensures s == Bac <==> g == Premiere || g == Terminale
    ensures s == Standard <==> g.Sixieme? || g.Cinquieme? || g.Quatrieme? || g.Seconde?
  {
    if g == Troisieme then Brevet
    else if g == Premiere || g == Terminale then Bac
    else Standard
  }

  /** `needsComprehensionText`: a language or literature subject. */
  predicate NeedsComprehensionText(subject: string) {
    var n := ToLower(subject);
    Contains(n, "français") || Contains(n, "anglais") || Contains(n, "langue") || Contains(n, "littérature")
  }

  /** `needsGraphResource`: a mathematics or science subject. */
  predicate NeedsGraphResource(subject: string) {
    var n := ToLower(subject);
    Contains(n, "math") || Contains(n, "physique") || Contains(n, "chimie") || Contains(n, "svt") || Contains(n, "sciences")
  }

  /** `isEnglishExam`: the exam is to be written in English. */
  predicate IsEnglishExam(subject: string) {
    var n := ToLower(subject);
    || Contains(n, "anglais") || n == "english"
    || Contains(n, "acquisition de langues") || Contains(n, "acquisition de langue")
    || Contains(n, "language acquisition")
  }

  /**
    An exam to be written in English comes with a comprehension text unless
    its subject is spelled in English ("english", "language acquisition"):
    every French spelling that selects English also selects the text.
  */
  lemma EnglishExamNeedsText(subject: string)
    requires IsEnglishExam(subject)
    ensures || NeedsComprehensionText(subject)
            || ToLower(subject) == "english"
            || Contains(ToLower(subject), "language acquisition")
  {
    var n := ToLower(subject);
    if Contains(n, "acquisition de langues") {
      assert "acquisition de langues"[15..21] == "langue";
      ContainsAt("acquisition de langues", "langue", 15);
      ContainsTransitive(n, "acquisition de langues", "langue");
    } else if Contains(n, "acquisition de langue") {
      assert "acquisition de langue"[15..21] == "langue";
      ContainsAt("acquisition de langue", "langue", 15);
      ContainsTransitive(n, "acquisition de langue", "langue");
    }
  }

  /** The exam type the configuration names, `'Examen'` when it names none. */
  function ExamTypeOf(examType: string): (t: string)
    ensures t != ""
    ensures examType != "" ==> t == examType
  {
    if examType == "" then "Examen" else examType
  }

  const Evaluation: string := "Évaluation"

  /** The announced total: 20 points for an evaluation in sixième, 30 otherwise. */
  function ExpectedTotal(examType: string, g: ExamGrade): (t: int)
    ensures t == 20 <==> ExamTypeOf(examType) == Evaluation && g == Sixieme
    ensures t == 20 || t == 30
  {
    if ExamTypeOf(examType) == Evaluation then (if g == Sixieme then 20 else 30) else 30
  }

  // ---------------------------------------------------------------- points

  /** `questions.reduce((sum, q) => sum + (q.points || 0), 0)`. */
  function SumPoints(qs: seq<ExamQuestion>): int
    decreases |qs|
  {
    if |qs| == 0 then 0 else SumPoints(qs[..|qs| - 1]) + qs[|qs| - 1].points
  }

  lemma {:induction false} SumPointsAppend(a: seq<ExamQuestion>, b: seq<ExamQuestion>)
    ensures SumPoints(a + b) == SumPoints(a) + SumPoints(b)
    decreases |b|
  {
    if |b| == 0 {
      assert a + b == a;
    } else {
      assert (a + b)[..|a + b| - 1] == a + b[..|b| - 1];
      SumPointsAppend(a, b[..|b| - 1]);
    }
  }

  /** The first repair: a question worth nothing is given 2 points, the others are kept. */
  function ZeroFix(qs: seq<ExamQuestion>): (r: seq<ExamQuestion>)
    ensures |r| == |qs|
    ensures forall i :: 0 <= i < |qs| ==> r[i] == (if qs[i].points == 0 then qs[i].(points := 2) else qs[i])
  {
    seq(|qs|, i requires 0 <= i < |qs| => if qs[i].points == 0 then qs[i].(points := 2) else qs[i])
  }

  /** After the first repair no question is worth nothing, and repairing again changes nothing. */
  lemma ZeroFixNoZero(qs: seq<ExamQuestion>)
    ensures forall i :: 0 <= i < |qs| ==> ZeroFix(qs)[i].points != 0
    ensures ZeroFix(ZeroFix(qs)) == ZeroFix(qs)
  {
  }

  /** The number of questions worth nothing. */
  function ZeroCount(qs: seq<ExamQuestion>): (c: nat)
    ensures c <= |qs|
    decreases |qs|
  {
    if |qs| == 0 then 0 else ZeroCount(qs[..|qs| - 1]) + (if qs[|qs| - 1].points == 0 then 1 else 0)
  }

  /** The first repair adds 2 points for every question that was worth nothing. */
  lemma {:induction false} ZeroFixSum(qs: seq<ExamQuestion>)
    ensures SumPoints(ZeroFix(qs)) == SumPoints(qs) + 2 * ZeroCount(qs)
    decreases |qs|
  {
    if |qs| > 0 {
      var front := qs[..|qs| - 1];
      assert ZeroFix(qs)[..|qs| - 1] == ZeroFix(front);
      ZeroFixSum(front);
    }
  }

  /** Every question gets `adj` more points, and the first `k` one point more. */
  function Spread(qs: seq<ExamQuestion>, adj: int, k: int): (r: seq<ExamQuestion>)
    ensures |r| == |qs|
    ensures forall i :: 0 <= i < |qs| ==> r[i] == qs[i].(points := qs[i].points + adj + (if i < k then 1 else 0))
  {
    seq(|qs|, i requires 0 <= i < |qs| => qs[i].(points := qs[i].points + adj + (if i < k then 1 else 0)))
  }

  /** `k` brought into `0..n`: how many of `n` indices lie below `k`. */
  function Below(k: int, n: nat): (c: nat)
    ensures c <= n
  {
    if k <= 0 then 0 else if k >= n then n else k
  }

  /** What spreading does to the total: `adj` per question plus one per index below `k`. */
  lemma {:induction false} SpreadSum(qs: seq<ExamQuestion>, adj: int, k: int)
    ensures SumPoints(Spread(qs, adj, k)) == SumPoints(qs) + |qs| * adj + Below(k, |qs|)
    decreases |qs|
  {
    if |qs| > 0 {
      var front := qs[..|qs| - 1];
      assert Spread(qs, adj, k)[..|qs| - 1] == Spread(front, adj, k);
      SpreadSum(front, adj, k);
    }
  }

  /** JavaScript's `a % n` for `n > 0`: the remainder takes the sign of `a`. */
  function JsRem(a: int, n: int): (r: int)
    requires n > 0
    ensures a >= 0 ==> r == a % n
    ensures a < 0 ==> -n < r <= 0
    ensures r == 0 <==> a % n == 0
  {
    if a >= 0 then a % n
    else
      NegatedRemainder(a, n);
      -((-a) % n)
  }

  /** The Euclidean remainder of `-a` in terms of that of `a`. */
  lemma NegatedRemainder(a: int, n: int)
    requires n > 0
    ensures (-a) % n == 0 <==> a % n == 0
  {
    var q, m := a / n, a % n;
    assert a == n * q + m;
    if m == 0 {
      assert -a == n * (-q);
      ModOfMultiple(-a, n, -q);
    } else {
      assert -a == n * (-q - 1) + (n - m);
      ModUnique(-a, n, -q - 1, n - m);
    }
  }

  lemma ModOfMultiple(x: int, n: int, q: int)
    requires n > 0 && x == n * q
    ensures x % n == 0
  {
    ModUnique(x, n, q, 0);
  }

  /** The remainder is the one `m` in `0..n-1` with `x == n * q + m`. */
  lemma ModUnique(x: int, n: int, q: int, m: int)
    requires n > 0 && 0 <= m < n && x == n * q + m
    ensures x % n == m
  {
    var q', m' := x / n, x % n;
    var d := q - q';
    assert n * q - n * q' == n * d;
    if d >= 1 {
      MulAtLeast(n, d);
    } else if d <= -1 {
      MulAtLeast(n, -d);
    }
  }

  lemma {:induction false} MulAtLeast(n: int, d: int)
    requires n > 0 && d >= 1
    ensures n * d >= n
    decreases d
  {
    if d > 1 {
      MulAtLeast(n, d - 1);
      assert n * d == n * (d - 1) + n;
    }
  }

  /**
    The second repair as the source writes it: the difference to the target is
    spread with `Math.floor(diff / n)` per question and one more point for the
    first `diff % n`, with JavaScript's `%`.  With no question there is nothing
    to spread.
  */
  function RepairAsWritten(qs: seq<ExamQuestion>, expected: int): (r: seq<ExamQuestion>)
    ensures |r| == |qs|
  {
    var total := SumPoints(qs);
    if total == expected || |qs| == 0 then qs
    else
      var diff := expected - total;
      Spread(qs, diff / |qs|, JsRem(diff, |qs|))
  }

  /**
    The second repair with the remainder taken in `0..n-1`, which is what
    spreading one extra point over the first questions needs.
  */
  function RepairPoints(qs: seq<ExamQuestion>, expected: int): (r: seq<ExamQuestion>)
    ensures |r| == |qs|
    ensures SumPoints(qs) == expected ==> r == qs
  {
    var total := SumPoints(qs);
    if total == expected || |qs| == 0 then qs
    else
      var diff := expected - total;
      Spread(qs, diff / |qs|, diff % |qs|)
  }

  /** The repaired questions add up to the target whenever there is a question. */
  lemma RepairReachesTotal(qs: seq<ExamQuestion>, expected: int)
    requires |qs| > 0
    ensures SumPoints(RepairPoints(qs, expected)) == expected
  {
    var total := SumPoints(qs);
    if total != expected {
      var diff := expected - total;
      SpreadSum(qs, diff / |qs|, diff % |qs|);
    }
  }

  /** Each question moves by the even share of the difference, give or take one point. */
  lemma RepairIsEven(qs: seq<ExamQuestion>, expected: int, i: int)
    requires 0 <= i < |qs|
    ensures var d := RepairPoints(qs, expected)[i].points - qs[i].points;
      SumPoints(qs) == expected || d == (expected - SumPoints(qs)) / |qs| || d == (expected - SumPoints(qs)) / |qs| + 1
  {
  }

  /**
    The source's repair reaches the target when the total falls short or the
    difference divides evenly; when the total overshoots by an amount that
    does not divide, it ends below the target by the Euclidean remainder.
  */
  lemma RepairAsWrittenTotal(qs: seq<ExamQuestion>, expected: int)
    requires |qs| > 0
    ensures var diff := expected - SumPoints(qs);
      var s := SumPoints(RepairAsWritten(qs, expected));
      && (diff >= 0 || diff % |qs| == 0 ==> s == expected)
      && (diff < 0 && diff % |qs| != 0 ==> s == expected - diff % |qs| && s < expected)
  {
    var total := SumPoints(qs);
    var n := |qs|;
    var s := SumPoints(RepairAsWritten(qs, expected));
    if total != expected {
      var diff := expected - total;
      var k := JsRem(diff, n);
      var adj := diff / n;
      assert RepairAsWritten(qs, expected) == Spread(qs, adj, k);
      var spread := n * adj;
      SpreadSum(qs, adj, k);
      SpreadByRemainder(total, expected, n, k, spread, s);
    }
  }

  /**
    What spreading `diff / n` per question and one more below `k` adds up to,
    for the two remainders; `spread` is the even part and `s` the total reached.
  */
  lemma SpreadByRemainder(total: int, expected: int, n: int, k: int, spread: int, s: int)
    requires n > 0 && k == JsRem(expected - total, n)
    requires spread == n * ((expected - total) / n)
    requires s == total + spread + Below(k, n)
    ensures var diff := expected - total;
      && (diff >= 0 || diff % n == 0 ==> s == expected)
      && (diff < 0 && diff % n != 0 ==> s == expected - diff % n && s < expected)
  {
    var diff := expected - total;
    assert diff == n * (diff / n) + diff % n;
  }

  /** Four questions worth 8, 8, 8 and 9 against a target of 30 come out worth 7, 7, 7 and 8: 29 points. */
  lemma RepairAsWrittenUndershoots(q: ExamQuestion)
    ensures var qs := [q.(points := 8), q.(points := 8), q.(points := 8), q.(points := 9)];
      SumPoints(qs) == 33 && SumPoints(RepairAsWritten(qs, 30)) == 29 && SumPoints(RepairPoints(qs, 30)) == 30
  {
    var a, b := q.(points := 8), q.(points := 9);
    var s1 := [a];
    assert s1[..0] == [];
    assert SumPoints(s1) == 8;
    var s2 := s1 + [a];
    assert s2[..1] == s1;
    assert SumPoints(s2) == 16;
    var s3 := s2 + [a];
    assert s3[..2] == s2;
    assert SumPoints(s3) == 24;
    var qs := s3 + [b];
    assert qs[..3] == s3;
    assert SumPoints(qs) == 33;
    assert qs == [a, a, a, b];
    RepairAsWrittenTotal(qs, 30);
    RepairReachesTotal(qs, 30);
  }

  /** The source's repair and the corrected one agree whenever the total falls short. */
  lemma RepairAgreesWhenShort(qs: seq<ExamQuestion>, expected: int)
    requires SumPoints(qs) <= expected
    ensures RepairAsWritten(qs, expected) == RepairPoints(qs, expected)
  {
  }

  // ---------------------------------------------------------------- the exam

  /** `ExamGenerationConfig`; an absent optional text is `""`. */
  datatype ExamConfig = ExamConfig(
    subject: string,
    grade: ExamGrade,
    semester: string,
    chapters: string,
    teacherName: string,
    className: string,
    examType: string)

  /** The fields of the parsed reply the generator reads; a missing one is `""` or `[]`. */
  datatype AiExam = AiExam(duration: string, title: string, difficulty: string, questions: seq<ExamQuestion>)

  const NoGroqReply: string := "Pas de réponse de GROQ AI"
  const NoGeminiReply: string := "Pas de réponse de Gemini"
  const InvalidJson: string := "JSON invalide retourné par l'IA"
  const MissingSubject: string := "Le paramètre subject est obligatoire pour générer un examen"
  const FailurePrefix: string := "Échec de génération: "
  const UnknownFailure: string := "Erreur inconnue"

  /** The exam built from the configuration and the parsed reply, before any repair of its points. */
  function BuildExam(config: ExamConfig, parsed: AiExam, now: int): (e: Exam)
    ensures e.subject == config.subject && e.grade == config.grade && e.semester == config.semester
    ensures e.chapters == config.chapters && e.teacherName == config.teacherName
    ensures e.totalPoints == ExpectedTotal(config.examType, config.grade)
    ensures e.resources == [] && e.style == ExamStyleOf(config.grade)
    ensures e.className == (if config.className != "" then config.className else GradeValue(config.grade))
    ensures parsed.duration != "" ==> e.duration == parsed.duration
    ensures parsed.duration == "" ==> e.duration == (if ExamTypeOf(config.examType) == Evaluation then "40 min" else "2H")
    ensures parsed.title != "" ==> e.title == parsed.title
    ensures parsed.title == "" ==> e.title == ExamTypeOf(config.examType) + " de " + config.subject
    ensures e.difficulty == (if parsed.difficulty != "" then parsed.difficulty else "Difficile")
    ensures e.questions == parsed.questions && e.createdAt == now && e.updatedAt == now
  {
    var examType := ExamTypeOf(config.examType);
    var isEvaluation := examType == Evaluation;
    Exam(
      id := IntToString(now),
      subject := config.subject,
      grade := config.grade,
      semester := config.semester,
      teacherName := config.teacherName,
      className := if config.className != "" then config.className else GradeValue(config.grade),
      duration := if parsed.duration != "" then parsed.duration else if isEvaluation then "40 min" else "2H",
      totalPoints := ExpectedTotal(config.examType, config.grade),
      title := if parsed.title != "" then parsed.title else examType + " de " + config.subject,
      questions := parsed.questions,
      resources := [],
      difficulty := if parsed.difficulty != "" then parsed.difficulty else "Difficile",
      style := ExamStyleOf(config.grade),
      chapters := config.chapters,
      createdAt := now,
      updatedAt := now,
      date := "")
  }

  /** The reply text for a provider, `""` when it had none, or the error the call raised. */
  type Ask = Provider -> Result<string>

  /** The parsed reply the provider's answer gives, once cut out of the text. */
  function Parsed(keys: ApiKeys, ask: Ask, parses: string -> bool, decode: string -> AiExam): AiExam
    requires GetAIProvider(keys).Success? && ask(GetAIProvider(keys).value).Success?
  {
    decode(JsonExtract.CleanJsonText(ask(GetAIProvider(keys).value).value, parses))
  }

  /**
    `generateExam`: choose the provider, ask it, cut the JSON out of its reply,
    build the exam, give worthless questions 2 points and spread what is
    missing from the announced total with JavaScript's `%`.  Every error
    comes back prefixed with "Échec de génération: ", and one without a
    message as "Erreur inconnue".
  */
  function GenerateExam(config: ExamConfig, keys: ApiKeys, ask: Ask,
                        parses: string -> bool, decode: string -> AiExam, now: int): (r: Result<Exam>)
    ensures GetAIProvider(keys).Failure? ==> r == Failure(FailurePrefix + NoKeyError)
    ensures r.Failure? ==> StartsWith(r.error, FailurePrefix) && |r.error| > |FailurePrefix|
    ensures var g := Generate(config, keys, ask, parses, decode, now);
      g.Failure? ==> r == Failure(FailurePrefix + MessageOr(g.error, UnknownFailure))
    ensures r.Success? ==> r == Generate(config, keys, ask, parses, decode, now)
    ensures r.Success? ==>
      && config.subject != ""
      && GetAIProvider(keys).Success?
      && ask(GetAIProvider(keys).value).Success?
      && r.value.subject == config.subject
      && r.value.totalPoints == ExpectedTotal(config.examType, config.grade)
      && |r.value.questions| == |Parsed(keys, ask, parses, decode).questions|
      && (|r.value.questions| > 0 ==>
            SumPoints(r.value.questions) <= r.value.totalPoints
            && r.value.totalPoints - SumPoints(r.value.questions) < |r.value.questions|)
  {
    var outcome := Generate(config, keys, ask, parses, decode, now);
    if outcome.Failure? then
      var message := FailurePrefix + MessageOr(outcome.error, UnknownFailure);
      assert StartsWith(message, FailurePrefix);
      Failure(message)
    else
      outcome
  }

  /** A provider failing with an empty message is reported as an unknown error. */
  lemma EmptyErrorIsUnknown(config: ExamConfig, parses: string -> bool, decode: string -> AiExam, now: int)
    ensures GenerateExam(config, ApiKeys("", "k", ""), p => Failure(""), parses, decode, now)
      == Failure("Échec de génération: Erreur inconnue")
  {
    var keys := ApiKeys("", "k", "");
    var ask: Ask := p => Failure("");
    assert GetAIProvider(keys) == Success(Gemini);
    assert Draft(config, keys, ask, parses, decode, now) == Failure("");
  }

  /**
    The `try` block of `generateExam` up to the second repair: the exam built
    from the reply, with every worthless question raised to 2 points.
  */
  function Draft(config: ExamConfig, keys: ApiKeys, ask: Ask,
                 parses: string -> bool, decode: string -> AiExam, now: int): (r: Result<Exam>)
    ensures GetAIProvider(keys).Failure? ==> r == Failure(NoKeyError)
    ensures r.Success? ==>
      && config.subject != ""
      && GetAIProvider(keys).Success?
      && ask(GetAIProvider(keys).value).Success?
      && r.value.subject == config.subject
      && r.value.totalPoints == ExpectedTotal(config.examType, config.grade)
      && r.value.resources == []
      && r.value.style == ExamStyleOf(config.grade)
      && r.value.questions == ZeroFix(Parsed(keys, ask, parses, decode).questions)
  {
    var provider :- GetAIProvider(keys);
    var _ :- if provider == Groq then GetGroqClient(keys) else GetClient(keys);
    var text :- ask(provider);
    if text == "" then Failure(if provider == Groq then NoGroqReply else NoGeminiReply)
    else
      var cleaned := JsonExtract.CleanJsonText(text, parses);
      if cleaned == JsonExtract.EmptyDocument then Failure(InvalidJson)
      else if config.subject == "" then Failure(MissingSubject)
      else
        var exam := BuildExam(config, decode(cleaned), now);
        Success(exam.(questions := ZeroFix(exam.questions)))
  }

  /**
    The body of the `try` block of `generateExam`, as written.  The repaired
    questions never exceed the announced total, fall short of it by less
    than one point per question, and reach it whenever the reply's points
    (after the first repair) did not already exceed it.
  */
  function Generate(config: ExamConfig, keys: ApiKeys, ask: Ask,
                    parses: string -> bool, decode: string -> AiExam, now: int): (r: Result<Exam>)
    ensures GetAIProvider(keys).Failure? ==> r == Failure(NoKeyError)
    ensures r.Success? ==>
      && config.subject != ""
      && GetAIProvider(keys).Success?
      && ask(GetAIProvider(keys).value).Success?
      && r.value.subject == config.subject
      && r.value.totalPoints == ExpectedTotal(config.examType, config.grade)
      && r.value.resources == []
      && r.value.style == ExamStyleOf(config.grade)
      && |r.value.questions| == |Parsed(keys, ask, parses, decode).questions|
      && (|r.value.questions| > 0 ==>
            SumPoints(r.value.questions) <= r.value.totalPoints
            && r.value.totalPoints - SumPoints(r.value.questions) < |r.value.questions|)
      && (|r.value.questions| > 0 && SumPoints(ZeroFix(Parsed(keys, ask, parses, decode).questions)) <= r.value.totalPoints ==>
            SumPoints(r.value.questions) == r.value.totalPoints)
  {
    var exam :- Draft(config, keys, ask, parses, decode, now);
    var repaired := RepairAsWritten(exam.questions, exam.totalPoints);
    assert |repaired| > 0 ==>
      SumPoints(repaired) <= exam.totalPoints && exam.totalPoints - SumPoints(repaired) < |repaired|
      && (SumPoints(exam.questions) <= exam.totalPoints ==> SumPoints(repaired) == exam.totalPoints) by {
      if |repaired| > 0 {
        RepairAsWrittenTotal(exam.questions, exam.totalPoints);
      }
    }
    Success(exam.(questions := repaired))
  }

  /** The body of the `try` block with the corrected repair: the points always add up to the total. */
  function GenerateCorrected(config: ExamConfig, keys: ApiKeys, ask: Ask,
                             parses: string -> bool, decode: string -> AiExam, now: int): (r: Result<Exam>)
    ensures GetAIProvider(keys).Failure? ==> r == Failure(NoKeyError)
    ensures r.Success? ==>
      && config.subject != ""
      && GetAIProvider(keys).Success?
      && ask(GetAIProvider(keys).value).Success?
      && r.value.subject == config.subject
      && r.value.totalPoints == ExpectedTotal(config.examType, config.grade)
      && |r.value.questions| == |Parsed(keys, ask, parses, decode).questions|
      && (|r.value.questions| > 0 ==> SumPoints(r.value.questions) == r.value.totalPoints)
  {
    var exam :- Draft(config, keys, ask, parses, decode, now);
    var repaired := RepairPoints(exam.questions, exam.totalPoints);
    assert |repaired| > 0 ==> SumPoints(repaired) == exam.totalPoints by {
      if |repaired| > 0 {
        RepairReachesTotal(exam.questions, exam.totalPoints);
      }
    }
    Success(exam.(questions := repaired))
  }

  /**
    The generator as written and the corrected one fail alike, and give the
    same exam whenever the reply's points do not exceed the announced total.
  */
  lemma GenerateAgreesUnlessOver(config: ExamConfig, keys: ApiKeys, ask: Ask,
                                 parses: string -> bool, decode: string -> AiExam, now: int)
    ensures var w := Generate(config, keys, ask, parses, decode, now);
      var c := GenerateCorrected(config, keys, ask, parses, decode, now);
      && (w.Failure? <==> c.Failure?)
      && (w.Failure? ==> w == c)
      && (w.Success? && SumPoints(ZeroFix(Parsed(keys, ask, parses, decode).questions)) <= w.value.totalPoints ==> w == c)
  {
    var d := Draft(config, keys, ask, parses, decode, now);
    var w := Generate(config, keys, ask, parses, decode, now);
    var c := GenerateCorrected(config, keys, ask, parses, decode, now);
    if d.Failure? {
      assert w == Failure(d.error) && c == Failure(d.error);
    } else {
      var e := d.value;
      assert w == Success(e.(questions := RepairAsWritten(e.questions, e.totalPoints)));
      assert c == Success(e.(questions := RepairPoints(e.questions, e.totalPoints)));
      if SumPoints(e.questions) <= e.totalPoints {
        RepairAgreesWhenShort(e.questions, e.totalPoints);
      }
    }
  }
}

=== FILE: exam_api.dfy ===
/**
  The exams endpoint over a collection of exam documents in storage order.
  Only the fields the handler reads or writes are modelled; every other
  field of a posted exam is carried through untouched and is not part of
  this model.  Absent query and body fields are the empty text, which the
  handler's `!x` tests treat alike; whether the database can be reached and
  the clock reading of a POST are parameters.
*/
module ExamApi {
  import opened Wrappers
  import Seqs
  import Http

  /** The fields of a stored exam that the handler looks at. */
  datatype ExamDoc = ExamDoc(id: string, subject: string, grade: string, semester: string, createdAt: int, updatedAt: int)

  type Collection = seq<ExamDoc>

  /** How many documents a GET returns at most. */
  const Limit := 100

  /** The query of a GET or DELETE, or the posted exam of a POST. */
  datatype ExamRequest = ExamRequest(verb: Http.Method, subject: string, grade: string, semester: string, id: string, body: ExamDoc)

  /** What the handler answers. */
  datatype ExamReply =
    | Preflight
    | Listed(exams: seq<ExamDoc>)
    | Inserted(exam: ExamDoc)
    | Removed(deleted: nat)
    | BadRequest
    | NotAllowed
    | ServerError
  {
    /** The HTTP status of the answer. */
    function Status(): int {
      match this
      case Inserted(_) => Http.Created
      case BadRequest => Http.BadRequest
      case NotAllowed => Http.NotAllowed
      case ServerError => Http.ServerError
      case _ => Http.Ok
    }
  }

  // ------------------------------------------------------------ GET

  /** The filter object a GET builds: each non-empty query field must match exactly. */
  predicate Matches(subject: string, grade: string, semester: string, d: ExamDoc) {
    (subject == "" || d.subject == subject) &&
    (grade == "" || d.grade == grade) &&
    (semester == "" || d.semester == semester)
  }

  /** Newest first: `createdAt` never increases along the list. */
  predicate NewestFirst(s: seq<ExamDoc>) {
    forall i, j :: 0 <= i < j < |s| ==> s[i].createdAt >= s[j].createdAt
  }

  /** One document put into a newest-first list, before the first one not newer than it. */
  function Insert(x: ExamDoc, s: seq<ExamDoc>): (r: seq<ExamDoc>)
    requires NewestFirst(s)
    ensures NewestFirst(r)
    ensures multiset(r) == multiset(s) + multiset{x}
    ensures |r| == |s| + 1 && (r[0] == x || (s != [] && r[0] == s[0]))
    decreases |s|
  {
    if s == [] || x.createdAt >= s[0].createdAt then
      [x] + s
    else
      var rest := Insert(x, s[1..]);
      assert s == [s[0]] + s[1..];
      assert rest[0].createdAt <= s[0].createdAt;
      [s[0]] + rest
  }

  /** `.sort({ createdAt: -1 })`: the same documents, newest first. */
  function SortNewestFirst(s: seq<ExamDoc>): (r: seq<ExamDoc>)
    ensures NewestFirst(r)
    ensures multiset(r) == multiset(s)
    decreases |s|
  {
    if s == [] then []
    else
      assert s == [s[0]] + s[1..];
      Insert(s[0], SortNewestFirst(s[1..]))
  }

  /** `.limit(n)`: at most the first `n`. */
  function Take<T>(s: seq<T>, n: nat): (r: seq<T>)
    ensures |r| == if |s| < n then |s| else n
    ensures r <= s
  {
    if |s| <= n then s else s[..n]
  }

  /** GET: the matching documents, newest first, at most `Limit` of them. */
  function ListExams(db: Collection, subject: string, grade: string, semester: string): (r: seq<ExamDoc>)
    ensures |r| <= Limit
    ensures NewestFirst(r)
    ensures forall d :: d in r ==> d in db && Matches(subject, grade, semester, d)
  {
    var matching := Seqs.Filter(db, d => Matches(subject, grade, semester, d));
    var sorted := SortNewestFirst(matching);
    var r := Take(sorted, Limit);
    forall d | d in r ensures d in matching {
      assert d in multiset(sorted);
    }
    r
  }

  /**
    What the limit leaves out is never newer than what it returns, and when
    at most `Limit` documents match, every one of them is returned.
  */
  lemma ListedAreTheNewest(db: Collection, subject: string, grade: string, semester: string, d: ExamDoc)
    requires d in db && Matches(subject, grade, semester, d)
    ensures var r := ListExams(db, subject, grade, semester);
      d in r || (|r| == Limit && forall x :: x in r ==> x.createdAt >= d.createdAt)
  {
    var matching := Seqs.Filter(db, d => Matches(subject, grade, semester, d));
    var sorted := SortNewestFirst(matching);
    assert d in multiset(sorted);
    var j :| 0 <= j < |sorted| && sorted[j] == d;
    var r := Take(sorted, Limit);
    if j < |r| {
      assert r[j] == d;
    } else {
      forall x | x in r ensures x.createdAt >= d.createdAt {
        var i :| 0 <= i < |r| && r[i] == x;
      }
    }
  }

  /** With at most `Limit` matches the GET returns each matching document as often as it is stored. */
  lemma SmallListingIsComplete(db: Collection, subject: string, grade: string, semester: string)
    requires |Seqs.Filter(db, d => Matches(subject, grade, semester, d))| <= Limit
    ensures multiset(ListExams(db, subject, grade, semester)) == multiset(Seqs.Filter(db, d => Matches(subject, grade, semester, d)))
  {
    var matching := Seqs.Filter(db, d => Matches(subject, grade, semester, d));
    assert |SortNewestFirst(matching)| == |matching| by {
      assert |multiset(SortNewestFirst(matching))| == |multiset(matching)|;
    }
  }

  // ------------------------------------------------------ POST, DELETE

  /** POST: subject, grade and semester are required; the exam is then stored stamped with the clock reading. */
  function PostExam(db: Collection, body: ExamDoc, now: int): (r: (ExamReply, Collection))
    ensures body.subject == "" || body.grade == "" || body.semester == "" ==> r == (BadRequest, db)
    ensures body.subject != "" && body.grade != "" && body.semester != "" ==>
      r.0.Inserted? && r.0.Status() == Http.Created &&
      r.0.exam == body.(createdAt := now, updatedAt := now) &&
      |r.1| == |db| + 1 && r.1[..|db|] == db && r.1[|db|] == r.0.exam
  {
    if body.subject == "" || body.grade == "" || body.semester == "" then (BadRequest, db)
    else
      var exam := body.(createdAt := now, updatedAt := now);
      (Inserted(exam), db + [exam])
  }

  /**
    A post followed by a listing for the posted subject, grade and
    semester: the stamped exam is listed, unless the listing is full of
    exams at least as new; with fewer than `Limit` such exams stored before,
    it is always listed.
  */
  lemma PostThenList(db: Collection, body: ExamDoc, now: int)
    requires body.subject != "" && body.grade != "" && body.semester != ""
    ensures var after := PostExam(db, body, now);
      var listed := ListExams(after.1, body.subject, body.grade, body.semester);
      && (after.0.exam in listed || (|listed| == Limit && forall x :: x in listed ==> x.createdAt >= now))
      && (|Seqs.Filter(db, d => Matches(body.subject, body.grade, body.semester, d))| < Limit ==> after.0.exam in listed)
  {
    var after := PostExam(db, body, now);
    var exam := after.0.exam;
    assert exam in after.1 && Matches(body.subject, body.grade, body.semester, exam);
    ListedAreTheNewest(after.1, body.subject, body.grade, body.semester, exam);
    var before := Seqs.Filter(db, d => Matches(body.subject, body.grade, body.semester, d));
    if |before| < Limit {
      Seqs.FilterAppend(db, [exam], d => Matches(body.subject, body.grade, body.semester, d));
      Seqs.FilterCons([exam], d => Matches(body.subject, body.grade, body.semester, d));
      assert [exam][1..] == [];
      SmallListingIsComplete(after.1, body.subject, body.grade, body.semester);
      assert exam in multiset(Seqs.Filter(after.1, d => Matches(body.subject, body.grade, body.semester, d)));
    }
  }

  /** The first document with the id, or -1. */
  function FirstWithId(db: Collection, id: string): (i: int)
    ensures -1 <= i < |db|
    ensures i == -1 <==> forall j :: 0 <= j < |db| ==> db[j].id != id
    ensures i >= 0 ==> db[i].id == id && forall j :: 0 <= j < i ==> db[j].id != id
    decreases |db|
  {
    if db == [] then -1
    else if db[0].id == id then 0
    else
      var i := FirstWithId(db[1..], id);
      if i == -1 then -1 else i + 1
  }

  /** `deleteOne({ id })`: the first document with the id removed, with how many went. */
  function DeleteById(db: Collection, id: string): (r: (Collection, nat))
    ensures FirstWithId(db, id) == -1 ==> r == (db, 0)
    ensures FirstWithId(db, id) >= 0 ==>
      r.1 == 1 && |r.0| == |db| - 1 && multiset(r.0) + multiset{db[FirstWithId(db, id)]} == multiset(db)
  {
    var i := FirstWithId(db, id);
    if i == -1 then (db, 0)
    else
      assert db == db[..i] + [db[i]] + db[i + 1..];
      (db[..i] + db[i + 1..], 1)
  }

  /** No two documents share an identifier. */
  predicate DistinctIds(db: Collection) {
    forall i, j :: 0 <= i < |db| && 0 <= j < |db| && i != j ==> db[i].id != db[j].id
  }

  /**
    A delete followed by any listing: when identifiers are distinct, no
    document with the id is left, so no listing shows one; otherwise one
    fewer document carries it.
  */
  lemma {:induction false} DeleteThenList(db: Collection, id: string, subject: string, grade: string, semester: string)
    ensures var after := DeleteById(db, id).0;
      DistinctIds(db) ==>
        && (forall d :: d in after ==> d.id != id)
        && (forall d :: d in ListExams(after, subject, grade, semester) ==> d.id != id)
  {
    if DistinctIds(db) {
      DeletedIdGone(db, id);
    }
  }

  lemma {:induction false} DeletedIdGone(db: Collection, id: string)
    requires DistinctIds(db)
    ensures forall d :: d in DeleteById(db, id).0 ==> d.id != id
  {
    var i := FirstWithId(db, id);
    var after := DeleteById(db, id).0;
    forall d | d in after ensures d.id != id {
      var k :| 0 <= k < |after| && after[k] == d;
      if i == -1 {
        assert after == db;
        assert db[k].id != id;
      } else {
        assert after == db[..i] + db[i + 1..];
        var m := if k < i then k else k + 1;
        assert d == db[m] && m != i;
        assert db[m].id != db[i].id;
      }
    }
  }

  /** The handler: the reply and the collection afterwards. */
  function Handle(db: Collection, connected: bool, req: ExamRequest, now: int): (r: (ExamReply, Collection))
    ensures req.verb.Options? ==> r == (Preflight, db) && r.0.Status() == Http.Ok
    ensures !req.verb.Options? && !connected ==> r == (ServerError, db)
    ensures connected && req.verb.OtherMethod? ==> r == (NotAllowed, db)
    ensures connected && req.verb.Get? ==> r == (Listed(ListExams(db, req.subject, req.grade, req.semester)), db)
    ensures connected && req.verb.Post? ==> r == PostExam(db, req.body, now)
    ensures connected && req.verb.Delete? && req.id == "" ==> r == (BadRequest, db)
    ensures connected && req.verb.Delete? && req.id != "" ==>
      r == (Removed(DeleteById(db, req.id).1), DeleteById(db, req.id).0)
  {
    match req.verb
    case Options => (Preflight, db)
    case _ =>
      if !connected then (ServerError, db)
      else
        match req.verb
        case Get => (Listed(ListExams(db, req.subject, req.grade, req.semester)), db)
        case Post => PostExam(db, req.body, now)
        case Delete =>
          if req.id == "" then (BadRequest, db)
          else
            var gone := DeleteById(db, req.id);
            (Removed(gone.1), gone.0)
        case _ => (NotAllowed, db)
  }
}

=== FILE: exam_native_export.dfy ===
/**
  The native Word export of an exam and of its correction
  (`examWordExportNative.ts`): the questions, grouped by section in the
  order the sections first appear, become paragraphs of text runs; the
  correction repeats the exam and adds the answers as red runs.  Fonts,
  sizes, spacing and the header table are presentation and are left out;
  a run keeps its text, whether it is bold and whether it is red.
*/
module ExamNativeExport {
  import opened Wrappers
  import opened Strings
  import opened Records
  import opened ExamSections
  import Seqs

  datatype Run = Run(text: string, bold: bool, red: bool)

  type Paragraph = seq<Run>

  /** The document handed to the browser: its file name, the subject its header shows, and the body. */
  datatype WordFile = WordFile(name: string, headerSubject: string, body: seq<Paragraph>)

  const SchoolName: string := "LES ÉCOLES INTERNATIONALES AL KAWTHAR"
  const SubjectRequired: string := "Le champ subject est obligatoire"
  const ExamFailurePrefix: string := "Échec de l'export natif: "
  const CorrectionFailurePrefix: string := "Échec export correction: "
  const AnswerLine: string := "............................................................................................................................"
  const TrueFalseBoxes: string := "   ☐ Vrai   ☐ Faux"
  const CorrectMark: string := " ✓ RÉPONSE CORRECTE"
  const VerdictPrefix: string := "   ✓ RÉPONSE: "

  function Plain(text: string): Paragraph {
    [Run(text, false, false)]
  }

  function Answer(text: string): Paragraph {
    [Run(text, true, true)]
  }

  // ------------------------------------------------------------ labels

  function ExerciseLabel(english: bool): string {
    if english then "EXERCISE" else "EXERCICE"
  }

  /** The same singular/plural rule in both languages: plural above one point. */
  function PointsLabel(points: int): (l: string)
    ensures l == "points" <==> points > 1
    ensures l == "point" <==> points <= 1
  {
    if points > 1 then "points" else "point"
  }

  /** How many options get a distinct letter before the UTF-16 surrogate range. */
  const LetterCount: nat := 0xD800 - 65

  /**
    `String.fromCharCode(65 + i)`: the UTF-16 code unit `65 + i` taken modulo
    2^16.  A code unit in the surrogate range cannot stand alone in a Dafny
    string and is written U+FFFD here.
  */
  function OptionLetter(i: nat): (l: string)
    ensures |l| == 1
    ensures i < LetterCount ==> l[0] as int == 65 + i
    ensures i < 26 ==> 'A' <= l[0] <= 'Z'
  {
    var u := (65 + i) % 0x1_0000;
    if 0xD800 <= u < 0xE000 then [0xFFFD as char] else [u as char]
  }

  /** Two options before the surrogate range never share a letter. */
  lemma OptionLetterInjective(i: nat, j: nat)
    requires i < LetterCount && j < LetterCount && i != j
    ensures OptionLetter(i) != OptionLetter(j)
  {
    assert OptionLetter(i)[0] != OptionLetter(j)[0];
  }

  /** `question.pointsPerStatement || 1`. */
  function StatementPoints(q: ExamQuestion): (p: int)
    ensures p != 0
    ensures q.pointsPerStatement != 0 ==> p == q.pointsPerStatement
  {
    if q.pointsPerStatement != 0 then q.pointsPerStatement else 1
  }

  // -------------------------------------------------------- the exam

  function TitleParagraph(q: ExamQuestion, index: nat, english: bool): Paragraph {
    [ Run(ExerciseLabel(english) + " " + NatToString(index + 1) + " : " + q.title, true, false),
      Run(" (" + IntToString(q.points) + " " + PointsLabel(q.points) + ")", false, false) ]
  }

  function OptionParagraph(opts: seq<string>, i: nat): Paragraph
    requires i < |opts|
  {
    Plain("☐ " + OptionLetter(i) + ". " + opts[i])
  }

  function StatementParagraph(q: ExamQuestion, s: Statement, i: nat): Paragraph {
    Plain(NatToString(i + 1) + ". " + s.statement + " (" + IntToString(StatementPoints(q)) + " pt)")
  }

  /** The two paragraphs of a true/false statement in the exam. */
  function StatementGroup(q: ExamQuestion, ss: seq<Statement>, i: nat): seq<Paragraph>
    requires i < |ss|
  {
    [StatementParagraph(q, ss[i], i), Plain(TrueFalseBoxes)]
  }

  /** A question with choices: the options or statements replace the answer line. */
  predicate HasChoices(q: ExamQuestion) {
    q.qtype == Qcm || q.qtype == VraiFaux
  }

  /** What follows the statement of a question in the exam. */
  function QuestionBody(q: ExamQuestion): (body: seq<Paragraph>)
    ensures q.qtype == VraiFaux && q.statements.Some? ==> |body| == 2 * |q.statements.value|
    ensures forall k :: 0 <= k < |body| ==> body[k] != [] && NoRed(body[k])
  {
    match q.qtype
    case Qcm =>
      if q.options.Some? then
        var opts := q.options.value;
        seq(|opts|, i requires 0 <= i < |opts| => OptionParagraph(opts, i))
      else []
    case VraiFaux =>
      if q.statements.Some? then
        var ss := q.statements.value;
        var gs: seq<seq<Paragraph>> := seq(|ss|, i requires 0 <= i < |ss| => StatementGroup(q, ss, i));
        FlattenUniform(gs, 2);
        FlattenBlack(gs);
        Seqs.Flatten(gs)
      else []
    case _ => [Plain(AnswerLine)]
  }

  /**
    `createQuestionParagraphs`: the title and the statement, then one
    paragraph per option, two per true/false statement, or one answer line
    for every other kind of question.
  */
  function QuestionParagraphs(q: ExamQuestion, index: nat, english: bool): (ps: seq<Paragraph>)
    ensures q.qtype == Qcm && q.options.Some? ==> |ps| == 2 + |q.options.value|
    ensures q.qtype == VraiFaux && q.statements.Some? ==> |ps| == 2 + 2 * |q.statements.value|
    ensures !HasChoices(q) ==> |ps| == 3 && ps[2] == Plain(AnswerLine)
    ensures forall k :: 0 <= k < |ps| ==> ps[k] != [] && NoRed(ps[k])
  {
    [TitleParagraph(q, index, english), [Run(q.content, true, false)]] + QuestionBody(q)
  }

  // -------------------------------------------------- the correction

  /** An option in the correction: the marker follows it exactly when its letter is the correct answer. */
  function CorrectedOption(q: ExamQuestion, opts: seq<string>, i: nat): Paragraph
    requires i < |opts|
  {
    OptionParagraph(opts, i) + (if q.correctAnswer == OptionLetter(i) then [Run(CorrectMark, true, true)] else [])
  }

  function Verdict(s: Statement): string {
    if s.isTrue then "Vrai" else "Faux"
  }

  /** The three paragraphs of a true/false statement in the correction. */
  function CorrectedStatementGroup(q: ExamQuestion, ss: seq<Statement>, i: nat): seq<Paragraph>
    requires i < |ss|
  {
    StatementGroup(q, ss, i) + [Answer(VerdictPrefix + Verdict(ss[i]))]
  }

  function CorrectionBody(q: ExamQuestion): (body: seq<Paragraph>)
    ensures q.qtype == VraiFaux && q.statements.Some? ==> |body| == 3 * |q.statements.value|
  {
    match q.qtype
    case Qcm =>
      if q.options.Some? then
        var opts := q.options.value;
        seq(|opts|, i requires 0 <= i < |opts| => CorrectedOption(q, opts, i))
        + (if q.answer != "" then [Answer("EXPLICATION: " + q.answer)] else [])
      else []
    case VraiFaux =>
      if q.statements.Some? then
        var ss := q.statements.value;
        var gs: seq<seq<Paragraph>> := seq(|ss|, i requires 0 <= i < |ss| => CorrectedStatementGroup(q, ss, i));
        FlattenUniform(gs, 3);
        Seqs.Flatten(gs)
      else []
    case _ => if q.answer != "" then [Answer("CORRECTION:\n" + q.answer)] else []
  }

  /**
    `createQuestionWithCorrectionParagraphs`: the exam's paragraphs with the
    answers added in red, and no answer line.
  */
  function CorrectionParagraphs(q: ExamQuestion, index: nat, english: bool): (ps: seq<Paragraph>)
    ensures q.qtype == VraiFaux && q.statements.Some? ==> |ps| == 2 + 3 * |q.statements.value|
    ensures q.qtype == Qcm && q.options.Some? ==>
      |ps| == 2 + |q.options.value| + (if q.answer != "" then 1 else 0)
    ensures !HasChoices(q) ==> |ps| == (if q.answer != "" then 3 else 2)
    ensures |ps| >= 2 && ps[..2] == QuestionParagraphs(q, index, english)[..2]
  {
    [TitleParagraph(q, index, english), [Run(q.content, true, false)]] + CorrectionBody(q)
  }

  /** Option `i` of a multiple-choice correction carries a red run exactly when its letter is the correct answer. */
  lemma OptionMarkedIffCorrect(q: ExamQuestion, index: nat, english: bool, i: nat)
    requires q.qtype == Qcm && q.options.Some? && i < |q.options.value|
    ensures var ps := CorrectionParagraphs(q, index, english);
      2 + i < |ps| && (HasRed(ps[2 + i]) <==> q.correctAnswer == OptionLetter(i))
  {
    var ps := CorrectionParagraphs(q, index, english);
    var p := ps[2 + i];
    assert p == CorrectedOption(q, q.options.value, i);
    if q.correctAnswer == OptionLetter(i) {
      assert p[1].red;
    } else {
      assert NoRed(p);
    }
  }

  /** No two options of a multiple-choice correction are marked correct. */
  lemma AtMostOneOptionMarked(q: ExamQuestion, index: nat, english: bool, i: nat, j: nat)
    requires q.qtype == Qcm && q.options.Some?
    requires i < j < |q.options.value| && j < LetterCount
    ensures var ps := CorrectionParagraphs(q, index, english);
      !(HasRed(ps[2 + i]) && HasRed(ps[2 + j]))
  {
    OptionMarkedIffCorrect(q, index, english, i);
    OptionMarkedIffCorrect(q, index, english, j);
    OptionLetterInjective(i, j);
  }

  /** The verdict under statement `i` says "Vrai" exactly when the statement is true. */
  lemma VerdictMatchesStatement(q: ExamQuestion, index: nat, english: bool, i: nat)
    requires q.qtype == VraiFaux && q.statements.Some? && i < |q.statements.value|
    ensures var ps := CorrectionParagraphs(q, index, english);
      && 4 + 3 * i < |ps|
      && HasRed(ps[4 + 3 * i])
      && (ps[4 + 3 * i] == Answer(VerdictPrefix + "Vrai") <==> q.statements.value[i].isTrue)
  {
    var ss := q.statements.value;
    var gs: seq<seq<Paragraph>> := seq(|ss|, k requires 0 <= k < |ss| => CorrectedStatementGroup(q, ss, k));
    FlattenUniform(gs, 3);
    FlattenUniformIndex(gs, 3, i, 2);
    var ps := CorrectionParagraphs(q, index, english);
    assert ps[4 + 3 * i] == gs[i][2];
    assert gs[i][2][0].red;
    if !ss[i].isTrue {
      assert (VerdictPrefix + "Faux")[|VerdictPrefix|] == 'F';
      assert (VerdictPrefix + "Vrai")[|VerdictPrefix|] == 'V';
    }
  }

  // ------------------------------------------------------ red erasure

  predicate HasRed(p: Paragraph) {
    exists k :: 0 <= k < |p| && p[k].red
  }

  predicate NoRed(p: Paragraph) {
    forall k :: 0 <= k < |p| ==> !p[k].red
  }

  /** A paragraph with its red runs taken out. */
  function BlackRuns(p: Paragraph): (r: Paragraph)
    ensures NoRed(p) ==> r == p
    decreases |p|
  {
    if p == [] then []
    else if p[0].red then BlackRuns(p[1..])
    else [p[0]] + BlackRuns(p[1..])
  }

  /** A document with its red runs taken out, and the paragraphs left empty dropped: the exam a correction was made from. */
  function EraseRed(ps: seq<Paragraph>): seq<Paragraph>
    decreases |ps|
  {
    if ps == [] then []
    else
      var b := BlackRuns(ps[0]);
      (if b == [] then [] else [b]) + EraseRed(ps[1..])
  }

  lemma {:induction false} EraseRedAppend(a: seq<Paragraph>, b: seq<Paragraph>)
    ensures EraseRed(a + b) == EraseRed(a) + EraseRed(b)
    decreases |a|
  {
    if a == [] {
      assert a + b == b;
    } else {
      assert (a + b)[1..] == a[1..] + b;
      EraseRedAppend(a[1..], b);
    }
  }

  /** Erasing paragraph by paragraph: each erases to its counterpart, and none empties. */
  lemma {:induction false} EraseRedPointwise(ps: seq<Paragraph>, qs: seq<Paragraph>)
    requires |ps| == |qs|
    requires forall k :: 0 <= k < |ps| ==> qs[k] != [] && BlackRuns(ps[k]) == qs[k]
    ensures EraseRed(ps) == qs
    decreases |ps|
  {
    if ps != [] {
      EraseRedPointwise(ps[1..], qs[1..]);
    }
  }

  /** Erasing group by group. */
  lemma {:induction false} EraseRedFlatten(gs: seq<seq<Paragraph>>, hs: seq<seq<Paragraph>>)
    requires |gs| == |hs|
    requires forall k :: 0 <= k < |gs| ==> EraseRed(gs[k]) == hs[k]
    ensures EraseRed(Seqs.Flatten(gs)) == Seqs.Flatten(hs)
    decreases |gs|
  {
    if gs != [] {
      EraseRedAppend(gs[0], Seqs.Flatten(gs[1..]));
      EraseRedFlatten(gs[1..], hs[1..]);
    }
  }

  lemma EraseRedStatement(q: ExamQuestion, ss: seq<Statement>, i: nat)
    requires i < |ss|
    ensures EraseRed(CorrectedStatementGroup(q, ss, i)) == StatementGroup(q, ss, i)
  {
    var g := CorrectedStatementGroup(q, ss, i);
    assert BlackRuns(g[2]) == [];
    EraseRedPointwise(g[..2], StatementGroup(q, ss, i));
    assert g == g[..2] + [g[2]];
    EraseRedAppend(g[..2], [g[2]]);
  }

  /** The body of a multiple-choice correction erases to the options. */
  lemma EraseRedOptions(q: ExamQuestion)
    requires q.qtype == Qcm && q.options.Some?
    ensures EraseRed(CorrectionBody(q)) == QuestionBody(q)
  {
    var opts := q.options.value;
    var marked := seq(|opts|, i requires 0 <= i < |opts| => CorrectedOption(q, opts, i));
    var extra := if q.answer != "" then [Answer("EXPLICATION: " + q.answer)] else [];
    var plain := QuestionBody(q);
    assert CorrectionBody(q) == marked + extra;
    EraseRedAppend(marked, extra);
    forall k | 0 <= k < |marked| ensures plain[k] != [] && BlackRuns(marked[k]) == plain[k] {
      BlackOption(q, opts, k);
    }
    EraseRedPointwise(marked, plain);
    assert EraseRed(extra) == [];
  }

  lemma BlackOption(q: ExamQuestion, opts: seq<string>, i: nat)
    requires i < |opts|
    ensures BlackRuns(CorrectedOption(q, opts, i)) == OptionParagraph(opts, i)
  {
    var p := CorrectedOption(q, opts, i);
    if q.correctAnswer == OptionLetter(i) {
      assert p[1..] == [Run(CorrectMark, true, true)];
      assert p[1..][1..] == [];
    }
  }

  /** The body of a true/false correction erases to the statements and their boxes. */
  lemma EraseRedStatements(q: ExamQuestion)
    requires q.qtype == VraiFaux && q.statements.Some?
    ensures EraseRed(CorrectionBody(q)) == QuestionBody(q)
  {
    var ss := q.statements.value;
    var gs: seq<seq<Paragraph>> := seq(|ss|, i requires 0 <= i < |ss| => CorrectedStatementGroup(q, ss, i));
    var hs: seq<seq<Paragraph>> := seq(|ss|, i requires 0 <= i < |ss| => StatementGroup(q, ss, i));
    forall k | 0 <= k < |ss| ensures EraseRed(gs[k]) == hs[k] {
      EraseRedStatement(q, ss, k);
    }
    EraseRedFlatten(gs, hs);
  }

  /** The red parts of a correction body, alone, erase to the exam body when there are choices and to nothing otherwise. */
  lemma EraseRedBody(q: ExamQuestion)
    ensures EraseRed(CorrectionBody(q)) == (if HasChoices(q) then QuestionBody(q) else [])
  {
    if q.qtype == Qcm && q.options.Some? {
      EraseRedOptions(q);
    } else if q.qtype == VraiFaux && q.statements.Some? {
      EraseRedStatements(q);
    } else if !HasChoices(q) && q.answer != "" {
      assert EraseRed(CorrectionBody(q)) == [];
    }
  }

  /**
    Taking the red out of a question's correction gives back its exam
    paragraphs, without the answer line that only open questions have.
  */
  lemma EraseRedQuestion(q: ExamQuestion, index: nat, english: bool)
    ensures var exam := QuestionParagraphs(q, index, english);
      EraseRed(CorrectionParagraphs(q, index, english)) == (if HasChoices(q) then exam else exam[..2])
  {
    var head := [TitleParagraph(q, index, english), [Run(q.content, true, false)]];
    EraseRedAppend(head, CorrectionBody(q));
    EraseRedPointwise(head, head);
    EraseRedBody(q);
    assert QuestionParagraphs(q, index, english)[..2] == head;
  }

  // --------------------------------------------------- group helpers

  lemma {:induction false} FlattenUniform<T>(gs: seq<seq<T>>, w: nat)
    requires forall k :: 0 <= k < |gs| ==> |gs[k]| == w
    ensures |Seqs.Flatten(gs)| == w * |gs|
    decreases |gs|
  {
    if gs != [] {
      FlattenUniform(gs[1..], w);
    }
  }

  lemma {:induction false} FlattenUniformIndex<T>(gs: seq<seq<T>>, w: nat, i: nat, j: nat)
    requires forall k :: 0 <= k < |gs| ==> |gs[k]| == w
    requires i < |gs| && j < w
    ensures w * i + j < |Seqs.Flatten(gs)| && Seqs.Flatten(gs)[w * i + j] == gs[i][j]
    decreases i
  {
    FlattenUniform(gs, w);
    if i > 0 {
      FlattenUniformIndex(gs[1..], w, i - 1, j);
      assert w * i + j == w + (w * (i - 1) + j);
    }
  }

  lemma {:induction false} FlattenBlack(gs: seq<seq<Paragraph>>)
    requires forall k, m :: 0 <= k < |gs| && 0 <= m < |gs[k]| ==> gs[k][m] != [] && NoRed(gs[k][m])
    ensures var f := Seqs.Flatten(gs); forall k :: 0 <= k < |f| ==> f[k] != [] && NoRed(f[k])
    decreases |gs|
  {
    if gs != [] {
      FlattenBlack(gs[1..]);
      var f := Seqs.Flatten(gs);
      assert f == gs[0] + Seqs.Flatten(gs[1..]);
      forall k | 0 <= k < |f| ensures f[k] != [] && NoRed(f[k]) {
        if k >= |gs[0]| {
          assert f[k] == Seqs.Flatten(gs[1..])[k - |gs[0]|];
        }
      }
    }
  }

  // ------------------------------------------------------ documents

  /** `subject.toLowerCase().includes('anglais') || subject.toLowerCase() === 'english'`. */
  predicate IsEnglish(subject: string) {
    var lower := ToLower(subject);
    Contains(lower, "anglais") || lower == "english"
  }

  /** One item of the laid-out exam: a section heading in bold, or a numbered question. */
  function RenderItem(it: Item<ExamQuestion>, english: bool, correction: bool): seq<Paragraph> {
    match it
    case Heading(title) => [[Run(title, true, false)]]
    case Numbered(q, k) =>
      if correction then CorrectionParagraphs(q, k, english) else QuestionParagraphs(q, k, english)
  }

  /** `generateQuestionsParagraphs` / `generateCorrectionParagraphs` over the laid-out exam. */
  function Render(items: seq<Item<ExamQuestion>>, english: bool, correction: bool): (ps: seq<Paragraph>)
    ensures |ps| >= |items|
    ensures !correction ==> forall k :: 0 <= k < |ps| ==> ps[k] != [] && NoRed(ps[k])
    decreases |items|
  {
    if items == [] then []
    else
      var head := RenderItem(items[0], english, correction);
      var rest := Render(items[1..], english, correction);
      assert |head| >= 1 by {
        if items[0].Numbered? && correction {
          assert |CorrectionParagraphs(items[0].question, items[0].index, english)| >= 2;
        }
      }
      assert !correction ==> forall k :: 0 <= k < |head| ==> head[k] != [] && NoRed(head[k]);
      head + rest
  }

  /**
    When every question offers choices, erasing the red from the rendered
    correction gives the rendered exam, headings and numbering included.
  */
  lemma {:induction false} EraseRedRender(items: seq<Item<ExamQuestion>>, english: bool)
    requires forall k :: 0 <= k < |items| && items[k].Numbered? ==> HasChoices(items[k].question)
    ensures EraseRed(Render(items, english, true)) == Render(items, english, false)
    decreases |items|
  {
    if items != [] {
      EraseRedAppend(RenderItem(items[0], english, true), Render(items[1..], english, true));
      EraseRedRender(items[1..], english);
      match items[0]
      case Heading(title) =>
        EraseRedPointwise([[Run(title, true, false)]], [[Run(title, true, false)]]);
      case Numbered(q, k) =>
        EraseRedQuestion(q, k, english);
    }
  }

  /** `.replace(/\s+/g, '_')`: every maximal run of white space becomes one underscore. */
  function Underscored(s: string): (r: string)
    ensures forall k :: 0 <= k < |r| ==> !IsSpace(r[k])
    ensures |r| <= |s|
    decreases |s|
  {
    if s == [] then []
    else if IsSpace(s[0]) then "_" + Underscored(s[LeadingSpaces(s)..])
    else [s[0]] + Underscored(s[1..])
  }

  /** A text without white space goes through unchanged. */
  lemma {:induction false} UnderscoredKeepsText(s: string)
    requires forall k :: 0 <= k < |s| ==> !IsSpace(s[k])
    ensures Underscored(s) == s
    decreases |s|
  {
    if s != [] {
      UnderscoredKeepsText(s[1..]);
    }
  }

  /** Replacing twice is replacing once. */
  lemma UnderscoredIdempotent(s: string)
    ensures Underscored(Underscored(s)) == Underscored(s)
  {
    UnderscoredKeepsText(Underscored(s));
  }

  /** The download's name: the prefix, the subject, class and semester with white space runs as `_`, and `.docx`. */
  function FileName(prefix: string, exam: Exam): (name: string)
    ensures StartsWith(name, prefix) && EndsWith(name, ".docx")
  {
    prefix + Underscored(exam.subject) + "_" + GradeValue(exam.grade) + "_" + Underscored(exam.semester) + ".docx"
  }

  /** The exam's download and any correction's download never share a name. */
  lemma ExamAndCorrectionNamesDiffer(exam: Exam, other: Exam)
    ensures FileName("Examen_", exam) != FileName("CORRECTION_", other)
  {
    assert FileName("Examen_", exam)[0] == 'E';
    assert FileName("CORRECTION_", other)[0] == 'C';
  }

  /** The blank paragraph and the school's name that open both documents. */
  function Preamble(): seq<Paragraph> {
    [Plain(""), [Run(SchoolName, true, false)]]
  }

  /** The body of either document: the preamble, then the laid-out questions in the subject's language. */
  function DocumentBody(exam: Exam, correction: bool): (body: seq<Paragraph>)
    ensures |body| >= 2 && body[..2] == Preamble()
  {
    var body := Preamble() + Render(ExamLayout(exam.questions), IsEnglish(exam.subject), correction);
    assert body[..2] == Preamble();
    body
  }

  /** `exportExamToWordNative`: refused without a subject; otherwise the exam, section by section. */
  function ExportExam(exam: Exam): (r: Result<WordFile>)
    ensures r.Failure? <==> exam.subject == ""
    ensures r.Failure? ==> r.error == ExamFailurePrefix + SubjectRequired
    ensures r.Success? ==>
      && r.value.headerSubject == exam.subject
      && r.value.name == FileName("Examen_", exam)
      && r.value.body == DocumentBody(exam, false)
  {
    if exam.subject == "" then Failure(ExamFailurePrefix + SubjectRequired)
    else
      var body := DocumentBody(exam, false);
      Success(WordFile(FileName("Examen_", exam), exam.subject, body))
  }

  /**
    `exportExamCorrectionToWordNative`: the same guard; the header says
    which subject it corrects, and the language is still decided on the
    exam's own subject.
  */
  function ExportCorrection(exam: Exam): (r: Result<WordFile>)
    ensures r.Failure? <==> exam.subject == ""
    ensures r.Failure? ==> r.error == CorrectionFailurePrefix + SubjectRequired
    ensures r.Success? ==>
      && r.value.headerSubject == exam.subject + " - CORRECTION"
      && r.value.name == FileName("CORRECTION_", exam)
      && r.value.body == DocumentBody(exam, true)
  {
    if exam.subject == "" then Failure(CorrectionFailurePrefix + SubjectRequired)
    else
      var body := DocumentBody(exam, true);
      Success(WordFile(FileName("CORRECTION_", exam), exam.subject + " - CORRECTION", body))
  }

  /**
    The two exports succeed on the same exams, and for an exam of
    multiple-choice and true/false questions the correction with its red
    taken out is the exam itself.
  */
  lemma CorrectionCoversExam(exam: Exam)
    requires exam.subject != ""
    requires forall k :: 0 <= k < |exam.questions| ==> HasChoices(exam.questions[k])
    ensures ExportExam(exam).Success? && ExportCorrection(exam).Success?
    ensures EraseRed(ExportCorrection(exam).value.body) == ExportExam(exam).value.body
  {
    var items := ExamLayout(exam.questions);
    var english := IsEnglish(exam.subject);
    LayoutHasChoices(exam.questions);
    EraseRedRender(items, english);
    EraseRedPreamble(Render(items, english, true));
  }

  lemma EraseRedPreamble(rest: seq<Paragraph>)
    ensures EraseRed(Preamble() + rest) == Preamble() + EraseRed(rest)
  {
    EraseRedAppend(Preamble(), rest);
    EraseRedPointwise(Preamble(), Preamble());
  }

  /** Every numbered item of the layout is one of the exam's questions. */
  lemma LayoutHasChoices(qs: seq<ExamQuestion>)
    requires forall k :: 0 <= k < |qs| ==> HasChoices(qs[k])
    ensures var items := ExamLayout(qs);
      forall k :: 0 <= k < |items| && items[k].Numbered? ==> HasChoices(items[k].question)
  {
    var items := ExamLayout(qs);
    ExamLayoutNumbersAll(qs);
    forall k | 0 <= k < |items| && items[k].Numbered?
      ensures HasChoices(items[k].question)
    {
      NumberedIn(items, k);
      var ordered := Ordered(qs);
      var m :| 0 <= m < |ordered| && NumberFrom(ordered, 0)[m] == items[k];
      assert ordered[m] in multiset(qs);
    }
  }

  lemma {:induction false} NumberedIn<T>(items: seq<Item<T>>, k: nat)
    requires k < |items| && items[k].Numbered?
    ensures items[k] in NumberedItems(items)
    decreases |items|
  {
    assert items == [items[0]] + items[1..];
    NumberedItemsAppend([items[0]], items[1..]);
    if k > 0 {
      NumberedIn(items[1..], k - 1);
    }
  }
}

=== FILE: exam_sections.dfy ===
/**
  How `services/examWordExportNative.ts` lays an exam out: questions are
  grouped by their `section` (a `Map` keyed in order of first appearance),
  each group but the default "Exercices" gets an upper-cased heading, and
  the questions are numbered across all groups in the grouped order.
*/
module ExamSections {
  import opened Strings
  import opened Records
  import Seqs

  const DefaultSection: string := "Exercices"

  /** `question.section || 'Exercices'`. */
  function SectionOf(q: ExamQuestion): (name: string)
    ensures name != ""
    ensures q.section != "" ==> name == q.section
  {
    if q.section != "" then q.section else DefaultSection
  }

  /** One entry of the section map: its key and the items pushed under it. */
  datatype Section<T> = Section(name: string, questions: seq<T>)

  function Names<T>(gs: seq<Section<T>>): (ns: seq<string>)
    ensures |ns| == |gs|
    ensures forall i :: 0 <= i < |gs| ==> ns[i] == gs[i].name
  {
    seq(|gs|, i requires 0 <= i < |gs| => gs[i].name)
  }

  function Lists<T>(gs: seq<Section<T>>): (ls: seq<seq<T>>)
    ensures |ls| == |gs|
    ensures forall i :: 0 <= i < |gs| ==> ls[i] == gs[i].questions
  {
    seq(|gs|, i requires 0 <= i < |gs| => gs[i].questions)
  }

  function KeysOf<T>(qs: seq<T>, key: T -> string): (ns: seq<string>)
    ensures |ns| == |qs|
    ensures forall i :: 0 <= i < |qs| ==> ns[i] == key(qs[i])
  {
    seq(|qs|, i requires 0 <= i < |qs| => key(qs[i]))
  }

  /** The items filed under `name`. */
  function InSection<T>(key: T -> string, name: string): T -> bool {
    q => key(q) == name
  }

  /** Position of the section called `name`, or -1 (`sections.has`). */
  function SectionIndex<T>(gs: seq<Section<T>>, name: string): (i: int)
    ensures -1 <= i < |gs|
    ensures i == -1 <==> name !in Names(gs)
    ensures i >= 0 ==> gs[i].name == name
    decreases |gs|
  {
    if |gs| == 0 then -1
    else if gs[|gs| - 1].name == name then |gs| - 1
    else
      var i := SectionIndex(gs[..|gs| - 1], name);
      assert Names(gs[..|gs| - 1]) == Names(gs)[..|gs| - 1];
      assert Names(gs) == Names(gs[..|gs| - 1]) + [gs[|gs| - 1].name];
      i
  }

  /** One step of the `forEach`: push `q` onto its section, opening the section if it is new. */
  function AddItem<T>(gs: seq<Section<T>>, q: T, key: T -> string): (r: seq<Section<T>>)
    ensures key(q) in Names(gs) ==> Names(r) == Names(gs)
    ensures key(q) !in Names(gs) ==> Names(r) == Names(gs) + [key(q)]
  {
    var name := key(q);
    var i := SectionIndex(gs, name);
    if i == -1 then gs + [Section(name, [q])]
    else gs[i := Section(name, gs[i].questions + [q])]
  }

  /**
    `organizeQuestionsBySection` with the key as a parameter: the section
    names are the distinct keys in order of first appearance.
  */
  function GroupBy<T>(qs: seq<T>, key: T -> string): (gs: seq<Section<T>>)
    ensures Names(gs) == Seqs.Dedup(KeysOf(qs, key))
    decreases |qs|
  {
    if |qs| == 0 then []
    else
      var front := qs[..|qs| - 1];
      assert KeysOf(front, key) == KeysOf(qs, key)[..|qs| - 1];
      AddItem(GroupBy(front, key), qs[|qs| - 1], key)
  }

  /** A name no item carries selects nothing. */
  lemma FilterNone<T(!new)>(qs: seq<T>, key: T -> string, name: string)
    requires name !in KeysOf(qs, key)
    ensures Seqs.Filter(qs, InSection(key, name)) == []
  {
  }

  /** The keys of a list with one more item at the end. */
  lemma KeysOfSnoc<T>(front: seq<T>, q: T, key: T -> string)
    ensures KeysOf(front + [q], key) == KeysOf(front, key) + [key(q)]
  {
  }

  /**
    Each section holds exactly the items carrying its name, in their
    original order: the grouping neither reorders nor loses an item.
  */
  lemma {:induction false} SectionsAreFilters<T(!new)>(qs: seq<T>, key: T -> string)
    ensures var gs := GroupBy(qs, key);
      forall i :: 0 <= i < |gs| ==> gs[i].questions == Seqs.Filter(qs, InSection(key, gs[i].name))
    decreases |qs|
  {
    if |qs| > 0 {
      var front := qs[..|qs| - 1];
      var q := qs[|qs| - 1];
      SectionsAreFilters(front, key);
      assert qs == front + [q];
      var before := GroupBy(front, key);
      var gs := GroupBy(qs, key);
      forall i | 0 <= i < |gs| ensures gs[i].questions == Seqs.Filter(qs, InSection(key, gs[i].name)) {
        SectionStep(front, q, key, i);
      }
    }
  }

  /** The step of `SectionsAreFilters` for one section. */
  lemma SectionStep<T(!new)>(front: seq<T>, q: T, key: T -> string, i: nat)
    requires var before := GroupBy(front, key);
      forall j :: 0 <= j < |before| ==> before[j].questions == Seqs.Filter(front, InSection(key, before[j].name))
    requires i < |AddItem(GroupBy(front, key), q, key)|
    ensures var g := AddItem(GroupBy(front, key), q, key)[i];
      g.questions == Seqs.Filter(front + [q], InSection(key, g.name))
  {
    var before := GroupBy(front, key);
    var gs := AddItem(before, q, key);
    var f := InSection(key, gs[i].name);
    Seqs.FilterAppend(front, [q], f);
    assert Seqs.Filter([q], f) == if f(q) then [q] else [] by {
      assert [q][1..] == [];
    }
    var k := SectionIndex(before, key(q));
    if i == |before| {
      FilterNone(front, key, gs[i].name);
    } else if i != k {
      assert gs[i] == before[i];
      assert Names(before)[i] == before[i].name;
    }
  }

  lemma FlattenUpdate<T>(ls: seq<seq<T>>, i: nat, x: T)
    requires i < |ls|
    ensures multiset(Seqs.Flatten(ls[i := ls[i] + [x]])) == multiset(Seqs.Flatten(ls)) + multiset{x}
  {
    var u := ls[i := ls[i] + [x]];
    assert ls == ls[..i] + [ls[i]] + ls[i + 1..];
    assert u == ls[..i] + [ls[i] + [x]] + ls[i + 1..];
    Seqs.FlattenAppend(ls[..i] + [ls[i]], ls[i + 1..]);
    Seqs.FlattenAppend(ls[..i], [ls[i]]);
    Seqs.FlattenAppend(ls[..i] + [ls[i] + [x]], ls[i + 1..]);
    Seqs.FlattenAppend(ls[..i], [ls[i] + [x]]);
    assert Seqs.Flatten([ls[i]]) == ls[i] + Seqs.Flatten([]);
    assert Seqs.Flatten([ls[i] + [x]]) == ls[i] + [x] + Seqs.Flatten([]);
  }

  /** Pushing one item adds exactly that item to the grouped items. */
  lemma AddItemAddsOne<T>(gs: seq<Section<T>>, q: T, key: T -> string)
    ensures multiset(Seqs.Flatten(Lists(AddItem(gs, q, key)))) == multiset(Seqs.Flatten(Lists(gs))) + multiset{q}
  {
    var k := SectionIndex(gs, key(q));
    if k == -1 {
      assert Lists(AddItem(gs, q, key)) == Lists(gs) + [[q]];
      Seqs.FlattenAppend(Lists(gs), [[q]]);
      assert Seqs.Flatten([[q]]) == [q] + Seqs.Flatten([]);
    } else {
      assert Lists(AddItem(gs, q, key)) == Lists(gs)[k := Lists(gs)[k] + [q]];
      FlattenUpdate(Lists(gs), k, q);
    }
  }

  /** The grouped items, read section after section, are a permutation of the input. */
  lemma {:induction false} GroupByPermutes<T>(qs: seq<T>, key: T -> string)
    ensures multiset(Seqs.Flatten(Lists(GroupBy(qs, key)))) == multiset(qs)
    decreases |qs|
  {
    if |qs| > 0 {
      var front := qs[..|qs| - 1];
      var q := qs[|qs| - 1];
      GroupByPermutes(front, key);
      AddItemAddsOne(GroupBy(front, key), q, key);
      assert qs == front + [q];
    }
  }

  /** `organizeQuestionsBySection`. */
  function Organize(qs: seq<ExamQuestion>): (gs: seq<Section<ExamQuestion>>)
    ensures Names(gs) == Seqs.Dedup(KeysOf(qs, SectionOf))
    ensures Seqs.Distinct(Names(gs))
  {
    GroupBy(qs, SectionOf)
  }

  // ---------------------------------------------------------------- layout

  /** What the document shows, in order: a section heading or a numbered question. */
  datatype Item<T> = Heading(title: string) | Numbered(question: T, index: nat)

  /** The heading paragraph of a section: its upper-cased name, except for "Exercices". */
  function HeadingOf<T>(g: Section<T>): (h: seq<Item<T>>)
    ensures |h| == 1 <==> g.name != DefaultSection
    ensures |h| == 0 <==> g.name == DefaultSection
    ensures |h| == 1 ==> h[0] == Heading(ToUpper(g.name))
  {
    if g.name != DefaultSection then [Heading(ToUpper(g.name))] else []
  }

  /** `questions.forEach(q => { ..(q, globalIndex); globalIndex++ })` from `start`. */
  function NumberFrom<T>(qs: seq<T>, start: nat): (items: seq<Item<T>>)
    ensures |items| == |qs|
    ensures forall j :: 0 <= j < |qs| ==> items[j] == Numbered(qs[j], start + j)
  {
    seq(|qs|, j requires 0 <= j < |qs| => Numbered(qs[j], start + j))
  }

  /** `sections.forEach(..)` with the running `globalIndex` starting at `start`. */
  function Layout<T>(gs: seq<Section<T>>, start: nat): seq<Item<T>>
    decreases |gs|
  {
    if |gs| == 0 then []
    else HeadingOf(gs[0]) + NumberFrom(gs[0].questions, start) + Layout(gs[1..], start + |gs[0].questions|)
  }

  /** The numbered questions of a layout, headings skipped. */
  function NumberedItems<T>(items: seq<Item<T>>): seq<Item<T>>
    decreases |items|
  {
    if |items| == 0 then []
    else (if items[0].Numbered? then [items[0]] else []) + NumberedItems(items[1..])
  }

  lemma {:induction false} NumberedItemsAppend<T>(a: seq<Item<T>>, b: seq<Item<T>>)
    ensures NumberedItems(a + b) == NumberedItems(a) + NumberedItems(b)
    decreases |a|
  {
    if |a| > 0 {
      assert (a + b)[1..] == a[1..] + b;
      NumberedItemsAppend(a[1..], b);
    } else {
      assert a + b == b;
    }
  }

  lemma NumberFromAppend<T>(a: seq<T>, b: seq<T>, start: nat)
    ensures NumberFrom(a + b, start) == NumberFrom(a, start) + NumberFrom(b, start + |a|)
  {
  }

  lemma HeadingNotNumbered<T>(g: Section<T>)
    ensures NumberedItems(HeadingOf(g)) == []
  {
    var h := HeadingOf(g);
    if |h| == 1 {
      assert h[1..] == [];
    }
  }

  lemma {:induction false} NumberedKept<T>(qs: seq<T>, start: nat)
    ensures NumberedItems(NumberFrom(qs, start)) == NumberFrom(qs, start)
    decreases |qs|
  {
    if |qs| > 0 {
      NumberedKept(qs[1..], start + 1);
      assert NumberFrom(qs, start)[1..] == NumberFrom(qs[1..], start + 1);
    }
  }

  /**
    Reading only the numbered questions of the layout gives the grouped
    questions numbered consecutively from `start`: numbering runs across
    sections without gaps or repeats.
  */
  lemma {:induction false} LayoutNumbering<T>(gs: seq<Section<T>>, start: nat)
    ensures NumberedItems(Layout(gs, start)) == NumberFrom(Seqs.Flatten(Lists(gs)), start)
    decreases |gs|
  {
    if |gs| > 0 {
      var h := HeadingOf(gs[0]);
      var n := NumberFrom(gs[0].questions, start);
      var rest := Layout(gs[1..], start + |gs[0].questions|);
      var tail := Seqs.Flatten(Lists(gs[1..]));
      assert Layout(gs, start) == h + n + rest;
      LayoutNumbering(gs[1..], start + |gs[0].questions|);
      NumberedItemsAppend(h + n, rest);
      NumberedItemsAppend(h, n);
      HeadingNotNumbered(gs[0]);
      NumberedKept(gs[0].questions, start);
      assert NumberedItems(h + n) == n;
      assert Lists(gs)[1..] == Lists(gs[1..]);
      assert Seqs.Flatten(Lists(gs)) == gs[0].questions + tail;
      NumberFromAppend(gs[0].questions, tail, start);
    } else {
      assert Lists(gs) == [];
      assert NumberFrom(Seqs.Flatten(Lists(gs)), start) == [];
    }
  }

  /** The exam's questions in the order the document shows them. */
  function Ordered(qs: seq<ExamQuestion>): seq<ExamQuestion> {
    Seqs.Flatten(Lists(Organize(qs)))
  }

  /**
    The layout of an exam: its questions grouped, then numbered from 0 in the
    order shown, across section headings.
  */
  function ExamLayout(qs: seq<ExamQuestion>): (items: seq<Item<ExamQuestion>>)
    ensures NumberedItems(items) == NumberFrom(Ordered(qs), 0)
  {
    LayoutNumbering(Organize(qs), 0);
    Layout(Organize(qs), 0)
  }

  /**
    The layout numbers the questions `0, 1, 2, ..` in the order shown, and
    the questions shown are a permutation of the exam's.
  */
  lemma ExamLayoutNumbersAll(qs: seq<ExamQuestion>)
    ensures NumberedItems(ExamLayout(qs)) == NumberFrom(Ordered(qs), 0)
    ensures multiset(Ordered(qs)) == multiset(qs)
    ensures |Ordered(qs)| == |qs|
  {
    GroupByPermutes(qs, SectionOf);
    assert |multiset(Ordered(qs))| == |multiset(qs)|;
  }
}

=== FILE: exam_storage.dfy ===
/**
  Where generated exams are kept.  The remote exams collection is reached
  through the HTTP API; local storage holds one object mapping
  `subject_grade_semester` keys to the newest exams under that key and is
  both the backup of every save and the fallback of every failed load.  The
  remote answer and the outcome of each local write are parameters.
*/
module ExamStorage {
  import opened Wrappers
  import opened Strings
  import opened Records
  import KeyedStore
  import Seqs

  /** The local-storage object: `subject_grade_semester` keys to exam lists, newest first. */
  type Shelf = KeyedStore.Store<seq<Exam>>

  /** How many exams a key keeps. */
  const Kept := 5

  // ------------------------------------------------------------- keys

  /** `getExamKey`: subject, grade and semester joined by underscores. */
  function ExamKey(e: Exam): (k: string)
    ensures StartsWith(k, e.subject + "_")
    ensures EndsWith(k, "_" + e.semester)
    ensures |k| == |e.subject| + |GradeValue(e.grade)| + |e.semester| + 2
  {
    var k := e.subject + "_" + (GradeValue(e.grade) + "_" + e.semester);
    ConcatEnds(e.subject + "_", GradeValue(e.grade) + "_" + e.semester);
    ConcatEnds(e.subject + "_" + GradeValue(e.grade), "_" + e.semester);
    assert k == e.subject + "_" + GradeValue(e.grade) + "_" + e.semester;
    k
  }

  /** Printed grades carry no underscore. */
  lemma GradeValueHasNoUnderscore(g: ExamGrade)
    ensures '_' !in GradeValue(g)
  {
  }

  /** Two texts glued by an underscore come apart again when the first has none. */
  lemma {:induction false} SplitAtUnderscore(a: string, b: string, c: string, d: string)
    requires '_' !in a && '_' !in c
    requires a + "_" + b == c + "_" + d
    ensures a == c && b == d
  {
    var x := a + "_" + b;
    FirstUnderscore(a, b);
    FirstUnderscore(c, d);
    assert a == x[..|a|] == c;
    assert b == x[|a| + 1..] == d;
  }

  /** The first underscore of a text glued to an underscore-free head is the glue. */
  lemma FirstUnderscore(a: string, b: string)
    requires '_' !in a
    ensures IndexOf(a + "_" + b, '_') == |a|
  {
    var x := a + "_" + b;
    assert x[|a|] == '_';
    assert x[..|a|] == a;
  }

  /**
    Exams share a key exactly when they share subject, grade and semester,
    as long as subjects carry no underscore of their own.
  */
  lemma ExamKeyInjective(e1: Exam, e2: Exam)
    requires '_' !in e1.subject && '_' !in e2.subject
    ensures ExamKey(e1) == ExamKey(e2) <==>
      e1.subject == e2.subject && e1.grade == e2.grade && e1.semester == e2.semester
  {
    if ExamKey(e1) == ExamKey(e2) {
      var g1, g2 := GradeValue(e1.grade), GradeValue(e2.grade);
      assert ExamKey(e1) == e1.subject + "_" + (g1 + "_" + e1.semester);
      assert ExamKey(e2) == e2.subject + "_" + (g2 + "_" + e2.semester);
      SplitAtUnderscore(e1.subject, g1 + "_" + e1.semester, e2.subject, g2 + "_" + e2.semester);
      GradeValueHasNoUnderscore(e1.grade);
      GradeValueHasNoUnderscore(e2.grade);
      SplitAtUnderscore(g1, e1.semester, g2, e2.semester);
      GradeValueInjective(e1.grade, e2.grade);
    }
  }

  // ----------------------------------------------------------- saving

  /** The first `Kept` entries of a list, or all of them when there are fewer. */
  function FirstKept<T>(l: seq<T>): (r: seq<T>)
    ensures |r| <= Kept
    ensures |r| == if |l| < Kept then |l| else Kept
    ensures r <= l
  {
    if |l| <= Kept then l else l[..Kept]
  }

  /**
    `saveExamToLocalStorage` on the storage object: the exam goes to the
    front of its key's list (an absent key starting from an empty one), the
    list is cut to `Kept`, and no other key changes.
  */
  function SaveExamLocal(st: Shelf, exam: Exam): (r: Shelf)
    ensures var l := KeyedStore.Get(r, ExamKey(exam));
      var before := KeyedStore.Get(st, ExamKey(exam)).GetOr([]);
      l.Some? && |l.value| == (if |before| < Kept then |before| + 1 else Kept) &&
      l.value[0] == exam && l.value[1..] == before[..|l.value| - 1]
    ensures forall k :: k != ExamKey(exam) ==> KeyedStore.Get(r, k) == KeyedStore.Get(st, k)
    ensures KeyedStore.Valid(st) ==> KeyedStore.Valid(r)
  {
    var before := KeyedStore.Get(st, ExamKey(exam)).GetOr([]);
    FirstKeptCons(exam, before);
    KeyedStore.Set(st, ExamKey(exam), FirstKept([exam] + before))
  }

  /** Putting `x` in front and cutting keeps `x` first, followed by the front of the old list. */
  lemma FirstKeptCons<T>(x: T, l: seq<T>)
    ensures var r := FirstKept([x] + l);
      |r| == (if |l| < Kept then |l| + 1 else Kept) && r[0] == x && r[1..] == l[..|r| - 1]
  {
    var r := FirstKept([x] + l);
    assert r[1..] == ([x] + l)[1..|r|];
  }

  /** Saving twice under the same key keeps both, newest first. */
  lemma SaveTwice(st: Shelf, a: Exam, b: Exam)
    requires ExamKey(a) == ExamKey(b)
    ensures var l := KeyedStore.Get(SaveExamLocal(SaveExamLocal(st, a), b), ExamKey(a)).value;
      |l| >= 2 && l[0] == b && l[1] == a
  {
  }

  /** The cut applied to every key when the browser refuses a write for lack of room. */
  function Truncated(st: Shelf): (r: Shelf)
    ensures KeyedStore.Keys(r) == KeyedStore.Keys(st)
    ensures forall k :: KeyedStore.Get(r, k).Some? <==> KeyedStore.Get(st, k).Some?
    ensures forall k :: KeyedStore.Get(r, k).Some? ==>
      KeyedStore.Get(r, k).value == FirstKept(KeyedStore.Get(st, k).value)
    ensures KeyedStore.Valid(st) ==> KeyedStore.Valid(r)
  {
    KeyedStore.MapValues(st, FirstKept)
  }

  /** Cutting twice is cutting once. */
  lemma TruncatedIdempotent(st: Shelf, k: string)
    ensures KeyedStore.Get(Truncated(Truncated(st)), k) == KeyedStore.Get(Truncated(st), k)
  {
  }

  /** A key just saved to is already within the cut. */
  lemma TruncatedKeepsSaved(st: Shelf, exam: Exam)
    ensures KeyedStore.Get(Truncated(SaveExamLocal(st, exam)), ExamKey(exam)) ==
      KeyedStore.Get(SaveExamLocal(st, exam), ExamKey(exam))
  {
  }

  /** What the browser does with a write of the storage object. */
  datatype WriteOutcome =
    | Stored
    | QuotaExceeded(retryStored: bool)  // the cut storage written on retry, or that write failing too
    | WriteFailed                       // any other error: nothing is written

  /**
    `saveExamsStorage`: what local storage holds afterwards, given what it
    held before.  A quota error writes the cut storage; if that also fails
    the whole entry is removed, which later reads see as an empty object.
  */
  function SaveExamsStorage(prior: Shelf, st: Shelf, w: WriteOutcome): (r: Shelf)
    ensures w.Stored? ==> r == st
    ensures w.WriteFailed? ==> r == prior
    ensures w == QuotaExceeded(true) ==> r == Truncated(st)
    ensures w == QuotaExceeded(false) ==> r.entries == []
  {
    match w
    case Stored => st
    case WriteFailed => prior
    case QuotaExceeded(ok) => if ok then Truncated(st) else KeyedStore.Empty()
  }

  /** A save written through in full, or through the quota retry, still heads its key with the exam. */
  lemma SavedExamHeadsItsKey(st: Shelf, exam: Exam, w: WriteOutcome)
    requires w.Stored? || w == QuotaExceeded(true)
    ensures var l := KeyedStore.Get(SaveExamsStorage(st, SaveExamLocal(st, exam), w), ExamKey(exam));
      l.Some? && |l.value| >= 1 && l.value[0] == exam
  {
  }

  // ---------------------------------------------------------- loading

  /** The optional filters of a load; an empty text, like an absent one, imposes nothing. */
  datatype ExamFilter = ExamFilter(subject: string, grade: string, semester: string)

  /** The filter test of the local load. */
  predicate Matches(f: ExamFilter, e: Exam) {
    (f.subject == "" || e.subject == f.subject) &&
    (f.grade == "" || GradeValue(e.grade) == f.grade) &&
    (f.semester == "" || e.semester == f.semester)
  }

  /** `loadExamsFromLocalStorage` over the storage object's entries: every key in order, each list filtered. */
  function LoadEntries(es: seq<(string, seq<Exam>)>, f: ExamFilter): (r: seq<Exam>)
    ensures forall e :: e in r <==> Matches(f, e) && exists i :: 0 <= i < |es| && e in es[i].1
    ensures forall e :: e in r ==> Matches(f, e)
    decreases |es|
  {
    if es == [] then []
    else
      var rest := LoadEntries(es[1..], f);
      EntriesCons(es);
      Seqs.Filter(es[0].1, e => Matches(f, e)) + rest
  }

  /** Membership in some entry of a non-empty list: the first, or one of the rest. */
  lemma EntriesCons(es: seq<(string, seq<Exam>)>)
    requires es != []
    ensures forall e :: (exists i :: 0 <= i < |es| && e in es[i].1) <==>
      e in es[0].1 || exists i :: 0 <= i < |es[1..]| && e in es[1..][i].1
  {
    forall e | exists i :: 0 <= i < |es| && e in es[i].1
      ensures e in es[0].1 || exists i :: 0 <= i < |es[1..]| && e in es[1..][i].1
    {
      var i :| 0 <= i < |es| && e in es[i].1;
      if i > 0 {
        assert e in es[1..][i - 1].1;
      }
    }
  }

  /** With no filter the load returns every stored exam, key after key. */
  lemma {:induction false} LoadEverything(es: seq<(string, seq<Exam>)>)
    ensures LoadEntries(es, ExamFilter("", "", "")) == Seqs.Flatten(Values(es))
    decreases |es|
  {
    if es != [] {
      Seqs.FilterAll(es[0].1, e => Matches(ExamFilter("", "", ""), e));
      LoadEverything(es[1..]);
      assert Values(es) == [es[0].1] + Values(es[1..]);
    }
  }

  /** The lists of a storage object, in key order. */
  function Values<V>(es: seq<(string, V)>): (r: seq<V>)
    ensures |r| == |es|
    ensures forall i :: 0 <= i < |es| ==> r[i] == es[i].1
  {
    seq(|es|, i requires 0 <= i < |es| => es[i].1)
  }

  /** A saved exam is found again by the local load under any filter it matches. */
  lemma SavedExamIsLoaded(st: Shelf, exam: Exam, f: ExamFilter)
    requires Matches(f, exam)
    ensures exam in LoadEntries(SaveExamLocal(st, exam).entries, f)
  {
    var r := SaveExamLocal(st, exam);
    var l := KeyedStore.Get(r, ExamKey(exam)).value;
    var i :| 0 <= i < |r.entries| && r.entries[i] == (ExamKey(exam), l);
    assert exam in r.entries[i].1;
  }

  /**
    `loadExamsFromDatabase`: the remote list when the request succeeds (a
    null body reading as no exams), the local load when it fails.
  */
  function LoadExams(remote: Option<Option<seq<Exam>>>, st: Shelf, f: ExamFilter): (r: seq<Exam>)
    ensures remote == Some(None) ==> r == []
    ensures remote.Some? && remote.value.Some? ==> r == remote.value.value
    ensures remote.None? ==> forall e :: e in r <==> Matches(f, e) && exists i :: 0 <= i < |st.entries| && e in st.entries[i].1
  {
    match remote
    case Some(answer) => answer.GetOr([])
    case None => LoadEntries(st.entries, f)
  }

  // ----------------------------------------------------- newest exam

  /**
    Where a stable sort by decreasing `createdAt` puts its first element:
    the first position holding the largest `createdAt`.
  */
  predicate IsFirstNewest(s: seq<Exam>, i: int) {
    0 <= i < |s| &&
    (forall j :: 0 <= j < |s| ==> s[j].createdAt <= s[i].createdAt) &&
    (forall j :: 0 <= j < i ==> s[j].createdAt < s[i].createdAt)
  }

  /** The first position of a largest `createdAt`. */
  function NewestIndex(s: seq<Exam>): (i: nat)
    requires |s| > 0
    ensures IsFirstNewest(s, i)
    decreases |s|
  {
    if |s| == 1 then 0
    else
      var j := NewestIndex(s[1..]) + 1;
      if s[0].createdAt >= s[j].createdAt then 0 else j
  }

  /** At most one position is the first newest. */
  lemma FirstNewestUnique(s: seq<Exam>, i: int, k: int)
    requires IsFirstNewest(s, i) && IsFirstNewest(s, k)
    ensures i == k
  {
    assert s[k].createdAt <= s[i].createdAt <= s[k].createdAt;
  }

  /**
    `loadLastExam`: nothing when the load finds no exam, otherwise the one a
    newest-first sort puts at the front.
  */
  function LoadLastExam(remote: Option<Option<seq<Exam>>>, st: Shelf, subject: string, grade: string, semester: string)
    : (r: Option<Exam>)
    ensures var found := LoadExams(remote, st, ExamFilter(subject, grade, semester));
      (r.None? <==> found == []) &&
      (r.Some? ==> exists i :: IsFirstNewest(found, i) && found[i] == r.value)
  {
    var found := LoadExams(remote, st, ExamFilter(subject, grade, semester));
    if found == [] then None else Some(found[NewestIndex(found)])
  }

  /** The last exam has the largest `createdAt` of all exams the load finds. */
  lemma LastExamIsNewest(remote: Option<Option<seq<Exam>>>, st: Shelf, subject: string, grade: string, semester: string)
    requires LoadLastExam(remote, st, subject, grade, semester).Some?
    ensures var found := LoadExams(remote, st, ExamFilter(subject, grade, semester));
      var last := LoadLastExam(remote, st, subject, grade, semester).value;
      last in found && forall e :: e in found ==> e.createdAt <= last.createdAt
  {
    var found := LoadExams(remote, st, ExamFilter(subject, grade, semester));
    var last := LoadLastExam(remote, st, subject, grade, semester).value;
    var i :| IsFirstNewest(found, i) && found[i] == last;
    forall e | e in found ensures e.createdAt <= last.createdAt {
      var j :| 0 <= j < |found| && found[j] == e;
    }
  }

  // ------------------------------------------------------------ saving

  /**
    `saveExamToDatabase`: the answer is whether the request succeeded; the
    exam is backed up locally whether it did or not.
  */
  function SaveExamToDatabase(requestOk: bool, st: Shelf, exam: Exam, w: WriteOutcome): (r: (bool, Shelf))
    ensures r.0 == requestOk
    ensures w.Stored? || w == QuotaExceeded(true) ==>
      var l := KeyedStore.Get(r.1, ExamKey(exam)); l.Some? && |l.value| >= 1 && l.value[0] == exam
    ensures w.Stored? ==> forall k :: k != ExamKey(exam) ==> KeyedStore.Get(r.1, k) == KeyedStore.Get(st, k)
    ensures w.WriteFailed? ==> r.1 == st
  {
    (requestOk, SaveExamsStorage(st, SaveExamLocal(st, exam), w))
  }
}

=== FILE: exam_template_export.dfy ===
/**
  The template export of an exam (`examWordExportService.ts`): the exam is
  written out as one block of text that fills the `Exercices` field of the
  ministry template, next to a handful of header fields that fall back to
  defaults.  Loading the template and producing the file are I/O; whether
  the template could be loaded is a parameter.
*/
module ExamTemplateExport {
  import opened Wrappers
  import opened Strings
  import opened Records
  import Seqs
  import ExamNativeExport

  /** One answer line of the template. */
  const Dots: string := "....................................."
  const DifferentiationMarker: string := "⭐ Question de différenciation\n"
  const LegendLine: string := "[Espace pour légender le schéma/image]"
  const Boxes: string := "   ☐ Vrai   ☐ Faux"
  const ResourceOpen: string := "\n--- Ressource ---\n"
  const ResourceClose: string := "--- Fin Ressource ---\n"
  const GeneralOpen: string := "\n━━━━━━━━━━━━ RESSOURCES GÉNÉRALES ━━━━━━━━━━━━\n"
  /** The placeholder for a missing teacher name or semester. */
  const Blank: string := ".............................."
  const TemplateMissing: string := "Impossible de charger le template d'examen"

  /** `generateAnswerLines(n)`: `n` answer lines joined by line breaks. */
  function AnswerLines(n: nat): (r: string)
    ensures n == 0 <==> r == ""
  {
    Join(Repeat(n, Dots), "\n")
  }

  /** Reading the answer lines back line by line gives exactly `n` dotted lines. */
  lemma AnswerLinesRead(n: nat)
    requires n >= 1
    ensures Split(AnswerLines(n), '\n') == Repeat(n, Dots)
  {
    SplitOfJoin(Repeat(n, Dots), '\n');
  }

  /** How many answer lines an open question gets: fixed per type, `expectedLines || 8` for long answers. */
  function LineCount(q: ExamQuestion): (n: nat)
    ensures n >= 1
    ensures q.qtype == TexteATrous ==> n == 2
    ensures q.qtype == Legender || q.qtype == Definitions ==> n == 3
    ensures q.qtype == AnalyseDocuments ==> n == 5
    ensures q.qtype == ReponseLongue || q.qtype == Probleme ==>
      n == (if q.expectedLines != 0 then q.expectedLines else 8)
    ensures q.qtype.OtherType? ==> n == 4
  {
    match q.qtype
    case TexteATrous => 2
    case Legender => 3
    case Definitions => 3
    case AnalyseDocuments => 5
    case ReponseLongue => if q.expectedLines != 0 then q.expectedLines else 8
    case Probleme => if q.expectedLines != 0 then q.expectedLines else 8
    case _ => 4
  }

  /** None of the texts holds a line break. */
  predicate NoBreaks(ts: seq<string>) {
    forall k :: 0 <= k < |ts| ==> '\n' !in ts[k]
  }

  /** Each text followed by a line break. */
  function Lines(ts: seq<string>): (r: string)
    decreases |ts|
  {
    if ts == [] then "" else ts[0] + "\n" + Lines(ts[1..])
  }

  function OptionText(opts: seq<string>, i: nat): string
    requires i < |opts|
  {
    "☐ " + ExamNativeExport.OptionLetter(i) + ". " + opts[i]
  }

  function OptionTexts(opts: seq<string>): (ts: seq<string>)
    ensures |ts| == |opts|
  {
    seq(|opts|, i requires 0 <= i < |opts| => OptionText(opts, i))
  }

  /** A true/false statement and the line of boxes under it, numbered from 1. */
  function StatementTexts(ss: seq<Statement>): (ts: seq<string>)
    ensures |ts| == 2 * |ss|
  {
    StatementTextsFrom(ss, 0)
  }

  function StatementTextsFrom(ss: seq<Statement>, i: nat): (ts: seq<string>)
    requires i <= |ss|
    ensures |ts| == 2 * (|ss| - i)
    decreases |ss| - i
  {
    if i == |ss| then []
    else [NatToString(i + 1) + ". " + ss[i].statement, Boxes] + StatementTextsFrom(ss, i + 1)
  }

  /** What follows a question's statement: its options, its true/false statements, or its answer lines. */
  function TypeBlock(q: ExamQuestion): string {
    match q.qtype
    case Qcm => if q.options.Some? then "\n" + Lines(OptionTexts(q.options.value)) else ""
    case VraiFaux => if q.statements.Some? then "\n" + Lines(StatementTexts(q.statements.value)) else ""
    case Legender => "\n" + LegendLine + AnswerBlock(3)
    case _ => AnswerBlock(LineCount(q))
  }

  /** `n` answer lines between two line breaks. */
  function AnswerBlock(n: nat): string {
    "\n" + AnswerLines(n) + "\n"
  }

  function ResourceBody(r: Resource): string {
    match r.kind
    case TextResource => r.content + "\n"
    case ImageResource => "[Insérer Image : " + (if r.imageDescription != "" then r.imageDescription else r.title) + "]\n"
    case TableResource => r.content + "\n"
    case GraphResource => r.content + "\n"
    case OtherResource => ""
  }

  /** The resource block of a question: present exactly when the question has a resource attached. */
  function ResourceBlock(q: ExamQuestion): (r: string)
    ensures r == "" <==> !(q.hasResource && q.resource.Some?)
    ensures r != "" ==> StartsWith(r, ResourceOpen) && EndsWith(r, ResourceClose)
  {
    if q.hasResource && q.resource.Some? then
      var r := ResourceOpen + ResourceBody(q.resource.value) + ResourceClose;
      assert r[..|ResourceOpen|] == ResourceOpen;
      assert r[|r| - |ResourceClose|..] == ResourceClose;
      r
    else ""
  }

  /** The numbered title line of a question: its 1-based number, title and points. */
  function Header(q: ExamQuestion, index: nat): (h: string)
    ensures StartsWith(h, "\n" + NatToString(index + 1) + ". ")
    ensures EndsWith(h, " (" + IntToString(q.points) + " points)\n")
    ensures |h| == |NatToString(index + 1)| + |q.title| + |IntToString(q.points)| + 14
    ensures h[|NatToString(index + 1)| + 3..|h| - |IntToString(q.points)| - 11] == q.title
  {
    var pre := "\n" + NatToString(index + 1) + ". ";
    var post := " (" + IntToString(q.points) + " points)\n";
    var h := pre + q.title + post;
    assert h[..|pre|] == pre;
    assert h[|h| - |post|..] == post;
    h
  }

  /**
    `formatQuestion(q, index)`: the numbered title, the differentiation
    marker right after it exactly for differentiation questions, the
    statement, the resource block, then the type block.
  */
  function FormatQuestion(q: ExamQuestion, index: nat): (r: string)
    ensures StartsWith(r, Header(q, index))
    ensures |r| > |Header(q, index)| && (r[|Header(q, index)|] == '⭐' <==> q.isDifferentiation)
    ensures EndsWith(r, ResourceBlock(q) + TypeBlock(q))
  {
    var h := Header(q, index);
    var m := if q.isDifferentiation then DifferentiationMarker else "";
    var tail := ResourceBlock(q) + TypeBlock(q);
    var r := h + m + "\n" + q.content + "\n" + tail;
    assert r[..|h|] == h;
    assert r[|r| - |tail|..] == tail;
    assert r[|h|] == (m + "\n")[0];
    r
  }

  // ---------------------------------------------------- reading back

  lemma {:induction false} JoinSnocEmpty(parts: seq<string>, sep: string)
    requires |parts| >= 1
    ensures Join(parts + [""], sep) == Join(parts, sep) + sep
    decreases |parts|
  {
    if |parts| > 1 {
      assert (parts + [""])[1..] == parts[1..] + [""];
      JoinSnocEmpty(parts[1..], sep);
    }
  }

  lemma {:induction false} LinesAsJoin(ts: seq<string>)
    ensures Lines(ts) == Join(ts + [""], "\n")
    decreases |ts|
  {
    if ts != [] {
      LinesAsJoin(ts[1..]);
      assert (ts + [""])[1..] == ts[1..] + [""];
    }
  }

  /** A block that opens with a line break and holds the given lines reads back as an empty line, the lines, and an empty line. */
  lemma {:induction false} LinesBlockRead(ts: seq<string>)
    requires NoBreaks(ts)
    ensures Split("\n" + Lines(ts), '\n') == [""] + ts + [""]
  {
    LinesAsJoin(ts);
    var parts := [""] + ts + [""];
    var tail := ts + [""];
    assert parts[1..] == tail;
    assert forall k :: 0 <= k < |parts| ==> '\n' !in parts[k] by {
      forall k | 0 <= k < |parts| ensures '\n' !in parts[k] {
        if 0 < k <= |ts| {
          assert parts[k] == ts[k - 1];
        }
      }
    }
    var j := Join(tail, "\n");
    assert Join(parts, "\n") == parts[0] + "\n" + j;
    assert parts[0] + "\n" + j == "\n" + j;
    SplitOfJoin(parts, '\n');
  }

  /** The block under a labelling question reads back as the legend line over exactly three dotted lines. */
  lemma LegendBlockRead(q: ExamQuestion)
    requires q.qtype == Legender
    ensures Split(TypeBlock(q), '\n') == [""] + [LegendLine] + Repeat(LineCount(q), Dots) + [""]
  {
    assert TypeBlock(q) == "\n" + LegendLine + AnswerBlock(3) && LineCount(q) == 3;
    LegendDotsRead();
  }

  /** The block under any other open question reads back as exactly `LineCount(q)` dotted lines. */
  lemma OpenBlockRead(q: ExamQuestion)
    requires !ExamNativeExport.HasChoices(q) && q.qtype != Legender
    ensures Split(TypeBlock(q), '\n') == [""] + Repeat(LineCount(q), Dots) + [""]
  {
    var n := LineCount(q);
    assert TypeBlock(q) == AnswerBlock(n);
    DotsBlockRead(n);
  }

  lemma {:induction false} DotsBlockRead(n: nat)
    requires n >= 1
    ensures Split(AnswerBlock(n), '\n') == [""] + Repeat(n, Dots) + [""]
  {
    LinesBlockOf(Repeat(n, Dots));
  }

  lemma {:induction false} LegendDotsRead()
    ensures Split("\n" + LegendLine + AnswerBlock(3), '\n') == [""] + [LegendLine] + Repeat(3, Dots) + [""]
  {
    assert '\n' !in LegendLine;
    HeadedAnswerRead(LegendLine, 3);
  }

  /** A heading line over `n` answer lines reads back as the heading and the lines. */
  lemma {:induction false} HeadedAnswerRead(head: string, n: nat)
    requires n >= 1 && '\n' !in head
    ensures Split("\n" + head + AnswerBlock(n), '\n') == [""] + [head] + Repeat(n, Dots) + [""]
  {
    HeadedBlockRead(head, Repeat(n, Dots));
  }

  /** A heading line over a block of lines reads back the same way. */
  lemma {:induction false} HeadedBlockRead(head: string, body: seq<string>)
    requires |body| >= 1 && '\n' !in head && NoBreaks(body)
    ensures Split("\n" + head + ("\n" + Join(body, "\n") + "\n"), '\n') == [""] + [head] + body + [""]
  {
    var mid := [head] + body;
    JoinCons(head, body);
    NoBreaksCons(head, body);
    Regroup(head, Join(body, "\n"));
    LinesBlockOf(mid);
    AppendRegroup([""], [head], body, [""]);
  }

  lemma Regroup(head: string, rest: string)
    ensures "\n" + head + ("\n" + rest + "\n") == "\n" + (head + "\n" + rest) + "\n"
  {
  }

  lemma AppendRegroup<T>(a: seq<T>, b: seq<T>, c: seq<T>, d: seq<T>)
    ensures a + b + c + d == a + (b + c) + d
  {
  }

  lemma JoinCons(head: string, body: seq<string>)
    requires |body| >= 1
    ensures Join([head] + body, "\n") == head + "\n" + Join(body, "\n")
  {
    assert ([head] + body)[1..] == body;
  }

  lemma NoBreaksCons(head: string, body: seq<string>)
    requires '\n' !in head && NoBreaks(body)
    ensures NoBreaks([head] + body)
  {
    var mid := [head] + body;
    forall k | 0 <= k < |mid| ensures '\n' !in mid[k] {
      if k > 0 {
        assert mid[k] == body[k - 1];
      }
    }
  }

  lemma {:induction false} LinesBlockOf(mid: seq<string>)
    requires |mid| >= 1
    requires NoBreaks(mid)
    ensures Split("\n" + Join(mid, "\n") + "\n", '\n') == [""] + mid + [""]
  {
    JoinSnocEmpty(mid, "\n");
    LinesAsJoin(mid);
    LinesBlockRead(mid);
    assert "\n" + Join(mid, "\n") + "\n" == "\n" + Lines(mid);
  }

  /** Options without line breaks read back one per line, lettered from A. */
  lemma {:induction false} OptionBlockRead(q: ExamQuestion)
    requires q.qtype == Qcm && q.options.Some?
    requires |q.options.value| <= ExamNativeExport.LetterCount
    requires forall k :: 0 <= k < |q.options.value| ==> '\n' !in q.options.value[k]
    ensures Split(TypeBlock(q), '\n') == [""] + OptionTexts(q.options.value) + [""]
  {
    var ts := OptionTexts(q.options.value);
    forall k | 0 <= k < |ts| ensures '\n' !in ts[k] {
      var l := ExamNativeExport.OptionLetter(k);
      assert l[0] as int == 65 + k;
    }
    LinesBlockRead(ts);
  }

  /** True/false statements without line breaks read back as the numbered statement and its boxes, in turn. */
  lemma {:induction false} StatementBlockRead(q: ExamQuestion)
    requires q.qtype == VraiFaux && q.statements.Some?
    requires forall k :: 0 <= k < |q.statements.value| ==> '\n' !in q.statements.value[k].statement
    ensures Split(TypeBlock(q), '\n') == [""] + StatementTexts(q.statements.value) + [""]
  {
    var ss := q.statements.value;
    StatementTextsNoBreak(ss, 0);
    LinesBlockRead(StatementTexts(ss));
  }

  lemma {:induction false} StatementTextsNoBreak(ss: seq<Statement>, i: nat)
    requires i <= |ss|
    requires forall k :: 0 <= k < |ss| ==> '\n' !in ss[k].statement
    ensures NoBreaks(StatementTextsFrom(ss, i))
    decreases |ss| - i
  {
    if i < |ss| {
      StatementTextsNoBreak(ss, i + 1);
      var ts := StatementTextsFrom(ss, i);
      var rest := StatementTextsFrom(ss, i + 1);
      var digits := NatToString(i + 1);
      assert '\n' !in digits;
      assert ts == [digits + ". " + ss[i].statement, Boxes] + rest;
      forall k | 2 <= k < |ts| ensures '\n' !in ts[k] {
        assert ts[k] == rest[k - 2];
      }
    }
  }

  /** Statement `i` is numbered `i + 1` and followed by the line of boxes. */
  lemma {:induction false} StatementNumbering(ss: seq<Statement>, i: nat)
    requires i < |ss|
    ensures var ts := StatementTexts(ss);
      ts[2 * i] == NatToString(i + 1) + ". " + ss[i].statement && ts[2 * i + 1] == Boxes
  {
    StatementAt(ss, 0, i);
  }

  lemma {:induction false} StatementAt(ss: seq<Statement>, from: nat, i: nat)
    requires from <= i < |ss|
    ensures var ts := StatementTextsFrom(ss, from);
      ts[2 * (i - from)] == NatToString(i + 1) + ". " + ss[i].statement && ts[2 * (i - from) + 1] == Boxes
    decreases i - from
  {
    if from < i {
      StatementAt(ss, from + 1, i);
    }
  }

  // --------------------------------------------------- the whole text

  function ResourceKindLabel(r: Resource): string {
    if r.kind == ImageResource then "Image" else "Graphique"
  }

  function GeneralResourceBody(r: Resource): string {
    match r.kind
    case TextResource => r.content + "\n"
    case ImageResource => "[Insérer " + ResourceKindLabel(r) + " : " + (if r.imageDescription != "" then r.imageDescription else r.content) + "]\n"
    case GraphResource => "[Insérer " + ResourceKindLabel(r) + " : " + (if r.imageDescription != "" then r.imageDescription else r.content) + "]\n"
    case TableResource => r.content + "\n"
    case OtherResource => ""
  }

  /** Pieces numbered from `start`, one after the other. */
  function Numbered<T>(xs: seq<T>, start: nat, piece: (T, nat) -> string): string
    decreases |xs|
  {
    if xs == [] then "" else piece(xs[0], start) + Numbered(xs[1..], start + 1, piece)
  }

  /** Splitting the items anywhere: the second part carries on the numbering of the first. */
  lemma {:induction false} NumberedAppend<T>(a: seq<T>, b: seq<T>, start: nat, piece: (T, nat) -> string)
    ensures Numbered(a + b, start, piece) == Numbered(a, start, piece) + Numbered(b, start + |a|, piece)
    decreases |a|
  {
    if a == [] {
      assert a + b == b;
    } else {
      assert (a + b)[1..] == a[1..] + b;
      NumberedAppend(a[1..], b, start + 1, piece);
    }
  }

  /** Item `i` is numbered `start + i`, wherever it stands. */
  lemma {:induction false} NumberedAt<T>(xs: seq<T>, start: nat, piece: (T, nat) -> string, i: nat)
    requires i < |xs|
    ensures Numbered(xs, start, piece) ==
      Numbered(xs[..i], start, piece) + piece(xs[i], start + i) + Numbered(xs[i + 1..], start + i + 1, piece)
  {
    assert xs == xs[..i] + xs[i..];
    NumberedAppend(xs[..i], xs[i..], start, piece);
    assert xs[i..][1..] == xs[i + 1..];
  }

  /** One general resource under number `index + 1`. */
  function GeneralResource(r: Resource, index: nat): string {
    "\nRessource " + NatToString(index + 1) + " : " + r.title + "\n" + GeneralResourceBody(r) + "\n"
  }

  /** The rule of 60 box-drawing dashes that closes every question. */
  function Rule(): (r: string)
    ensures |r| == 60
  {
    Repeat(60, '─')
  }

  /** One question under number `index + 1`, closed by the rule. */
  function RuledQuestion(q: ExamQuestion, index: nat): string {
    FormatQuestion(q, index) + "\n" + Rule() + "\n"
  }

  /** The general-resources block: nothing without resources, otherwise a block under its banner. */
  function GeneralBlock(resources: seq<Resource>): (r: string)
    ensures resources == [] <==> r == ""
    ensures resources != [] ==> StartsWith(r, GeneralOpen)
  {
    if resources == [] then ""
    else
      var rest := Numbered(resources, 0, GeneralResource) + Repeat(44, '━') + "\n\n";
      ConcatEnds(GeneralOpen, rest);
      GeneralOpen + rest
  }

  /** `formatExercises`: the general-resources block, only when there are resources, then the questions. */
  function FormatExercises(exam: Exam): (r: string)
    ensures exam.resources == [] ==> r == Numbered(exam.questions, 0, RuledQuestion)
    ensures exam.resources != [] ==> StartsWith(r, GeneralOpen)
    ensures EndsWith(r, Numbered(exam.questions, 0, RuledQuestion))
  {
    var block := GeneralBlock(exam.resources);
    var qs := Numbered(exam.questions, 0, RuledQuestion);
    ConcatEnds(block, qs);
    StartsWithPrefix(block + qs, block, GeneralOpen);
    assert block == "" ==> block + qs == qs;
    block + qs
  }

  // ------------------------------------------------------- the export

  /** The fields the template is filled with. */
  datatype TemplateData = TemplateData(
    matiere: string,
    classe: string,
    duree: string,
    enseignant: string,
    semestre: string,
    date: string,
    exercices: string)

  /** The template data: each header field keeps the exam's value or falls back to its default, so none is ever empty. */
  function Data(exam: Exam): (d: TemplateData)
    ensures d.matiere == OrElse(exam.title, "Examen de " + exam.subject)
    ensures d.classe == OrElse(exam.className, GradeValue(exam.grade))
    ensures d.duree == OrElse(exam.duration, "2H")
    ensures d.enseignant == OrElse(exam.teacherName, Blank)
    ensures d.semestre == OrElse(exam.semester, Blank)
    ensures d.date == OrElse(exam.date, "....")
    ensures d.exercices == FormatExercises(exam)
    ensures d.matiere != "" && d.classe != "" && d.duree != "" && d.enseignant != "" && d.semestre != "" && d.date != ""
  {
    TemplateData(
      OrElse(exam.title, "Examen de " + exam.subject),
      OrElse(exam.className, GradeValue(exam.grade)),
      OrElse(exam.duration, "2H"),
      OrElse(exam.teacherName, Blank),
      OrElse(exam.semester, Blank),
      OrElse(exam.date, "...."),
      FormatExercises(exam))
  }

  /** A filled template and the name of the file it is saved under. */
  datatype TemplateFile = TemplateFile(name: string, data: TemplateData)

  /**
    `exportExamToWord`: fails only when the template cannot be loaded;
    otherwise the data above, saved under the same name as the native
    export.  Unlike the native export, an empty subject is not refused.
  */
  function ExportExamToWord(exam: Exam, templateLoaded: bool): (r: Result<TemplateFile>)
    ensures r.Failure? <==> !templateLoaded
    ensures r.Failure? ==> r.error == "Échec de l'export: " + TemplateMissing
    ensures r.Success? ==> r.value.data == Data(exam) && r.value.name == ExamNativeExport.FileName("Examen_", exam)
  {
    if !templateLoaded then Failure("Échec de l'export: " + TemplateMissing)
    else Success(TemplateFile(ExamNativeExport.FileName("Examen_", exam), Data(exam)))
  }

  /** Applies `f` in order and stops at the first failure, which it passes on. */
  function MapUntilFailure<A, B>(xs: seq<A>, f: A -> Result<B>): (r: Result<seq<B>>)
    ensures r.Success? <==> forall k :: 0 <= k < |xs| ==> f(xs[k]).Success?
    ensures r.Success? ==> |r.value| == |xs| && forall k :: 0 <= k < |xs| ==> r.value[k] == f(xs[k]).value
    ensures r.Failure? ==>
      exists k :: 0 <= k < |xs| && f(xs[k]).Failure? && r.error == f(xs[k]).error && (forall j :: 0 <= j < k ==> f(xs[j]).Success?)
    decreases |xs|
  {
    if xs == [] then Success([])
    else
      var first := f(xs[0]);
      if first.Failure? then Failure(first.error)
      else
        var rest := MapUntilFailure(xs[1..], f);
        if rest.Failure? then
          assert forall k :: 1 <= k < |xs| ==> xs[k] == xs[1..][k - 1];
          Failure(rest.error)
        else
          var r := [first.value] + rest.value;
          assert forall k :: 1 <= k < |xs| ==> xs[k] == xs[1..][k - 1] && r[k] == rest.value[k - 1];
          Success(r)
  }

  /**
    `exportMultipleExamsToZip`: one export per exam in order, stopping at
    the first failure, whose message it wraps.  With the template at hand
    every exam is exported; without it, any exam at all makes it fail.
  */
  function ExportMultiple(exams: seq<Exam>, templateLoaded: bool): (r: Result<seq<TemplateFile>>)
    ensures r.Success? <==> templateLoaded || exams == []
    ensures r.Success? ==> |r.value| == |exams|
    ensures r.Success? ==> forall k :: 0 <= k < |exams| ==> r.value[k] == ExportExamToWord(exams[k], true).value
    ensures r.Failure? ==> r.error == "Échec de l'export multiple: " + "Échec de l'export: " + TemplateMissing
  {
    var all := MapUntilFailure(exams, e => ExportExamToWord(e, templateLoaded));
    if all.Failure? then Failure("Échec de l'export multiple: " + all.error) else all
  }
}

=== FILE: exam_wizard.dfy ===
/**
  The exam wizard: five steps (grade, subject, type and semester, chapters,
  preview) driven by Next/Back/Generate/Reset buttons.  The generator it
  calls is the one of the exam generation module, with the provider keys,
  the model's reply, the JSON parser and the clock as parameters.
*/
module ExamWizard {
  import opened Wrappers
  import opened Strings
  import opened Records
  import Seqs
  import ExamAi

  // ------------------------------------------------------------ subjects

  const CollegeSubjects: seq<string> := [
    "Français", "Anglais", "Mathématiques", "SVT", "Physique-Chimie",
    "Histoire-Géographie-EMC", "Technologie"]

  const LyceeSubjects: seq<string> := [
    "Français", "Anglais", "Mathématiques", "SVT", "Physique-Chimie",
    "Histoire-Géographie-EMC", "Sciences Numériques et Technologiques (SNT)",
    "Sciences Économiques et Sociales (SES)"]

  const PhysicsChemistry: string := "Physique-Chimie"

  /** Seconde, première and terminale. */
  predicate IsLycee(g: ExamGrade) {
    g == Seconde || g == Premiere || g == Terminale
  }

  /** A subject naming physics-chemistry, the one sixième does not take. */
  predicate NamesPhysics(s: string) {
    Contains(s, PhysicsChemistry)
  }

  /** `getSubjectsForGrade`. */
  function SubjectsForGrade(g: ExamGrade): (r: seq<string>)
    ensures IsLycee(g) ==> r == LyceeSubjects
    ensures !IsLycee(g) && g != Sixieme ==> r == CollegeSubjects
    ensures g == Sixieme ==> forall s :: s in r <==> s in CollegeSubjects && s != PhysicsChemistry
  {
    if IsLycee(g) then LyceeSubjects
    else if g == Sixieme then
      SixiemeDropsPhysicsOnly();
      Seqs.Filter(CollegeSubjects, s => !NamesPhysics(s))
    else CollegeSubjects
  }

  /** Of the collège subjects, only physics-chemistry names physics-chemistry. */
  lemma SixiemeDropsPhysicsOnly()
    ensures forall s :: s in CollegeSubjects ==> (NamesPhysics(s) <==> s == PhysicsChemistry)
  {
    assert StartsWith(PhysicsChemistry, PhysicsChemistry);
    forall s | s in CollegeSubjects && s != PhysicsChemistry ensures !NamesPhysics(s) {
      assert 'P' !in s;
      if NamesPhysics(s) {
        ContainsChar(s, PhysicsChemistry, 'P');
      }
    }
  }

  // ---------------------------------------------------------- the wizard

  /** The two kinds of paper the wizard produces. */
  datatype ExamKind = Examen | Evaluation

  /** The text of a kind, as shown and as put in the title. */
  function KindValue(k: ExamKind): (s: string)
    ensures s != ""
    ensures k == Evaluation <==> s == ExamAi.Evaluation
  {
    match k
    case Examen => "Examen"
    case Evaluation => ExamAi.Evaluation
  }

  /** The wizard's state; an unchosen grade or kind is `None`, an unchosen semester `""`. */
  datatype Wizard = Wizard(
    step: int,
    grade: Option<ExamGrade>,
    subject: string,
    kind: Option<ExamKind>,
    semester: string,
    chapters: string,
    teacherName: string,
    generated: Option<Exam>)

  /** The state the wizard opens in, and `handleReset` returns to. */
  const Start := Wizard(1, None, "", None, "", "", "", None)

  /** `handleNext`: one step on when the current step's choice is made, otherwise no move. */
  function Next(w: Wizard): (r: Wizard)
    ensures r.step == w.step || r.step == w.step + 1
    ensures r == w.(step := r.step)
    ensures r.step == w.step + 1 <==>
      (w.step == 1 ==> w.grade.Some?) &&
      (w.step == 2 ==> w.subject != "") &&
      (w.step == 3 ==> w.kind.Some? && w.semester != "")
  {
    if w.step == 1 && w.grade.None? then w
    else if w.step == 2 && w.subject == "" then w
    else if w.step == 3 && (w.kind.None? || w.semester == "") then w
    else w.(step := w.step + 1)
  }

  /** `handleBack`: one step back, or leaving the wizard from the first step (the second component). */
  function Back(w: Wizard): (r: (Wizard, bool))
    ensures r.1 <==> w.step == 1
    ensures r.1 ==> r.0 == w
    ensures !r.1 ==> r.0 == w.(step := w.step - 1)
  {
    if w.step == 1 then (w, true) else (w.(step := w.step - 1), false)
  }

  /** Everything `handleGenerate` demands before it calls the generator. */
  predicate ReadyToGenerate(w: Wizard) {
    w.grade.Some? && w.subject != "" && w.kind.Some? && w.semester != "" && Trim(w.chapters) != ""
  }

  const SemesterPrefix: string := "Semestre "
  const TitleJoin: string := " de "
  const TitleGradeJoin: string := " - "

  /** The generator's inputs besides the configuration. */
  datatype Oracle = Oracle(keys: ExamAi.ApiKeys, ask: ExamAi.Ask, parses: string -> bool, decode: string -> ExamAi.AiExam, now: int)

  /** The configuration `handleGenerate` builds, passing on the paper kind when `withKind` holds. */
  function ConfigOf(w: Wizard, withKind: bool): (c: ExamAi.ExamConfig)
    requires ReadyToGenerate(w)
    ensures c.subject == w.subject && c.grade == w.grade.value && c.chapters == w.chapters
    ensures c.semester == SemesterPrefix + w.semester && c.className == GradeValue(w.grade.value)
    ensures c.examType == (if withKind then KindValue(w.kind.value) else "")
  {
    ExamAi.ExamConfig(
      subject := w.subject,
      grade := w.grade.value,
      semester := SemesterPrefix + w.semester,
      chapters := w.chapters,
      teacherName := w.teacherName,
      className := GradeValue(w.grade.value),
      examType := if withKind then KindValue(w.kind.value) else "")
  }

  /**
    `handleGenerate` as it stands: the configuration sent to the generator
    leaves the paper kind out, so the generator counts every paper as an
    "Examen".  On success the exam is retitled and moved to the preview.
  */
  function GenerateAsWritten(w: Wizard, o: Oracle): (r: Wizard)
    ensures !ReadyToGenerate(w) ==> r == w
    ensures ReadyToGenerate(w) ==>
      var out := ExamAi.GenerateExam(ConfigOf(w, false), o.keys, o.ask, o.parses, o.decode, o.now);
      (out.Failure? ==> r == w) &&
      (out.Success? ==>
        r.step == 5 && r.generated.Some? &&
        r.generated.value.totalPoints == ExamAi.ExpectedTotal("", w.grade.value) &&
        r.generated.value.title == Title(w))
  {
    if !ReadyToGenerate(w) then w
    else Generated(w, ExamAi.GenerateExam(ConfigOf(w, false), o.keys, o.ask, o.parses, o.decode, o.now))
  }

  /** `handleGenerate` with the paper kind passed to the generator, as the title it writes intends. */
  function GenerateCorrected(w: Wizard, o: Oracle): (r: Wizard)
    ensures !ReadyToGenerate(w) ==> r == w
    ensures ReadyToGenerate(w) ==>
      var out := ExamAi.GenerateExam(ConfigOf(w, true), o.keys, o.ask, o.parses, o.decode, o.now);
      (out.Failure? ==> r == w) &&
      (out.Success? ==>
        r.step == 5 && r.generated.Some? &&
        r.generated.value.totalPoints == ExamAi.ExpectedTotal(KindValue(w.kind.value), w.grade.value) &&
        r.generated.value.title == Title(w))
  {
    if !ReadyToGenerate(w) then w
    else Generated(w, ExamAi.GenerateExam(ConfigOf(w, true), o.keys, o.ask, o.parses, o.decode, o.now))
  }

  /** The title `handleGenerate` gives the exam: `"{kind} de {subject} - {grade}"`, starting with the kind. */
  function Title(w: Wizard): (t: string)
    requires ReadyToGenerate(w)
    ensures StartsWith(t, KindValue(w.kind.value))
  {
    var kind := KindValue(w.kind.value);
    var rest := TitleJoin + w.subject + TitleGradeJoin + GradeValue(w.grade.value);
    ConcatEnds(kind, rest);
    kind + rest
  }

  /** The state after the generator answered: unchanged on an error, the retitled exam in preview otherwise. */
  function Generated(w: Wizard, out: Result<Exam>): (r: Wizard)
    requires ReadyToGenerate(w)
    ensures out.Failure? ==> r == w
    ensures out.Success? ==> r == w.(step := 5, generated := r.generated) && r.generated.Some?
    ensures out.Success? ==>
      var e := r.generated.value;
      e.title == Title(w) &&
      e.semester == SemesterPrefix + w.semester &&
      e == out.value.(title := e.title, semester := e.semester)
  {
    if out.Failure? then w
    else
      w.(step := 5, generated := Some(out.value.(title := Title(w), semester := SemesterPrefix + w.semester)))
  }

  /** As written, an evaluation for sixième is generated out of 30 points, though announced as an evaluation. */
  lemma SixiemeEvaluationAsWritten(w: Wizard, o: Oracle)
    requires ReadyToGenerate(w) && w.grade == Some(Sixieme) && w.kind == Some(Evaluation)
    requires GenerateAsWritten(w, o).generated.Some?
    requires w.generated.None?
    ensures GenerateAsWritten(w, o).generated.value.totalPoints == 30
    ensures StartsWith(GenerateAsWritten(w, o).generated.value.title, ExamAi.Evaluation)
  {
  }

  /** With the kind passed on, an evaluation for sixième is generated out of 20 points. */
  lemma SixiemeEvaluationCorrected(w: Wizard, o: Oracle)
    requires ReadyToGenerate(w) && w.grade == Some(Sixieme) && w.kind == Some(Evaluation)
    requires GenerateCorrected(w, o).generated.Some?
    requires w.generated.None?
    ensures GenerateCorrected(w, o).generated.value.totalPoints == 20
  {
  }

  /** `handleReset`. */
  function Reset(w: Wizard): (r: Wizard)
    ensures r.step == 1 && r.grade.None? && r.kind.None? && r.generated.None?
    ensures r.subject == "" && r.semester == "" && r.chapters == "" && r.teacherName == ""
  {
    Start
  }

  // ----------------------------------------------------------- the screen

  /** What the user can do on the screen. */
  datatype Action =
    | PickGrade(g: ExamGrade)
    | PickSubject(s: string)
    | PickKind(k: ExamKind)
    | PickSemester(sem: string)
    | TypeChapters(text: string)
    | TypeTeacher(name: string)
    | PressNext
    | PressBack
    | PressGenerate
    | PressReset

  /**
    One user action, taking effect only where the screen offers it: choices
    on their own step, Next on steps 1 to 3, Generate on step 4, Reset on the
    preview, Back everywhere (from step 1 it leaves, which is the second
    component).  `generated` is the state the Generate button leads to.
  */
  function Respond(w: Wizard, a: Action, generated: Wizard): (r: (Wizard, bool))
    ensures r.1 ==> a.PressBack? && w.step == 1
    ensures a.PressNext? && 1 <= w.step <= 3 ==> r.0 == Next(w)
    ensures a.PressGenerate? && w.step == 4 ==> r.0 == generated
    ensures a.PressReset? && w.step == 5 && w.generated.Some? ==> r.0 == Start
    ensures (a.PressNext? && !(1 <= w.step <= 3)) || (a.PressGenerate? && w.step != 4) ==> r == (w, false)
  {
    match a
    case PickGrade(g) => (if w.step == 1 then w.(grade := Some(g)) else w, false)
    case PickSubject(s) => (if w.step == 2 then w.(subject := s) else w, false)
    case PickKind(k) => (if w.step == 3 then w.(kind := Some(k)) else w, false)
    case PickSemester(sem) => (if w.step == 3 then w.(semester := sem) else w, false)
    case TypeChapters(text) => (if w.step == 4 then w.(chapters := text) else w, false)
    case TypeTeacher(name) => (if w.step == 4 then w.(teacherName := name) else w, false)
    case PressNext => (if 1 <= w.step <= 3 then Next(w) else w, false)
    case PressBack => Back(w)
    case PressGenerate => (if w.step == 4 then generated else w, false)
    case PressReset => (if w.step == 5 && w.generated.Some? then Reset(w) else w, false)
  }

  /** The screen as written: the Generate button runs `handleGenerate` without the paper kind. */
  function Act(w: Wizard, a: Action, o: Oracle): (r: (Wizard, bool))
    ensures r.1 ==> a.PressBack? && w.step == 1
    ensures a.PressNext? && 1 <= w.step <= 3 ==> r.0 == Next(w)
    ensures a.PressGenerate? && w.step == 4 ==> r.0 == GenerateAsWritten(w, o)
    ensures a.PressReset? && w.step == 5 && w.generated.Some? ==> r.0 == Start
    ensures (a.PressNext? && !(1 <= w.step <= 3)) || (a.PressGenerate? && w.step != 4) ==> r == (w, false)
  {
    Respond(w, a, GenerateAsWritten(w, o))
  }

  /** The screen with the corrected Generate button, which passes the paper kind on. */
  function ActCorrected(w: Wizard, a: Action, o: Oracle): (r: (Wizard, bool))
    ensures a.PressGenerate? && w.step == 4 ==> r.0 == GenerateCorrected(w, o)
    ensures !a.PressGenerate? ==> r == Act(w, a, o)
  {
    RespondIgnoresGenerated(w, a, GenerateCorrected(w, o), GenerateAsWritten(w, o));
    Respond(w, a, GenerateCorrected(w, o))
  }

  /** Only the Generate button looks at what generation leads to. */
  lemma RespondIgnoresGenerated(w: Wizard, a: Action, g1: Wizard, g2: Wizard)
    ensures !a.PressGenerate? ==> Respond(w, a, g1) == Respond(w, a, g2)
  {
  }

  /** Every action that stays in the wizard keeps the step between 1 and 5. */
  lemma StepInRange(w: Wizard, a: Action, o: Oracle)
    requires 1 <= w.step <= 5
    ensures !Act(w, a, o).1 ==> 1 <= Act(w, a, o).0.step <= 5
  {
  }

  /** The preview is reached only through a successful generation. */
  lemma PreviewOnlyAfterGenerate(w: Wizard, a: Action, o: Oracle)
    requires 1 <= w.step <= 4
    requires Act(w, a, o).0.step == 5
    ensures a.PressGenerate? && w.step == 4 && Act(w, a, o).0.generated.Some?
  {
  }
}

=== FILE: http.dfy ===
/** What the two serverless HTTP handlers share: the request method and the outcome of reaching the database. */
module Http {

  /** The request methods a handler tells apart; anything else is `OtherMethod`. */
  datatype Method = Get | Post | Delete | Options | OtherMethod(name: string)

  /** Status codes the handlers answer with. */
  const Ok := 200
  const Created := 201
  const BadRequest := 400
  const NotAllowed := 405
  const ServerError := 500
}

=== FILE: json.dfy ===
/**
  Untyped values as the application receives them from `JSON.parse`, request
  bodies and `localStorage`, together with the JavaScript coercions the code
  applies to them (`||`, `!!`, `String(..)`, `Number(..)`, property access).
  Numbers are integers: the fractional part of a JavaScript number is not
  represented.
*/
module Json {
  import Strings

  datatype JsonValue =
    | JUndefined
    | JNull
    | JBool(b: bool)
    | JNum(n: int)
    | JStr(s: string)
    | JArr(items: seq<JsonValue>)
    | JObj(fields: map<string, JsonValue>)

  /**
    JavaScript truthiness: `false`, `0`, `""`, `null` and `undefined` are
    falsy. Objects and arrays are truthy even when empty, and for values that
    are neither text nor objects `!!v` agrees with `!!Number(v)`.
  */
  predicate Truthy(v: JsonValue)
    ensures IsObjectLike(v) ==> Truthy(v)
    ensures v.JNull? || v.JUndefined? ==> !Truthy(v)
    ensures !v.JStr? && !IsObjectLike(v) ==> (Truthy(v) <==> ToNumber(v).Truthy())
  {
    match v
    case JUndefined => false
    case JNull => false
    case JBool(b) => b
    case JNum(n) => n != 0
    case JStr(s) => s != ""
    case JArr(_) => true
    case JObj(_) => true
  }

  /** `a || b`: the first operand when it is truthy, otherwise the second. */
  function Or(a: JsonValue, b: JsonValue): (r: JsonValue)
    ensures Truthy(a) ==> r == a
    ensures !Truthy(a) ==> r == b
  {
    if Truthy(a) then a else b
  }

  /** `v?.key`: the field of an object, `undefined` for anything else or a missing key. */
  function Get(v: JsonValue, key: string): (r: JsonValue)
    ensures !v.JObj? ==> r == JUndefined
  {
    if v.JObj? && key in v.fields then v.fields[key] else JUndefined
  }

  /** `typeof v === 'object' && v !== null` (arrays included). */
  predicate IsObjectLike(v: JsonValue) {
    v.JArr? || v.JObj?
  }

  /** `String(v)`. An array is its elements joined by commas, `null`/`undefined` elements as empty text. */
  function ToStr(v: JsonValue): (r: string)
    ensures v.JStr? ==> r == v.s
    ensures v.JNum? ==> StringToNumber(r) == Finite(v.n)
    ensures v.JArr? && |v.items| == 0 ==> r == ""
    decreases v, 2
  {
    if v.JStr? then v.s
    else if v.JNum? then IntStringRoundTrip(v.n); NonTextToStr(v)
    else NonTextToStr(v)
  }

  /** `String(v)` for anything but a string. */
  function NonTextToStr(v: JsonValue): string
    requires !v.JStr?
    decreases v, 1
  {
    match v
    case JUndefined => "undefined"
    case JNull => "null"
    case JBool(b) => if b then "true" else "false"
    case JNum(n) => Strings.IntToString(n)
    case JArr(items) => Strings.Join(ElementStrings(items, v), ",")
    case JObj(_) => "[object Object]"
  }

  function ElementStrings(items: seq<JsonValue>, parent: JsonValue): (r: seq<string>)
    requires forall i :: 0 <= i < |items| ==> items[i] < parent
    ensures |r| == |items|
    decreases parent, 0, |items|
  {
    if |items| == 0 then []
    else
      [if items[0].JNull? || items[0].JUndefined? then "" else ToStr(items[0])]
      + ElementStrings(items[1..], parent)
  }

  lemma SingleElement(items: seq<JsonValue>, parent: JsonValue)
    requires |items| == 1 && items[0] < parent
    ensures ElementStrings(items, parent)
      == [if items[0].JNull? || items[0].JUndefined? then "" else ToStr(items[0])]
  {
    assert items[1..] == [];
  }

  /** `Number` of an array reads its text: `[]` is `""`, `[n]` is `String(n)`. */
  lemma ArrayNumber(v: JsonValue)
    requires v.JArr?
    ensures |v.items| == 0 ==> StringToNumber(ToStr(v)) == Finite(0)
    ensures |v.items| == 1 && v.items[0].JNum? ==> StringToNumber(ToStr(v)) == Finite(v.items[0].n)
  {
    if |v.items| == 0 {
      EmptyNumeral();
    } else if |v.items| == 1 && v.items[0].JNum? {
      SingleElement(v.items, v);
      assert ToStr(v) == ToStr(v.items[0]);
    }
  }

  lemma EmptyNumeral()
    ensures StringToNumber("") == Finite(0)
  {
    assert Strings.Trim("") == "";
  }

  /** A JavaScript number as far as the model keeps it: an integer, or NaN. */
  datatype JsNumber = Finite(n: int) | NaN {
    /** `!!x` for a number: NaN and 0 are falsy. */
    predicate Truthy() {
      Finite? && n != 0
    }
  }

  /** The value of a digit in bases up to 16, and 16 for a character that is no digit. */
  function DigitOf(c: char): (d: nat)
    ensures d <= 16
    ensures d < 10 <==> '0' <= c <= '9'
  {
    if '0' <= c <= '9' then (c - '0') as nat
    else if 'a' <= c <= 'f' then (c - 'a') as nat + 10
    else if 'A' <= c <= 'F' then (c - 'A') as nat + 10
    else 16
  }

  /** Every character is a digit of the base; the empty text qualifies. */
  predicate DigitsIn(s: string, radix: nat) {
    forall i :: 0 <= i < |s| ==> DigitOf(s[i]) < radix
  }

  predicate AllDigits(s: string) {
    |s| > 0 && DigitsIn(s, 10)
  }

  /** Value of a run of digits in the given base. */
  function RadixValue(s: string, radix: nat): nat
    decreases |s|
  {
    if |s| == 0 then 0 else radix * RadixValue(s[..|s| - 1], radix) + DigitOf(s[|s| - 1])
  }

  /** The base a `0x`, `0o` or `0b` prefix announces, and 0 for any other letter. */
  function RadixOf(c: char): (radix: nat)
    ensures radix in {0, 2, 8, 16}
  {
    if c == 'x' || c == 'X' then 16
    else if c == 'o' || c == 'O' then 8
    else if c == 'b' || c == 'B' then 2
    else 0
  }

  function Pow10(k: nat): (r: nat)
    ensures r >= 1
  {
    if k == 0 then 1 else 10 * Pow10(k - 1)
  }

  /** `-x` for a number. */
  function Negate(x: JsNumber): (r: JsNumber)
    ensures r.Finite? <==> x.Finite?
    ensures r.Finite? ==> r.n == -x.n
  {
    if x.Finite? then Finite(-x.n) else NaN
  }

  /**
    `m × 10^scale` as the model keeps numbers: whole values only, so a
    numeral whose value has a fractional part gives NaN.
  */
  function Scaled(m: nat, scale: int): (r: JsNumber)
    ensures scale >= 0 ==> r == Finite(m * Pow10(scale))
    ensures scale < 0 && r.Finite? ==> r.n * Pow10(-scale) == m
  {
    if scale >= 0 then Finite(m * Pow10(scale))
    else if m % Pow10(-scale) == 0 then Finite(m / Pow10(-scale))
    else NaN
  }

  /** Where the exponent mark `e` or `E` sits, or the length when there is none. */
  function ExponentMark(u: string): (i: nat)
    ensures i <= |u|
    ensures forall j :: 0 <= j < i ==> u[j] != 'e' && u[j] != 'E'
    ensures i < |u| ==> u[i] == 'e' || u[i] == 'E'
    decreases |u|
  {
    if |u| == 0 then 0
    else if u[0] == 'e' || u[0] == 'E' then 0
    else 1 + ExponentMark(u[1..])
  }

  /** `digits`, `digits.`, `.digits` or `digits.digits`. */
  predicate IsMantissa(m: string) {
    var p := Strings.IndexOf(m, '.');
    if p == -1 then AllDigits(m)
    else |m| > 1 && DigitsIn(m[..p], 10) && DigitsIn(m[p + 1..], 10)
  }

  /** The mantissa's digits read as one whole number, and how many of them follow the point. */
  function MantissaDigits(m: string): nat {
    var p := Strings.IndexOf(m, '.');
    if p == -1 then RadixValue(m, 10) else RadixValue(m[..p] + m[p + 1..], 10)
  }

  function FractionLength(m: string): nat {
    var p := Strings.IndexOf(m, '.');
    if p == -1 then 0 else |m| - p - 1
  }

  /** An optionally signed run of decimal digits. */
  predicate IsExponent(x: string) {
    AllDigits(x) || (|x| > 1 && (x[0] == '+' || x[0] == '-') && AllDigits(x[1..]))
  }

  function ExponentValue(x: string): int {
    if |x| > 0 && x[0] == '-' then -(RadixValue(x[1..], 10) as int)
    else if |x| > 0 && x[0] == '+' then RadixValue(x[1..], 10)
    else RadixValue(x, 10)
  }

  /** An unsigned decimal numeral with an optional fraction and exponent, or NaN. */
  function DecimalValue(u: string): JsNumber {
    var e := ExponentMark(u);
    var m := u[..e];
    if !IsMantissa(m) then NaN
    else if e == |u| then Scaled(MantissaDigits(m), -(FractionLength(m) as int))
    else if IsExponent(u[e + 1..]) then Scaled(MantissaDigits(m), ExponentValue(u[e + 1..]) - FractionLength(m))
    else NaN
  }

  /** `Number(s)` for text: the trimmed text read as a numeral. */
  function StringToNumber(s: string): (r: JsNumber)
    ensures Strings.Trim(s) == "" ==> r == Finite(0)
    ensures r == NumeralValue(Strings.Trim(s))
  {
    NumeralValue(Strings.Trim(s))
  }

  /**
    A trimmed numeral: empty is 0; `0x`, `0o` and `0b` numerals are read in
    their base; otherwise an optionally signed decimal numeral with an
    optional fraction and exponent; anything else is NaN.
  */
  function NumeralValue(t: string): (r: JsNumber)
    ensures t != "" && t[0] == '-' ==> r == Negate(DecimalValue(t[1..]))
    ensures t != "" && '0' <= t[0] <= '9' && (|t| > 1 ==> RadixOf(t[1]) == 0) ==> r == DecimalValue(t)
  {
    if t == "" then Finite(0)
    else if |t| > 2 && t[0] == '0' && RadixOf(t[1]) > 0 && DigitsIn(t[2..], RadixOf(t[1])) then
      Finite(RadixValue(t[2..], RadixOf(t[1])))
    else if t[0] == '-' then Negate(DecimalValue(t[1..]))
    else if t[0] == '+' then DecimalValue(t[1..])
    else DecimalValue(t)
  }

  /**
    `Number(v)`: numbers are themselves, text is read as a numeral, an array
    goes through its text, so `Number([])` is 0 and `Number([5])` is 5.
  */
  function ToNumber(v: JsonValue): (r: JsNumber)
    ensures v.JNum? ==> r == Finite(v.n)
    ensures v.JStr? ==> r == StringToNumber(v.s)
    ensures v.JArr? && |v.items| == 0 ==> r == Finite(0)
    ensures v.JArr? && |v.items| == 1 && v.items[0].JNum? ==> r == Finite(v.items[0].n)
    ensures v.JUndefined? || v.JObj? ==> r == NaN
  {
    match v
    case JUndefined => NaN
    case JNull => Finite(0)
    case JBool(b) => Finite(if b then 1 else 0)
    case JNum(n) => Finite(n)
    case JStr(s) => StringToNumber(s)
    case JArr(items) => ArrayNumber(v); StringToNumber(ToStr(v))
    case JObj(_) => NaN
  }

  /** `Array.isArray(v) ? v : fallback` as a list. */
  function ArrayOr(v: JsonValue, fallback: seq<JsonValue>): (r: seq<JsonValue>)
    ensures v.JArr? ==> r == v.items
    ensures !v.JArr? ==> r == fallback
  {
    if v.JArr? then v.items else fallback
  }

  /** `String(..)` applied to every element. */
  function StringsOf(items: seq<JsonValue>): (r: seq<string>)
    ensures |r| == |items|
    ensures forall i :: 0 <= i < |items| ==> r[i] == ToStr(items[i])
  {
    seq(|items|, i requires 0 <= i < |items| => ToStr(items[i]))
  }

  /** A natural number printed by `String(..)` reads back with `Number(..)`. */
  lemma {:induction false} NatStringRoundTrip(n: nat)
    ensures StringToNumber(Strings.NatToString(n)) == Finite(n)
  {
    var s := Strings.NatToString(n);
    assert AllDigits(s);
    DigitsNumber(s);
    DigitsOfNat(n);
  }

  /** A run of decimal digits reads as its value. */
  lemma DigitsNumber(a: string)
    requires AllDigits(a)
    ensures StringToNumber(a) == Finite(RadixValue(a, 10))
  {
    assert DigitOf(a[0]) < 10 && DigitOf(a[|a| - 1]) < 10;
    TrimmedNumber(a);
    if |a| > 1 {
      assert DigitOf(a[1]) < 10;
      assert RadixOf(a[1]) == 0;
    }
    DigitsNumeral(a);
  }

  /** Any whole number printed by `String(..)`, sign included, reads back with `Number(..)`. */
  lemma {:induction false} IntStringRoundTrip(n: int)
    ensures StringToNumber(Strings.IntToString(n)) == Finite(n)
  {
    if n >= 0 {
      NatStringRoundTrip(n);
    } else {
      var d := Strings.NatToString(-n);
      NegativeNumeral(d);
      DigitsOfNat(-n);
    }
  }

  lemma NegativeNumeral(d: string)
    requires AllDigits(d)
    ensures StringToNumber("-" + d) == Finite(-(RadixValue(d, 10) as int))
  {
    var s := "-" + d;
    assert s[|s| - 1] == d[|d| - 1] && s[1..] == d;
    TrimmedNumber(s);
    DigitsNumeral(d);
  }

  /** `Number` of `<m>e<k>` is m times ten to the k. */
  lemma {:induction false} ExponentRoundTrip(m: nat, k: nat)
    ensures StringToNumber(Strings.NatToString(m) + "e" + Strings.NatToString(k)) == Finite(m * Pow10(k))
  {
    var a := Strings.NatToString(m);
    var b := Strings.NatToString(k);
    ScientificNumber(a, b);
    DigitsOfNat(m);
    DigitsOfNat(k);
  }

  /** Digits, an `e` and digits: the first run times ten to the power of the second. */
  lemma ScientificNumber(a: string, b: string)
    requires AllDigits(a) && AllDigits(b)
    ensures StringToNumber(a + "e" + b) == Finite(RadixValue(a, 10) * Pow10(RadixValue(b, 10)))
  {
    var u := a + "e" + b;
    assert u[0] == a[0] && u[|u| - 1] == b[|b| - 1];
    TrimmedNumber(u);
    assert RadixOf(u[1]) == 0 by {
      if |a| > 1 { assert u[1] == a[1]; } else { assert u[1] == 'e'; }
    }
    DigitsExponentNumeral(a, b);
  }

  lemma {:induction false} DigitsExponentNumeral(a: string, b: string)
    requires AllDigits(a) && AllDigits(b)
    ensures DecimalValue(a + "e" + b) == Finite(RadixValue(a, 10) * Pow10(RadixValue(b, 10)))
  {
    var u := a + "e" + b;
    MarkAfterDigits(a, b);
    assert u[..|a|] == a && u[|a| + 1..] == b;
    DigitsMantissa(a);
    DigitsExponent(b);
    ExponentNumeral(u, |a|);
  }

  /** A mantissa, a mark at `e` and a well-formed exponent. */
  lemma ExponentNumeral(u: string, e: nat)
    requires e == ExponentMark(u) && e < |u|
    requires IsMantissa(u[..e]) && IsExponent(u[e + 1..])
    ensures DecimalValue(u) == Scaled(MantissaDigits(u[..e]), ExponentValue(u[e + 1..]) - FractionLength(u[..e]))
  {
  }

  lemma DigitsMantissa(a: string)
    requires AllDigits(a)
    ensures IsMantissa(a) && MantissaDigits(a) == RadixValue(a, 10) && FractionLength(a) == 0
  {
    NoPointInDigits(a);
  }

  lemma DigitsExponent(b: string)
    requires AllDigits(b)
    ensures IsExponent(b) && ExponentValue(b) == RadixValue(b, 10)
  {
    assert DigitOf(b[0]) < 10;
  }

  lemma MarkAfterDigits(a: string, b: string)
    requires AllDigits(a)
    ensures ExponentMark(a + "e" + b) == |a|
  {
    var u := a + "e" + b;
    assert u[|a|] == 'e';
    assert forall j :: 0 <= j < |a| ==> u[j] == a[j];
  }

  /** A run of decimal digits is a numeral of its value. */
  lemma DigitsNumeral(a: string)
    requires AllDigits(a)
    ensures DecimalValue(a) == Finite(RadixValue(a, 10))
  {
    assert a[..ExponentMark(a)] == a;
    DigitsMantissa(a);
  }

  /** Text without white space at either end is read as it stands. */
  lemma TrimmedNumber(s: string)
    requires s != "" && !Strings.IsSpace(s[0]) && !Strings.IsSpace(s[|s| - 1])
    ensures StringToNumber(s) == NumeralValue(s)
  {
    Strings.TrimOfTrimmed(s);
  }

  lemma NoPointInDigits(s: string)
    requires AllDigits(s)
    ensures Strings.IndexOf(s, '.') == -1
  {
  }

  /** `Number` of a scientific and of a hexadecimal numeral; a sign before `0x` is not allowed. */
  lemma NumeralForms()
    ensures StringToNumber("1e1") == Finite(10)
    ensures StringToNumber("0x10") == Finite(16)
    ensures StringToNumber("-0x10") == NaN
  {
    ScientificExample();
    HexNumber();
    SignedHexNumber();
  }

  lemma ScientificExample()
    ensures StringToNumber("1e1") == Finite(10)
  {
    var one := "1";
    assert one[..0] == "" && DigitOf(one[0]) == 1;
    assert RadixValue(one, 10) == 1;
    assert Pow10(1) == 10;
    ScientificNumber(one, one);
    assert one + "e" + one == "1e1";
  }

  lemma HexNumber()
    ensures StringToNumber("0x10") == Finite(16)
  {
    TrimmedNumber("0x10");
    assert "0x10"[2..] == "10" && "10"[..1] == "1" && "1"[..0] == "";
  }

  lemma SignedHexNumber()
    ensures StringToNumber("-0x10") == NaN
  {
    var u := "0x10";
    assert u[0] == '0' && u[1] == 'x' && u[2] == '1' && u[3] == '0' && |u| == 4;
    assert DigitOf(u[1]) >= 10;
    PlainText(u);
    SignedNonNumeral(u);
    var s := "-" + u;
    assert s == "-0x10";
    assert s[0] == '-' && s[|s| - 1] == '0';
    TrimmedNumber(s);
  }

  /** A sign before text that holds a non-digit and neither a point nor an exponent mark gives NaN. */
  lemma SignedNonNumeral(u: string)
    requires exists i :: 0 <= i < |u| && DigitOf(u[i]) >= 10
    requires ExponentMark(u) == |u| && Strings.IndexOf(u, '.') == -1
    ensures NumeralValue("-" + u) == NaN
  {
    assert ("-" + u)[1..] == u;
    assert u[..|u|] == u;
  }

  /** Text without an exponent mark or a point is all mantissa, with no fraction. */
  lemma PlainText(u: string)
    requires forall j :: 0 <= j < |u| ==> u[j] != 'e' && u[j] != 'E' && u[j] != '.'
    ensures ExponentMark(u) == |u| && Strings.IndexOf(u, '.') == -1
  {
  }

  lemma {:induction false} DigitsOfNat(n: nat)
    ensures RadixValue(Strings.NatToString(n), 10) == n
    decreases n
  {
    var s := Strings.NatToString(n);
    if n >= 10 {
      DigitsOfNat(n / 10);
      assert s[..|s| - 1] == Strings.NatToString(n / 10);
    }
  }
}

=== FILE: json_extract.dfy ===
/**
  `cleanJsonText`, the routine both AI services run over a model's reply to
  cut the JSON document out of it: markdown fences go, the text is trimmed,
  everything before the first bracket and after the last closing bracket is
  dropped, and the span from the first opening bracket to the last matching
  closing bracket is kept when it parses.  `JSON.parse` is the parameter
  `parses`.
*/
module JsonExtract {
  import opened Strings

  const Fence: string := "```"
  const FenceJson: string := "```json"
  /** What the routine answers when it finds no document. */
  const EmptyDocument: string := "{}"

  predicate IsOpener(c: char) {
    c == '{' || c == '['
  }

  predicate IsCloser(c: char) {
    c == '}' || c == ']'
  }

  function CloserOf(c: char): char {
    if c == '{' then '}' else ']'
  }

  /** `text.replace(/```json/g, "").replace(/```/g, "").trim()`. */
  function Unfence(text: string): (r: string)
    ensures |r| <= |text|
    ensures !Contains(r, Fence)
  {
    var noFence := RemoveAll(RemoveAll(text, FenceJson), Fence);
    NoFenceAfterRemoval(RemoveAll(text, FenceJson));
    var r := Trim(noFence);
    TrimIsInfix(noFence);
    if Contains(r, Fence) then
      ContainsTransitive(noFence, r, Fence);
      r
    else
      r
  }

  /** Length of the run before the first opening bracket. */
  function LeadingNonOpeners(s: string): (k: nat)
    ensures k <= |s|
    ensures forall i :: 0 <= i < k ==> !IsOpener(s[i])
    ensures k == |s| || IsOpener(s[k])
  {
    if |s| > 0 && !IsOpener(s[0]) then 1 + LeadingNonOpeners(s[1..]) else 0
  }

  /** Length of the run after the last closing bracket. */
  function TrailingNonClosers(s: string): (k: nat)
    ensures k <= |s|
    ensures forall i :: |s| - k <= i < |s| ==> !IsCloser(s[i])
    ensures k == |s| || IsCloser(s[|s| - 1 - k])
  {
    if |s| > 0 && !IsCloser(s[|s| - 1]) then 1 + TrailingNonClosers(s[..|s| - 1]) else 0
  }

  // The two regular-expression replacements that drop the text before the
  // first opening bracket and after the last closing bracket: the infix of
  // `s` from its first opening bracket through its last closing bracket
  // after that, or nothing.
  function StripToBrackets(s: string): (r: string)
    ensures r == "" || (IsOpener(r[0]) && IsCloser(r[|r| - 1]))
    ensures r != "" ==> forall i :: 0 <= i < LeadingNonOpeners(s) ==> !IsOpener(s[i])
    ensures |r| <= |s|
    ensures Contains(s, r)
  {
    var a := LeadingNonOpeners(s);
    var t := s[a..];
    var b := TrailingNonClosers(t);
    var r := t[..|t| - b];
    assert r == s[a..a + |r|];
    ContainsAt(s, r, a);
    r
  }

  /**
    `cleanJsonText(text)`: `"{}"` for an empty reply; otherwise either `"{}"`
    or a parseable text that opens with a bracket and closes with the
    matching one.
  */
  function CleanJsonText(text: string, parses: string -> bool): (r: string)
    ensures text == "" ==> r == EmptyDocument
    ensures r == EmptyDocument || (parses(r) && WellBracketed(r))
  {
    if text == "" then EmptyDocument else Extract(StripToBrackets(Unfence(text)), parses)
  }

  /** The span of a stripped text when it parses, `"{}"` otherwise. */
  function Extract(clean: string, parses: string -> bool): (r: string)
    requires clean == "" || (IsOpener(clean[0]) && IsCloser(clean[|clean| - 1]))
    ensures r == EmptyDocument || (parses(r) && WellBracketed(r))
    ensures r != EmptyDocument ==> StartsWith(clean, r) && r == clean[..LastIndexOf(clean, CloserOf(r[0])) + 1]
    ensures WellBracketed(clean) && parses(clean) ==> r == clean
  {
    var span := Span(clean);
    assert clean[0..|clean|] == clean;
    if span.0 != -1 && span.1 != -1 && span.1 > span.0 && parses(clean[span.0..span.1 + 1]) then
      clean[span.0..span.1 + 1]
    else
      EmptyDocument
  }

  /**
    What `CleanJsonText` returns, when it is not `"{}"`, is cut from the
    unfenced reply: it starts at the reply's first bracket, runs to the last
    closing bracket of that kind, and holds no markdown fence.
  */
  lemma CleanJsonTextSource(text: string, parses: string -> bool)
    ensures var r := CleanJsonText(text, parses);
      r != EmptyDocument ==>
        && StartsWith(StripToBrackets(Unfence(text)), r)
        && r == StripToBrackets(Unfence(text))[..LastIndexOf(StripToBrackets(Unfence(text)), CloserOf(r[0])) + 1]
        && !Contains(r, Fence)
  {
    var r := CleanJsonText(text, parses);
    if r != EmptyDocument {
      var clean := StripToBrackets(Unfence(text));
      PrefixHasNoFence(Unfence(text), clean, r);
    }
  }

  /** A reply that, once unfenced and trimmed, is a bracketed document that parses comes back whole. */
  lemma CleanJsonTextKeepsDocument(text: string, parses: string -> bool)
    requires WellBracketed(Unfence(text)) && parses(Unfence(text))
    ensures CleanJsonText(text, parses) == Unfence(text)
  {
    StripIsIdentity(Unfence(text));
  }

  /**
    The `start`/`end` pair: the first `{` against the first `[`, whichever
    comes first, and the last closing bracket of that kind.  On a stripped
    text the start is always its first character.
  */
  function Span(clean: string): (se: (int, int))
    requires clean == "" || (IsOpener(clean[0]) && IsCloser(clean[|clean| - 1]))
    ensures clean == "" ==> se.0 == -1
    ensures se.0 == -1 || (se.0 == 0 && se.1 < |clean|)
    ensures clean != "" ==> se.0 == 0 && se.1 == LastIndexOf(clean, CloserOf(clean[0]))
    ensures WellBracketed(clean) ==> se.1 == |clean| - 1
  {
    var curly := IndexOf(clean, '{');
    var square := IndexOf(clean, '[');
    if curly != -1 && (square == -1 || curly < square) then (curly, LastIndexOf(clean, '}'))
    else if square != -1 then (square, LastIndexOf(clean, ']'))
    else (-1, -1)
  }

  /** Starts with an opening bracket and ends with the matching closing one. */
  predicate WellBracketed(s: string) {
    |s| >= 2 && IsOpener(s[0]) && s[|s| - 1] == CloserOf(s[0])
  }

  lemma StripIsIdentity(s: string)
    ensures WellBracketed(s) ==> StripToBrackets(s) == s
  {
  }

  lemma PrefixHasNoFence(u: string, clean: string, r: string)
    requires !Contains(u, Fence) && clean == StripToBrackets(u)
    requires StartsWith(clean, r)
    ensures !Contains(r, Fence)
  {
    assert clean[0..|r|] == r;
    ContainsAt(clean, r, 0);
    if Contains(r, Fence) {
      ContainsTransitive(clean, r, Fence);
      ContainsTransitive(u, clean, Fence);
    }
  }

  /** Cleaning what the routine returned gives it back unchanged. */
  lemma CleanJsonTextIdempotent(text: string, parses: string -> bool)
    ensures CleanJsonText(CleanJsonText(text, parses), parses) == CleanJsonText(text, parses)
  {
    var r := CleanJsonText(text, parses);
    if r != EmptyDocument {
      assert WellBracketed(r) && parses(r) && !Contains(r, Fence) by {
        CleanJsonTextSource(text, parses);
      }
      assert Unfence(r) == r by {
        UnfenceOfClean(r);
      }
      CleanJsonTextKeepsDocument(r, parses);
    } else {
      CleanOfEmptyDocument(parses);
    }
  }

  /** The empty document cleans to itself, whether or not it parses. */
  lemma CleanOfEmptyDocument(parses: string -> bool)
    ensures CleanJsonText(EmptyDocument, parses) == EmptyDocument
  {
    var d := EmptyDocument;
    assert !Contains(d, Fence) by {
      if Contains(d, Fence) {
        ContainsChar(d, Fence, '`');
      }
    }
    UnfenceOfClean(d);
    StripIsIdentity(d);
    assert CleanJsonText(d, parses) == Extract(d, parses);
  }

  /** A bracketed text without fences is left as it is by the unfencing step. */
  lemma UnfenceOfClean(r: string)
    requires WellBracketed(r) && !Contains(r, Fence)
    ensures Unfence(r) == r
  {
    if Contains(r, FenceJson) {
      assert StartsWith(FenceJson, Fence);
      ContainsTransitive(r, FenceJson, Fence);
    }
    RemoveAllAbsent(r, FenceJson);
    RemoveAllAbsent(r, Fence);
    TrimOfTrimmed(r);
  }

  /** A trimmed text occurs inside the text it was trimmed from. */
  lemma TrimIsInfix(s: string)
    ensures Contains(s, Trim(s))
  {
    var t := Trim(s);
    if t == "" {
      assert s[0..0] == t;
      ContainsAt(s, t, 0);
    } else {
      var a := LeadingSpaces(s);
      var b := TrailingSpaces(s);
      assert t == s[a..a + |t|];
      ContainsAt(s, t, a);
    }
  }

  lemma ContainsShorter(s: string, sub: string)
    requires Contains(s, sub)
    ensures |sub| <= |s|
  {
    var i := ContainsIndex(s, sub);
  }

  /** Removing fences left to right leaves none behind: leftover backticks never meet across a removed fence. */
  lemma {:induction false} NoFenceAfterRemoval(s: string)
    ensures !Contains(RemoveAll(s, Fence), Fence)
    decreases |s|
  {
    var r := RemoveAll(s, Fence);
    if |s| < |Fence| {
      if Contains(r, Fence) {
        ContainsShorter(r, Fence);
      }
    } else if s[..3] == Fence {
      NoFenceAfterRemoval(s[3..]);
    } else {
      var rest := RemoveAll(s[1..], Fence);
      NoFenceAfterRemoval(s[1..]);
      assert r == [s[0]] + rest;
      assert r[1..] == rest;
      if StartsWith(r, Fence) {
        assert StartsWith(rest, "``");
        TwoBacktickHead(s[1..]);
        assert false;
      }
    }
  }

  /** A result that starts with two backticks comes from a text that does. */
  lemma {:induction false} TwoBacktickHead(t: string)
    requires StartsWith(RemoveAll(t, Fence), "``")
    ensures StartsWith(t, "``")
    decreases |t|
  {
    if |t| >= 3 && t[..3] != Fence {
      var rest := RemoveAll(t[1..], Fence);
      var r := RemoveAll(t, Fence);
      assert r == [t[0]] + rest;
      assert r[..2] == "``";
      assert rest[..1] == [r[1]];
      BacktickHead(t[1..]);
    } else if |t| >= 3 {
      assert t[..2] == Fence[..2];
    }
  }

  /** A result that starts with a backtick comes from a text that does. */
  lemma {:induction false} BacktickHead(t: string)
    requires StartsWith(RemoveAll(t, Fence), "`")
    ensures StartsWith(t, "`")
    decreases |t|
  {
    if |t| >= 3 && t[..3] == Fence {
      assert t[..1] == Fence[..1];
    }
  }
}

=== FILE: keyed_store.dfy ===
/**
  A JavaScript object used as a dictionary (`{ [key: string]: V }`), as the
  application keeps it in `localStorage`: an association list in key
  insertion order, which is the order `Object.keys` reports for the
  non-numeric keys the application builds.
*/
module KeyedStore {
  import opened Wrappers
  import opened Strings

  datatype Store<V> = Store(entries: seq<(string, V)>)

  function Empty<V>(): (st: Store<V>)
    ensures |st.entries| == 0
  {
    Store([])
  }

  /** `Object.keys(st)`. */
  function Keys<V>(st: Store<V>): (ks: seq<string>)
    ensures |ks| == |st.entries|
    ensures forall i :: 0 <= i < |ks| ==> ks[i] == st.entries[i].0
  {
    seq(|st.entries|, i requires 0 <= i < |st.entries| => st.entries[i].0)
  }

  predicate HasKey<V>(st: Store<V>, k: string) {
    exists i :: 0 <= i < |st.entries| && st.entries[i].0 == k
  }

  /** No key is stored twice: what a JavaScript object guarantees. */
  predicate Valid<V>(st: Store<V>) {
    forall i, j :: 0 <= i < j < |st.entries| ==> st.entries[i].0 != st.entries[j].0
  }

  /** Position of key `k`, or -1. */
  function Find<V>(entries: seq<(string, V)>, k: string): (i: int)
    ensures -1 <= i < |entries|
    ensures i == -1 <==> forall j :: 0 <= j < |entries| ==> entries[j].0 != k
    ensures i >= 0 ==> entries[i].0 == k && forall j :: 0 <= j < i ==> entries[j].0 != k
    decreases |entries|
  {
    if |entries| == 0 then -1
    else if entries[0].0 == k then 0
    else
      var i := Find(entries[1..], k);
      if i == -1 then -1 else i + 1
  }

  /** `st[k]`, `None` standing for `undefined`. */
  function Get<V>(st: Store<V>, k: string): (r: Option<V>)
    ensures r.None? <==> !HasKey(st, k)
    ensures r.Some? ==> exists i :: 0 <= i < |st.entries| && st.entries[i] == (k, r.value)
  {
    var i := Find(st.entries, k);
    if i == -1 then None else Some(st.entries[i].1)
  }

  /** `st[k] = v`: an existing key keeps its position, a new key goes last. */
  function Set<V>(st: Store<V>, k: string, v: V): (r: Store<V>)
    ensures Get(r, k) == Some(v)
    ensures forall k' :: k' != k ==> Get(r, k') == Get(st, k')
    ensures HasKey(st, k) ==> Keys(r) == Keys(st)
    ensures !HasKey(st, k) ==> Keys(r) == Keys(st) + [k]
    ensures Valid(st) ==> Valid(r)
  {
    var i := Find(st.entries, k);
    if i == -1 then
      SetNew(st, k, v);
      Store(st.entries + [(k, v)])
    else
      SetExisting(st, i, k, v);
      Store(st.entries[i := (k, v)])
  }

  /** The entries after `st[k] = v`: the pair appended for a new key, the value replaced in place otherwise. */
  lemma SetEntries<V>(st: Store<V>, k: string, v: V)
    ensures var i := Find(st.entries, k);
      && (i == -1 ==> Set(st, k, v).entries == st.entries + [(k, v)] && Get(st, k) == None)
      && (i != -1 ==> Set(st, k, v).entries == st.entries[i := (k, v)] && Get(st, k) == Some(st.entries[i].1))
  {
  }

  /** Writing a key the object does not have appends it, leaving every other key as it was. */
  lemma SetNew<V>(st: Store<V>, k: string, v: V)
    requires Find(st.entries, k) == -1
    ensures var r := Store(st.entries + [(k, v)]);
      && Get(r, k) == Some(v)
      && (forall k' :: k' != k ==> Get(r, k') == Get(st, k'))
      && Keys(r) == Keys(st) + [k]
      && (Valid(st) ==> Valid(r))
  {
    var r := Store(st.entries + [(k, v)]);
    forall k' ensures Find(r.entries, k') == FindBefore(st.entries, (k, v), k') {
      FindSnoc(st.entries, (k, v), k');
    }
  }

  /** Writing the key at position `i` replaces its value in place, leaving every other key as it was. */
  lemma SetExisting<V>(st: Store<V>, i: nat, k: string, v: V)
    requires i < |st.entries| && Find(st.entries, k) == i
    ensures var r := Store(st.entries[i := (k, v)]);
      && Get(r, k) == Some(v)
      && (forall k' :: k' != k ==> Get(r, k') == Get(st, k'))
      && Keys(r) == Keys(st)
      && (Valid(st) ==> Valid(r))
  {
    var r := Store(st.entries[i := (k, v)]);
    forall k' ensures Find(r.entries, k') == Find(st.entries, k') {
      FindSameKeys(r.entries, st.entries, k');
    }
  }

  /** The entries whose key satisfies `keep`, in their order: building a fresh object from the kept keys. */
  function Retain<V>(st: Store<V>, keep: string -> bool): (r: Store<V>)
    ensures forall k :: Get(r, k) == if keep(k) then Get(st, k) else None
    ensures forall i :: 0 <= i < |r.entries| ==> keep(r.entries[i].0)
    ensures Valid(st) ==> Valid(r)
    ensures |r.entries| <= |st.entries|
  {
    var r := Store(RetainEntries(st.entries, keep));
    forall k ensures Get(r, k) == if keep(k) then Get(st, k) else None {
      FindRetain(st.entries, keep, k);
    }
    if Valid(st) then
      RetainValid(st.entries, keep);
      r
    else
      r
  }

  function RetainEntries<V>(es: seq<(string, V)>, keep: string -> bool): (r: seq<(string, V)>)
    ensures |r| <= |es|
    ensures forall i :: 0 <= i < |r| ==> keep(r[i].0)
    decreases |es|
  {
    if |es| == 0 then []
    else if keep(es[0].0) then [es[0]] + RetainEntries(es[1..], keep)
    else RetainEntries(es[1..], keep)
  }

  /** The position of a kept key counts only the kept entries before it, so its value is the same one. */
  lemma {:induction false} FindRetain<V>(es: seq<(string, V)>, keep: string -> bool, k: string)
    ensures var j := Find(RetainEntries(es, keep), k);
      if keep(k) then
        (j == -1 <==> Find(es, k) == -1) && (j >= 0 ==> RetainEntries(es, keep)[j].1 == es[Find(es, k)].1)
      else j == -1
    decreases |es|
  {
    if |es| > 0 {
      var rest := RetainEntries(es[1..], keep);
      FindRetain(es[1..], keep, k);
      assert Find(es, k) == FindAfter(es[0], es[1..], k) by {
        FindCons(es[0], es[1..], k);
        assert [es[0]] + es[1..] == es;
      }
      var i := Find(es[1..], k);
      if i != -1 {
        assert es[i + 1] == es[1..][i];
      }
      if keep(es[0].0) {
        assert RetainEntries(es, keep) == [es[0]] + rest;
        FindCons(es[0], rest, k);
        var j := Find(rest, k);
        if j != -1 {
          assert RetainEntries(es, keep)[j + 1] == rest[j];
        }
      } else {
        assert RetainEntries(es, keep) == rest;
      }
    }
  }

  lemma {:induction false} RetainValid<V>(es: seq<(string, V)>, keep: string -> bool)
    requires Valid(Store(es))
    ensures Valid(Store(RetainEntries(es, keep)))
    ensures forall i :: 0 <= i < |RetainEntries(es, keep)| ==> exists j :: 0 <= j < |es| && es[j] == RetainEntries(es, keep)[i]
    decreases |es|
  {
    if |es| > 0 {
      RetainValid(es[1..], keep);
      var rest := RetainEntries(es[1..], keep);
      if keep(es[0].0) {
        var r := [es[0]] + rest;
        forall i | 0 <= i < |rest| ensures rest[i].0 != es[0].0 {
          var j :| 0 <= j < |es[1..]| && es[1..][j] == rest[i];
          assert es[j + 1] == rest[i];
        }
        forall i | 0 <= i < |r| ensures exists j :: 0 <= j < |es| && es[j] == r[i] {
          if i == 0 {
            assert es[0] == r[0];
          } else {
            var j :| 0 <= j < |es[1..]| && es[1..][j] == rest[i - 1];
            assert es[j + 1] == r[i];
          }
        }
      } else {
        forall i | 0 <= i < |rest| ensures exists j :: 0 <= j < |es| && es[j] == rest[i] {
          var j :| 0 <= j < |es[1..]| && es[1..][j] == rest[i];
          assert es[j + 1] == rest[i];
        }
      }
    }
  }

  /** `Find` on a list with `e` in front, in terms of `Find` on the rest. */
  function FindAfter<V>(e: (string, V), rest: seq<(string, V)>, k: string): int {
    if e.0 == k then 0
    else
      var j := Find(rest, k);
      if j == -1 then -1 else j + 1
  }

  lemma FindCons<V>(e: (string, V), rest: seq<(string, V)>, k: string)
    ensures Find([e] + rest, k) == FindAfter(e, rest, k)
  {
    assert ([e] + rest)[1..] == rest;
  }

  /** `Find` on a list with `e` at the end, in terms of `Find` on the front. */
  function FindBefore<V>(front: seq<(string, V)>, e: (string, V), k: string): int {
    var j := Find(front, k);
    if j != -1 then j else if e.0 == k then |front| else -1
  }

  lemma {:induction false} FindSnoc<V>(front: seq<(string, V)>, e: (string, V), k: string)
    ensures Find(front + [e], k) == FindBefore(front, e, k)
    decreases |front|
  {
    if |front| > 0 {
      FindSnoc(front[1..], e, k);
      assert (front + [e])[1..] == front[1..] + [e];
    }
  }

  /** Every value transformed, keys and their order kept. */
  function MapValues<V, W>(st: Store<V>, f: V -> W): (r: Store<W>)
    ensures Keys(r) == Keys(st)
    ensures forall k :: Get(r, k) == (if Get(st, k).Some? then Some(f(Get(st, k).value)) else None)
    ensures Valid(st) ==> Valid(r)
  {
    var r := Store(seq(|st.entries|, i requires 0 <= i < |st.entries| => (st.entries[i].0, f(st.entries[i].1))));
    assert forall k :: Find(r.entries, k) == Find(st.entries, k) by {
      forall k ensures Find(r.entries, k) == Find(st.entries, k) {
        FindSameKeys(r.entries, st.entries, k);
      }
    }
    r
  }

  lemma {:induction false} FindSameKeys<V, W>(a: seq<(string, W)>, b: seq<(string, V)>, k: string)
    requires |a| == |b| && forall i :: 0 <= i < |a| ==> a[i].0 == b[i].0
    ensures Find(a, k) == Find(b, k)
    decreases |a|
  {
    if |a| > 0 {
      FindSameKeys(a[1..], b[1..], k);
    }
  }

  /** `st[k] = v` for each pair in turn, from an empty object: a key already present is overwritten in place. */
  function SetEach<V>(keys: seq<string>, values: seq<V>): (f: Store<V>)
    requires |keys| == |values|
    ensures Valid(f)
    decreases |keys|
  {
    if |keys| == 0 then Empty()
    else
      var n := |keys| - 1;
      Set(SetEach(keys[..n], values[..n]), keys[n], values[n])
  }

  lemma LastIndexFront(keys: seq<string>, k: string)
    requires |keys| > 0 && keys[|keys| - 1] != k
    ensures LastIndexOf(keys, k) == LastIndexOf(keys[..|keys| - 1], k)
  {
  }

  /** A key holds the value of the last pair written under it; a key never written is absent. */
  lemma {:induction false} SetEachHolds<V>(keys: seq<string>, values: seq<V>, k: string)
    requires |keys| == |values|
    ensures var i := LastIndexOf(keys, k);
      Get(SetEach(keys, values), k) == if i == -1 then None else Some(values[i])
    decreases |keys|
  {
    if |keys| > 0 {
      var n := |keys| - 1;
      if keys[n] != k {
        var i := LastIndexOf(keys, k);
        SetEachOther(keys, values, k);
        SetEachHolds(keys[..n], values[..n], k);
        assert i >= 0 ==> values[..n][i] == values[i];
      }
    }
  }

  /** A last pair under another key changes neither what `k` holds nor where it was last written. */
  lemma SetEachOther<V>(keys: seq<string>, values: seq<V>, k: string)
    requires |keys| == |values| && |keys| > 0 && keys[|keys| - 1] != k
    ensures var n := |keys| - 1;
      && Get(SetEach(keys, values), k) == Get(SetEach(keys[..n], values[..n]), k)
      && LastIndexOf(keys, k) == LastIndexOf(keys[..n], k)
  {
    LastIndexFront(keys, k);
  }

  /** With pairwise distinct keys, each value is found under its own key. */
  lemma SetEachDistinct<V>(keys: seq<string>, values: seq<V>, i: nat)
    requires |keys| == |values| && i < |keys|
    requires forall i, j :: 0 <= i < j < |keys| ==> keys[i] != keys[j]
    ensures Get(SetEach(keys, values), keys[i]) == Some(values[i])
  {
    SetEachHolds(keys, values, keys[i]);
    LastIndexOfDistinct(keys, i);
  }

  lemma LastIndexOfDistinct(keys: seq<string>, i: nat)
    requires i < |keys|
    requires forall i, j :: 0 <= i < j < |keys| ==> keys[i] != keys[j]
    ensures LastIndexOf(keys, keys[i]) == i
  {
  }

  /** With pairwise distinct keys, the object lists every key once, in writing order. */
  lemma {:induction false} SetEachKeys<V>(keys: seq<string>, values: seq<V>)
    requires |keys| == |values|
    requires forall i, j :: 0 <= i < j < |keys| ==> keys[i] != keys[j]
    ensures Keys(SetEach(keys, values)) == keys
    decreases |keys|
  {
    if |keys| > 0 {
      var n := |keys| - 1;
      SetEachKeys(keys[..n], values[..n]);
      assert keys[n] !in keys[..n];
      SetEachAppends(keys, values);
      LastSplit(keys);
    }
  }

  lemma LastSplit(keys: seq<string>)
    requires |keys| > 0
    ensures keys == keys[..|keys| - 1] + [keys[|keys| - 1]]
  {
  }

  /** A last pair under a key not written before appends that key. */
  lemma SetEachAppends<V>(keys: seq<string>, values: seq<V>)
    requires |keys| == |values| && |keys| > 0 && keys[|keys| - 1] !in keys[..|keys| - 1]
    ensures var n := |keys| - 1;
      Keys(SetEach(keys, values)) == Keys(SetEach(keys[..n], values[..n])) + [keys[n]]
  {
    var n := |keys| - 1;
    SetEachHolds(keys[..n], values[..n], keys[n]);
  }

  // ---------------------------------------------------------------- counts

  /** The sum of the counts. */
  function Total(es: seq<(string, nat)>): nat
    decreases |es|
  {
    if es == [] then 0 else es[0].1 + Total(es[1..])
  }

  /** Adding an entry at the end adds its count. */
  lemma {:induction false} TotalSnoc(es: seq<(string, nat)>, e: (string, nat))
    ensures Total(es + [e]) == Total(es) + e.1
    decreases |es|
  {
    if es != [] {
      assert (es + [e])[1..] == es[1..] + [e];
      TotalSnoc(es[1..], e);
    }
  }

  /** Changing one entry changes the sum by the difference. */
  lemma {:induction false} TotalUpdate(es: seq<(string, nat)>, i: nat, e: (string, nat))
    requires i < |es|
    ensures Total(es[i := e]) == Total(es) - es[i].1 + e.1
    decreases |es|
  {
    if i > 0 {
      assert es[i := e][1..] == es[1..][i - 1 := e];
      TotalUpdate(es[1..], i - 1, e);
    }
  }

  /** Writing a count changes the sum by the difference with what the key held. */
  lemma SetTotal(st: Store<nat>, k: string, v: nat)
    ensures Total(Set(st, k, v).entries) == Total(st.entries) - Count(st, k) + v
  {
    var i := Find(st.entries, k);
    SetEntries(st, k, v);
    if i == -1 {
      TotalSnoc(st.entries, (k, v));
    } else {
      TotalUpdate(st.entries, i, (k, v));
    }
  }

  /** The count under a key, zero for a key never written. */
  function Count(st: Store<nat>, k: string): (c: nat)
    ensures HasKey(st, k) <==> Get(st, k) == Some(c)
    ensures !HasKey(st, k) ==> c == 0
  {
    Get(st, k).GetOr(0)
  }

  /** Raising a count by one raises the sum by one. */
  lemma IncrementTotal(st: Store<nat>, k: string)
    ensures Total(Set(st, k, Count(st, k) + 1).entries) == Total(st.entries) + 1
  {
    SetTotal(st, k, Count(st, k) + 1);
  }
}

=== FILE: plan_ai.dfy ===
/**
  The unit-plan generator of `services/geminiService.ts`: how the subject
  chooses the generation language and the system prompt, how the suggested
  statements of inquiry are cut out of the reply, and how a reply becomes a
  sanitised `UnitPlan` (or a list of them) with every failure rewritten into
  one of a few user-facing messages.  The AI call is the parameter `reply`,
  `JSON.parse` is `parses` and the parsed document is `decode`.
*/
module PlanAi {
  import opened Wrappers
  import opened Strings
  import opened Json
  import opened Records
  import Seqs
  import JsonExtract
  import Sanitize

  // ---------------------------------------------------------------- language

  /** `subject.toLowerCase().trim()`. */
  function Normalized(subject: string): string {
    Trim(ToLower(subject))
  }

  /** `isLanguageAcquisition`. */
  predicate IsLanguageAcquisition(subject: string) {
    Contains(Normalized(subject), "acquisition") && Contains(Normalized(subject), "langue")
  }

  /** `isArtOrEPS`: the subjects generated in French and Arabic. */
  predicate IsArtOrEps(subject: string) {
    var n := Normalized(subject);
    Contains(n, "arts") || Contains(n, "art") || Contains(n, "éducation physique")
    || Contains(n, "eps") || Contains(n, "santé")
  }

  datatype Language = Fr | En | Bilingual

  /** `getGenerationLanguage`: language acquisition first, then the arts and physical education. */
  function GenerationLanguage(subject: string): (lang: Language)
    ensures lang == En <==> IsLanguageAcquisition(subject)
    ensures lang == Bilingual <==> !IsLanguageAcquisition(subject) && IsArtOrEps(subject)
    ensures lang == Fr <==> !IsLanguageAcquisition(subject) && !IsArtOrEps(subject)
  {
    if IsLanguageAcquisition(subject) then En
    else if IsArtOrEps(subject) then Bilingual
    else Fr
  }

  /** The `"arts"` test of `isArtOrEPS` never decides anything: whatever contains it contains `"art"`. */
  lemma ArtsTestSubsumed(subject: string)
    ensures IsArtOrEps(subject) <==>
      var n := Normalized(subject);
      Contains(n, "art") || Contains(n, "éducation physique") || Contains(n, "eps") || Contains(n, "santé")
  {
    var n := Normalized(subject);
    if Contains(n, "arts") {
      assert "arts"[..3] == "art";
      ContainsAt("arts", "art", 0);
      ContainsTransitive(n, "arts", "art");
    }
  }

  lemma LowerCharIdempotent(c: char)
    ensures LowerChar(LowerChar(c)) == LowerChar(c)
  {
  }

  /** The language depends on the subject only up to case: lower-casing it first changes nothing. */
  lemma LanguageIgnoresCase(subject: string)
    ensures GenerationLanguage(ToLower(subject)) == GenerationLanguage(subject)
  {
    var once := ToLower(subject);
    var twice := ToLower(once);
    forall i | 0 <= i < |subject| ensures twice[i] == once[i] {
      LowerCharIdempotent(subject[i]);
    }
    assert twice == once;
  }

  /** The three full-plan system prompts (their text is not part of this model). */
  datatype SystemPrompt = FullPlanFr | FullPlanEn | FullPlanBilingual

  /** `getSystemInstruction`: exactly one prompt, the one of the subject's language. */
  function SystemInstruction(subject: string): (p: SystemPrompt)
    ensures p == FullPlanEn <==> IsLanguageAcquisition(subject)
    ensures p == FullPlanBilingual <==> !IsLanguageAcquisition(subject) && IsArtOrEps(subject)
    ensures p == FullPlanFr <==> !IsLanguageAcquisition(subject) && !IsArtOrEps(subject)
  {
    match GenerationLanguage(subject)
    case En => FullPlanEn
    case Bilingual => FullPlanBilingual
    case Fr => FullPlanFr
  }

  // ---------------------------------------------------------------- statements of inquiry

  /** `l.replace(/^- /, '')`: one leading dash-and-space removed. */
  function DropDash(l: string): (r: string)
    ensures StartsWith(l, "- ") ==> l == "- " + r
    ensures !StartsWith(l, "- ") ==> r == l
  {
    if StartsWith(l, "- ") then
      assert l == l[..2] + l[2..];
      l[2..]
    else l
  }

  /** One suggestion line cleaned: the leading dash removed, then trimmed. */
  function CleanLine(l: string): (r: string)
    ensures Trim(r) == r
    ensures '\n' !in l ==> '\n' !in r
  {
    var d := DropDash(l);
    TrimIdempotent(d);
    var r := Trim(d);
    if '\n' !in l then
      TrimInfix(d);
      r
    else r
  }

  /** The trimmed text is a slice of the text, so it holds no character the text lacks. */
  lemma TrimInfix(s: string)
    ensures forall c :: c in Trim(s) ==> c in s
  {
    if Trim(s) != "" {
      var a := LeadingSpaces(s);
      var b := TrailingSpaces(s);
      assert Trim(s) == s[a..|s| - b];
    }
  }

  /** A blank line stays blank once cleaned: a line that cleans to text has text. */
  lemma BlankLineCleansBlank(l: string)
    requires Trim(l) == ""
    ensures CleanLine(l) == ""
  {
  }

  /**
    The post-processing as written: lines are kept when they are not blank,
    and only then cleaned, so a line `"- "` survives the filter and becomes
    an empty suggestion.
  */
  function SoiLinesAsWritten(lines: seq<string>): (r: seq<string>)
    ensures |r| <= |lines|
    ensures forall e :: e in r ==> Trim(e) == e
    decreases |lines|
  {
    if |lines| == 0 then []
    else (if Trim(lines[0]) != "" then [CleanLine(lines[0])] else []) + SoiLinesAsWritten(lines[1..])
  }

  /**
    The post-processing as intended: every line cleaned, the empty results
    dropped, so no suggestion is blank.
  */
  function SoiLines(lines: seq<string>): (r: seq<string>)
    ensures |r| <= |lines|
    ensures forall e :: e in r ==> e != "" && Trim(e) == e
    decreases |lines|
  {
    if |lines| == 0 then []
    else (if CleanLine(lines[0]) != "" then [CleanLine(lines[0])] else []) + SoiLines(lines[1..])
  }

  /** Every line cleaned, in order. */
  function CleanedLines(lines: seq<string>): (r: seq<string>)
    ensures |r| == |lines|
    ensures forall i :: 0 <= i < |lines| ==> r[i] == CleanLine(lines[i])
  {
    seq(|lines|, i requires 0 <= i < |lines| => CleanLine(lines[i]))
  }

  /**
    The suggestions are the non-empty cleaned lines, in order: each one is
    the cleaned form of some line, and each line that cleans to text is
    among them.
  */
  lemma {:induction false} SoiLinesFilterCleaned(lines: seq<string>)
    ensures SoiLines(lines) == Seqs.Filter(CleanedLines(lines), e => e != "")
    decreases |lines|
  {
    if |lines| > 0 {
      var c := CleanedLines(lines);
      SoiLinesFilterCleaned(lines[1..]);
      assert c[1..] == CleanedLines(lines[1..]);
      Seqs.FilterCons(c, e => e != "");
    }
  }

  /** The suggestions of a reply text, one per line. */
  function SoiSuggestions(text: string): (r: seq<string>)
    ensures forall e :: e in r ==> e != "" && Trim(e) == e && '\n' !in e
  {
    var lines := Split(text, '\n');
    var r := SoiLines(lines);
    SoiLinesFilterCleaned(lines);
    assert forall e :: e in r ==> '\n' !in e by {
      forall e | e in r ensures '\n' !in e {
        var i :| 0 <= i < |lines| && CleanedLines(lines)[i] == e;
      }
    }
    r
  }

  /** The two orders of cleaning and filtering differ exactly by the empty suggestions. */
  lemma {:induction false} SoiAsWrittenAddsOnlyBlanks(lines: seq<string>)
    ensures Seqs.Filter(SoiLinesAsWritten(lines), e => e != "") == SoiLines(lines)
    decreases |lines|
  {
    if |lines| > 0 {
      SoiAsWrittenAddsOnlyBlanks(lines[1..]);
      var head := if Trim(lines[0]) != "" then [CleanLine(lines[0])] else [];
      Seqs.FilterAppend(head, SoiLinesAsWritten(lines[1..]), e => e != "");
      if Trim(lines[0]) == "" {
        BlankLineCleansBlank(lines[0]);
      }
    }
  }

  /** When no line is a lone dash, both orders agree. */
  lemma SoiAgreeWithoutLoneDash(lines: seq<string>)
    requires forall i :: 0 <= i < |lines| && Trim(lines[i]) != "" ==> CleanLine(lines[i]) != ""
    ensures SoiLinesAsWritten(lines) == SoiLines(lines)
  {
    SoiAsWrittenAddsOnlyBlanks(lines);
    AsWrittenHasNoBlank(lines);
    Seqs.FilterAll(SoiLinesAsWritten(lines), e => e != "");
  }

  lemma {:induction false} AsWrittenHasNoBlank(lines: seq<string>)
    requires forall i :: 0 <= i < |lines| && Trim(lines[i]) != "" ==> CleanLine(lines[i]) != ""
    ensures forall e :: e in SoiLinesAsWritten(lines) ==> e != ""
    decreases |lines|
  {
    if |lines| > 0 {
      AsWrittenHasNoBlank(lines[1..]);
    }
  }

  /** The reply `"- "` makes the code as written suggest one empty statement. */
  lemma SoiAsWrittenLoneDash()
    ensures StatementSuggestions("", Success("- ")) == [""]
    ensures StatementSuggestionsCorrected("", Success("- ")) == []
  {
    assert IndexOf("- ", '\n') == -1;
    assert Split("- ", '\n') == ["- "];
    assert LeadingSpaces("- ") == 0;
    assert TrailingSpaces("- ") == 1 by {
      assert ("- ")[..1] == "-";
    }
    assert Trim("- ") == "-";
    assert StartsWith("- ", "- ");
    assert DropDash("- ") == "";
  }

  const SoiErrorEn: string := "Error generating suggestions."
  const SoiErrorFr: string := "Erreur lors de la génération des suggestions."

  /**
    The suggestions of a reply text as the source reads it (filter, then
    clean): each one trimmed, and once the empty ones are dropped they are
    the corrected suggestions.
  */
  function SoiSuggestionsAsWritten(text: string): (r: seq<string>)
    ensures forall e :: e in r ==> Trim(e) == e
    ensures Seqs.Filter(r, e => e != "") == SoiSuggestions(text)
  {
    SoiAsWrittenAddsOnlyBlanks(Split(text, '\n'));
    SoiLinesAsWritten(Split(text, '\n'))
  }

  /**
    `generateStatementOfInquiry` once the prompt is sent: `reply` is the
    text (`response.text || ""`) or the failure of the call.  A failure is
    reported as a single suggestion in the subject's language, English for
    language acquisition only.  A reply is read as the source reads it, so
    a lone dash gives an empty suggestion.
  */
  function StatementSuggestions(subject: string, reply: Result<string>): (r: seq<string>)
    ensures reply.Failure? ==> r == [if GenerationLanguage(subject) == En then SoiErrorEn else SoiErrorFr]
    ensures reply.Success? ==> forall e :: e in r ==> Trim(e) == e
    ensures reply.Success? ==> Seqs.Filter(r, e => e != "") == SoiSuggestions(reply.value)
  {
    match reply
    case Failure(_) => [if GenerationLanguage(subject) == En then SoiErrorEn else SoiErrorFr]
    case Success(text) => SoiSuggestionsAsWritten(text)
  }

  /** `generateStatementOfInquiry` with the corrected reading: no suggestion is ever empty. */
  function StatementSuggestionsCorrected(subject: string, reply: Result<string>): (r: seq<string>)
    ensures reply.Failure? ==> r == StatementSuggestions(subject, reply)
    ensures reply.Success? ==> forall e :: e in r ==> e != "" && Trim(e) == e && '\n' !in e
    ensures reply.Success? ==> r == Seqs.Filter(StatementSuggestions(subject, reply), e => e != "")
  {
    match reply
    case Failure(_) => [if GenerationLanguage(subject) == En then SoiErrorEn else SoiErrorFr]
    case Success(text) => SoiSuggestions(text)
  }

  // ---------------------------------------------------------------- full plan generation

  /**
    The configuration error `getClient` throws without a key, cut short after
    its first lines: the setup instructions that follow are left out, since
    only the word "API" in it decides how the error is reported.
  */
  const ConfigError: string := "⚠️ ERREUR DE CONFIGURATION " + "API" + "\n\nLa clé API Gemini n'est pas configurée."
  const NoReplyError: string := "L'IA n'a retourné aucune réponse. Veuillez réessayer."
  const InvalidJsonError: string := "L'IA n'a pas retourné de plan valide. Le format JSON est invalide."
  const ParseError: string := "Le plan généré contient des erreurs de format. Veuillez réessayer."
  const IncompleteError: string := "Le plan généré est incomplet. Veuillez réessayer."
  const UnknownError: string := "Erreur inconnue lors de la génération"

  /** The mark every message of the catch blocks opens with. */
  const Cross: string := "❌ "

  const ConnectionMessage: string := Cross + "Erreur de connexion à l'IA. Vérifiez votre clé API dans les paramètres Vercel."
  const InvalidPlanMessage: string := Cross + "L'IA n'a pas retourné de plan valide. Veuillez réessayer avec des sujets plus précis.\n\nConseils:\n- Soyez plus spécifique dans les chapitres\n- Essayez avec moins de sujets à la fois\n- Attendez quelques instants et réessayez"
  const QuotaMessage: string := Cross + "Limite d'utilisation de l'IA atteinte. Veuillez réessayer dans quelques minutes."
  const GenericPrefix: string := Cross + "Erreur: "

  predicate MentionsKey(msg: string) {
    Contains(msg, "API") || Contains(msg, "key") || Contains(msg, "GEMINI_API_KEY")
  }

  predicate MentionsFormat(msg: string) {
    Contains(msg, "JSON") || Contains(msg, "format") || Contains(msg, "parse")
  }

  predicate MentionsQuota(msg: string) {
    Contains(msg, "quota") || Contains(msg, "limit")
  }

  /**
    The catch block of `generateFullUnitPlan`: key problems first, then
    format problems, then quota problems, anything else prefixed.
  */
  function ClassifyPlanError(error: string): (m: string)
    ensures var msg := MessageOr(error, UnknownError);
      && (m == ConnectionMessage <== MentionsKey(msg))
      && (!MentionsKey(msg) && MentionsFormat(msg) ==> m == InvalidPlanMessage)
      && (!MentionsKey(msg) && !MentionsFormat(msg) && MentionsQuota(msg) ==> m == QuotaMessage)
      && (!MentionsKey(msg) && !MentionsFormat(msg) && !MentionsQuota(msg) ==> m == GenericPrefix + msg)
    ensures StartsWith(m, Cross)
  {
    var msg := MessageOr(error, UnknownError);
    if MentionsKey(msg) then ConnectionMessage
    else if MentionsFormat(msg) then InvalidPlanMessage
    else if MentionsQuota(msg) then QuotaMessage
    else GenericPrefix + msg
  }

  /** The `GEMINI_API_KEY` test of both catch blocks never decides anything: the name contains `API`. */
  lemma KeyNameTestSubsumed(msg: string)
    ensures MentionsKey(msg) <==> Contains(msg, "API") || Contains(msg, "key")
  {
    if Contains(msg, "GEMINI_API_KEY") {
      assert "GEMINI_API_KEY"[7..10] == "API";
      ContainsAt("GEMINI_API_KEY", "API", 7);
      ContainsTransitive(msg, "GEMINI_API_KEY", "API");
    }
  }

  lemma Infix(a: string, b: string, c: string)
    ensures Contains(a + b + c, b)
  {
    assert (a + b + c)[|a|..|a| + |b|] == b;
    ContainsAt(a + b + c, b, |a|);
  }

  /** A missing key is always reported as a connection problem. */
  lemma ConfigErrorIsConnection()
    ensures ClassifyPlanError(ConfigError) == ConnectionMessage
  {
    Infix("⚠️ ERREUR DE CONFIGURATION ", "API", "\n\nLa clé API Gemini n'est pas configurée.");
  }

  /** `!text || text.trim() === ""`. */
  predicate Blank(text: string) {
    Trim(text) == ""
  }

  /**
    The steps of `generateFullUnitPlan` inside its `try`: the key, the
    reply, the cleaned JSON, the parse, the object check, the sanitiser.
    A failure carries the message thrown.
  */
  function GeneratePlanSteps(
    subject: string, gradeLevel: string, apiKey: string, reply: Result<string>,
    parses: string -> bool, decode: string -> JsonValue, now: string): (r: Result<UnitPlan>)
    ensures apiKey == "" ==> r == Failure(ConfigError)
    ensures r.Failure? ==>
      || r.error in {ConfigError, NoReplyError, InvalidJsonError, IncompleteError}
      || (reply.Failure? && r.error == reply.error)
    ensures r.Success? ==>
      && apiKey != "" && reply.Success? && !Blank(reply.value)
      && var cleaned := JsonExtract.CleanJsonText(reply.value, parses);
      && cleaned != JsonExtract.EmptyDocument && parses(cleaned) && JsonExtract.WellBracketed(cleaned)
      && IsObjectLike(decode(cleaned))
      && Sanitize.SanitizeUnitPlan(decode(cleaned), subject, gradeLevel, now) == r
    ensures r.Success? && subject != "" ==> r.value.subject == subject
    ensures r.Success? && gradeLevel != "" ==> r.value.gradeLevel == gradeLevel
  {
    if apiKey == "" then Failure(ConfigError)
    else
      var text :- reply;
      if Blank(text) then Failure(NoReplyError)
      else
        var cleaned := JsonExtract.CleanJsonText(text, parses);
        if cleaned == "" || cleaned == JsonExtract.EmptyDocument then Failure(InvalidJsonError)
        else if !parses(cleaned) then Failure(ParseError)
        else
          var parsed := decode(cleaned);
          if !Truthy(parsed) || !IsObjectLike(parsed) then Failure(IncompleteError)
          else
            Sanitize.SubjectOverride(parsed, subject, gradeLevel, now);
            Sanitize.GradeOverride(parsed, subject, gradeLevel, now);
            Sanitize.SanitizeUnitPlan(parsed, subject, gradeLevel, now)
  }

  /** `generateFullUnitPlan`: the steps, with any failure rewritten by the catch block. */
  function GenerateFullUnitPlan(
    subject: string, gradeLevel: string, apiKey: string, reply: Result<string>,
    parses: string -> bool, decode: string -> JsonValue, now: string): (r: Result<UnitPlan>)
    ensures r.Failure? ==> StartsWith(r.error, Cross)
    ensures apiKey == "" ==> r == Failure(ConnectionMessage)
    ensures r.Success? ==> r == GeneratePlanSteps(subject, gradeLevel, apiKey, reply, parses, decode, now)
    ensures r.Success? <==> GeneratePlanSteps(subject, gradeLevel, apiKey, reply, parses, decode, now).Success?
  {
    match GeneratePlanSteps(subject, gradeLevel, apiKey, reply, parses, decode, now)
    case Success(plan) => Success(plan)
    case Failure(e) =>
      if apiKey == "" then ConfigErrorIsConnection(); Failure(ClassifyPlanError(e))
      else Failure(ClassifyPlanError(e))
  }

  // ---------------------------------------------------------------- course generation

  const CourseNoPlan: string := "L'IA n'a pas retourné de plan valide. Veuillez réessayer."
  const CourseInvalidJson: string := "L'IA n'a pas retourné de plan valide. Le format JSON est invalide. Veuillez vérifier que les chapitres sont bien formatés et réessayer."
  const CourseParseError: string := "Le format des plans générés est invalide. Veuillez réessayer avec des chapitres plus clairs."
  const CourseEmpty: string := "Aucun plan n'a été généré. Veuillez vérifier que les chapitres sont bien renseignés et réessayer."
  const CourseConnection: string := Cross + "Erreur de connexion à l'IA. Vérifiez votre clé API."
  const CourseQuota: string := Cross + "Limite d'utilisation de l'IA atteinte. Réessayez dans quelques minutes."
  const CoursePrefix: string := Cross + "Erreur lors de la génération de la planification: "
  const EmptyList: string := "[]"

  /** The catch block of `generateCourseFromChapters`: no format case, `String(error)` as the fallback. */
  function ClassifyCourseError(error: string): (m: string)
    ensures var msg := MessageOr(error, "Error");
      && (MentionsKey(msg) ==> m == CourseConnection)
      && (!MentionsKey(msg) && MentionsQuota(msg) ==> m == CourseQuota)
      && (!MentionsKey(msg) && !MentionsQuota(msg) ==> m == CoursePrefix + msg)
    ensures StartsWith(m, Cross)
  {
    var msg := MessageOr(error, "Error");
    if MentionsKey(msg) then CourseConnection
    else if MentionsQuota(msg) then CourseQuota
    else CoursePrefix + msg
  }

  /** `Date.now().toString() + "-" + index`. */
  function CourseId(now: string, index: nat): string {
    now + "-" + NatToString(index)
  }

  /** Some parsed unit is `null` or `undefined`, which makes the sanitiser throw. */
  predicate HasMissingUnit(items: seq<JsonValue>) {
    exists i :: 0 <= i < |items| && (items[i].JNull? || items[i].JUndefined?)
  }

  /**
    `plans.map((p, index) => ({ ...sanitizeUnitPlan(p, ..), id: .. }))`:
    each parsed unit sanitised and given the identifier of its position.
  */
  function SanitizeCourse(items: seq<JsonValue>, subject: string, gradeLevel: string, now: string): (r: Result<seq<UnitPlan>>)
    ensures r.Failure? <==> HasMissingUnit(items)
    ensures r.Success? ==> |r.value| == |items|
    ensures r.Success? ==> forall i :: 0 <= i < |items| ==> r.value[i].id == CourseId(now, i)
    ensures r.Success? && subject != "" ==> forall i :: 0 <= i < |items| ==> r.value[i].subject == subject
    ensures r.Success? && gradeLevel != "" ==> forall i :: 0 <= i < |items| ==> r.value[i].gradeLevel == gradeLevel
  {
    if HasMissingUnit(items) then Failure(Sanitize.NoPlan)
    else
      Success(seq(|items|, i requires 0 <= i < |items| => CourseUnit(items[i], subject, gradeLevel, now, i)))
  }

  /** One unit of a course: the sanitised plan under the identifier of its position. */
  function CourseUnit(item: JsonValue, subject: string, gradeLevel: string, now: string, index: nat): (p: UnitPlan)
    requires !item.JNull? && !item.JUndefined?
    ensures p.id == CourseId(now, index)
    ensures subject != "" ==> p.subject == subject
    ensures gradeLevel != "" ==> p.gradeLevel == gradeLevel
  {
    Sanitize.SubjectOverride(item, subject, gradeLevel, now);
    Sanitize.GradeOverride(item, subject, gradeLevel, now);
    Sanitize.SanitizeUnitPlan(item, subject, gradeLevel, now).value.(id := CourseId(now, index))
  }

  /** The steps of `generateCourseFromChapters` inside its `try`. */
  function GenerateCourseSteps(
    subject: string, gradeLevel: string, apiKey: string, reply: Result<string>,
    parses: string -> bool, decode: string -> JsonValue, now: string): (r: Result<seq<UnitPlan>>)
    ensures apiKey == "" ==> r == Failure(ConfigError)
    ensures r.Failure? ==>
      || r.error in {ConfigError, CourseNoPlan, CourseInvalidJson, CourseEmpty, Sanitize.NoPlan}
      || (reply.Failure? && r.error == reply.error)
    ensures r.Success? ==>
      && apiKey != "" && reply.Success? && !Blank(reply.value)
      && var cleaned := JsonExtract.CleanJsonText(reply.value, parses);
      && cleaned != JsonExtract.EmptyDocument && cleaned != EmptyList && parses(cleaned)
      && decode(cleaned).JArr? && |decode(cleaned).items| == |r.value| > 0
    ensures r.Success? ==> forall i :: 0 <= i < |r.value| ==> r.value[i].id == CourseId(now, i)
    ensures r.Success? && subject != "" ==> forall i :: 0 <= i < |r.value| ==> r.value[i].subject == subject
  {
    if apiKey == "" then Failure(ConfigError)
    else
      var text :- reply;
      if Blank(text) then Failure(CourseNoPlan)
      else
        var cleaned := JsonExtract.CleanJsonText(text, parses);
        if cleaned == "" || cleaned == JsonExtract.EmptyDocument || cleaned == EmptyList then Failure(CourseInvalidJson)
        else if !parses(cleaned) then Failure(CourseParseError)
        else
          var plans := decode(cleaned);
          if !plans.JArr? then Failure(CourseNoPlan)
          else if |plans.items| == 0 then Failure(CourseEmpty)
          else SanitizeCourse(plans.items, subject, gradeLevel, now)
  }

  /** `generateCourseFromChapters`: the steps, with any failure rewritten by the catch block. */
  function GenerateCourseFromChapters(
    subject: string, gradeLevel: string, apiKey: string, reply: Result<string>,
    parses: string -> bool, decode: string -> JsonValue, now: string): (r: Result<seq<UnitPlan>>)
    ensures r.Failure? ==> StartsWith(r.error, Cross)
    ensures apiKey == "" ==> r == Failure(CourseConnection)
    ensures r.Success? <==> GenerateCourseSteps(subject, gradeLevel, apiKey, reply, parses, decode, now).Success?
    ensures r.Success? ==> r == GenerateCourseSteps(subject, gradeLevel, apiKey, reply, parses, decode, now)
  {
    match GenerateCourseSteps(subject, gradeLevel, apiKey, reply, parses, decode, now)
    case Success(plans) => Success(plans)
    case Failure(e) =>
      if apiKey == "" then
        Infix("⚠️ ERREUR DE CONFIGURATION ", "API", "\n\nLa clé API Gemini n'est pas configurée.");
        Failure(ClassifyCourseError(e))
      else Failure(ClassifyCourseError(e))
  }

  /** Course identifiers are pairwise distinct, so the units of one course never collide. */
  lemma CourseIdsDistinct(now: string, i: nat, j: nat)
    requires i != j
    ensures CourseId(now, i) != CourseId(now, j)
  {
    if CourseId(now, i) == CourseId(now, j) {
      assert NatToString(i) == CourseId(now, i)[|now| + 1..];
      assert NatToString(j) == CourseId(now, j)[|now| + 1..];
      NatStringInjective(i, j);
    }
  }

  lemma NatStringInjective(i: nat, j: nat)
    requires NatToString(i) == NatToString(j)
    ensures i == j
  {
    DigitsOfNat(i);
    DigitsOfNat(j);
  }
}

=== FILE: plan_api.dfy ===
/**
  The planning endpoint: one document per `subject_grade` key holding that
  key's plan list.  The collection is a list of documents in storage order;
  whether the database could be reached and the clock reading a save stamps
  are parameters.  Query and body fields that are absent are the empty text,
  which the handler's `!subject` tests treat alike.
*/
module PlanApi {
  import opened Wrappers
  import opened Records
  import Seqs
  import Http
  import PlanStorage

  /** One stored planning document. */
  datatype PlanDoc = PlanDoc(key: string, subject: string, grade: string, plans: seq<UnitPlan>, lastUpdated: string)

  type Collection = seq<PlanDoc>

  /** The fields a request carries; `plans` is `None` when the body's `plans` is not an array. */
  datatype PlanRequest = PlanRequest(verb: Http.Method, subject: string, grade: string, plans: Option<seq<UnitPlan>>)

  /** What the handler answers. */
  datatype PlanReply =
    | Preflight
    | Documents(docs: seq<PlanDoc>)
    | Planning(key: string, plans: seq<UnitPlan>, lastUpdated: Option<string>)
    | Upserted(key: string, modified: nat, upserted: nat, savedAt: string)
    | Removed(deleted: nat)
    | BadRequest
    | NotAllowed
    | ServerError
  {
    /** The HTTP status of the answer. */
    function Status(): int {
      match this
      case BadRequest => Http.BadRequest
      case NotAllowed => Http.NotAllowed
      case ServerError => Http.ServerError
      case _ => Http.Ok
    }
  }

  /** No two documents share a key; every write of the handler keeps it so. */
  predicate DistinctKeys(db: Collection) {
    forall i, j :: 0 <= i < j < |db| ==> db[i].key != db[j].key
  }

  /** `findOne({ key })`: the first document with the key, or -1. */
  function FirstWithKey(db: Collection, key: string): (i: int)
    ensures -1 <= i < |db|
    ensures i == -1 <==> forall j :: 0 <= j < |db| ==> db[j].key != key
    ensures i >= 0 ==> db[i].key == key && forall j :: 0 <= j < i ==> db[j].key != key
    decreases |db|
  {
    if db == [] then -1
    else if db[0].key == key then 0
    else
      var i := FirstWithKey(db[1..], key);
      if i == -1 then -1 else i + 1
  }

  /** `updateOne({ key }, { $set: doc }, { upsert: true })`: the first match replaced, or the document added. */
  function Upsert(db: Collection, doc: PlanDoc): (r: Collection)
    ensures FirstWithKey(db, doc.key) >= 0 ==> |r| == |db|
    ensures FirstWithKey(db, doc.key) == -1 ==> r == db + [doc]
    ensures forall i :: 0 <= i < |db| && db[i].key != doc.key ==> r[i] == db[i]
    ensures FirstWithKey(r, doc.key) >= 0 && r[FirstWithKey(r, doc.key)] == doc
    ensures DistinctKeys(db) ==> DistinctKeys(r)
  {
    var i := FirstWithKey(db, doc.key);
    if i == -1 then
      FirstWithKeyIs(db + [doc], doc.key, |db|);
      db + [doc]
    else
      FirstWithKeyIs(db[i := doc], doc.key, i);
      db[i := doc]
  }

  /** The first position holding a key is the one the search finds. */
  lemma FirstWithKeyIs(db: Collection, key: string, i: int)
    requires 0 <= i < |db| && db[i].key == key
    requires forall j :: 0 <= j < i ==> db[j].key != key
    ensures FirstWithKey(db, key) == i
  {
  }

  /** `deleteOne({ key })`: the first match removed, with how many went. */
  function DeleteOne(db: Collection, key: string): (r: (Collection, nat))
    ensures FirstWithKey(db, key) == -1 ==> r == (db, 0)
    ensures FirstWithKey(db, key) >= 0 ==> r.1 == 1 && |r.0| == |db| - 1
    ensures multiset(r.0) <= multiset(db)
    ensures DistinctKeys(db) ==> FirstWithKey(r.0, key) == -1 && DistinctKeys(r.0)
  {
    var i := FirstWithKey(db, key);
    if i == -1 then (db, 0)
    else
      var r := Seqs.RemoveAt(db, i);
      assert db == db[..i] + [db[i]] + db[i + 1..];
      assert r == db[..i] + db[i + 1..];
      (r, 1)
  }

  /** GET: every document of a grade, one key's plans, or a refusal. */
  function GetReply(db: Collection, subject: string, grade: string): (r: PlanReply)
    ensures subject == "" && grade != "" ==> r == Documents(Seqs.Filter(db, (d: PlanDoc) => d.grade == grade))
    ensures grade == "" ==> r == BadRequest
    ensures subject != "" && grade != "" ==> r.Planning? && r.key == PlanStorage.PlanningKey(subject, grade)
    ensures subject != "" && grade != "" && FirstWithKey(db, r.key) == -1 ==> r.plans == [] && r.lastUpdated.None?
  {
    if subject == "" && grade != "" then Documents(Seqs.Filter(db, (d: PlanDoc) => d.grade == grade))
    else if subject == "" || grade == "" then BadRequest
    else
      var key := PlanStorage.PlanningKey(subject, grade);
      var i := FirstWithKey(db, key);
      if i >= 0 then Planning(db[i].key, db[i].plans, Some(db[i].lastUpdated))
      else Planning(key, [], None)
  }

  /** POST: a subject, a grade and a plan list are required; the key's document is then written. */
  function PostReply(db: Collection, subject: string, grade: string, plans: Option<seq<UnitPlan>>, now: string)
    : (r: (PlanReply, Collection))
    ensures subject == "" || grade == "" || plans.None? ==> r == (BadRequest, db)
    ensures subject != "" && grade != "" && plans.Some? ==>
      var key := PlanStorage.PlanningKey(subject, grade);
      r.0.Upserted? && r.0 == Upserted(key, r.0.modified, r.0.upserted, now) &&
      r.0.modified + r.0.upserted <= 1 &&
      (r.0.upserted == 1 <==> FirstWithKey(db, key) == -1) &&
      r.1 == Upsert(db, PlanDoc(key, subject, grade, plans.value, now))
  {
    if subject == "" || grade == "" || plans.None? then (BadRequest, db)
    else
      var key := PlanStorage.PlanningKey(subject, grade);
      var doc := PlanDoc(key, subject, grade, plans.value, now);
      var i := FirstWithKey(db, key);
      var modified := if i >= 0 && db[i] != doc then 1 else 0;
      var upserted := if i == -1 then 1 else 0;
      (Upserted(key, modified, upserted, now), Upsert(db, doc))
  }

  /** DELETE: a subject and a grade are required; the key's document is then removed. */
  function DeleteReply(db: Collection, subject: string, grade: string): (r: (PlanReply, Collection))
    ensures subject == "" || grade == "" ==> r == (BadRequest, db)
    ensures subject != "" && grade != "" ==>
      var gone := DeleteOne(db, PlanStorage.PlanningKey(subject, grade));
      r == (Removed(gone.1), gone.0)
  {
    if subject == "" || grade == "" then (BadRequest, db)
    else
      var gone := DeleteOne(db, PlanStorage.PlanningKey(subject, grade));
      (Removed(gone.1), gone.0)
  }

  /** The handler: the reply and the collection afterwards. */
  function Handle(db: Collection, connected: bool, req: PlanRequest, now: string): (r: (PlanReply, Collection))
    ensures req.verb.Options? ==> r == (Preflight, db) && r.0.Status() == Http.Ok
    ensures !req.verb.Options? && !connected ==> r == (ServerError, db)
    ensures connected && req.verb.OtherMethod? ==> r == (NotAllowed, db)
    ensures connected && req.verb.Get? ==> r == (GetReply(db, req.subject, req.grade), db)
    ensures connected && req.verb.Post? ==> r == PostReply(db, req.subject, req.grade, req.plans, now)
    ensures connected && req.verb.Delete? ==> r == DeleteReply(db, req.subject, req.grade)
    ensures DistinctKeys(db) ==> DistinctKeys(r.1)
  {
    match req.verb
    case Options => (Preflight, db)
    case _ =>
      if !connected then (ServerError, db)
      else
        match req.verb
        case Get => (GetReply(db, req.subject, req.grade), db)
        case Post => PostReply(db, req.subject, req.grade, req.plans, now)
        case Delete => DeleteReply(db, req.subject, req.grade)
        case _ => (NotAllowed, db)
  }

  /** What a successful POST stored, a GET of the same subject and grade returns. */
  lemma PostThenGet(db: Collection, subject: string, grade: string, plans: seq<UnitPlan>, now: string)
    requires subject != "" && grade != ""
    ensures var after := Handle(db, true, PlanRequest(Http.Post, subject, grade, Some(plans)), now).1;
      Handle(after, true, PlanRequest(Http.Get, subject, grade, None), now).0 ==
        Planning(PlanStorage.PlanningKey(subject, grade), plans, Some(now))
  {
  }

  /** After a DELETE, a GET of the same subject and grade finds nothing. */
  lemma DeleteThenGet(db: Collection, subject: string, grade: string, now: string)
    requires DistinctKeys(db)
    requires subject != "" && grade != ""
    ensures var after := Handle(db, true, PlanRequest(Http.Delete, subject, grade, None), now).1;
      Handle(after, true, PlanRequest(Http.Get, subject, grade, None), now).0 ==
        Planning(PlanStorage.PlanningKey(subject, grade), [], None)
  {
  }

  /** A GET by grade alone returns exactly that grade's documents, in storage order. */
  lemma GradeListing(db: Collection, grade: string, d: PlanDoc)
    requires grade != ""
    ensures var r := Handle(db, true, PlanRequest(Http.Get, "", grade, None), "").0;
      r.Documents? && (d in r.docs <==> d in db && d.grade == grade)
  {
  }
}

=== FILE: plan_form.dfy ===
/**
  The unit-plan editing form: the state changes its buttons and check boxes
  make to the plan being edited.  What the AI calls return is a parameter.
*/
module PlanForm {
  import opened Wrappers
  import opened Strings
  import opened Records
  import Seqs

  /** How many related concepts a plan may select. */
  const MaxRelated := 3

  /** How many assessment criteria a plan needs before it can be saved. */
  const MinObjectives := 2

  // ------------------------------------------------------- related concepts

  /** `toggleRelatedConcept`: a selected concept is dropped, another added at the end while fewer than three are selected. */
  function ToggleConcept(current: seq<string>, concept: string): (r: seq<string>)
    ensures concept in current ==> r == Seqs.Filter(current, c => c != concept) && concept !in r
    ensures concept !in current && |current| >= MaxRelated ==> r == current
    ensures concept !in current && |current| < MaxRelated ==> r == current + [concept]
    ensures forall c :: c != concept ==> (c in r <==> c in current)
  {
    if concept in current then Seqs.Filter(current, c => c != concept)
    else if |current| >= MaxRelated then current
    else current + [concept]
  }

  /** A selection of at most three distinct concepts stays one, whatever is toggled. */
  lemma ToggleKeepsSelectionValid(current: seq<string>, concept: string)
    requires |current| <= MaxRelated && Seqs.Distinct(current)
    ensures |ToggleConcept(current, concept)| <= MaxRelated
    ensures Seqs.Distinct(ToggleConcept(current, concept))
  {
    if concept in current {
      FilterKeepsDistinct(current, c => c != concept);
    }
  }

  /** Filtering a duplicate-free list leaves it duplicate-free. */
  lemma {:induction false} FilterKeepsDistinct<T(!new)>(s: seq<T>, keep: T -> bool)
    requires Seqs.Distinct(s)
    ensures Seqs.Distinct(Seqs.Filter(s, keep))
    decreases |s|
  {
    if |s| > 0 {
      FilterKeepsDistinct(s[1..], keep);
      assert s[0] !in s[1..];
    }
  }

  /** Toggling an absent concept on and off again gives back the selection, when there was room for it. */
  lemma ToggleTwice(current: seq<string>, concept: string)
    requires concept !in current && |current| < MaxRelated
    ensures ToggleConcept(ToggleConcept(current, concept), concept) == current
  {
    Seqs.FilterAppend(current, [concept], c => c != concept);
    Seqs.FilterAll(current, c => c != concept);
  }

  // ---------------------------------------------------------- objectives

  /** A criterion check box: checking appends the criterion, unchecking removes every occurrence of it. */
  function ToggleObjective(objectives: seq<string>, criterion: string, checked: bool): (r: seq<string>)
    ensures checked ==> r == objectives + [criterion]
    ensures !checked ==> criterion !in r && forall c :: c != criterion ==> (c in r <==> c in objectives)
    ensures !checked ==> Seqs.CountIf(objectives, o => o == criterion) + |r| == |objectives|
  {
    if checked then objectives + [criterion]
    else
      var r := Seqs.Filter(objectives, o => o != criterion);
      Seqs.FilterLength(objectives, o => o != criterion);
      CountSplit(objectives, criterion);
      r
  }

  /** Every element either is the criterion or is not. */
  lemma {:induction false} CountSplit(s: seq<string>, x: string)
    ensures Seqs.CountIf(s, o => o == x) + Seqs.CountIf(s, o => o != x) == |s|
    decreases |s|
  {
    if |s| > 0 {
      CountSplit(s[1..], x);
    }
  }

  /** Unchecking a box just checked gives back the criteria, when the criterion was not already among them. */
  lemma CheckThenUncheck(objectives: seq<string>, criterion: string)
    requires criterion !in objectives
    ensures ToggleObjective(ToggleObjective(objectives, criterion, true), criterion, false) == objectives
  {
    Seqs.FilterAppend(objectives, [criterion], o => o != criterion);
    Seqs.FilterAll(objectives, o => o != criterion);
  }

  // ---------------------------------------------------------------- save

  /** The save button: the plan handed to `onSave`, or nothing when fewer than two criteria are selected. */
  function Save(plan: UnitPlan): (r: Option<UnitPlan>)
    ensures r.Some? <==> |plan.objectives| >= MinObjectives
    ensures r.Some? ==> r.value == plan
  {
    if |plan.objectives| < MinObjectives then None else Some(plan)
  }

  // ------------------------------------------------------ AI-filled fields

  const ParagraphBreak: string := "\n\n"

  /** `handleGenerateActivities`: the ideas appended to the learning experiences, after a blank line when there were some. */
  function AppendIdeas(before: string, ideas: string): (r: string)
    ensures before == "" ==> r == ideas
    ensures before != "" ==> StartsWith(r, before + ParagraphBreak) && r[|before| + |ParagraphBreak|..] == ideas
    ensures EndsWith(r, ideas)
  {
    if before == "" then
      ConcatEnds("", ideas);
      ideas
    else
      ConcatEnds(before + ParagraphBreak, ideas);
      before + ParagraphBreak + ideas
  }

  /** The activities button: nothing happens without a title and a statement of inquiry. */
  function GenerateActivities(plan: UnitPlan, ideas: string): (r: UnitPlan)
    ensures plan.title == "" || plan.statementOfInquiry == "" ==> r == plan
    ensures plan.title != "" && plan.statementOfInquiry != "" ==>
      r == plan.(learningExperiences := AppendIdeas(plan.learningExperiences, ideas))
  {
    if plan.title == "" || plan.statementOfInquiry == "" then plan
    else plan.(learningExperiences := AppendIdeas(plan.learningExperiences, ideas))
  }

  /** The three kinds of inquiry question. */
  datatype QuestionKind = Factual | Conceptual | Debatable

  /** The list of one kind. */
  function QuestionsOf(q: InquiryQuestions, k: QuestionKind): seq<string> {
    match k
    case Factual => q.factual
    case Conceptual => q.conceptual
    case Debatable => q.debatable
  }

  /** A question's delete button: position `i` of its kind removed, the other kinds untouched. */
  function RemoveQuestion(q: InquiryQuestions, k: QuestionKind, i: nat): (r: InquiryQuestions)
    ensures forall k' :: k' != k ==> QuestionsOf(r, k') == QuestionsOf(q, k')
    ensures QuestionsOf(r, k) == Seqs.RemoveAt(QuestionsOf(q, k), i)
  {
    match k
    case Factual => q.(factual := Seqs.RemoveAt(q.factual, i))
    case Conceptual => q.(conceptual := Seqs.RemoveAt(q.conceptual, i))
    case Debatable => q.(debatable := Seqs.RemoveAt(q.debatable, i))
  }

  /** Removing a question shortens its kind by one and keeps the rest in order; a position past the end removes nothing. */
  lemma RemoveQuestionKeepsOthers(q: InquiryQuestions, k: QuestionKind, i: nat)
    ensures var before := QuestionsOf(q, k);
      var after := QuestionsOf(RemoveQuestion(q, k, i), k);
      (i < |before| ==> after == before[..i] + before[i + 1..]) &&
      (i >= |before| ==> after == before)
  {
    var before := QuestionsOf(q, k);
    var after := QuestionsOf(RemoveQuestion(q, k, i), k);
    if i < |before| {
      assert after == before[..i] + before[i + 1..];
    }
  }

  /**
    `handleGenerateFullPlan`: without topics, subject or grade nothing
    happens, nor when generation fails; otherwise the generated plan is
    taken, keeping a teacher name already typed and the existing reflection.
  */
  function GenerateFullPlan(prev: UnitPlan, topics: string, generated: Result<UnitPlan>): (r: UnitPlan)
    ensures topics == "" || prev.subject == "" || prev.gradeLevel == "" || generated.Failure? ==> r == prev
    ensures topics != "" && prev.subject != "" && prev.gradeLevel != "" && generated.Success? ==>
      var g := generated.value;
      r.reflection == prev.reflection &&
      (prev.teacherName != "" ==> r.teacherName == prev.teacherName) &&
      (prev.teacherName == "" ==> r.teacherName == g.teacherName) &&
      r.inquiryQuestions == g.inquiryQuestions &&
      r == g.(teacherName := r.teacherName, reflection := r.reflection)
  {
    if topics == "" || prev.subject == "" || prev.gradeLevel == "" || generated.Failure? then prev
    else
      var g := generated.value;
      g.(teacherName := OrElse(prev.teacherName, g.teacherName), reflection := prev.reflection)
  }

  /** Taking the same generated plan a second time changes nothing. */
  lemma GenerateFullPlanIdempotent(prev: UnitPlan, topics: string, generated: Result<UnitPlan>)
    ensures var once := GenerateFullPlan(prev, topics, generated);
      GenerateFullPlan(once, topics, generated) == once
  {
  }

  /** The plan after the given generations, pressed one after another. */
  function Regenerate(prev: UnitPlan, topics: string, replies: seq<Result<UnitPlan>>): (r: UnitPlan)
    decreases |replies|
  {
    if replies == [] then prev
    else Regenerate(GenerateFullPlan(prev, topics, replies[0]), topics, replies[1..])
  }

  /** However many times a plan is generated, a teacher name already typed and the reflection stay. */
  lemma {:induction false} RegenerateKeepsTeacher(prev: UnitPlan, topics: string, replies: seq<Result<UnitPlan>>)
    requires prev.teacherName != ""
    ensures Regenerate(prev, topics, replies).teacherName == prev.teacherName
    ensures Regenerate(prev, topics, replies).reflection == prev.reflection
    decreases |replies|
  {
    if replies != [] {
      RegenerateKeepsTeacher(GenerateFullPlan(prev, topics, replies[0]), topics, replies[1..]);
    }
  }
}

=== FILE: plan_storage.dfy ===
/**
  Where unit plans are kept: the remote planning collection behind the HTTP
  API, with the browser's local storage as fallback and backup.  Local
  storage holds one object mapping `subject_grade` keys to plan lists; it is
  the store passed in and returned here.  What the remote side answers is a
  parameter of each operation (`None` when the request fails).
*/
module PlanStorage {
  import opened Wrappers
  import opened Strings
  import opened Records
  import KeyedStore
  import Seqs

  /** The shared local-storage object: `subject_grade` keys to plan lists. */
  type Shared = KeyedStore.Store<seq<UnitPlan>>

  // ------------------------------------------------------------- keys

  /** `getPlanningKey`: subject and grade around one underscore. */
  function PlanningKey(subject: string, grade: string): (k: string)
    ensures |k| == |subject| + 1 + |grade|
    ensures k[..|subject|] == subject && k[|subject|] == '_' && k[|subject| + 1..] == grade
  {
    var k := subject + "_" + grade;
    assert k[|subject| + 1..] == grade;
    k
  }

  /** `/^[_\s]+$/`: a non-empty text of underscores and white space only. */
  predicate UnderscoresOnly(s: string) {
    |s| > 0 && forall i :: 0 <= i < |s| ==> s[i] == '_' || IsSpace(s[i])
  }

  /**
    The test every storage entry point applies to an already trimmed subject
    and grade: both non-empty, and a subject neither starting with `_` nor
    made of underscores and spaces only.
  */
  predicate ValidPair(subject: string, grade: string) {
    subject != "" && grade != "" && !StartsWith(subject, "_") && !UnderscoresOnly(subject)
  }

  /** The parameter check of the load, save and delete calls: the pair is valid once trimmed. */
  predicate ValidParams(subject: string, grade: string) {
    ValidPair(Trim(subject), Trim(grade))
  }

  /**
    On a trimmed subject the underscores-only test adds nothing: such a
    subject cannot start with white space, so it starts with `_`.
  */
  lemma UnderscoresOnlyStartsWithUnderscore(subject: string)
    ensures UnderscoresOnly(Trim(subject)) ==> StartsWith(Trim(subject), "_")
  {
  }

  /**
    Splitting a key at its last underscore and trimming both sides: the pair
    when it is valid, nothing otherwise.
  */
  function SplitKey(key: string): (r: Option<(string, string)>)
    ensures r.Some? ==> ValidPair(r.value.0, r.value.1)
    ensures r.Some? ==> Trim(r.value.0) == r.value.0 && Trim(r.value.1) == r.value.1
    ensures r.Some? ==> '_' !in r.value.1
    ensures LastIndexOf(key, '_') == -1 ==> r.None?
  {
    var i := LastIndexOf(key, '_');
    if i == -1 then None
    else
      var subject := Trim(key[..i]);
      var grade := Trim(key[i + 1..]);
      TrimIdempotent(key[..i]);
      TrimIdempotent(key[i + 1..]);
      TrimHasNo(key[i + 1..], '_');
      if ValidPair(subject, grade) then Some((subject, grade)) else None
  }

  /** Trimming keeps a character out. */
  lemma TrimHasNo(s: string, c: char)
    requires c !in s
    ensures c !in Trim(s)
  {
  }

  /** A key built from a valid, trimmed pair whose grade has no underscore splits back into that pair. */
  lemma SplitKeyOfPlanningKey(subject: string, grade: string)
    requires ValidPair(subject, grade)
    requires Trim(subject) == subject && Trim(grade) == grade
    requires '_' !in grade
    ensures SplitKey(PlanningKey(subject, grade)) == Some((subject, grade))
  {
    var k := PlanningKey(subject, grade);
    var i := |subject|;
    assert k[i + 1..] == grade;
    assert '_' !in k[i + 1..];
    assert LastIndexOf(k, '_') == i;
    assert k[..i] == subject;
  }

  // ----------------------------------------------------- local storage

  /** `loadPlansFromLocalStorage`: the list under the key, or an empty list. */
  function LoadLocal(st: Shared, subject: string, grade: string): (r: seq<UnitPlan>)
    ensures !KeyedStore.HasKey(st, PlanningKey(subject, grade)) ==> r == []
  {
    KeyedStore.Get(st, PlanningKey(subject, grade)).GetOr([])
  }

  /** `savePlansToLocalStorage`: the key's list replaced, every other key untouched. */
  function SaveLocal(st: Shared, subject: string, grade: string, plans: seq<UnitPlan>): (r: Shared)
    ensures KeyedStore.Get(r, PlanningKey(subject, grade)) == Some(plans)
    ensures forall k :: k != PlanningKey(subject, grade) ==> KeyedStore.Get(r, k) == KeyedStore.Get(st, k)
    ensures KeyedStore.Valid(st) ==> KeyedStore.Valid(r)
  {
    KeyedStore.Set(st, PlanningKey(subject, grade), plans)
  }

  /** What was saved locally loads back; another subject/grade pair still loads what it had. */
  lemma SaveLocalThenLoad(st: Shared, subject: string, grade: string, plans: seq<UnitPlan>, s2: string, g2: string)
    ensures LoadLocal(SaveLocal(st, subject, grade, plans), subject, grade) == plans
    ensures PlanningKey(s2, g2) != PlanningKey(subject, grade) ==>
      LoadLocal(SaveLocal(st, subject, grade, plans), s2, g2) == LoadLocal(st, s2, g2)
  {
  }

  /** `grade.replace(' ', '_')`: the first space only. */
  function ReplaceFirstSpace(s: string): (r: string)
    ensures |r| == |s|
    ensures IndexOf(s, ' ') == -1 ==> r == s
    ensures IndexOf(s, ' ') != -1 ==> r == s[IndexOf(s, ' ') := '_']
  {
    var i := IndexOf(s, ' ');
    if i == -1 then s else s[i := '_']
  }

  /** The key test of the all-plans-for-a-grade fallback. */
  predicate GradeMatches(key: string, grade: string) {
    EndsWith(key, "_" + grade) || Contains(key, "_" + ReplaceFirstSpace(grade))
  }

  /** The lists of the matching entries, concatenated in key order. */
  function GradePlans(es: seq<(string, seq<UnitPlan>)>, grade: string): (r: seq<UnitPlan>)
    decreases |es|
  {
    if |es| == 0 then []
    else (if GradeMatches(es[0].0, grade) then es[0].1 else []) + GradePlans(es[1..], grade)
  }

  /** `loadAllPlansForGradeFromLocalStorage`. */
  function LoadAllForGradeLocal(st: Shared, grade: string): (r: seq<UnitPlan>)
    ensures forall p :: p in r ==>
      exists i :: 0 <= i < |st.entries| && GradeMatches(st.entries[i].0, grade) && p in st.entries[i].1
  {
    GradePlansFrom(st.entries, grade);
    GradePlans(st.entries, grade)
  }

  lemma {:induction false} GradePlansFrom(es: seq<(string, seq<UnitPlan>)>, grade: string)
    ensures forall p :: p in GradePlans(es, grade) ==>
      exists i :: 0 <= i < |es| && GradeMatches(es[i].0, grade) && p in es[i].1
    decreases |es|
  {
    if |es| > 0 {
      GradePlansFrom(es[1..], grade);
      forall p | p in GradePlans(es, grade)
        ensures exists i :: 0 <= i < |es| && GradeMatches(es[i].0, grade) && p in es[i].1
      {
        if !(GradeMatches(es[0].0, grade) && p in es[0].1) {
          assert p in GradePlans(es[1..], grade);
          var i :| 0 <= i < |es[1..]| && GradeMatches(es[1..][i].0, grade) && p in es[1..][i].1;
          assert es[i + 1] == es[1..][i];
        }
      }
    }
  }

  lemma {:induction false} GradePlansHas(es: seq<(string, seq<UnitPlan>)>, grade: string, i: nat)
    requires i < |es| && GradeMatches(es[i].0, grade)
    ensures forall p :: p in es[i].1 ==> p in GradePlans(es, grade)
    decreases i
  {
    if i > 0 {
      GradePlansHas(es[1..], grade, i - 1);
      assert es[1..][i - 1] == es[i];
    }
  }

  /** Plans saved locally for a grade appear among all the plans of that grade. */
  lemma SavedPlansListedForGrade(st: Shared, subject: string, grade: string, plans: seq<UnitPlan>)
    ensures forall p :: p in plans ==> p in LoadAllForGradeLocal(SaveLocal(st, subject, grade, plans), grade)
  {
    var r := SaveLocal(st, subject, grade, plans);
    var key := PlanningKey(subject, grade);
    assert KeyedStore.Get(r, key) == Some(plans);
    var i :| 0 <= i < |r.entries| && r.entries[i] == (key, plans);
    assert key == subject + ("_" + grade);
    ConcatEnds(subject, "_" + grade);
    GradePlansHas(r.entries, grade, i);
  }

  // ------------------------------------------------------ remote calls

  /** `loadPlansFromDatabase`: the remote list when the pair is valid and the request succeeds, the local one otherwise. */
  function LoadFromDatabase(st: Shared, subject: string, grade: string, answer: Option<Option<seq<UnitPlan>>>): (r: seq<UnitPlan>)
    ensures !ValidParams(subject, grade) || answer.None? ==> r == LoadLocal(st, subject, grade)
    ensures ValidParams(subject, grade) && answer.Some? ==> r == answer.value.GetOr([])
  {
    if !ValidParams(subject, grade) then LoadLocal(st, subject, grade)
    else match answer
      case None => LoadLocal(st, subject, grade)
      case Some(plans) => plans.GetOr([])
  }

  /** What the all-plans-for-a-grade request can answer. */
  datatype GradeAnswer = RequestFailed | NotAList | Documents(docs: seq<Option<seq<UnitPlan>>>)

  function PresentPlans(docs: seq<Option<seq<UnitPlan>>>): (r: seq<UnitPlan>)
    decreases |docs|
  {
    if |docs| == 0 then [] else docs[0].GetOr([]) + PresentPlans(docs[1..])
  }

  /** `loadAllPlansForGrade`: every document's plans concatenated; local storage when the request fails. */
  function LoadAllForGrade(st: Shared, grade: string, answer: GradeAnswer): (r: seq<UnitPlan>)
    ensures answer.RequestFailed? ==> r == LoadAllForGradeLocal(st, grade)
    ensures answer.NotAList? ==> r == []
    ensures answer.Documents? ==> r == PresentPlans(answer.docs)
  {
    match answer
    case RequestFailed => LoadAllForGradeLocal(st, grade)
    case NotAList => []
    case Documents(docs) => PresentPlans(docs)
  }

  /** Every plan of every document is kept, and nothing else. */
  lemma {:induction false} PresentPlansExact(docs: seq<Option<seq<UnitPlan>>>)
    ensures forall p :: p in PresentPlans(docs) <==> exists i :: 0 <= i < |docs| && docs[i].Some? && p in docs[i].value
    ensures |PresentPlans(docs)| == SumLengths(docs)
    decreases |docs|
  {
    if |docs| > 0 {
      PresentPlansExact(docs[1..]);
      forall p ensures p in PresentPlans(docs) <==> exists i :: 0 <= i < |docs| && docs[i].Some? && p in docs[i].value {
        if p in PresentPlans(docs[1..]) {
          var i :| 0 <= i < |docs[1..]| && docs[1..][i].Some? && p in docs[1..][i].value;
          assert docs[i + 1] == docs[1..][i];
        }
        if exists i :: 0 <= i < |docs| && docs[i].Some? && p in docs[i].value {
          var i :| 0 <= i < |docs| && docs[i].Some? && p in docs[i].value;
          if i > 0 {
            assert docs[1..][i - 1] == docs[i];
          }
        }
      }
    }
  }

  function SumLengths(docs: seq<Option<seq<UnitPlan>>>): nat
    decreases |docs|
  {
    if |docs| == 0 then 0 else |docs[0].GetOr([])| + SumLengths(docs[1..])
  }

  /** The outcome of a save: the answer, the local store afterwards, and the pair sent, if any. */
  datatype SaveOutcome = SaveOutcome(ok: bool, local: Shared, sent: Option<(string, string)>)

  /**
    `savePlansToDatabase`: an invalid pair sends nothing and changes
    nothing; otherwise the trimmed pair is posted and the plans are also
    written locally under the key as given, whether the post succeeds or not.
  */
  function SaveToDatabase(st: Shared, subject: string, grade: string, plans: seq<UnitPlan>, accepted: bool): (o: SaveOutcome)
    ensures !ValidParams(subject, grade) ==> o == SaveOutcome(false, st, None)
    ensures ValidParams(subject, grade) ==>
      && o.sent == Some((Trim(subject), Trim(grade)))
      && o.ok == accepted
      && LoadLocal(o.local, subject, grade) == plans
  {
    if !ValidParams(subject, grade) then SaveOutcome(false, st, None)
    else
      SaveLocalThenLoad(st, subject, grade, plans, subject, grade);
      SaveOutcome(accepted, SaveLocal(st, subject, grade, plans), Some((Trim(subject), Trim(grade))))
  }

  /** `deletePlansFromDatabase`: false without a request for an invalid pair, otherwise the server's answer. */
  function DeleteFromDatabase(subject: string, grade: string, accepted: bool): (r: (bool, Option<(string, string)>))
    ensures !ValidParams(subject, grade) ==> r == (false, None)
    ensures ValidParams(subject, grade) ==> r == (accepted, Some((Trim(subject), Trim(grade))))
    ensures r.0 ==> r.1.Some?
  {
    if !ValidParams(subject, grade) then (false, None) else (accepted, Some((Trim(subject), Trim(grade))))
  }

  // ------------------------------------------------------------ cleanup

  predicate KeepKey(key: string) {
    SplitKey(key).Some?
  }

  predicate Drop(key: string) {
    !KeepKey(key)
  }

  datatype CleanupResult = CleanupResult(store: Shared, cleaned: nat, rewritten: bool)

  /**
    `cleanupInvalidLocalStorageKeys`: keeps exactly the keys that split into
    a valid pair, with their lists; counts the others; writes the store back
    only when it removed something.
  */
  function Cleanup(st: Shared): (r: CleanupResult)
    requires KeyedStore.Valid(st)
    ensures r.cleaned == Seqs.CountIf(KeyedStore.Keys(st), Drop)
    ensures r.rewritten <==> r.cleaned > 0
    ensures forall k :: KeyedStore.Get(r.store, k) == if KeepKey(k) then KeyedStore.Get(st, k) else None
    ensures |r.store.entries| == |st.entries| - r.cleaned
    ensures KeyedStore.Valid(r.store)
  {
    var kept := KeyedStore.Retain(st, KeepKey);
    assert KeysOf(st.entries) == KeyedStore.Keys(st);
    var cleaned := Seqs.CountIf(KeyedStore.Keys(st), Drop);
    RetainCount(st.entries, KeepKey, Drop);
    if cleaned > 0 then CleanupResult(kept, cleaned, true)
    else
      RetainAll(st.entries, KeepKey, Drop);
      CleanupResult(st, 0, false)
  }

  /** Keys of an entry list, as a list. */
  function KeysOf<V>(es: seq<(string, V)>): (ks: seq<string>)
    ensures |ks| == |es|
    ensures forall i :: 0 <= i < |es| ==> ks[i] == es[i].0
  {
    seq(|es|, i requires 0 <= i < |es| => es[i].0)
  }

  lemma {:induction false} RetainCount<V>(es: seq<(string, V)>, keep: string -> bool, drop: string -> bool)
    requires forall k :: drop(k) == !keep(k)
    ensures |KeyedStore.RetainEntries(es, keep)| == |es| - Seqs.CountIf(KeysOf(es), drop)
    decreases |es|
  {
    if |es| > 0 {
      RetainCount(es[1..], keep, drop);
      assert KeysOf(es)[1..] == KeysOf(es[1..]);
    }
  }

  lemma {:induction false} RetainAll<V>(es: seq<(string, V)>, keep: string -> bool, drop: string -> bool)
    requires forall k :: drop(k) == !keep(k)
    requires Seqs.CountIf(KeysOf(es), drop) == 0
    ensures KeyedStore.RetainEntries(es, keep) == es
    decreases |es|
  {
    if |es| > 0 {
      assert KeysOf(es)[1..] == KeysOf(es[1..]);
      RetainAll(es[1..], keep, drop);
    }
  }

  /** A cleaned store has nothing left to clean. */
  lemma CleanupIdempotent(st: Shared)
    requires KeyedStore.Valid(st)
    ensures Cleanup(Cleanup(st).store).cleaned == 0
    ensures Cleanup(Cleanup(st).store).store == Cleanup(st).store
  {
    var s1 := Cleanup(st).store;
    NoneToClean(s1);
  }

  lemma NoneToClean(s1: Shared)
    requires KeyedStore.Valid(s1)
    requires forall k :: !KeepKey(k) ==> KeyedStore.Get(s1, k).None?
    ensures Cleanup(s1).cleaned == 0
    ensures Cleanup(s1).store == s1
  {
    forall i | 0 <= i < |s1.entries| ensures KeepKey(s1.entries[i].0) {
      var k := s1.entries[i].0;
      if !KeepKey(k) {
        assert KeyedStore.HasKey(s1, k);
      }
    }
    CountNone(KeysOf(s1.entries));
    assert KeysOf(s1.entries) == KeyedStore.Keys(s1);
  }

  lemma {:induction false} CountNone(ks: seq<string>)
    requires forall i :: 0 <= i < |ks| ==> KeepKey(ks[i])
    ensures Seqs.CountIf(ks, Drop) == 0
    decreases |ks|
  {
    if |ks| > 0 {
      CountNone(ks[1..]);
    }
  }

  // ---------------------------------------------------------- migration

  /** `needsMigration`: local storage holds at least one key. */
  function NeedsMigration(st: Shared): (r: bool)
    ensures r <==> |KeyedStore.Keys(st)| > 0
  {
    |st.entries| > 0
  }

  datatype KeyOutcome = Skipped | Migrated | SaveFailed

  /** What the migration loop does with one key, and the local store after it. */
  function MigrateKey(key: string, plans: seq<UnitPlan>, local: Shared,
                      answer: Option<Option<seq<UnitPlan>>>, accepted: bool): (r: (KeyOutcome, Shared))
    ensures SplitKey(key).None? || plans == [] ==> r == (Skipped, local)
    ensures SplitKey(key).Some? && plans != [] ==>
      var (subject, grade) := SplitKey(key).value;
      && (|LoadFromDatabase(local, subject, grade, answer)| > 0 ==> r == (Skipped, local))
      && (|LoadFromDatabase(local, subject, grade, answer)| == 0 ==>
            && (r.0.Migrated? <==> accepted) && !r.0.Skipped?
            && LoadLocal(r.1, subject, grade) == plans)
    ensures r.0.Migrated? ==> accepted
    ensures r.0.SaveFailed? ==> !accepted
  {
    match SplitKey(key)
    case None => (Skipped, local)
    case Some(pair) =>
      if plans == [] then (Skipped, local)
      else if |LoadFromDatabase(local, pair.0, pair.1, answer)| > 0 then (Skipped, local)
      else
        var o := SaveToDatabase(local, pair.0, pair.1, plans, accepted);
        (if o.ok then Migrated else SaveFailed, o.local)
  }

  datatype Tally = Tally(migrated: nat, errors: nat, local: Shared)

  /** The loop over the keys from position `i` on; the lists come from the snapshot taken before the loop. */
  function MigrateFrom(snapshot: Shared, i: nat, local: Shared,
                       answer: nat -> Option<Option<seq<UnitPlan>>>, accepted: nat -> bool): (t: Tally)
    requires i <= |snapshot.entries|
    ensures t.migrated + t.errors <= |snapshot.entries| - i
    decreases |snapshot.entries| - i
  {
    if i == |snapshot.entries| then Tally(0, 0, local)
    else
      var step := MigrateKey(snapshot.entries[i].0, snapshot.entries[i].1, local, answer(i), accepted(i));
      var rest := MigrateFrom(snapshot, i + 1, step.1, answer, accepted);
      match step.0
      case Skipped => rest
      case Migrated => Tally(rest.migrated + 1, rest.errors, rest.local)
      case SaveFailed => Tally(rest.migrated, rest.errors + 1, rest.local)
  }

  datatype MigrationResult = MigrationResult(success: bool, migrated: nat, errors: nat, local: Shared)

  /**
    `migrateLocalStorageToMongoDB`: every key is migrated, skipped or
    counted as an error; success means no error.  `answer(i)` and
    `accepted(i)` are the server's answers for the i-th key.
  */
  function MigrateLocalStorage(st: Shared, answer: nat -> Option<Option<seq<UnitPlan>>>, accepted: nat -> bool): (r: MigrationResult)
    ensures r.migrated + r.errors <= |KeyedStore.Keys(st)|
    ensures r.success <==> r.errors == 0
    ensures !NeedsMigration(st) ==> r == MigrationResult(true, 0, 0, st)
  {
    if |st.entries| == 0 then MigrationResult(true, 0, 0, st)
    else
      var t := MigrateFrom(st, 0, st, answer, accepted);
      MigrationResult(t.errors == 0, t.migrated, t.errors, t.local)
  }

  /** Keys that do not split into a valid pair are never migrated and never count as errors. */
  lemma {:induction false} InvalidKeysSkipped(snapshot: Shared, i: nat, local: Shared,
                                             answer: nat -> Option<Option<seq<UnitPlan>>>, accepted: nat -> bool)
    requires i <= |snapshot.entries|
    requires forall j :: i <= j < |snapshot.entries| ==> !KeepKey(snapshot.entries[j].0)
    ensures MigrateFrom(snapshot, i, local, answer, accepted) == Tally(0, 0, local)
    decreases |snapshot.entries| - i
  {
    if i < |snapshot.entries| {
      InvalidKeyStep(snapshot.entries[i].0, snapshot.entries[i].1, local, answer(i), accepted(i));
      InvalidKeysSkipped(snapshot, i + 1, local, answer, accepted);
    }
  }

  lemma InvalidKeyStep(key: string, plans: seq<UnitPlan>, local: Shared, answer: Option<Option<seq<UnitPlan>>>, accepted: bool)
    requires !KeepKey(key)
    ensures MigrateKey(key, plans, local, answer, accepted) == (Skipped, local)
  {
  }

  /** A migration over a store holding only invalid keys succeeds, migrates nothing and writes nothing. */
  lemma MigrationOfInvalidKeys(st: Shared, answer: nat -> Option<Option<seq<UnitPlan>>>, accepted: nat -> bool)
    requires forall j :: 0 <= j < |st.entries| ==> !KeepKey(st.entries[j].0)
    ensures MigrateLocalStorage(st, answer, accepted) == MigrationResult(true, 0, 0, st)
  {
    InvalidKeysSkipped(st, 0, st, answer, accepted);
  }

  /** When the server refuses every save, nothing counts as migrated. */
  lemma {:induction false} NothingMigratedWhenRefused(snapshot: Shared, i: nat, local: Shared,
                                                     answer: nat -> Option<Option<seq<UnitPlan>>>, accepted: nat -> bool)
    requires i <= |snapshot.entries|
    requires forall j :: i <= j < |snapshot.entries| ==> !accepted(j)
    ensures MigrateFrom(snapshot, i, local, answer, accepted).migrated == 0
    decreases |snapshot.entries| - i
  {
    if i < |snapshot.entries| {
      var step := MigrateKey(snapshot.entries[i].0, snapshot.entries[i].1, local, answer(i), accepted(i));
      MigratedStep(snapshot, i, local, answer, accepted);
      NothingMigratedWhenRefused(snapshot, i + 1, step.1, answer, accepted);
    }
  }

  /** The count from position `i` is the count from `i + 1` on, plus one when key `i` is migrated. */
  lemma MigratedStep(snapshot: Shared, i: nat, local: Shared,
                     answer: nat -> Option<Option<seq<UnitPlan>>>, accepted: nat -> bool)
    requires i < |snapshot.entries|
    ensures var step := MigrateKey(snapshot.entries[i].0, snapshot.entries[i].1, local, answer(i), accepted(i));
      MigrateFrom(snapshot, i, local, answer, accepted).migrated ==
        MigrateFrom(snapshot, i + 1, step.1, answer, accepted).migrated + (if step.0.Migrated? then 1 else 0)
  {
  }
}

=== FILE: plan_word_export.dfy ===
/**
  The unit-plan side of the Word export: the `clean` escaping that keeps a
  text from being read as a template tag, the data the unit-plan template
  and the assessment template are filled with, the file names, and the
  choice of assessments that go into the zip archive.  Fetching the
  template, rendering it and saving the file are the parameter
  `templateLoaded` and are otherwise left out.
*/
module PlanWordExport {
  import opened Wrappers
  import opened Strings
  import opened Json
  import opened Records
  import KeyedStore

  // ---------------------------------------------------------- escaping

  /** A text holding no curly brace, so the template engine sees no tag in it. */
  predicate BraceFree(s: string) {
    '{' !in s && '}' !in s
  }

  function EscapeChar(c: char): char {
    if c == '{' then '[' else if c == '}' then ']' else c
  }

  /** `replace(/{/g, "[").replace(/}/g, "]")`. */
  function EscapeBraces(s: string): (r: string)
    ensures |r| == |s|
    ensures BraceFree(r)
    ensures forall i :: 0 <= i < |s| && s[i] != '{' && s[i] != '}' ==> r[i] == s[i]
    ensures forall i :: 0 <= i < |s| && s[i] == '{' ==> r[i] == '['
    ensures forall i :: 0 <= i < |s| && s[i] == '}' ==> r[i] == ']'
  {
    seq(|s|, i requires 0 <= i < |s| => EscapeChar(s[i]))
  }

  /** A text without braces is left as it is, so escaping twice is escaping once. */
  lemma EscapeBracesOfBraceFree(s: string)
    requires BraceFree(s)
    ensures EscapeBraces(s) == s
  {
  }

  lemma EscapeBracesIdempotent(s: string)
    ensures EscapeBraces(EscapeBraces(s)) == EscapeBraces(s)
  {
    EscapeBracesOfBraceFree(EscapeBraces(s));
  }

  /** `clean(text)`: `""` for `null`/`undefined`, otherwise `String(text)` with its braces turned into brackets. */
  function Clean(v: JsonValue): (r: string)
    ensures v.JNull? || v.JUndefined? ==> r == ""
    ensures !(v.JNull? || v.JUndefined?) ==> |r| == |ToStr(v)|
    ensures BraceFree(r)
    ensures v.JStr? && BraceFree(v.s) ==> r == v.s
  {
    if v.JNull? || v.JUndefined? then ""
    else
      var s := ToStr(v);
      assert v.JStr? ==> s == v.s;
      if BraceFree(s) then
        EscapeBracesOfBraceFree(s);
        EscapeBraces(s)
      else
        EscapeBraces(s)
  }

  /** Cleaning a cleaned text changes nothing. */
  lemma CleanIdempotent(v: JsonValue)
    ensures Clean(JStr(Clean(v))) == Clean(v)
  {
  }

  // ------------------------------------------------- assessment template

  const NoStrand: string := "(Aucun aspect défini)"
  const NoRubric: RubricRow := RubricRow("1-8", "(Aucune rubrique définie)")
  const NoExercise: AssessmentExercise := AssessmentExercise("Exercice 1", "(Aucun exercice généré)", "", false)
  const DefaultMax: int := 8

  datatype RubricCell = RubricCell(niveau: string, descripteur: string)

  datatype ExerciseCell = ExerciseCell(numero: nat, titre: string, contenu: string, ref: string)

  /** The data the assessment template is filled with. */
  datatype AssessmentSheet = AssessmentSheet(
    classe: string,
    matiere: string,
    unite: string,
    enonceDeRecherche: string,
    enonce: string,
    enseignant: string,
    critere: string,
    nomCritere: string,
    lettreCritere: string,
    max: JsNumber,
    nomObjectifSpecifique: string,
    aspects: seq<string>,
    rubriques: seq<RubricCell>,
    exercices: seq<ExerciseCell>)

  /** Every text the assessment template receives is brace-free. */
  predicate SheetBraceFree(s: AssessmentSheet) {
    && BraceFree(s.classe) && BraceFree(s.matiere) && BraceFree(s.unite)
    && BraceFree(s.enonceDeRecherche) && BraceFree(s.enonce) && BraceFree(s.enseignant)
    && BraceFree(s.critere) && BraceFree(s.nomCritere) && BraceFree(s.lettreCritere)
    && BraceFree(s.nomObjectifSpecifique)
    && (forall i :: 0 <= i < |s.aspects| ==> BraceFree(s.aspects[i]))
    && (forall i :: 0 <= i < |s.rubriques| ==> BraceFree(s.rubriques[i].niveau) && BraceFree(s.rubriques[i].descripteur))
    && (forall i :: 0 <= i < |s.exercices| ==>
          BraceFree(s.exercices[i].titre) && BraceFree(s.exercices[i].contenu) && BraceFree(s.exercices[i].ref))
  }

  /** Every text of a list cleaned. */
  function CleanTexts(xs: seq<string>): (r: seq<string>)
    ensures |r| == |xs|
    ensures forall i :: 0 <= i < |xs| ==> r[i] == Clean(JStr(xs[i])) && BraceFree(r[i])
  {
    seq(|xs|, i requires 0 <= i < |xs| => Clean(JStr(xs[i])))
  }

  /** The strand rows: each strand cleaned, or the placeholder row. */
  function Aspects(strands: seq<string>): (r: seq<string>)
    ensures |r| == if |strands| > 0 then |strands| else 1
    ensures strands == [] ==> r == [Clean(JStr(NoStrand))]
    ensures forall i :: 0 <= i < |strands| ==> r[i] == Clean(JStr(strands[i]))
    ensures forall i :: 0 <= i < |r| ==> BraceFree(r[i])
  {
    if strands == [] then
      CleanTexts([NoStrand])
    else
      CleanTexts(strands)
  }

  /** The rubric rows: each row cleaned, or the placeholder row. */
  function Rubriques(rows: seq<RubricRow>): (r: seq<RubricCell>)
    ensures |r| == if |rows| > 0 then |rows| else 1
    ensures rows == [] ==> r == [RubricCell(Clean(JStr(NoRubric.level)), Clean(JStr(NoRubric.descriptor)))]
    ensures forall i :: 0 <= i < |rows| ==> r[i] == RubricCell(Clean(JStr(rows[i].level)), Clean(JStr(rows[i].descriptor)))
    ensures forall i :: 0 <= i < |r| ==> BraceFree(r[i].niveau) && BraceFree(r[i].descripteur)
  {
    if rows == [] then
      RubricCells([NoRubric])
    else
      RubricCells(rows)
  }

  /** The exercise rows, numbered from 1: each exercise cleaned, or the placeholder exercise. */
  function Exercices(exs: seq<AssessmentExercise>): (r: seq<ExerciseCell>)
    ensures |r| == if |exs| > 0 then |exs| else 1
    ensures forall i :: 0 <= i < |r| ==> r[i].numero == i + 1
    ensures exs == [] ==> r == [ExerciseCell(1, Clean(JStr(NoExercise.title)), Clean(JStr(NoExercise.content)), "")]
    ensures forall i :: 0 <= i < |exs| ==>
      r[i].titre == Clean(JStr(exs[i].title)) && r[i].contenu == Clean(JStr(exs[i].content))
      && r[i].ref == Clean(JStr(exs[i].criterionReference))
    ensures forall i :: 0 <= i < |r| ==> BraceFree(r[i].titre) && BraceFree(r[i].contenu) && BraceFree(r[i].ref)
  {
    if exs == [] then
      ExerciseCells([NoExercise])
    else
      ExerciseCells(exs)
  }

  function RubricCells(rows: seq<RubricRow>): (r: seq<RubricCell>)
    ensures |r| == |rows|
    ensures forall i :: 0 <= i < |rows| ==> r[i] == RubricCell(Clean(JStr(rows[i].level)), Clean(JStr(rows[i].descriptor)))
    ensures forall i :: 0 <= i < |rows| ==> BraceFree(r[i].niveau) && BraceFree(r[i].descripteur)
  {
    seq(|rows|, i requires 0 <= i < |rows| => RubricCell(Clean(JStr(rows[i].level)), Clean(JStr(rows[i].descriptor))))
  }

  function ExerciseCells(exs: seq<AssessmentExercise>): (r: seq<ExerciseCell>)
    ensures |r| == |exs|
    ensures forall i :: 0 <= i < |exs| ==> r[i].numero == i + 1
    ensures forall i :: 0 <= i < |exs| ==>
      r[i].titre == Clean(JStr(exs[i].title)) && r[i].contenu == Clean(JStr(exs[i].content))
      && r[i].ref == Clean(JStr(exs[i].criterionReference))
    ensures forall i :: 0 <= i < |exs| ==> BraceFree(r[i].titre) && BraceFree(r[i].contenu) && BraceFree(r[i].ref)
  {
    seq(|exs|, i requires 0 <= i < |exs| =>
      ExerciseCell(i + 1, Clean(JStr(exs[i].title)), Clean(JStr(exs[i].content)), Clean(JStr(exs[i].criterionReference))))
  }

  /**
    `mapAssessmentToTemplate`: an empty strand, rubric or exercise list
    becomes one placeholder row and a non-empty one keeps its length and
    order; exercises are numbered from 1; the maximum falls back to 8; every
    text is cleaned.
  */
  function MapAssessmentToTemplate(plan: UnitPlan, ad: AssessmentData): (s: AssessmentSheet)
    ensures s.aspects == Aspects(ad.strands)
    ensures s.rubriques == Rubriques(ad.rubricRows)
    ensures s.exercices == Exercices(ad.exercises)
    ensures s.max == if ad.maxPoints.Truthy() then ad.maxPoints else Finite(DefaultMax)
    ensures s.critere == s.lettreCritere == Clean(JStr(OrElse(ad.criterion, "A")))
    ensures s.nomCritere == Clean(JStr(OrElse(ad.criterionName, "Connaissances")))
    ensures s.classe == Clean(JStr(OrElse(plan.gradeLevel, "PEI")))
    ensures s.matiere == Clean(JStr(OrElse(plan.subject, "Matière")))
    ensures s.unite == Clean(JStr(OrElse(plan.title, "Unité")))
    ensures s.enonce == s.enonceDeRecherche
  {
    AssessmentSheet(
      Clean(JStr(OrElse(plan.gradeLevel, "PEI"))),
      Clean(JStr(OrElse(plan.subject, "Matière"))),
      Clean(JStr(OrElse(plan.title, "Unité"))),
      Clean(JStr(plan.statementOfInquiry)),
      Clean(JStr(plan.statementOfInquiry)),
      Clean(JStr(plan.teacherName)),
      Clean(JStr(OrElse(ad.criterion, "A"))),
      Clean(JStr(OrElse(ad.criterionName, "Connaissances"))),
      Clean(JStr(OrElse(ad.criterion, "A"))),
      if ad.maxPoints.Truthy() then ad.maxPoints else Finite(DefaultMax),
      Clean(JStr(ad.criterionName)),
      Aspects(ad.strands),
      Rubriques(ad.rubricRows),
      Exercices(ad.exercises))
  }

  /** Every text the assessment template receives is brace-free. */
  lemma AssessmentSheetBraceFree(plan: UnitPlan, ad: AssessmentData)
    ensures SheetBraceFree(MapAssessmentToTemplate(plan, ad))
  {
  }

  /** Strands without braces reach the template exactly as written. */
  lemma AspectsReadBack(plan: UnitPlan, ad: AssessmentData)
    requires |ad.strands| > 0
    requires forall i :: 0 <= i < |ad.strands| ==> BraceFree(ad.strands[i])
    ensures MapAssessmentToTemplate(plan, ad).aspects == ad.strands
  {
  }

  // ------------------------------------------------------ unit-plan template

  /** The teacher line printed when the plan has no teacher name. */
  const TeacherLine: string := "____________________"

  /** The data the unit-plan template is filled with. */
  datatype PlanSheet = PlanSheet(
    enseignant: string,
    groupeMatiere: string,
    titreUnite: string,
    anneePei: string,
    duree: string,
    conceptCle: string,
    conceptsConnexes: string,
    contexteMondial: string,
    enonceDeRecherche: string,
    questionsFactuelles: string,
    questionsConceptuelles: string,
    questionsDebat: string,
    objectifsSpecifiques: string,
    evaluationSommative: string,
    approchesApprentissage: string,
    contenu: string,
    processusApprentissage: string,
    evaluationFormative: string,
    differenciation: string,
    ressources: string,
    reflexionAvant: string,
    reflexionPendant: string,
    reflexionApres: string)

  predicate PlanSheetBraceFree(s: PlanSheet) {
    HeadBraceFree(s) && InquiryBraceFree(s) && BodyBraceFree(s)
  }

  predicate HeadBraceFree(s: PlanSheet) {
    && BraceFree(s.enseignant) && BraceFree(s.groupeMatiere) && BraceFree(s.titreUnite)
    && BraceFree(s.anneePei) && BraceFree(s.duree) && BraceFree(s.conceptCle)
    && BraceFree(s.conceptsConnexes) && BraceFree(s.contexteMondial)
  }

  predicate InquiryBraceFree(s: PlanSheet) {
    && BraceFree(s.enonceDeRecherche)
    && BraceFree(s.questionsFactuelles) && BraceFree(s.questionsConceptuelles) && BraceFree(s.questionsDebat)
    && BraceFree(s.objectifsSpecifiques) && BraceFree(s.evaluationSommative) && BraceFree(s.approchesApprentissage)
  }

  predicate BodyBraceFree(s: PlanSheet) {
    && BraceFree(s.contenu) && BraceFree(s.processusApprentissage) && BraceFree(s.evaluationFormative)
    && BraceFree(s.differenciation) && BraceFree(s.ressources)
    && BraceFree(s.reflexionAvant) && BraceFree(s.reflexionPendant) && BraceFree(s.reflexionApres)
  }

  /**
    The data mapping of `exportUnitPlanToWord`: list fields are joined
    (related concepts by ", ", the rest line by line), every text is
    cleaned, and the teacher falls back to an underscore line.
  */
  function PlanData(plan: UnitPlan): (s: PlanSheet)
    ensures s.enseignant == OrElse(Clean(JStr(plan.teacherName)), TeacherLine)
    ensures s.enseignant != ""
    ensures s.conceptsConnexes == Clean(JStr(Join(plan.relatedConcepts, ", ")))
    ensures s.questionsFactuelles == Clean(JStr(Join(plan.inquiryQuestions.factual, "\n")))
    ensures s.questionsConceptuelles == Clean(JStr(Join(plan.inquiryQuestions.conceptual, "\n")))
    ensures s.questionsDebat == Clean(JStr(Join(plan.inquiryQuestions.debatable, "\n")))
    ensures s.objectifsSpecifiques == Clean(JStr(Join(plan.objectives, "\n")))
    ensures s.approchesApprentissage == Clean(JStr(Join(plan.atlSkills, "\n")))
  {
    PlanSheet(
      OrElse(Clean(JStr(plan.teacherName)), TeacherLine),
      Clean(JStr(plan.subject)),
      Clean(JStr(plan.title)),
      Clean(JStr(plan.gradeLevel)),
      Clean(JStr(plan.duration)),
      Clean(JStr(plan.keyConcept)),
      Clean(JStr(Join(plan.relatedConcepts, ", "))),
      Clean(JStr(plan.globalContext)),
      Clean(JStr(plan.statementOfInquiry)),
      Clean(JStr(Join(plan.inquiryQuestions.factual, "\n"))),
      Clean(JStr(Join(plan.inquiryQuestions.conceptual, "\n"))),
      Clean(JStr(Join(plan.inquiryQuestions.debatable, "\n"))),
      Clean(JStr(Join(plan.objectives, "\n"))),
      Clean(JStr(plan.summativeAssessment)),
      Clean(JStr(Join(plan.atlSkills, "\n"))),
      Clean(JStr(plan.content)),
      Clean(JStr(plan.learningExperiences)),
      Clean(JStr(plan.formativeAssessment)),
      Clean(JStr(plan.differentiation)),
      Clean(JStr(plan.resources)),
      Clean(JStr(plan.reflection.prior)),
      Clean(JStr(plan.reflection.during)),
      Clean(JStr(plan.reflection.after)))
  }

  /** Every text the unit-plan template receives is brace-free. */
  lemma PlanSheetIsBraceFree(plan: UnitPlan)
    ensures PlanSheetBraceFree(PlanData(plan))
  {
    PlanHeadBraceFree(plan);
    PlanInquiryBraceFree(plan);
    PlanBodyBraceFree(plan);
  }

  lemma PlanHeadBraceFree(plan: UnitPlan)
    ensures HeadBraceFree(PlanData(plan))
  {
    assert BraceFree(TeacherLine);
  }

  lemma PlanInquiryBraceFree(plan: UnitPlan)
    ensures InquiryBraceFree(PlanData(plan))
  {
  }

  lemma PlanBodyBraceFree(plan: UnitPlan)
    ensures BodyBraceFree(PlanData(plan))
  {
  }

  /** Lines without braces or line breaks are printed one per line, so reading the cell line by line gives them back. */
  lemma {:induction false} LinesReadBack(lines: seq<string>)
    requires |lines| >= 1
    requires forall i :: 0 <= i < |lines| ==> BraceFree(lines[i]) && '\n' !in lines[i]
    ensures Split(Clean(JStr(Join(lines, "\n"))), '\n') == lines
  {
    JoinBraceFree(lines, "\n");
    SplitOfJoin(lines, '\n');
  }

  lemma {:induction false} JoinBraceFree(parts: seq<string>, sep: string)
    requires BraceFree(sep)
    requires forall i :: 0 <= i < |parts| ==> BraceFree(parts[i])
    ensures BraceFree(Join(parts, sep))
    decreases |parts|
  {
    if |parts| > 1 {
      JoinBraceFree(parts[1..], sep);
      assert Join(parts, sep) == parts[0] + sep + Join(parts[1..], sep);
    }
  }

  /** The factual questions of a plan read back from the template cell. */
  lemma FactualQuestionsReadBack(plan: UnitPlan)
    requires |plan.inquiryQuestions.factual| >= 1
    requires forall i :: 0 <= i < |plan.inquiryQuestions.factual| ==>
      BraceFree(plan.inquiryQuestions.factual[i]) && '\n' !in plan.inquiryQuestions.factual[i]
    ensures Split(PlanData(plan).questionsFactuelles, '\n') == plan.inquiryQuestions.factual
  {
    LinesReadBack(plan.inquiryQuestions.factual);
  }

  // ---------------------------------------------------------- file names

  predicate IsAsciiAlnum(c: char) {
    'a' <= c <= 'z' || 'A' <= c <= 'Z' || '0' <= c <= '9'
  }

  predicate SafeText(s: string) {
    forall i :: 0 <= i < |s| ==> IsAsciiAlnum(s[i]) || s[i] == '_'
  }

  /**
    `replace(/[^a-z0-9]/gi, '_')`: every UTF-16 code unit that is not an
    ASCII letter or digit becomes `_`, so a character outside the Basic
    Multilingual Plane becomes two.
  */
  function SafeName(s: string): (r: string)
    ensures |r| == Utf16Length(s)
    ensures SafeText(r)
    decreases |s|
  {
    if |s| == 0 then ""
    else
      var head := if IsAsciiAlnum(s[0]) then [s[0]] else if s[0] as int >= 0x10000 then "__" else "_";
      head + SafeName(s[1..])
  }

  /** A name made only of ASCII letters, digits and underscores is already safe. */
  lemma {:induction false} SafeNameOfSafe(s: string)
    requires SafeText(s)
    ensures SafeName(s) == s
    decreases |s|
  {
    if |s| > 0 {
      SafeNameOfSafe(s[1..]);
      assert s == [s[0]] + s[1..];
    }
  }

  lemma SafeNameIdempotent(s: string)
    ensures SafeName(SafeName(s)) == SafeName(s)
  {
    SafeNameOfSafe(SafeName(s));
  }

  const PlanPrefix: string := "Plan_Unite_"
  const Untitled: string := "Sans_Titre"
  const DocxSuffix: string := ".docx"

  /** The unit-plan file: `Plan_Unite_` and the safe title, `Sans_Titre` for a plan without one. */
  function PlanFileName(title: string): (r: string)
    ensures StartsWith(r, PlanPrefix) && EndsWith(r, DocxSuffix)
    ensures |r| >= |PlanPrefix| + |DocxSuffix|
    ensures SafeText(r[|PlanPrefix|..|r| - |DocxSuffix|])
    ensures title == "" ==> r == PlanPrefix + Untitled + DocxSuffix
  {
    var body := SafeName(OrElse(title, Untitled));
    Framed(PlanPrefix, body, DocxSuffix);
    if title == "" then
      UntitledIsSafe();
      PlanPrefix + body + DocxSuffix
    else
      PlanPrefix + body + DocxSuffix
  }

  lemma UntitledIsSafe()
    ensures SafeName(Untitled) == Untitled
  {
    assert SafeText(Untitled);
    SafeNameOfSafe(Untitled);
  }

  /** `replace(/ /g, '_')`: spaces only; other white space stays. */
  function SpacesToUnderscores(s: string): (r: string)
    ensures |r| == |s|
    ensures ' ' !in r
    ensures forall i :: 0 <= i < |s| && s[i] != ' ' ==> r[i] == s[i]
  {
    seq(|s|, i requires 0 <= i < |s| => if s[i] == ' ' then '_' else s[i])
  }

  /**
    `substring(0, n)` in UTF-16 code units.  A character outside the Basic
    Multilingual Plane that straddles the cut is dropped whole.
  */
  function Utf16Take(s: string, n: nat): (r: string)
    ensures Utf16Length(r) <= n
    ensures StartsWith(s, r)
    ensures Utf16Length(s) <= n ==> r == s
    decreases |s|
  {
    if |s| == 0 then ""
    else
      var w := if s[0] as int >= 0x10000 then 2 else 1;
      if w > n then ""
      else
        var rest := Utf16Take(s[1..], n - w);
        assert ([s[0]] + rest)[1..] == rest;
        assert s == [s[0]] + s[1..];
        [s[0]] + rest
  }

  /**
    The archive's folder: `Evaluations_` and then the title, character for
    character, except that spaces become underscores and braces brackets.
  */
  function FolderName(plan: UnitPlan): (r: string)
    ensures StartsWith(r, "Evaluations_")
    ensures ' ' !in r
    ensures |r| == |"Evaluations_"| + |plan.title|
    ensures forall i :: 0 <= i < |plan.title| && plan.title[i] !in {' ', '{', '}'} ==>
      r[|"Evaluations_"| + i] == plan.title[i]
  {
    var t := SpacesToUnderscores(Clean(JStr(plan.title)));
    assert Clean(JStr(plan.title)) == EscapeBraces(plan.title);
    ConcatEnds("Evaluations_", t);
    "Evaluations_" + t
  }

  /** A title with no space and no brace names the folder as it stands. */
  lemma FolderNameOfPlainTitle(plan: UnitPlan)
    requires ' ' !in plan.title && BraceFree(plan.title)
    ensures FolderName(plan) == "Evaluations_" + plan.title
  {
    var r := FolderName(plan);
    assert r[|"Evaluations_"|..] == plan.title;
    assert r[..|"Evaluations_"|] == "Evaluations_";
  }

  /**
    The name of one assessment's file inside the archive: the criterion,
    then the longest start of the cleaned title that fits in 20 UTF-16 units.
  */
  function EvalFileName(plan: UnitPlan, ad: AssessmentData): (r: string)
    ensures StartsWith(r, "Eval_Critere_" + ad.criterion + "_") && EndsWith(r, ".docx")
    ensures |r| >= |"Eval_Critere_" + ad.criterion + "_"| + |".docx"|
    ensures var mid := r[|"Eval_Critere_" + ad.criterion + "_"|..|r| - |".docx"|];
      && StartsWith(Clean(JStr(plan.title)), mid)
      && Utf16Length(mid) <= 20
      && (Utf16Length(Clean(JStr(plan.title))) <= 20 ==> mid == Clean(JStr(plan.title)))
  {
    var head := "Eval_Critere_" + ad.criterion + "_";
    Framed(head, Utf16Take(Clean(JStr(plan.title)), 20), ".docx");
    head + Utf16Take(Clean(JStr(plan.title)), 20) + ".docx"
  }

  /** A brace-free title of at most 20 UTF-16 units appears whole in the file name. */
  lemma EvalFileNameOfShortTitle(plan: UnitPlan, ad: AssessmentData)
    requires BraceFree(plan.title) && Utf16Length(plan.title) <= 20
    ensures EvalFileName(plan, ad) == "Eval_Critere_" + ad.criterion + "_" + plan.title + ".docx"
  {
    var head := "Eval_Critere_" + ad.criterion + "_";
    var r := EvalFileName(plan, ad);
    Framed(head, plan.title, ".docx");
    assert r[..|head|] == head && r[|r| - 5..] == ".docx";
    assert r == r[..|head|] + r[|head|..|r| - 5] + r[|r| - 5..];
  }

  // ------------------------------------------------------------ exports

  /** The message `loadFile` fails with when no proxy returns the template. */
  const LoadFailure: string := "Impossible de télécharger le modèle Word. Vérifiez votre connexion ou réessayez plus tard."
  const DocumentAlertPrefix: string := "Erreur lors de la génération du document Word: "
  const ZipAlertPrefix: string := "Erreur lors de la création du fichier ZIP: "
  const NoAssessmentAlert: string := "Aucune donnée d'évaluation trouvée. Veuillez régénérer le plan."

  datatype PlanExport = PlanSaved(fileName: string, sheet: PlanSheet) | PlanAlert(message: string)

  /** `exportUnitPlanToWord`: the filled template under its file name, or the alert when the template cannot be loaded. */
  function ExportUnitPlanToWord(plan: UnitPlan, templateLoaded: bool): (r: PlanExport)
    ensures r.PlanAlert? <==> !templateLoaded
    ensures r.PlanAlert? ==> r.message == DocumentAlertPrefix + LoadFailure
    ensures r.PlanSaved? ==> r.fileName == PlanFileName(plan.title) && r.sheet == PlanData(plan)
  {
    if templateLoaded then PlanSaved(PlanFileName(plan.title), PlanData(plan))
    else PlanAlert(DocumentAlertPrefix + LoadFailure)
  }

  /** The assessments that go into the archive: the list when it is non-empty, else the legacy single one, else none. */
  function SelectAssessments(plan: UnitPlan): (r: Option<seq<AssessmentData>>)
    ensures r.None? <==> plan.assessments == [] && plan.assessmentData.None?
    ensures r.Some? ==> |r.value| >= 1
    ensures r.Some? ==> forall a :: a in r.value ==> a in plan.assessments || plan.assessmentData == Some(a)
    ensures plan.assessments != [] ==> r == Some(plan.assessments)
  {
    if |plan.assessments| > 0 then Some(plan.assessments)
    else if plan.assessmentData.Some? then Some([plan.assessmentData.value])
    else None
  }

  /** The folder of an archive: file names mapped to filled templates, in the order they were first written. */
  type Folder = KeyedStore.Store<AssessmentSheet>

  datatype ZipExport =
    | ZipSaved(zipName: string, folderName: string, folder: Folder)
    | ZipAlert(message: string)

  /**
    `exportAssessmentsToZip`: an alert when the plan has no assessment (the
    template is not fetched then) or the template cannot be loaded;
    otherwise one file per selected assessment written into the folder in
    order, and the archive named after the folder.
  */
  function ExportAssessmentsToZip(plan: UnitPlan, templateLoaded: bool): (r: ZipExport)
    ensures r.ZipAlert? <==> SelectAssessments(plan).None? || !templateLoaded
    ensures SelectAssessments(plan).None? ==> r == ZipAlert(NoAssessmentAlert)
    ensures SelectAssessments(plan).Some? && !templateLoaded ==> r == ZipAlert(ZipAlertPrefix + LoadFailure)
    ensures r.ZipSaved? ==> r.folderName == FolderName(plan) && r.zipName == r.folderName + ".zip"
    ensures r.ZipSaved? ==> var sel := SelectAssessments(plan).value;
      r.folder == KeyedStore.SetEach(EvalNames(plan, sel), EvalSheets(plan, sel))
  {
    match SelectAssessments(plan)
    case None => ZipAlert(NoAssessmentAlert)
    case Some(sel) =>
      if !templateLoaded then ZipAlert(ZipAlertPrefix + LoadFailure)
      else
        ZipSaved(FolderName(plan) + ".zip", FolderName(plan), KeyedStore.SetEach(EvalNames(plan, sel), EvalSheets(plan, sel)))
  }

  function EvalNames(plan: UnitPlan, sel: seq<AssessmentData>): (r: seq<string>)
    ensures |r| == |sel|
    ensures forall i :: 0 <= i < |sel| ==> r[i] == EvalFileName(plan, sel[i])
  {
    seq(|sel|, i requires 0 <= i < |sel| => EvalFileName(plan, sel[i]))
  }

  function EvalSheets(plan: UnitPlan, sel: seq<AssessmentData>): (r: seq<AssessmentSheet>)
    ensures |r| == |sel|
    ensures forall i :: 0 <= i < |sel| ==> r[i] == MapAssessmentToTemplate(plan, sel[i])
  {
    seq(|sel|, i requires 0 <= i < |sel| => MapAssessmentToTemplate(plan, sel[i]))
  }

  /**
    Assessments with pairwise distinct criteria give one file each, in
    order, holding that assessment's template.
  */
  lemma ZipHoldsEveryAssessment(plan: UnitPlan, templateLoaded: bool)
    requires templateLoaded && SelectAssessments(plan).Some?
    requires var sel := SelectAssessments(plan).value;
      forall i, j :: 0 <= i < j < |sel| ==> sel[i].criterion != sel[j].criterion
    ensures var r := ExportAssessmentsToZip(plan, templateLoaded);
      var sel := SelectAssessments(plan).value;
      && r.ZipSaved?
      && |KeyedStore.Keys(r.folder)| == |sel|
      && forall i :: 0 <= i < |sel| ==>
           KeyedStore.Get(r.folder, EvalFileName(plan, sel[i])) == Some(MapAssessmentToTemplate(plan, sel[i]))
  {
    var sel := SelectAssessments(plan).value;
    var names := EvalNames(plan, sel);
    var sheets := EvalSheets(plan, sel);
    forall i, j | 0 <= i < j < |names| ensures names[i] != names[j] {
      EvalNamesDiffer(plan, sel[i], sel[j]);
    }
    KeyedStore.SetEachKeys(names, sheets);
    forall i | 0 <= i < |sel|
      ensures KeyedStore.Get(KeyedStore.SetEach(names, sheets), names[i]) == Some(sheets[i])
    {
      KeyedStore.SetEachDistinct(names, sheets, i);
    }
  }

  /** Different criteria give different file names. */
  lemma EvalNamesDiffer(plan: UnitPlan, a: AssessmentData, b: AssessmentData)
    requires a.criterion != b.criterion
    ensures EvalFileName(plan, a) != EvalFileName(plan, b)
  {
    var t := "_" + Utf16Take(Clean(JStr(plan.title)), 20) + ".docx";
    assert EvalFileName(plan, a) == "Eval_Critere_" + a.criterion + t;
    assert EvalFileName(plan, b) == "Eval_Critere_" + b.criterion + t;
    FramedInjective("Eval_Critere_", a.criterion, b.criterion, t);
  }
}

=== FILE: records.dfy ===
/**
  The record shapes the application passes around: the IB unit plan and its
  criterion-referenced assessments, and the French-curriculum exam with its
  questions.  Optional fields the code tests with `!x` or `x || default`
  are kept as the value they are compared against (`""`, `0`, `[]`) unless
  absence and emptiness are told apart somewhere, in which case they are an
  `Option`.
*/
module Records {
  import opened Wrappers
  import opened Json

  // ---------------------------------------------------------------- unit plans

  datatype RubricRow = RubricRow(level: string, descriptor: string)

  datatype AssessmentExercise = AssessmentExercise(
    title: string,
    content: string,
    criterionReference: string,
    workspaceNeeded: bool)

  /** One criterion-referenced assessment (criterion A, B, C or D). */
  datatype AssessmentData = AssessmentData(
    criterion: string,
    criterionName: string,
    maxPoints: JsNumber,
    strands: seq<string>,
    rubricRows: seq<RubricRow>,
    exercises: seq<AssessmentExercise>)

  datatype InquiryQuestions = InquiryQuestions(
    factual: seq<string>,
    conceptual: seq<string>,
    debatable: seq<string>)

  datatype Reflection = Reflection(prior: string, during: string, after: string)

  /** An IB MYP unit plan. */
  datatype UnitPlan = UnitPlan(
    id: string,
    teacherName: string,
    title: string,
    subject: string,
    gradeLevel: string,
    duration: string,
    chapters: string,
    keyConcept: string,
    relatedConcepts: seq<string>,
    globalContext: string,
    statementOfInquiry: string,
    inquiryQuestions: InquiryQuestions,
    objectives: seq<string>,
    atlSkills: seq<string>,
    content: string,
    learningExperiences: string,
    summativeAssessment: string,
    formativeAssessment: string,
    differentiation: string,
    resources: string,
    reflection: Reflection,
    generatedAssessmentDocument: string,
    assessmentData: Option<AssessmentData>,
    assessments: seq<AssessmentData>)

  // ---------------------------------------------------------------- exams

  /** The French school years an exam is written for, collège then lycée. */
  datatype ExamGrade = Sixieme | Cinquieme | Quatrieme | Troisieme | Seconde | Premiere | Terminale

  /** The text a grade stands for wherever it is printed or compared: the enumeration member's name. */
  function GradeValue(g: ExamGrade): (s: string)
    ensures s != ""
  {
    match g
    case Sixieme => "SIXIEME"
    case Cinquieme => "CINQUIEME"
    case Quatrieme => "QUATRIEME"
    case Troisieme => "TROISIEME"
    case Seconde => "SECONDE"
    case Premiere => "PREMIERE"
    case Terminale => "TERMINALE"
  }

  /** Distinct grades print differently, so the printed grade identifies it. */
  lemma GradeValueInjective(a: ExamGrade, b: ExamGrade)
    requires GradeValue(a) == GradeValue(b)
    ensures a == b
  {
  }

  datatype QuestionType =
    | Qcm | VraiFaux | TexteATrous | Legender | Definitions
    | AnalyseDocuments | ReponseLongue | Probleme
    | OtherType(name: string)

  datatype ResourceKind = TextResource | ImageResource | TableResource | GraphResource | OtherResource

  datatype Resource = Resource(kind: ResourceKind, title: string, content: string, imageDescription: string)

  datatype Statement = Statement(statement: string, isTrue: bool)

  /**
    One exam question.  A missing `points` is 0: the generator tests
    `!q.points` and its first sum reads `q.points || 0`, but both exports print
    the raw value, which the source writes as `undefined` for a stored
    question without points.  A missing `pointsPerStatement` or
    `expectedLines` is 0 likewise; `options` and `statements` keep absence
    apart from the empty list because the text export prints a blank line
    for the latter only.
  */
  datatype ExamQuestion = ExamQuestion(
    section: string,
    title: string,
    content: string,
    qtype: QuestionType,
    points: int,
    options: Option<seq<string>>,
    statements: Option<seq<Statement>>,
    pointsPerStatement: int,
    correctAnswer: string,
    answer: string,
    isDifferentiation: bool,
    hasResource: bool,
    resource: Option<Resource>,
    expectedLines: nat)

  datatype ExamStyle = Brevet | Bac | Standard

  /** A generated exam; `createdAt`/`updatedAt` are clock readings in milliseconds. */
  datatype Exam = Exam(
    id: string,
    subject: string,
    grade: ExamGrade,
    semester: string,
    teacherName: string,
    className: string,
    duration: string,
    totalPoints: int,
    title: string,
    questions: seq<ExamQuestion>,
    resources: seq<Resource>,
    difficulty: string,
    style: ExamStyle,
    chapters: string,
    createdAt: int,
    updatedAt: int,
    date: string)
}

=== FILE: sanitize.dfy ===
/**
  `sanitizeAssessmentData` and `sanitizeUnitPlan` of `services/geminiService.ts`:
  the defaulting readers that turn whatever JSON the model produced, with
  English or French key names, into the application's records.  Every field
  is read as `String(a || b || fallback)` or as the first candidate that is an
  array; the model states those two patterns once and builds both readers
  from them.
*/
module Sanitize {
  import opened Wrappers
  import opened Json
  import opened Records

  // ---------------------------------------------------------------- the reading pattern

  /** `String(v || fallback)`, where `v` is itself usually `a || b`. */
  function Text(v: JsonValue, fallback: string): (s: string)
    ensures Truthy(v) ==> s == ToStr(v)
    ensures !Truthy(v) ==> s == fallback
  {
    ToStr(Or(v, JStr(fallback)))
  }

  // ---------------------------------------------------------------- assessments

  const DefaultStrands: seq<string> := ["i. Aspect 1", "ii. Aspect 2", "iii. Aspect 3"]
  const DefaultDescriptor: string := "L'élève est capable de..."

  /** A rubric row as the source writes its defaults: an object with `level` and `descriptor`. */
  function RowValue(level: string, descriptor: string): JsonValue {
    JObj(map["level" := JStr(level), "descriptor" := JStr(descriptor)])
  }

  /** The four rows 1-2 to 7-8 used when the reply has no `rubricRows` array. */
  function DefaultRows(): seq<JsonValue> {
    [RowValue("1-2", DefaultDescriptor), RowValue("3-4", DefaultDescriptor),
     RowValue("5-6", DefaultDescriptor), RowValue("7-8", DefaultDescriptor)]
  }

  function RubricRowOf(r: JsonValue): RubricRow {
    RubricRow(
      Text(Or(Get(r, "level"), Get(r, "niveau")), ""),
      Text(Or(Get(r, "descriptor"), Or(Get(r, "description"), Get(r, "descripteur"))), ""))
  }

  /** An exercise: `workspaceNeeded` is `!!(x || true)`, which is always true. */
  function ExerciseOf(e: JsonValue): (x: AssessmentExercise)
    ensures x.workspaceNeeded
  {
    AssessmentExercise(
      Text(Or(Get(e, "title"), Get(e, "titre")), "Exercice"),
      Text(Or(Get(e, "content"), Get(e, "contenu")), "Énoncé..."),
      Text(Or(Get(e, "criterionReference"), Get(e, "ref")), "Critère A..."),
      true)
  }

  /** The strands: `strands`, else `aspects`, else three placeholders, each passed through `String`. */
  function StrandsOf(data: JsonValue): (ss: seq<string>)
    ensures !Get(data, "strands").JArr? && !Get(data, "aspects").JArr? ==> ss == DefaultStrands
    ensures Get(data, "strands").JArr? ==> ss == StringsOf(Get(data, "strands").items)
    ensures !Get(data, "strands").JArr? && Get(data, "aspects").JArr? ==> ss == StringsOf(Get(data, "aspects").items)
  {
    var defaults := [JStr(DefaultStrands[0]), JStr(DefaultStrands[1]), JStr(DefaultStrands[2])];
    var ss := StringsOf(ArrayOr(Get(data, "strands"), ArrayOr(Get(data, "aspects"), defaults)));
    if !Get(data, "strands").JArr? && !Get(data, "aspects").JArr? then
      assert ss == DefaultStrands;
      ss
    else
      ss
  }

  /** The rubric rows: the `rubricRows` array, else the four default bands, each row read with its French keys. */
  function RowsOf(data: JsonValue): (rows: seq<RubricRow>)
    ensures Get(data, "rubricRows").JArr? ==>
      |rows| == |Get(data, "rubricRows").items|
      && forall i :: 0 <= i < |rows| ==> rows[i] == RubricRowOf(Get(data, "rubricRows").items[i])
    ensures !Get(data, "rubricRows").JArr? ==>
      |rows| == 4 && forall i :: 0 <= i < 4 ==> rows[i].descriptor == DefaultDescriptor
  {
    var items := ArrayOr(Get(data, "rubricRows"), DefaultRows());
    DefaultRowsRead();
    seq(|items|, i requires 0 <= i < |items| => RubricRowOf(items[i]))
  }

  /** The exercises: the `exercises` array, else none. */
  function ExercisesOf(data: JsonValue): (xs: seq<AssessmentExercise>)
    ensures Get(data, "exercises").JArr? ==>
      |xs| == |Get(data, "exercises").items|
      && forall i :: 0 <= i < |xs| ==> xs[i] == ExerciseOf(Get(data, "exercises").items[i])
    ensures !Get(data, "exercises").JArr? ==> xs == []
    ensures forall i :: 0 <= i < |xs| ==> xs[i].workspaceNeeded
  {
    var items := ArrayOr(Get(data, "exercises"), []);
    seq(|items|, i requires 0 <= i < |items| => ExerciseOf(items[i]))
  }

  /**
    `sanitizeAssessmentData`: nothing for a falsy or non-object value,
    otherwise every field read with its French alternative and its default.
  */
  function SanitizeAssessmentData(data: JsonValue): (r: Option<AssessmentData>)
    ensures r.None? <==> !Truthy(data) || !IsObjectLike(data)
    ensures r.Some? && !Truthy(Get(data, "criterion")) && !Truthy(Get(data, "critere")) ==> r.value.criterion == "A"
    ensures r.Some? && !Truthy(Get(data, "criterionName")) && !Truthy(Get(data, "nom_critere")) ==> r.value.criterionName == "Connaissances"
    ensures r.Some? && !Truthy(Get(data, "maxPoints")) ==> r.value.maxPoints == Finite(8)
    ensures r.Some? ==> r.value.strands == StrandsOf(data) && r.value.rubricRows == RowsOf(data)
    ensures r.Some? ==> r.value.exercises == ExercisesOf(data)
  {
    if !Truthy(data) || !IsObjectLike(data) then None
    else
      Some(AssessmentData(
        criterion := Text(Or(Get(data, "criterion"), Get(data, "critere")), "A"),
        criterionName := Text(Or(Get(data, "criterionName"), Get(data, "nom_critere")), "Connaissances"),
        maxPoints := ToNumber(Or(Get(data, "maxPoints"), JNum(8))),
        strands := StrandsOf(data),
        rubricRows := RowsOf(data),
        exercises := ExercisesOf(data)))
  }

  /** The default rows read back as the four bands 1-2, 3-4, 5-6 and 7-8 with the placeholder descriptor. */
  lemma DefaultRowsRead()
    ensures forall i :: 0 <= i < 4 ==> RubricRowOf(DefaultRows()[i]).descriptor == DefaultDescriptor
    ensures RubricRowOf(DefaultRows()[0]).level == "1-2" && RubricRowOf(DefaultRows()[3]).level == "7-8"
  {
    forall i | 0 <= i < 4 ensures RubricRowOf(DefaultRows()[i]).descriptor == DefaultDescriptor {
      var row := DefaultRows()[i];
      assert Get(row, "descriptor") == JStr(DefaultDescriptor);
    }
    assert Get(DefaultRows()[0], "level") == JStr("1-2");
    assert Get(DefaultRows()[3], "level") == JStr("7-8");
  }

  // ---------------------------------------------------------------- unit plans

  /** The values of the present entries, in order: `.filter(a => !!a)` after a `map` to optional results. */
  function Present<T>(s: seq<Option<T>>): (r: seq<T>)
    ensures |r| <= |s|
    ensures forall i :: 0 <= i < |r| ==> Some(r[i]) in s
    decreases |s|
  {
    if |s| == 0 then []
    else
      var rest := Present(s[1..]);
      assert forall x :: x in s[1..] ==> x in s;
      if s[0].Some? then [s[0].value] + rest else rest
  }

  /** Keeping the present entries distributes over concatenation: the order is the input's. */
  lemma {:induction false} PresentAppend<T>(a: seq<Option<T>>, b: seq<Option<T>>)
    ensures Present(a + b) == Present(a) + Present(b)
    decreases |a|
  {
    if |a| == 0 {
      assert a + b == b;
    } else {
      assert (a + b)[1..] == a[1..] + b;
      PresentAppend(a[1..], b);
    }
  }

  /** Every entry is present exactly when `Present` loses nothing. */
  lemma {:induction false} PresentAll<T>(s: seq<Option<T>>)
    ensures (forall i :: 0 <= i < |s| ==> s[i].Some?) <==> |Present(s)| == |s|
    ensures (forall i :: 0 <= i < |s| ==> s[i].Some?) ==> forall i :: 0 <= i < |s| ==> Present(s)[i] == s[i].value
    decreases |s|
  {
    if |s| > 0 {
      PresentAll(s[1..]);
      if s[0].None? {
        assert |Present(s)| <= |s| - 1;
      } else if exists i :: 0 <= i < |s[1..]| && s[1..][i].None? {
        assert |Present(s[1..])| < |s[1..]|;
      }
    }
  }

  function SanitizeAll(items: seq<JsonValue>): (r: seq<Option<AssessmentData>>)
    ensures |r| == |items|
    ensures forall i :: 0 <= i < |items| ==> r[i] == SanitizeAssessmentData(items[i])
  {
    seq(|items|, i requires 0 <= i < |items| => SanitizeAssessmentData(items[i]))
  }

  /** The assessment list: an `assessments` array read element by element, else the legacy single `assessmentData`. */
  function AssessmentsOf(plan: JsonValue): (r: seq<AssessmentData>)
    ensures Get(plan, "assessments").JArr? ==> r == Present(SanitizeAll(Get(plan, "assessments").items))
    ensures !Get(plan, "assessments").JArr? && SanitizeAssessmentData(Get(plan, "assessmentData")).Some? ==>
      r == [SanitizeAssessmentData(Get(plan, "assessmentData")).value]
    ensures !Get(plan, "assessments").JArr? && SanitizeAssessmentData(Get(plan, "assessmentData")).None? ==> r == []
  {
    var list := Get(plan, "assessments");
    if list.JArr? then Present(SanitizeAll(list.items))
    else
      var legacy := Get(plan, "assessmentData");
      if Truthy(legacy) then
        match SanitizeAssessmentData(legacy)
        case Some(a) => [a]
        case None => []
      else []
  }

  /** The message of the `TypeError` raised by reading a property of `null` or `undefined`. */
  const NoPlan: string := "Cannot read properties of undefined"

  /**
    `sanitizeUnitPlan(plan, subject, gradeLevel)`.  `now` is the text of
    `Date.now()`, the identifier a plan without one receives.  Reading a
    property of `null`/`undefined` throws.
  */
  function SanitizeUnitPlan(plan: JsonValue, subject: string, gradeLevel: string, now: string): (r: Result<UnitPlan>)
    ensures r.Failure? <==> plan.JNull? || plan.JUndefined?
  {
    if plan.JNull? || plan.JUndefined? then Failure(NoPlan)
    else
      var iq := Or(Or(Get(plan, "inquiryQuestions"), Get(plan, "questions_recherche")), JObj(map[]));
      var reflection := Get(plan, "reflection");
      var reflexion := Get(plan, "reflexion");
      Success(UnitPlan(
        id := Text(Get(plan, "id"), now),
        teacherName := Text(Get(plan, "teacherName"), ""),
        title := Text(Or(Get(plan, "title"), Get(plan, "titre")), "Nouvelle Unité"),
        subject := Text(Or(JStr(subject), Or(Get(plan, "subject"), Get(plan, "matiere"))), ""),
        gradeLevel := Text(Or(JStr(gradeLevel), Or(Get(plan, "gradeLevel"), Get(plan, "niveau"))), ""),
        duration := Text(Or(Get(plan, "duration"), Get(plan, "duree")), "10 heures"),
        chapters := Text(Or(Get(plan, "chapters"), Get(plan, "chapitres")), ""),
        keyConcept := Text(Or(Get(plan, "keyConcept"), Get(plan, "concept_cle")), ""),
        relatedConcepts := StringsOf(ArrayOr(Get(plan, "relatedConcepts"), ArrayOr(Get(plan, "concepts_connexes"), []))),
        globalContext := Text(Or(Get(plan, "globalContext"), Get(plan, "contexte_mondial")), ""),
        statementOfInquiry := Text(Or(Get(plan, "statementOfInquiry"), Get(plan, "enonce_recherche")), ""),
        inquiryQuestions := InquiryQuestions(
          StringsOf(ArrayOr(Get(iq, "factual"), ArrayOr(Get(iq, "factuelles"), []))),
          StringsOf(ArrayOr(Get(iq, "conceptual"), ArrayOr(Get(iq, "conceptuelles"), []))),
          StringsOf(ArrayOr(Get(iq, "debatable"), ArrayOr(Get(iq, "debat"), [])))),
        objectives := StringsOf(ArrayOr(Get(plan, "objectives"), ArrayOr(Get(plan, "objectifs"), []))),
        atlSkills := StringsOf(ArrayOr(Get(plan, "atlSkills"), ArrayOr(Get(plan, "approches_apprentissage"), []))),
        content := Text(Or(Get(plan, "content"), Get(plan, "contenu")), ""),
        learningExperiences := Text(Or(Get(plan, "learningExperiences"), Or(Get(plan, "activites_apprentissage"), Get(plan, "processus_apprentissage"))), ""),
        summativeAssessment := Text(Or(Get(plan, "summativeAssessment"), Get(plan, "evaluation_sommative")), ""),
        formativeAssessment := Text(Or(Get(plan, "formativeAssessment"), Get(plan, "evaluation_formative")), ""),
        differentiation := Text(Or(Get(plan, "differentiation"), Get(plan, "differenciation")), ""),
        resources := Text(Or(Get(plan, "resources"), Get(plan, "ressources")), ""),
        reflection := Reflection(
          Text(Or(Get(reflection, "prior"), Get(reflexion, "avant")), ""),
          Text(Or(Get(reflection, "during"), Get(reflexion, "pendant")), ""),
          Text(Or(Get(reflection, "after"), Get(reflexion, "apres")), "")),
        generatedAssessmentDocument := Text(Get(plan, "generatedAssessmentDocument"), ""),
        assessmentData := SanitizeAssessmentData(Or(Get(plan, "assessmentData"), Get(plan, "donnees_evaluation"))),
        assessments := AssessmentsOf(plan)))
  }

  /** A subject the caller supplies overrides whatever the plan says. */
  lemma SubjectOverride(plan: JsonValue, subject: string, gradeLevel: string, now: string)
    requires !plan.JNull? && !plan.JUndefined?
    ensures subject != "" ==> SanitizeUnitPlan(plan, subject, gradeLevel, now).value.subject == subject
  {
    var r := SanitizeUnitPlan(plan, subject, gradeLevel, now).value;
    assert r.subject == Text(Or(JStr(subject), Or(Get(plan, "subject"), Get(plan, "matiere"))), "");
  }

  /** A grade level the caller supplies overrides whatever the plan says. */
  lemma GradeOverride(plan: JsonValue, subject: string, gradeLevel: string, now: string)
    requires !plan.JNull? && !plan.JUndefined?
    ensures gradeLevel != "" ==> SanitizeUnitPlan(plan, subject, gradeLevel, now).value.gradeLevel == gradeLevel
  {
    var r := SanitizeUnitPlan(plan, subject, gradeLevel, now).value;
    assert r.gradeLevel == Text(Or(JStr(gradeLevel), Or(Get(plan, "gradeLevel"), Get(plan, "niveau"))), "");
  }

  /** A plan without an identifier takes the current time as one. */
  lemma IdDefault(plan: JsonValue, subject: string, gradeLevel: string, now: string)
    requires !plan.JNull? && !plan.JUndefined?
    ensures !Truthy(Get(plan, "id")) ==> SanitizeUnitPlan(plan, subject, gradeLevel, now).value.id == now
  {
    var r := SanitizeUnitPlan(plan, subject, gradeLevel, now).value;
    assert r.id == Text(Get(plan, "id"), now);
  }

  /** A plan without a title under either key is called « Nouvelle Unité ». */
  lemma TitleDefault(plan: JsonValue, subject: string, gradeLevel: string, now: string)
    requires !plan.JNull? && !plan.JUndefined?
    ensures !Truthy(Get(plan, "title")) && !Truthy(Get(plan, "titre")) ==>
      SanitizeUnitPlan(plan, subject, gradeLevel, now).value.title == "Nouvelle Unité"
  {
    var r := SanitizeUnitPlan(plan, subject, gradeLevel, now).value;
    assert r.title == Text(Or(Get(plan, "title"), Get(plan, "titre")), "Nouvelle Unité");
  }

  /** A plan without a duration under either key lasts « 10 heures ». */
  lemma DurationDefault(plan: JsonValue, subject: string, gradeLevel: string, now: string)
    requires !plan.JNull? && !plan.JUndefined?
    ensures !Truthy(Get(plan, "duration")) && !Truthy(Get(plan, "duree")) ==>
      SanitizeUnitPlan(plan, subject, gradeLevel, now).value.duration == "10 heures"
  {
    var r := SanitizeUnitPlan(plan, subject, gradeLevel, now).value;
    assert r.duration == Text(Or(Get(plan, "duration"), Get(plan, "duree")), "10 heures");
  }

  // ---------------------------------------------------------------- JSON form of the records

  function TextList(ss: seq<string>): (v: JsonValue)
    ensures v.JArr? && StringsOf(v.items) == ss
  {
    JArr(seq(|ss|, i requires 0 <= i < |ss| => JStr(ss[i])))
  }

  function RowJson(r: RubricRow): JsonValue {
    RowValue(r.level, r.descriptor)
  }

  function ExerciseJson(e: AssessmentExercise): JsonValue {
    JObj(map["title" := JStr(e.title), "content" := JStr(e.content),
             "criterionReference" := JStr(e.criterionReference), "workspaceNeeded" := JBool(e.workspaceNeeded)])
  }

  /** `JSON.stringify` then `JSON.parse` of an assessment: a NaN maximum becomes `null`. */
  function AssessmentJson(a: AssessmentData): JsonValue {
    JObj(map[
      "criterion" := JStr(a.criterion),
      "criterionName" := JStr(a.criterionName),
      "maxPoints" := (if a.maxPoints.Finite? then JNum(a.maxPoints.n) else JNull),
      "strands" := TextList(a.strands),
      "rubricRows" := JArr(seq(|a.rubricRows|, i requires 0 <= i < |a.rubricRows| => RowJson(a.rubricRows[i]))),
      "exercises" := JArr(seq(|a.exercises|, i requires 0 <= i < |a.exercises| => ExerciseJson(a.exercises[i])))])
  }

  /**
    An assessment whose texts the defaults would not replace: a non-empty
    criterion, criterion name and exercise texts, a non-zero maximum and
    exercises that need room to answer.
  */
  predicate CompleteAssessment(a: AssessmentData) {
    && a.criterion != "" && a.criterionName != "" && a.maxPoints.Truthy()
    && forall i :: 0 <= i < |a.exercises| ==>
         && a.exercises[i].title != "" && a.exercises[i].content != ""
         && a.exercises[i].criterionReference != "" && a.exercises[i].workspaceNeeded
  }

  /** Reading back the JSON form of a complete assessment gives it back. */
  lemma AssessmentRoundTrip(a: AssessmentData)
    requires CompleteAssessment(a)
    ensures SanitizeAssessmentData(AssessmentJson(a)) == Some(a)
  {
    var v := AssessmentJson(a);
    assert Truthy(v) && IsObjectLike(v);
    var r := SanitizeAssessmentData(v).value;
    assert r.criterion == a.criterion && r.criterionName == a.criterionName by {
      HeadFieldsRoundTrip(a);
      TextRead(Get(v, "criterion"), Get(v, "critere"), a.criterion, "A");
      TextRead(Get(v, "criterionName"), Get(v, "nom_critere"), a.criterionName, "Connaissances");
    }
    assert r.maxPoints == a.maxPoints by {
      HeadFieldsRoundTrip(a);
    }
    assert r.strands == a.strands by {
      StrandsRoundTrip(a);
    }
    assert r.rubricRows == a.rubricRows by {
      RowsRoundTrip(a);
    }
    assert r.exercises == a.exercises by {
      ExercisesRoundTrip(a);
    }
  }

  lemma HeadFieldsRoundTrip(a: AssessmentData)
    ensures Get(AssessmentJson(a), "criterion") == JStr(a.criterion)
    ensures Get(AssessmentJson(a), "critere") == JUndefined
    ensures Get(AssessmentJson(a), "criterionName") == JStr(a.criterionName)
    ensures Get(AssessmentJson(a), "nom_critere") == JUndefined
    ensures Get(AssessmentJson(a), "maxPoints") == (if a.maxPoints.Finite? then JNum(a.maxPoints.n) else JNull)
  {
  }

  lemma StrandsRoundTrip(a: AssessmentData)
    ensures StrandsOf(AssessmentJson(a)) == a.strands
  {
    assert Get(AssessmentJson(a), "strands") == TextList(a.strands);
  }

  lemma RowsRoundTrip(a: AssessmentData)
    ensures RowsOf(AssessmentJson(a)) == a.rubricRows
  {
    var v := Get(AssessmentJson(a), "rubricRows");
    assert v.JArr?;
    var rows := v.items;
    forall i | 0 <= i < |a.rubricRows| ensures RubricRowOf(rows[i]) == a.rubricRows[i] {
      assert rows[i] == RowJson(a.rubricRows[i]);
      assert Get(rows[i], "level") == JStr(a.rubricRows[i].level);
      assert Get(rows[i], "descriptor") == JStr(a.rubricRows[i].descriptor);
    }
  }

  lemma ExercisesRoundTrip(a: AssessmentData)
    requires CompleteAssessment(a)
    ensures ExercisesOf(AssessmentJson(a)) == a.exercises
  {
    var v := Get(AssessmentJson(a), "exercises");
    assert v.JArr?;
    var exs := v.items;
    forall i | 0 <= i < |a.exercises| ensures ExerciseOf(exs[i]) == a.exercises[i] {
      var e := a.exercises[i];
      assert exs[i] == ExerciseJson(e);
      assert Get(exs[i], "title") == JStr(e.title);
      assert Get(exs[i], "content") == JStr(e.content);
      assert Get(exs[i], "criterionReference") == JStr(e.criterionReference);
    }
  }

  // ---------------------------------------------------------------- unit plans and their JSON form

  function InquiryJson(q: InquiryQuestions): JsonValue {
    JObj(map["factual" := TextList(q.factual), "conceptual" := TextList(q.conceptual), "debatable" := TextList(q.debatable)])
  }

  function ReflectionJson(r: Reflection): JsonValue {
    JObj(map["prior" := JStr(r.prior), "during" := JStr(r.during), "after" := JStr(r.after)])
  }

  function AssessmentsJson(as_: seq<AssessmentData>): (v: JsonValue)
    ensures v.JArr? && |v.items| == |as_|
    ensures forall i :: 0 <= i < |as_| ==> v.items[i] == AssessmentJson(as_[i])
  {
    JArr(seq(|as_|, i requires 0 <= i < |as_| => AssessmentJson(as_[i])))
  }

  /**
    `v` carries every field of `p` under its English key, in the JSON form
    `p` is stored in, and none of the French alternatives the reader also
    accepts.
  */
  predicate Carries(v: JsonValue, p: UnitPlan) {
    v.JObj? && CarriesHead(v, p) && CarriesBody(v, p) && CarriesLists(v, p) && CarriesNested(v, p) && CarriesAssessments(v, p)
  }

  predicate CarriesHead(v: JsonValue, p: UnitPlan) {
    Get(v, "id") == JStr(p.id)
    && Get(v, "teacherName") == JStr(p.teacherName)
    && Get(v, "title") == JStr(p.title)
    && Get(v, "titre") == JUndefined
    && Get(v, "subject") == JStr(p.subject)
    && Get(v, "matiere") == JUndefined
    && Get(v, "gradeLevel") == JStr(p.gradeLevel)
    && Get(v, "niveau") == JUndefined
    && Get(v, "duration") == JStr(p.duration)
    && Get(v, "duree") == JUndefined
    && Get(v, "chapters") == JStr(p.chapters)
    && Get(v, "chapitres") == JUndefined
    && Get(v, "keyConcept") == JStr(p.keyConcept)
    && Get(v, "concept_cle") == JUndefined
  }

  predicate CarriesBody(v: JsonValue, p: UnitPlan) {
    Get(v, "globalContext") == JStr(p.globalContext)
    && Get(v, "contexte_mondial") == JUndefined
    && Get(v, "statementOfInquiry") == JStr(p.statementOfInquiry)
    && Get(v, "enonce_recherche") == JUndefined
    && Get(v, "content") == JStr(p.content)
    && Get(v, "contenu") == JUndefined
    && Get(v, "learningExperiences") == JStr(p.learningExperiences)
    && Get(v, "activites_apprentissage") == JUndefined
    && Get(v, "processus_apprentissage") == JUndefined
    && Get(v, "summativeAssessment") == JStr(p.summativeAssessment)
    && Get(v, "evaluation_sommative") == JUndefined
    && Get(v, "formativeAssessment") == JStr(p.formativeAssessment)
    && Get(v, "evaluation_formative") == JUndefined
    && Get(v, "differentiation") == JStr(p.differentiation)
    && Get(v, "differenciation") == JUndefined
    && Get(v, "resources") == JStr(p.resources)
    && Get(v, "ressources") == JUndefined
    && Get(v, "generatedAssessmentDocument") == JStr(p.generatedAssessmentDocument)
  }

  predicate CarriesLists(v: JsonValue, p: UnitPlan) {
    Get(v, "relatedConcepts") == TextList(p.relatedConcepts)
    && Get(v, "inquiryQuestions") == InquiryJson(p.inquiryQuestions)
    && Get(v, "objectives") == TextList(p.objectives)
    && Get(v, "atlSkills") == TextList(p.atlSkills)
  }

  predicate CarriesNested(v: JsonValue, p: UnitPlan) {
    Get(v, "reflection") == ReflectionJson(p.reflection)
    && Get(v, "reflexion") == JUndefined
    && Get(v, "assessmentData") == (if p.assessmentData.Some? then AssessmentJson(p.assessmentData.value) else JUndefined)
    && Get(v, "donnees_evaluation") == JUndefined
  }

  predicate CarriesAssessments(v: JsonValue, p: UnitPlan) {
    Get(v, "assessments") == AssessmentsJson(p.assessments)
  }

  /** A plan none of whose fields a default would replace. */
  predicate CompletePlan(p: UnitPlan) {
    && p.id != "" && p.title != "" && p.duration != ""
    && (p.assessmentData.Some? ==> CompleteAssessment(p.assessmentData.value))
    && forall i :: 0 <= i < |p.assessments| ==> CompleteAssessment(p.assessments[i])
  }

  /** Sanitising the JSON form of a complete plan gives the plan back: the reader loses nothing it was given. */
  lemma PlanRoundTrip(v: JsonValue, p: UnitPlan, now: string)
    requires Carries(v, p) && CompletePlan(p)
    ensures SanitizeUnitPlan(v, p.subject, p.gradeLevel, now) == Success(p)
  {
    HeadRoundTrip(v, p, now);
    BodyRoundTrip(v, p);
    ListsRoundTrip(v, p);
    NestedRoundTrip(v, p);
    AssessmentsRoundTrip(v, p);
  }

  /**
    The JSON form a plan is stored in (`JSON.stringify` then `JSON.parse`):
    every field under its English key; an absent assessment is `undefined`,
    which `JSON.stringify` leaves out.
  */
  function PlanJson(p: UnitPlan): (v: JsonValue)
    ensures Carries(v, p)
  {
    var n := Nested(TextList(p.relatedConcepts), InquiryJson(p.inquiryQuestions), TextList(p.objectives),
                    TextList(p.atlSkills), ReflectionJson(p.reflection),
                    if p.assessmentData.Some? then AssessmentJson(p.assessmentData.value) else JUndefined,
                    AssessmentsJson(p.assessments));
    PlanObjectGet(p, n);
    PlanFieldHead(p, n);
    PlanFieldBody(p, n);
    PlanFieldAssessment(p, n);
    PlanFieldNested(p, n);
    PlanObject(p, n)
  }

  /** The fields of a plan's JSON form that are themselves lists or objects. */
  datatype Nested = Nested(
    relatedConcepts: JsonValue, inquiryQuestions: JsonValue, objectives: JsonValue, atlSkills: JsonValue,
    reflection: JsonValue, assessmentData: JsonValue, assessments: JsonValue)

  /** The English keys a plan is stored under. */
  const PlanKeys: set<string> := {
      "id", "teacherName", "title", "subject", "gradeLevel", "duration",
      "chapters", "keyConcept", "relatedConcepts", "globalContext", "statementOfInquiry", "inquiryQuestions",
      "objectives", "atlSkills", "content", "learningExperiences", "summativeAssessment", "formativeAssessment",
      "differentiation", "resources", "reflection", "generatedAssessmentDocument", "assessments", "assessmentData"}

  /** The value stored under a key, `undefined` for any other key; keys are told apart by length first. */
  function PlanField(p: UnitPlan, n: Nested, k: string): JsonValue {
    if |k| == 2 then
      if k == "id" then JStr(p.id) else JUndefined
    else
    if |k| == 5 then
      if k == "title" then JStr(p.title) else JUndefined
    else
    if |k| == 7 then
      if k == "subject" then JStr(p.subject) else if k == "content" then JStr(p.content) else JUndefined
    else
    if |k| == 8 then
      if k == "duration" then JStr(p.duration) else if k == "chapters" then JStr(p.chapters) else JUndefined
    else
    if |k| == 9 then
      if k == "atlSkills" then n.atlSkills else if k == "resources" then JStr(p.resources) else JUndefined
    else
    if |k| == 10 then
      if k == "gradeLevel" then JStr(p.gradeLevel) else if k == "keyConcept" then JStr(p.keyConcept) else if k == "objectives" then n.objectives else if k == "reflection" then n.reflection else JUndefined
    else
    if |k| == 11 then
      if k == "teacherName" then JStr(p.teacherName) else if k == "assessments" then n.assessments else JUndefined
    else
    if |k| == 13 then
      if k == "globalContext" then JStr(p.globalContext) else JUndefined
    else
    if |k| == 14 then
      if k == "assessmentData" then n.assessmentData else JUndefined
    else
    if |k| == 15 then
      if k == "relatedConcepts" then n.relatedConcepts else if k == "differentiation" then JStr(p.differentiation) else JUndefined
    else
    if |k| == 16 then
      if k == "inquiryQuestions" then n.inquiryQuestions else JUndefined
    else
    if |k| == 18 then
      if k == "statementOfInquiry" then JStr(p.statementOfInquiry) else JUndefined
    else
    if |k| == 19 then
      if k == "learningExperiences" then JStr(p.learningExperiences) else if k == "summativeAssessment" then JStr(p.summativeAssessment) else if k == "formativeAssessment" then JStr(p.formativeAssessment) else JUndefined
    else
    if |k| == 27 then
      if k == "generatedAssessmentDocument" then JStr(p.generatedAssessmentDocument) else JUndefined
    else
      JUndefined
  }

  function PlanObject(p: UnitPlan, n: Nested): JsonValue {
    JObj(map k | k in PlanKeys :: PlanField(p, n, k))
  }

  // The fields are read a group at a time.

  lemma PlanFieldHead(p: UnitPlan, n: Nested)
    ensures PlanField(p, n, "id") == JStr(p.id) && PlanField(p, n, "teacherName") == JStr(p.teacherName)
    ensures PlanField(p, n, "title") == JStr(p.title) && PlanField(p, n, "titre") == JUndefined
    ensures PlanField(p, n, "subject") == JStr(p.subject) && PlanField(p, n, "matiere") == JUndefined
    ensures PlanField(p, n, "gradeLevel") == JStr(p.gradeLevel) && PlanField(p, n, "niveau") == JUndefined
    ensures PlanField(p, n, "duration") == JStr(p.duration) && PlanField(p, n, "duree") == JUndefined
    ensures PlanField(p, n, "chapters") == JStr(p.chapters) && PlanField(p, n, "chapitres") == JUndefined
    ensures PlanField(p, n, "keyConcept") == JStr(p.keyConcept) && PlanField(p, n, "concept_cle") == JUndefined
  {
  }

  lemma PlanFieldBody(p: UnitPlan, n: Nested)
    ensures PlanField(p, n, "globalContext") == JStr(p.globalContext) && PlanField(p, n, "contexte_mondial") == JUndefined
    ensures PlanField(p, n, "statementOfInquiry") == JStr(p.statementOfInquiry) && PlanField(p, n, "enonce_recherche") == JUndefined
    ensures PlanField(p, n, "content") == JStr(p.content) && PlanField(p, n, "contenu") == JUndefined
    ensures PlanField(p, n, "resources") == JStr(p.resources) && PlanField(p, n, "ressources") == JUndefined
  {
  }

  lemma PlanFieldAssessment(p: UnitPlan, n: Nested)
    ensures PlanField(p, n, "learningExperiences") == JStr(p.learningExperiences)
    ensures PlanField(p, n, "activites_apprentissage") == JUndefined && PlanField(p, n, "processus_apprentissage") == JUndefined
    ensures PlanField(p, n, "summativeAssessment") == JStr(p.summativeAssessment) && PlanField(p, n, "evaluation_sommative") == JUndefined
    ensures PlanField(p, n, "formativeAssessment") == JStr(p.formativeAssessment) && PlanField(p, n, "evaluation_formative") == JUndefined
    ensures PlanField(p, n, "differentiation") == JStr(p.differentiation) && PlanField(p, n, "differenciation") == JUndefined
    ensures PlanField(p, n, "generatedAssessmentDocument") == JStr(p.generatedAssessmentDocument)
  {
  }

  lemma PlanFieldNested(p: UnitPlan, n: Nested)
    ensures PlanField(p, n, "relatedConcepts") == n.relatedConcepts && PlanField(p, n, "inquiryQuestions") == n.inquiryQuestions
    ensures PlanField(p, n, "objectives") == n.objectives && PlanField(p, n, "atlSkills") == n.atlSkills
    ensures PlanField(p, n, "reflection") == n.reflection && PlanField(p, n, "reflexion") == JUndefined
    ensures PlanField(p, n, "assessmentData") == n.assessmentData && PlanField(p, n, "donnees_evaluation") == JUndefined
    ensures PlanField(p, n, "assessments") == n.assessments
  {
  }

  lemma PlanObjectGet(p: UnitPlan, n: Nested)
    ensures forall k :: Get(PlanObject(p, n), k) == PlanField(p, n, k)
  {
  }

  /**
    A stored plan as `sanitizeUnitPlan` reads its JSON form back for a
    session (`ReadStoredIsSanitize`): the session's subject and class win
    when they are not empty, an empty identifier, title or duration takes
    its default, the assessments are read again through their own
    sanitiser, and every other field is kept.  A complete plan comes back
    as it was stored, but for the session.
  */
  function ReadStored(p: UnitPlan, subject: string, gradeLevel: string, now: string): (q: UnitPlan)
    ensures q.id == (if p.id != "" then p.id else now)
    ensures q.title == (if p.title != "" then p.title else "Nouvelle Unité")
    ensures q.duration == (if p.duration != "" then p.duration else "10 heures")
    ensures q.subject == (if subject != "" then subject else p.subject)
    ensures q.gradeLevel == (if gradeLevel != "" then gradeLevel else p.gradeLevel)
    ensures CompletePlan(p) ==>
      q == p.(subject := if subject != "" then subject else p.subject,
              gradeLevel := if gradeLevel != "" then gradeLevel else p.gradeLevel)
  {
    CompleteAssessmentsRead(p);
    p.(id := if p.id != "" then p.id else now,
       title := if p.title != "" then p.title else "Nouvelle Unité",
       duration := if p.duration != "" then p.duration else "10 heures",
       subject := if subject != "" then subject else p.subject,
       gradeLevel := if gradeLevel != "" then gradeLevel else p.gradeLevel,
       assessmentData := if p.assessmentData.Some? then SanitizeAssessmentData(AssessmentJson(p.assessmentData.value)) else None,
       assessments := Present(SanitizeAll(AssessmentsJson(p.assessments).items)))
  }

  /** The assessments of a complete plan read back as themselves. */
  lemma CompleteAssessmentsRead(p: UnitPlan)
    ensures CompletePlan(p) && p.assessmentData.Some? ==>
      SanitizeAssessmentData(AssessmentJson(p.assessmentData.value)) == p.assessmentData
    ensures CompletePlan(p) ==> Present(SanitizeAll(AssessmentsJson(p.assessments).items)) == p.assessments
  {
    if CompletePlan(p) {
      if p.assessmentData.Some? {
        AssessmentRoundTrip(p.assessmentData.value);
      }
      AssessmentListRead(p.assessments);
    }
  }

  /** Sanitising the JSON form of a stored plan for a session is reading it back. */
  lemma ReadStoredIsSanitize(p: UnitPlan, subject: string, gradeLevel: string, now: string)
    ensures SanitizeUnitPlan(PlanJson(p), subject, gradeLevel, now) == Success(ReadStored(p, subject, gradeLevel, now))
  {
    CarriedRead(PlanJson(p), p, subject, gradeLevel, now);
  }

  lemma CarriedRead(v: JsonValue, p: UnitPlan, subject: string, gradeLevel: string, now: string)
    requires Carries(v, p)
    ensures SanitizeUnitPlan(v, subject, gradeLevel, now) == Success(ReadStored(p, subject, gradeLevel, now))
  {
    CarriedId(v, p, subject, gradeLevel, now);
    CarriedTitle(v, p, subject, gradeLevel, now);
    CarriedDuration(v, p, subject, gradeLevel, now);
    CarriedSubject(v, p, subject, gradeLevel, now);
    CarriedGrade(v, p, subject, gradeLevel, now);
    CarriedHeadTexts(v, p, subject, gradeLevel, now);
    CarriedBodyTexts(v, p, subject, gradeLevel, now);
    CarriedLists(v, p, subject, gradeLevel, now);
    CarriedReflection(v, p, subject, gradeLevel, now);
    CarriedAssessments(v, p, subject, gradeLevel, now);
  }

  lemma CarriedHeadTexts(v: JsonValue, p: UnitPlan, subject: string, gradeLevel: string, now: string)
    requires v.JObj? && CarriesHead(v, p) && Get(v, "generatedAssessmentDocument") == JStr(p.generatedAssessmentDocument)
    ensures var q := SanitizeUnitPlan(v, subject, gradeLevel, now).value;
      q.teacherName == p.teacherName && q.chapters == p.chapters && q.keyConcept == p.keyConcept
      && q.generatedAssessmentDocument == p.generatedAssessmentDocument
  {
    TextReadAlone(Get(v, "teacherName"), p.teacherName, "");
    TextRead(Get(v, "chapters"), Get(v, "chapitres"), p.chapters, "");
    TextRead(Get(v, "keyConcept"), Get(v, "concept_cle"), p.keyConcept, "");
    TextReadAlone(Get(v, "generatedAssessmentDocument"), p.generatedAssessmentDocument, "");
  }

  lemma CarriedBodyTexts(v: JsonValue, p: UnitPlan, subject: string, gradeLevel: string, now: string)
    requires v.JObj? && CarriesBody(v, p)
    ensures var q := SanitizeUnitPlan(v, subject, gradeLevel, now).value;
      q.globalContext == p.globalContext && q.statementOfInquiry == p.statementOfInquiry
      && q.content == p.content && q.learningExperiences == p.learningExperiences
      && q.summativeAssessment == p.summativeAssessment && q.formativeAssessment == p.formativeAssessment
      && q.differentiation == p.differentiation && q.resources == p.resources
  {
    BodyRoundTrip(v, p);
  }

  lemma CarriedLists(v: JsonValue, p: UnitPlan, subject: string, gradeLevel: string, now: string)
    requires v.JObj? && CarriesLists(v, p)
    ensures var q := SanitizeUnitPlan(v, subject, gradeLevel, now).value;
      q.relatedConcepts == p.relatedConcepts && q.inquiryQuestions == p.inquiryQuestions
      && q.objectives == p.objectives && q.atlSkills == p.atlSkills
  {
    ListsRoundTrip(v, p);
  }

  lemma CarriedReflection(v: JsonValue, p: UnitPlan, subject: string, gradeLevel: string, now: string)
    requires v.JObj? && CarriesNested(v, p)
    ensures SanitizeUnitPlan(v, subject, gradeLevel, now).value.reflection == p.reflection
  {
    var f := p.reflection;
    var rf := ReflectionJson(f);
    TextRead(Get(rf, "prior"), Get(JUndefined, "avant"), f.prior, "");
    TextRead(Get(rf, "during"), Get(JUndefined, "pendant"), f.during, "");
    TextRead(Get(rf, "after"), Get(JUndefined, "apres"), f.after, "");
  }

  lemma CarriedAssessments(v: JsonValue, p: UnitPlan, subject: string, gradeLevel: string, now: string)
    requires v.JObj? && CarriesNested(v, p) && CarriesAssessments(v, p)
    ensures var q := SanitizeUnitPlan(v, subject, gradeLevel, now).value;
      && q.assessmentData == (if p.assessmentData.Some? then SanitizeAssessmentData(AssessmentJson(p.assessmentData.value)) else None)
      && q.assessments == Present(SanitizeAll(AssessmentsJson(p.assessments).items))
  {
  }

  lemma CarriedId(v: JsonValue, p: UnitPlan, subject: string, gradeLevel: string, now: string)
    requires v.JObj? && Get(v, "id") == JStr(p.id)
    ensures SanitizeUnitPlan(v, subject, gradeLevel, now).value.id == (if p.id != "" then p.id else now)
  {
    StoredText(JStr(p.id), JUndefined, now);
    assert SanitizeUnitPlan(v, subject, gradeLevel, now).value.id == Text(Get(v, "id"), now);
  }

  lemma CarriedTitle(v: JsonValue, p: UnitPlan, subject: string, gradeLevel: string, now: string)
    requires v.JObj? && Get(v, "title") == JStr(p.title) && Get(v, "titre") == JUndefined
    ensures SanitizeUnitPlan(v, subject, gradeLevel, now).value.title == (if p.title != "" then p.title else "Nouvelle Unité")
  {
    StoredText(Get(v, "title"), Get(v, "titre"), "Nouvelle Unité");
    assert SanitizeUnitPlan(v, subject, gradeLevel, now).value.title == Text(Or(Get(v, "title"), Get(v, "titre")), "Nouvelle Unité");
  }

  lemma CarriedDuration(v: JsonValue, p: UnitPlan, subject: string, gradeLevel: string, now: string)
    requires v.JObj? && Get(v, "duration") == JStr(p.duration) && Get(v, "duree") == JUndefined
    ensures SanitizeUnitPlan(v, subject, gradeLevel, now).value.duration == (if p.duration != "" then p.duration else "10 heures")
  {
    StoredText(Get(v, "duration"), Get(v, "duree"), "10 heures");
    assert SanitizeUnitPlan(v, subject, gradeLevel, now).value.duration == Text(Or(Get(v, "duration"), Get(v, "duree")), "10 heures");
  }

  lemma CarriedSubject(v: JsonValue, p: UnitPlan, subject: string, gradeLevel: string, now: string)
    requires v.JObj? && Get(v, "subject") == JStr(p.subject) && Get(v, "matiere") == JUndefined
    ensures SanitizeUnitPlan(v, subject, gradeLevel, now).value.subject == (if subject != "" then subject else p.subject)
  {
    SessionFieldRead(subject, p.subject, Get(v, "subject"), Get(v, "matiere"));
    assert SanitizeUnitPlan(v, subject, gradeLevel, now).value.subject
      == Text(Or(JStr(subject), Or(Get(v, "subject"), Get(v, "matiere"))), "");
  }

  lemma CarriedGrade(v: JsonValue, p: UnitPlan, subject: string, gradeLevel: string, now: string)
    requires v.JObj? && Get(v, "gradeLevel") == JStr(p.gradeLevel) && Get(v, "niveau") == JUndefined
    ensures SanitizeUnitPlan(v, subject, gradeLevel, now).value.gradeLevel == (if gradeLevel != "" then gradeLevel else p.gradeLevel)
  {
    SessionFieldRead(gradeLevel, p.gradeLevel, Get(v, "gradeLevel"), Get(v, "niveau"));
    assert SanitizeUnitPlan(v, subject, gradeLevel, now).value.gradeLevel
      == Text(Or(JStr(gradeLevel), Or(Get(v, "gradeLevel"), Get(v, "niveau"))), "");
  }

  /** A stored text field, with nothing under its other key, reads as itself unless it is empty. */
  lemma StoredText(a: JsonValue, b: JsonValue, fallback: string)
    requires a.JStr? && !Truthy(b)
    ensures Text(Or(a, b), fallback) == (if a.s != "" then a.s else fallback)
    ensures Text(a, fallback) == (if a.s != "" then a.s else fallback)
  {
  }

  /** A field the caller may supply: when it is empty the plan's own field is read instead. */
  lemma SessionFieldRead(s: string, t: string, a: JsonValue, b: JsonValue)
    requires a == JStr(t) && !Truthy(b)
    ensures Text(Or(JStr(s), Or(a, b)), "") == (if s != "" then s else t)
  {
  }

  /** A text field present under its English key and absent under the French one reads as itself. */
  lemma TextRead(a: JsonValue, b: JsonValue, t: string, fallback: string)
    requires a == JStr(t) && !Truthy(b) && (t != "" || fallback == "")
    ensures Text(Or(a, b), fallback) == t
  {
  }

  lemma TextReadAlone(a: JsonValue, t: string, fallback: string)
    requires a == JStr(t) && (t != "" || fallback == "")
    ensures Text(a, fallback) == t
  {
  }

  /** A field the caller supplies wins; an empty one lets the plan's own field through. */
  lemma OverrideRead(s: string, a: JsonValue, b: JsonValue)
    requires a == JStr(s) && !Truthy(b)
    ensures Text(Or(JStr(s), Or(a, b)), "") == s
  {
  }

  /** A list field present under its English key reads as itself. */
  lemma ListRead(a: JsonValue, b: JsonValue, ss: seq<string>)
    requires a == TextList(ss)
    ensures StringsOf(ArrayOr(a, ArrayOr(b, []))) == ss
  {
  }

  /** A list of complete assessments in JSON form reads back as itself, none dropped. */
  lemma AssessmentListRead(as_: seq<AssessmentData>)
    requires forall i :: 0 <= i < |as_| ==> CompleteAssessment(as_[i])
    ensures Present(SanitizeAll(AssessmentsJson(as_).items)) == as_
  {
    var items := AssessmentsJson(as_).items;
    forall i | 0 <= i < |items| ensures SanitizeAll(items)[i] == Some(as_[i]) {
      AssessmentRoundTrip(as_[i]);
    }
    PresentAll(SanitizeAll(items));
  }

  lemma HeadRoundTrip(v: JsonValue, p: UnitPlan, now: string)
    requires v.JObj? && CarriesHead(v, p) && CompletePlan(p)
    ensures Text(Get(v, "id"), now) == p.id
    ensures Text(Get(v, "teacherName"), "") == p.teacherName
    ensures Text(Or(Get(v, "title"), Get(v, "titre")), "Nouvelle Unité") == p.title
    ensures Text(Or(JStr(p.subject), Or(Get(v, "subject"), Get(v, "matiere"))), "") == p.subject
    ensures Text(Or(JStr(p.gradeLevel), Or(Get(v, "gradeLevel"), Get(v, "niveau"))), "") == p.gradeLevel
    ensures Text(Or(Get(v, "duration"), Get(v, "duree")), "10 heures") == p.duration
    ensures Text(Or(Get(v, "chapters"), Get(v, "chapitres")), "") == p.chapters
    ensures Text(Or(Get(v, "keyConcept"), Get(v, "concept_cle")), "") == p.keyConcept
  {
    TextReadAlone(Get(v, "id"), p.id, now);
    TextReadAlone(Get(v, "teacherName"), p.teacherName, "");
    OverrideRead(p.subject, Get(v, "subject"), Get(v, "matiere"));
    OverrideRead(p.gradeLevel, Get(v, "gradeLevel"), Get(v, "niveau"));
    TextRead(Get(v, "title"), Get(v, "titre"), p.title, "Nouvelle Unité");
    TextRead(Get(v, "duration"), Get(v, "duree"), p.duration, "10 heures");
    TextRead(Get(v, "chapters"), Get(v, "chapitres"), p.chapters, "");
    TextRead(Get(v, "keyConcept"), Get(v, "concept_cle"), p.keyConcept, "");
  }

  lemma BodyRoundTrip(v: JsonValue, p: UnitPlan)
    requires v.JObj? && CarriesBody(v, p)
    ensures Text(Or(Get(v, "globalContext"), Get(v, "contexte_mondial")), "") == p.globalContext
    ensures Text(Or(Get(v, "statementOfInquiry"), Get(v, "enonce_recherche")), "") == p.statementOfInquiry
    ensures Text(Or(Get(v, "content"), Get(v, "contenu")), "") == p.content
    ensures Text(Or(Get(v, "learningExperiences"), Or(Get(v, "activites_apprentissage"), Get(v, "processus_apprentissage"))), "") == p.learningExperiences
    ensures Text(Or(Get(v, "summativeAssessment"), Get(v, "evaluation_sommative")), "") == p.summativeAssessment
    ensures Text(Or(Get(v, "formativeAssessment"), Get(v, "evaluation_formative")), "") == p.formativeAssessment
    ensures Text(Or(Get(v, "differentiation"), Get(v, "differenciation")), "") == p.differentiation
    ensures Text(Or(Get(v, "resources"), Get(v, "ressources")), "") == p.resources
    ensures Text(Get(v, "generatedAssessmentDocument"), "") == p.generatedAssessmentDocument
  {
    TextRead(Get(v, "globalContext"), Get(v, "contexte_mondial"), p.globalContext, "");
    TextRead(Get(v, "statementOfInquiry"), Get(v, "enonce_recherche"), p.statementOfInquiry, "");
    TextRead(Get(v, "content"), Get(v, "contenu"), p.content, "");
    TextRead(Get(v, "summativeAssessment"), Get(v, "evaluation_sommative"), p.summativeAssessment, "");
    TextRead(Get(v, "formativeAssessment"), Get(v, "evaluation_formative"), p.formativeAssessment, "");
    TextRead(Get(v, "differentiation"), Get(v, "differenciation"), p.differentiation, "");
    TextRead(Get(v, "resources"), Get(v, "ressources"), p.resources, "");
    TextRead(Get(v, "learningExperiences"), Or(Get(v, "activites_apprentissage"), Get(v, "processus_apprentissage")), p.learningExperiences, "");
    TextReadAlone(Get(v, "generatedAssessmentDocument"), p.generatedAssessmentDocument, "");
  }

  lemma ListsRoundTrip(v: JsonValue, p: UnitPlan)
    requires v.JObj? && CarriesLists(v, p)
    ensures StringsOf(ArrayOr(Get(v, "relatedConcepts"), ArrayOr(Get(v, "concepts_connexes"), []))) == p.relatedConcepts
    ensures StringsOf(ArrayOr(Get(v, "objectives"), ArrayOr(Get(v, "objectifs"), []))) == p.objectives
    ensures StringsOf(ArrayOr(Get(v, "atlSkills"), ArrayOr(Get(v, "approches_apprentissage"), []))) == p.atlSkills
    ensures var iq := Or(Or(Get(v, "inquiryQuestions"), Get(v, "questions_recherche")), JObj(map[]));
      InquiryQuestions(
        StringsOf(ArrayOr(Get(iq, "factual"), ArrayOr(Get(iq, "factuelles"), []))),
        StringsOf(ArrayOr(Get(iq, "conceptual"), ArrayOr(Get(iq, "conceptuelles"), []))),
        StringsOf(ArrayOr(Get(iq, "debatable"), ArrayOr(Get(iq, "debat"), [])))) == p.inquiryQuestions
  {
    var q := p.inquiryQuestions;
    var iq := InquiryJson(q);
    assert Or(Or(Get(v, "inquiryQuestions"), Get(v, "questions_recherche")), JObj(map[])) == iq;
    ListRead(Get(iq, "factual"), Get(iq, "factuelles"), q.factual);
    ListRead(Get(iq, "conceptual"), Get(iq, "conceptuelles"), q.conceptual);
    ListRead(Get(iq, "debatable"), Get(iq, "debat"), q.debatable);
    ListRead(Get(v, "relatedConcepts"), Get(v, "concepts_connexes"), p.relatedConcepts);
    ListRead(Get(v, "objectives"), Get(v, "objectifs"), p.objectives);
    ListRead(Get(v, "atlSkills"), Get(v, "approches_apprentissage"), p.atlSkills);
  }

  lemma NestedRoundTrip(v: JsonValue, p: UnitPlan)
    requires v.JObj? && CarriesNested(v, p) && CompletePlan(p)
    ensures var reflection, reflexion := Get(v, "reflection"), Get(v, "reflexion");
      Reflection(
        Text(Or(Get(reflection, "prior"), Get(reflexion, "avant")), ""),
        Text(Or(Get(reflection, "during"), Get(reflexion, "pendant")), ""),
        Text(Or(Get(reflection, "after"), Get(reflexion, "apres")), "")) == p.reflection
    ensures SanitizeAssessmentData(Or(Get(v, "assessmentData"), Get(v, "donnees_evaluation"))) == p.assessmentData
  {
    var f := p.reflection;
    var rf := ReflectionJson(f);
    TextRead(Get(rf, "prior"), Get(JUndefined, "avant"), f.prior, "");
    TextRead(Get(rf, "during"), Get(JUndefined, "pendant"), f.during, "");
    TextRead(Get(rf, "after"), Get(JUndefined, "apres"), f.after, "");
    if p.assessmentData.Some? {
      AssessmentRoundTrip(p.assessmentData.value);
    }
  }

  lemma AssessmentsRoundTrip(v: JsonValue, p: UnitPlan)
    requires v.JObj? && CarriesAssessments(v, p) && CompletePlan(p)
    ensures AssessmentsOf(v) == p.assessments
  {
    AssessmentListRead(p.assessments);
  }
}

=== FILE: seqs.dfy ===
/** List operations behind `Array.prototype.filter`, `Set` and spreading. */
module Seqs {

  /** `s.filter(keep)`: the elements satisfying `keep`, in their original order. */
  function Filter<T(!new)>(s: seq<T>, keep: T -> bool): (r: seq<T>)
    ensures |r| <= |s|
    ensures forall x :: x in r <==> x in s && keep(x)
    ensures multiset(r) <= multiset(s)
    decreases |s|
  {
    if |s| == 0 then []
    else
      assert s == [s[0]] + s[1..];
      if keep(s[0]) then [s[0]] + Filter(s[1..], keep) else Filter(s[1..], keep)
  }

  /** One step of `Filter`: the first element, if kept, then the filtered rest. */
  lemma FilterCons<T(!new)>(s: seq<T>, keep: T -> bool)
    requires |s| > 0
    ensures Filter(s, keep) == (if keep(s[0]) then [s[0]] else []) + Filter(s[1..], keep)
  {
  }

  /** Filtering distributes over concatenation; this is what makes it order-preserving. */
  lemma {:induction false} FilterAppend<T(!new)>(a: seq<T>, b: seq<T>, keep: T -> bool)
    ensures Filter(a + b, keep) == Filter(a, keep) + Filter(b, keep)
    decreases |a|
  {
    if |a| > 0 {
      assert (a + b)[1..] == a[1..] + b;
      FilterAppend(a[1..], b, keep);
    } else {
      assert a + b == b;
    }
  }

  /** Keeping everything keeps the list as it is. */
  lemma {:induction false} FilterAll<T(!new)>(s: seq<T>, keep: T -> bool)
    requires forall x :: x in s ==> keep(x)
    ensures Filter(s, keep) == s
    decreases |s|
  {
    if |s| > 0 {
      FilterAll(s[1..], keep);
      assert s == [s[0]] + s[1..];
    }
  }

  /** Number of elements of `s` satisfying `p`. */
  function CountIf<T>(s: seq<T>, p: T -> bool): (n: nat)
    ensures n <= |s|
    decreases |s|
  {
    if |s| == 0 then 0 else (if p(s[0]) then 1 else 0) + CountIf(s[1..], p)
  }

  lemma {:induction false} FilterLength<T(!new)>(s: seq<T>, keep: T -> bool)
    ensures |Filter(s, keep)| == CountIf(s, keep)
    decreases |s|
  {
    if |s| > 0 {
      FilterLength(s[1..], keep);
    }
  }

  lemma {:induction false} CountIfAppend<T>(a: seq<T>, b: seq<T>, p: T -> bool)
    ensures CountIf(a + b, p) == CountIf(a, p) + CountIf(b, p)
    decreases |a|
  {
    if |a| > 0 {
      assert (a + b)[1..] == a[1..] + b;
      CountIfAppend(a[1..], b, p);
    } else {
      assert a + b == b;
    }
  }

  /** The elements of `s` without repetitions, in order of first occurrence. */
  function Dedup<T(==,!new)>(s: seq<T>): (r: seq<T>)
    ensures forall x :: x in r <==> x in s
    ensures Distinct(r)
    ensures |r| <= |s|
    decreases |s|
  {
    if |s| == 0 then []
    else
      var d := Dedup(s[..|s| - 1]);
      assert forall x :: x in s <==> x in s[..|s| - 1] || x == s[|s| - 1];
      if s[|s| - 1] in d then d else d + [s[|s| - 1]]
  }

  predicate Distinct<T(==)>(s: seq<T>) {
    forall i, j :: 0 <= i < j < |s| ==> s[i] != s[j]
  }

  /** `[].concat(...ss)`. */
  function Flatten<T>(ss: seq<seq<T>>): (r: seq<T>)
    decreases |ss|
  {
    if |ss| == 0 then [] else ss[0] + Flatten(ss[1..])
  }

  lemma {:induction false} FlattenAppend<T>(a: seq<seq<T>>, b: seq<seq<T>>)
    ensures Flatten(a + b) == Flatten(a) + Flatten(b)
    decreases |a|
  {
    if |a| > 0 {
      assert (a + b)[1..] == a[1..] + b;
      FlattenAppend(a[1..], b);
    } else {
      assert a + b == b;
    }
  }

  /** `s.filter((_, idx) => idx !== i)`: position `i` removed. */
  function RemoveAt<T>(s: seq<T>, i: nat): (r: seq<T>)
    ensures i < |s| ==> |r| == |s| - 1
    ensures i >= |s| ==> r == s
    ensures forall k :: 0 <= k < i && k < |s| ==> r[k] == s[k]
    ensures forall k :: i <= k < |r| ==> r[k] == s[k + 1]
  {
    if i < |s| then s[..i] + s[i + 1..] else s
  }
}

=== FILE: strings.dfy ===
/**
  The JavaScript string primitives the application relies on, stated over
  `string` (a sequence of Unicode scalar values).  Where JavaScript works on
  UTF-16 code units the difference is spelled out at the member.
*/
module Strings {

  /** White space as JavaScript's `trim` and the regular-expression class `\s` see it. */
  predicate IsSpace(c: char) {
    || c == ' ' || c == '\t' || c == '\n' || c == '\r' || c == '\U{0B}' || c == '\U{0C}'
    || c == '\U{A0}' || c == '\U{1680}' || ('\U{2000}' <= c <= '\U{200A}')
    || c == '\U{2028}' || c == '\U{2029}' || c == '\U{202F}' || c == '\U{205F}'
    || c == '\U{3000}' || c == '\U{FEFF}'
  }

  /** Number of white-space characters at the front of `s`. */
  function LeadingSpaces(s: string): (k: nat)
    ensures k <= |s|
    ensures forall i :: 0 <= i < k ==> IsSpace(s[i])
    ensures k == |s| || !IsSpace(s[k])
  {
    if |s| > 0 && IsSpace(s[0]) then 1 + LeadingSpaces(s[1..]) else 0
  }

  /** Number of white-space characters at the back of `s`. */
  function TrailingSpaces(s: string): (k: nat)
    ensures k <= |s|
    ensures forall i :: |s| - k <= i < |s| ==> IsSpace(s[i])
    ensures k == |s| || !IsSpace(s[|s| - 1 - k])
  {
    if |s| > 0 && IsSpace(s[|s| - 1]) then 1 + TrailingSpaces(s[..|s| - 1]) else 0
  }

  /** `s.trim()`: the longest infix of `s` that neither starts nor ends with white space. */
  function Trim(s: string): (r: string)
    ensures r == "" <==> forall i :: 0 <= i < |s| ==> IsSpace(s[i])
    ensures r != "" ==> !IsSpace(r[0]) && !IsSpace(r[|r| - 1])
    ensures |r| <= |s|
  {
    var a := LeadingSpaces(s);
    if a == |s| then ""
    else
      var b := TrailingSpaces(s);
      assert !IsSpace(s[|s| - 1 - b]);
      s[a..|s| - b]
  }

  lemma TrimOfTrimmed(s: string)
    requires s == "" || (!IsSpace(s[0]) && !IsSpace(s[|s| - 1]))
    ensures Trim(s) == s
  {
  }

  /** Trimming twice is trimming once. */
  lemma TrimIdempotent(s: string)
    ensures Trim(Trim(s)) == Trim(s)
  {
    TrimOfTrimmed(Trim(s));
  }

  /**
    `toLowerCase` on one character, for the Latin letters of Latin-1 and
    Latin Extended-A: ASCII and Latin-1 capitals are 32 below their small
    letter, most Latin Extended-A pairs sit side by side, and Ÿ goes back to
    Latin-1.
  */
  function LowerChar(c: char): char {
    var n := c as int;
    if 'A' <= c <= 'Z' || (0xC0 <= n <= 0xDE && n != 0xD7) then (n + 32) as char
    else if (0x100 <= n <= 0x137 && n % 2 == 0 && n != 0x130)
         || (0x139 <= n <= 0x148 && n % 2 == 1)
         || (0x14A <= n <= 0x177 && n % 2 == 0)
         || (0x179 <= n <= 0x17E && n % 2 == 1) then (n + 1) as char
    else if n == 0x178 then '\U{FF}'
    else c
  }

  /**
    `toUpperCase` on one character, for the same letters: ÿ becomes Ÿ, the
    micro sign the Greek capital mu, the dotless ı and the long ſ their
    ASCII capitals.
  */
  function UpperChar(c: char): char {
    var n := c as int;
    if 'a' <= c <= 'z' || (0xE0 <= n <= 0xFE && n != 0xF7) then (n - 32) as char
    else if (0x101 <= n <= 0x137 && n % 2 == 1 && n != 0x131)
         || (0x13A <= n <= 0x148 && n % 2 == 0)
         || (0x14B <= n <= 0x177 && n % 2 == 1)
         || (0x17A <= n <= 0x17E && n % 2 == 0) then (n - 1) as char
    else if n == 0xFF then '\U{178}'
    else if n == 0xB5 then '\U{39C}'
    else if n == 0x131 then 'I'
    else if n == 0x17F then 'S'
    else c
  }

  /** Upper-casing a lowered capital gives the capital back: the two tables are inverse on the capitals they cover. */
  lemma CaseRoundTrip(c: char)
    ensures LowerChar(c) != c ==> UpperChar(LowerChar(c)) == c
  {
  }

  function ToLower(s: string): (r: string)
    ensures |r| == |s|
    ensures forall i :: 0 <= i < |s| ==> r[i] == LowerChar(s[i])
  {
    seq(|s|, i requires 0 <= i < |s| => LowerChar(s[i]))
  }

  function ToUpper(s: string): (r: string)
    ensures |r| == |s|
    ensures forall i :: 0 <= i < |s| ==> r[i] == UpperChar(s[i])
  {
    seq(|s|, i requires 0 <= i < |s| => UpperChar(s[i]))
  }

  predicate StartsWith(s: string, p: string) {
    |p| <= |s| && s[..|p|] == p
  }

  /** `error?.message || fallback`: the message unless it is empty. */
  function MessageOr(msg: string, fallback: string): (m: string)
    ensures m != "" || fallback == ""
    ensures m == msg || m == fallback
  {
    if msg != "" then msg else fallback
  }

  predicate EndsWith(s: string, p: string) {
    |p| <= |s| && s[|s| - |p|..] == p
  }

  /** A concatenation starts with its first part and ends with its second. */
  lemma ConcatEnds(a: string, b: string)
    ensures StartsWith(a + b, a) && EndsWith(a + b, b)
  {
    assert (a + b)[..|a|] == a;
    assert (a + b)[|a + b| - |b|..] == b;
  }

  /** A text framed by a prefix and a suffix starts with the one, ends with the other, and holds the text between them. */
  lemma Framed(a: string, b: string, c: string)
    ensures StartsWith(a + b + c, a) && EndsWith(a + b + c, c)
    ensures (a + b + c)[|a|..|a + b + c| - |c|] == b
  {
    assert (a + b + c)[..|a|] == a;
    assert (a + b + c)[|a + b + c| - |c|..] == c;
    assert (a + b + c)[|a|..|a + b + c| - |c|] == b;
  }

  /** Framing two different strings the same way gives different strings. */
  lemma FramedInjective(a: string, x: string, y: string, c: string)
    requires x != y
    ensures a + x + c != a + y + c
  {
    Framed(a, x, c);
    Framed(a, y, c);
  }

  /** A prefix of a prefix is a prefix. */
  lemma StartsWithPrefix(s: string, p: string, q: string)
    requires StartsWith(s, p)
    ensures StartsWith(p, q) ==> StartsWith(s, q)
  {
    if StartsWith(p, q) {
      assert s[..|q|] == p[..|q|];
    }
  }

  /** `s.includes(sub)`, written so that it unfolds on literal arguments. */
  predicate Contains(s: string, sub: string)
    decreases |s|
  {
    StartsWith(s, sub) || (|s| > 0 && Contains(s[1..], sub))
  }

  /** `Contains` means an occurrence at some position. */
  lemma {:induction false} ContainsAt(s: string, sub: string, i: nat)
    requires i + |sub| <= |s| && s[i..i + |sub|] == sub
    ensures Contains(s, sub)
    decreases i
  {
    if i > 0 {
      assert s[1..][i - 1..i - 1 + |sub|] == sub;
      ContainsAt(s[1..], sub, i - 1);
    }
  }

  /** An occurrence found by `Contains` has a position. */
  lemma {:induction false} ContainsIndex(s: string, sub: string) returns (i: nat)
    requires Contains(s, sub)
    ensures i + |sub| <= |s| && s[i..i + |sub|] == sub
    decreases |s|
  {
    if StartsWith(s, sub) {
      i := 0;
    } else {
      var j := ContainsIndex(s[1..], sub);
      i := j + 1;
      assert s[i..i + |sub|] == s[1..][j..j + |sub|];
    }
  }

  /** Whatever contains `a` contains everything `a` contains. */
  lemma ContainsTransitive(s: string, a: string, b: string)
    requires Contains(s, a) && Contains(a, b)
    ensures Contains(s, b)
  {
    var i := ContainsIndex(s, a);
    var j := ContainsIndex(a, b);
    forall t | 0 <= t < |b| ensures s[i + j + t] == b[t] {
      assert s[i + j + t] == s[i..i + |a|][j + t];
      assert a[j + t] == a[j..j + |b|][t];
    }
    assert s[i + j..i + j + |b|] == b;
    ContainsAt(s, b, i + j);
  }

  /** A character of `sub` must occur in every string containing `sub`: the way absences are shown. */
  lemma ContainsChar(s: string, sub: string, c: char)
    requires Contains(s, sub) && c in sub
    ensures c in s
  {
    var i := ContainsIndex(s, sub);
    var k :| 0 <= k < |sub| && sub[k] == c;
    assert s[i + k] == sub[k];
  }

  /** Index of the first `c` in `s`, or -1 (`indexOf`). */
  function IndexOf(s: string, c: char): (r: int)
    ensures -1 <= r < |s|
    ensures r == -1 <==> c !in s
    ensures r >= 0 ==> s[r] == c && c !in s[..r]
  {
    if |s| == 0 then -1
    else if s[0] == c then 0
    else
      var k := IndexOf(s[1..], c);
      assert s == [s[0]] + s[1..];
      if k == -1 then -1 else k + 1
  }

  /** Index of the last `c` in `s`, or -1 (`lastIndexOf`); also the last position of a key among keys. */
  function LastIndexOf<T(==)>(s: seq<T>, c: T): (r: int)
    ensures -1 <= r < |s|
    ensures r == -1 <==> c !in s
    ensures r >= 0 ==> s[r] == c && c !in s[r + 1..]
  {
    if |s| == 0 then -1
    else if s[|s| - 1] == c then |s| - 1
    else
      assert s == s[..|s| - 1] + [s[|s| - 1]];
      LastIndexOf(s[..|s| - 1], c)
  }

  /** Decimal rendering of a natural number, as `String(n)` writes it. */
  function NatToString(n: nat): (r: string)
    ensures |r| >= 1
    ensures forall i :: 0 <= i < |r| ==> '0' <= r[i] <= '9'
    decreases n
  {
    var d := ['0' + (n % 10) as char];
    if n < 10 then d else NatToString(n / 10) + d
  }

  /** Decimal rendering of an integer, with a leading `-` when negative. */
  function IntToString(n: int): (r: string)
    ensures |r| >= 1
    ensures n >= 0 ==> r == NatToString(n)
  {
    if n < 0 then "-" + NatToString(-n) else NatToString(n)
  }

  /** `parts.join(sep)`: the parts in order, with `sep` between neighbours only. */
  function Join(parts: seq<string>, sep: string): (r: string)
    ensures |parts| == 0 ==> r == ""
    ensures |parts| == 1 ==> r == parts[0]
    decreases |parts|
  {
    if |parts| == 0 then ""
    else if |parts| == 1 then parts[0]
    else parts[0] + sep + Join(parts[1..], sep)
  }

  /** `s.split(sep)` for a one-character separator: the pieces between separators, at least one. */
  function Split(s: string, sep: char): (parts: seq<string>)
    ensures |parts| >= 1
    ensures forall i :: 0 <= i < |parts| ==> sep !in parts[i]
    ensures Join(parts, [sep]) == s
    decreases |s|
  {
    var k := IndexOf(s, sep);
    if k == -1 then [s]
    else
      var rest := Split(s[k + 1..], sep);
      var parts := [s[..k]] + rest;
      assert Join(parts, [sep]) == s by {
        assert parts[1..] == rest;
        assert Join(parts, [sep]) == s[..k] + [sep] + Join(rest, [sep]);
        assert s == s[..k] + [sep] + s[k + 1..];
      }
      assert forall i :: 0 <= i < |parts| ==> sep !in parts[i] by {
        assert parts[0] == s[..k];
        assert forall i :: 1 <= i < |parts| ==> parts[i] == rest[i - 1];
      }
      parts
  }

  /** Joining pieces free of the separator and splitting again gives the pieces back. */
  lemma {:induction false} SplitOfJoin(parts: seq<string>, sep: char)
    requires |parts| >= 1
    requires forall i :: 0 <= i < |parts| ==> sep !in parts[i]
    ensures Split(Join(parts, [sep]), sep) == parts
    decreases |parts|
  {
    if |parts| > 1 {
      var p := parts[0];
      var rest := Join(parts[1..], [sep]);
      var s := Join(parts, [sep]);
      assert s == p + [sep] + rest;
      assert s[|p|] == sep;
      FirstSeparator(p, sep, rest);
      var k := |p|;
      assert s[..k] == p;
      assert s[k + 1..] == rest;
      SplitOfJoin(parts[1..], sep);
    }
  }

  /** The first separator of `p + [sep] + rest` is the one after `p` when `p` holds none. */
  lemma FirstSeparator(p: string, sep: char, rest: string)
    requires sep !in p
    ensures IndexOf(p + [sep] + rest, sep) == |p|
  {
    var s := p + [sep] + rest;
    assert s[|p|] == sep && s[..|p|] == p;
  }

  /** `Array(n).fill(x)`. */
  function Repeat<T>(n: nat, x: T): (r: seq<T>)
    ensures |r| == n
    ensures forall i :: 0 <= i < n ==> r[i] == x
  {
    seq(n, _ => x)
  }

  /** `s.replace(/pat/g, "")`: occurrences removed left to right without overlap. */
  function RemoveAll(s: string, pat: string): (r: string)
    requires |pat| > 0
    ensures |r| <= |s|
    decreases |s|
  {
    if |s| < |pat| then s
    else if s[..|pat|] == pat then RemoveAll(s[|pat|..], pat)
    else [s[0]] + RemoveAll(s[1..], pat)
  }

  /** A string with no occurrence of `pat` is left alone by `RemoveAll`. */
  lemma {:induction false} RemoveAllAbsent(s: string, pat: string)
    requires |pat| > 0
    requires !Contains(s, pat)
    ensures RemoveAll(s, pat) == s
    decreases |s|
  {
    if |s| >= |pat| {
      assert !StartsWith(s, pat);
      RemoveAllAbsent(s[1..], pat);
      assert s == [s[0]] + s[1..];
    }
  }

  /** `value || fallback` on strings. */
  function OrElse(value: string, fallback: string): (r: string)
    ensures value != "" ==> r == value
    ensures value == "" ==> r == fallback
  {
    if value != "" then value else fallback
  }

  /** Number of UTF-16 code units JavaScript counts for `s`. */
  function Utf16Length(s: string): nat {
    if |s| == 0 then 0
    else (if s[0] as int >= 0x10000 then 2 else 1) + Utf16Length(s[1..])
  }

  // ---------------------------------------------------------------- order

  /**
    A character's place in UTF-16 code-unit order.  Characters below the
    surrogates keep their code; a character above U+FFFF is compared by its
    leading surrogate, so it comes after those and before U+E000 to U+FFFF.
  */
  function Utf16Rank(c: char): (r: int)
    ensures c as int < 0xD800 ==> r == c as int
    ensures 0xD800 <= c as int ==> 0xD800 <= r
  {
    var n := c as int;
    if n < 0xD800 then n
    else if n >= 0x10000 then n - 0x10000 + 0xD800
    else n + 0x100000
  }

  /** Two characters have the same place exactly when they are the same character. */
  lemma Utf16RankInjective(a: char, b: char)
    ensures Utf16Rank(a) == Utf16Rank(b) <==> a == b
  {
  }

  /** A character above U+FFFF sorts before U+E000, although its code point is larger. */
  lemma Utf16BeforePrivateUse()
    ensures LexLe("\U{10000}", "\U{E000}") && !LexLe("\U{E000}", "\U{10000}")
  {
  }

  /** JavaScript's default `sort` order: UTF-16 code units one after another, a prefix first. */
  predicate LexLe(a: string, b: string)
    decreases |a|
  {
    a == [] || (b != [] && (Utf16Rank(a[0]) < Utf16Rank(b[0]) || (a[0] == b[0] && LexLe(a[1..], b[1..]))))
  }

  /** Any two texts are ordered one way or the other. */
  lemma {:induction false} LexTotal(a: string, b: string)
    ensures LexLe(a, b) || LexLe(b, a)
    decreases |a|
  {
    if a != [] && b != [] {
      Utf16RankInjective(a[0], b[0]);
      if a[0] == b[0] {
        LexTotal(a[1..], b[1..]);
      }
    }
  }

  /** Each text is no later than the next one. */
  predicate Sorted(s: seq<string>) {
    forall i :: 0 < i < |s| ==> LexLe(s[i - 1], s[i])
  }
}

=== FILE: wrappers.dfy ===
/** Failure-carrying values shared by every module of the model. */
module Wrappers {

  /** An optional value: JavaScript's `undefined`/`null` against a present value. */
  datatype Option<+T> = None | Some(value: T) {

    /** The wrapped value, or `default` when there is none. */
    function GetOr(default: T): T {
      match this
      case Some(v) => v
      case None => default
    }
  }

  /** The outcome of an operation that can throw: a value or the error message. */
  datatype Result<+R> = Success(value: R) | Failure(error: string) {

    predicate IsFailure() {
      Failure?
    }

    function PropagateFailure<U>(): Result<U>
      requires Failure?
    {
      Failure(error)
    }

    function Extract(): R
      requires Success?
    {
      value
    }
  }
}
